=== FILE: README.md ===
# leela_lite search core in Dafny

This project models the tree-search bookkeeping of leela_lite, a small
Python chess engine that drives the Leela neural network through many
Monte-Carlo tree-search variants. Each node class of `search/` becomes a
node arena with pure update functions, and the engines' UCI `position`
command parser is modelled as a function over tokens. Proofs cover what
each variant promises: what a selection step picks, what a backup adds and
where, what a search loop spends, and how the chosen move is ranked.

Things outside the search bookkeeping are parameters of the model:

- the evaluator (`net.evaluate`), which gives move priors and a value;
- `math.sqrt`, `math.log`, `math.exp` and `math.pow`;
- random draws (`random.random`, `random.choices`, numpy's beta and normal samples);
- the chess library's board copy, `push_uci`, game-over test and zobrist hash.

## Layout

- `wrappers.dfy` (`Wrappers`): `Option`, `Result` and the `Fault`s that
  stand for the exceptions the source raises (an empty `max`, a missing
  attribute, an index past the end).
- `rank.dfy` (`Rank`): lexicographic keys and the first-maximum rule of
  Python's `max` and `heapq.nlargest(...)[0]`. Both return the first of
  equally ranked items.
- `arena.dfy` (`Arena`): the node arena shared by the tree variants.
  - A tree is a sequence of nodes; node 0 is the root, and a parent's id is
    below its children's.
  - A node holds its parent, move, prior, expanded flag, children in
    insertion order (the `OrderedDict`), an optional board, and a per-class
    statistics record.
  - The arena also gives paths to the root, `OrderedDict` insertion and
    replacement, descent by a pick function, and boards built on demand.
- `uct.dfy` (`Uct`), `mcts.dfy` (`Mcts`), `threshold.dfy` (`Threshold`),
  `prune.dfy` (`Prune`): the UCT core, the two driver loops, the
  sufficiency-threshold switch and prior pruning.
- `srcr.dfy` (`Srcr`), `sota.dfy` (`Sota`), `minmax.dfy` (`MinMax`),
  `mpa.dfy` (`Mpa`), `voi.dfy` (`Voi`), `thompson.dfy` (`Thompson`),
  `running.dfy` (`Running`), `bayes.dfy` (`Bayes`), `normal.dfy` (`Normal`):
  the selection and backup variants.
- `climb.dfy` (`Climb`): the generic bottom-up refresh of a leaf's
  ancestors that the minimax-style backups share.
- `bounds.dfy` (`Bounds`), `alphabeta.dfy` (`AlphaBeta`),
  `alphabeta_uct.dfy` (`AbUct`): the per-depth bound recurrences and the two
  rollout alpha-beta searches.
- `ucd.dfy` (`Ucd`): the transposition graph of `search/ucd.py` and its
  driver `search/mcds.py`.
- `brue.dfy` (`Brue`): the probes of `search/brue.py`.
- `position.dfy` (`Position`): `process_position` of `engine.py`,
  `engine_minmax.py` and `engine_bellman.py`. The three functions are identical.

## Model

| member | source | states |
|---|---|---|
| Rank.FirstMax | search/uct.py:30-32 | The position picked is maximal under the key order, and every earlier position ranks strictly below it: Python's `max` keeps the first of equal keys. |
| Rank.FirstMaxUnique | search/uct.py:30-32 | Any position that is maximal and beats every earlier one is the one FirstMax picks, so the first-maximum rule decides the choice completely. |
| Rank.SecondMax | search/normal.py:47-55 | The runner-up differs from the first maximum, is maximal among the rest, and does not outrank the first. |
| Arena.Singleton | search/uct.py:11-22 | A fresh root is a well-formed one-node tree. |
| Arena.Path | search/uct.py:51-61 | The parent chain from a node runs to the root 0; each step goes to the node's parent and strictly down in id. |
| Arena.PathStep | search/uct.py:55-59 | A node's path is the node followed by its parent's path. |
| Arena.SetStat | search/uct.py:56-58 | Changing one node's statistics keeps the shape, and every other node is unchanged. |
| Arena.FindMove | search/uct.py:49 | It finds the position of a child with the given move, and None only when no child has that move: the key lookup of the `OrderedDict`. |
| Arena.AddChild | search/uct.py:48-49 | `children[move] = node` appends the new node. The child list grows by at most one. It grows by exactly one, at the end, when no existing child has the move; otherwise that child is replaced in place. Every other node is unchanged. |
| Arena.AppendChild | search/alphabeta_uct.py:138-139 | The list variant always appends the child and changes nothing else. |
| Arena.AddChildren | search/uct.py:43-46 | One new node per prior entry, in the priors' order. The node under which they are added changes only its child list, and every other node is kept. |
| Arena.AddChildrenFresh | search/uct.py:43-46 | On a childless node and priors with distinct moves, the child list is exactly the new nodes in prior order. |
| Arena.AddChildrenGrows | search/uct.py:43-46 | Adding children never shortens a child list, and any prior entry leaves at least one child. |
| Arena.AppendChildren | search/alphabeta_uct.py:127-139 | Every prior entry is appended as a new child, without replacement. |
| Arena.Descend | search/uct.py:34-37 | The descent ends at a node that is unexpanded or childless. The start node lies on the end node's path, and every node below the start on that path is the pick of its parent. |
| Arena.ArgBest | search/uct.py:30-32 | The position is maximal under the key, and every earlier position ranks strictly below it. |
| Arena.BestBy | search/brue.py:16-17 | None exactly when the node has no children. Otherwise the result is a child, maximal under the key, and the first such in child order. |
| Arena.Materialize | search/uct.py:38-40 | A node without a board gets its parent's board with its own move pushed. A node with a board keeps it, and nothing else changes. |
| Arena.SelectLeaf | search/uct.py:34-41 | It returns the descent's end node with its board built. Only that node's board may change, every expanded node keeps a board, and the path from the root to the leaf is linked by child lists. |
| Arena.MarkExpanded | search/uct.py:44 | Only the expanded flag of the node changes. |
| Arena.OnlyStatsReady | search/uct.py:51-61 | A change of statistics alone keeps the tree well formed and keeps every board in place. |
| Arena.AddChildrenBoarded | search/brue.py:31-35 | Children built with their boards keep every node of the tree boarded. |
| Uct.Q | search/uct.py:24-25 | `Q()` is the total divided by one more than the visits. It is defined for every node, and an unvisited node's Q is its total. |
| Uct.U | search/uct.py:27-28 | `U()` times one plus the visits equals the square root of the parent's visits times the prior. |
| Uct.BestIndex | search/uct.py:30-32 | `best_child` takes the child whose `Q() + cpuct * U()` is highest, and the first such in insertion order. |
| Uct.BestChild | search/uct.py:30-32 | The best child is a child of the node whose parent link points back. |
| Uct.BestIndexUnique | search/uct.py:30-32 | Any child position maximal and beating every earlier one is the one `best_child` takes. |
| Uct.Pick | search/uct.py:36-37 | The `best_child` descent is a pick function that only ever steps to a child. |
| Uct.SeedQ | search/uct.py:21 | A new child has no visits and total `-parent.Q()`, so its Q is its parent's Q negated. |
| Uct.Expand | search/uct.py:43-49 | `expand` marks the node expanded and adds exactly one child per prior entry, in order. Each child has no visits and total `-Q(parent)`. Empty priors leave an expanded, childless node. |
| Uct.BackupFrom | search/uct.py:55-61 | From a node up, every node on the path gains one visit and the alternating amount. Nodes off the path are unchanged, and the root's total is unchanged. |
| Uct.Backup | search/uct.py:51-61 | Exactly one visit is added to each node from the leaf to the root. The leaf gains `-v`, its parent `+v`, alternating up the path. The root's total is never touched, and nodes off the path are unchanged. |
| Uct.Outcome | search/uct.py:76-82 | `pv[0]` is the child with the most visits, ties going to the higher Q. It is None exactly when the node has no children, where `pv[0]` raises. |
| Mcts.Pick | search/mcts.py:11 | The descent uses the root's class at the root and UCT's `best_child` below it. |
| Mcts.ExpandLeaf | search/mcts.py:13 | The leaf is expanded with all priors, or with the pruned priors when it is a pruning root. Nothing else changes. |
| Mcts.Start | search/mcts.py:7-8 | A supplied root is reused as it is. Otherwise a fresh root has the board, no visits and no children. |
| Mcts.Grow | search/mcts.py:12-14 | Evaluating, expanding and backing up adds one visit to the root and leaves its total alone. |
| Mcts.Round | search/mcts.py:11-15 | One round hands the selected leaf's board to the evaluator and adds one root visit. |
| Mcts.Search | search/mcts.py:3-17 | `mcts_search` runs exactly `max(budget, 0)` rounds with one evaluator call each, adding that many root visits. It returns `outcome()` of the root. |
| Mcts.EvalRound | search/mcts.py:27-35 | The round fails with NoAttribute exactly when the selected leaf is already expanded: `leaf.reward` is read on a UCT node, which has no such attribute. Any other leaf is evaluated once, its board is the one handed over, and the root gains one visit. |
| Mcts.EvalSearch | search/mcts.py:19-37 | Any failure is that NoAttribute, and it needs a positive budget. A search that finishes evaluated a leaf in every round: the ceiling of the budget many when it is positive, none otherwise. Each round adds one root visit and the result is `outcome()` of the root. |
| Threshold.AnyWinning | search/st.py:15 | True exactly when some child's Q exceeds the win threshold of 0.25. |
| Threshold.Weight | search/st.py:15 | The exploration weight is 0 when some child is winning and 1 otherwise. |
| Threshold.BestIndex | search/st.py:14-17 | The first child maximising `Q() + c * cpuct * U()`. |
| Threshold.GreedyWhenWinning | search/st.py:14-17 | With a winning child, the choice is the first child with the highest Q. |
| Threshold.UctWhenNotWinning | search/st.py:14-17 | Without a winning child, the choice is exactly UCT's `best_child`. |
| Prune.MaxPrior | search/prune.py:13 | The largest prior, attained by some entry. |
| Prune.Above | search/prune.py:14-16 | The positions, in order, of exactly the priors above the threshold. |
| Prune.Kept | search/prune.py:12-16 | The kept entries are those above the threshold, in the priors' order. |
| Prune.KeptExactly | search/prune.py:13-16 | An entry is kept exactly when it is a prior entry above 0.05 times the largest prior. |
| Prune.MaxKept | search/prune.py:13-16 | With a positive largest prior, an entry holding it is always kept. |
| Prune.Expand | search/prune.py:9-16 | The node is marked expanded. Empty priors change nothing else. Otherwise there is exactly one child per kept entry, in order, each seeded like UCT's. |
| Srcr.BestIndex | search/srcr.py:36-38 | `best_child(C_sr, C_cr)` takes the first child maximising `Q() + C_sr * U_sr() + C_cr * U_google()`. |
| Srcr.BestChild | search/srcr.py:36-38 | The best child is one of the node's children. |
| Srcr.Pick | search/srcr.py:40-48 | At even depth the descent uses `best_child(C_sr, 0)`, at odd depth `best_child(0, C_cr)`, and it only ever steps to a child. |
| Srcr.MaxNodeRule | search/srcr.py:44-45 | At a max node the child taken maximises `Q() + C_sr * U_sr()`: a simple-regret choice. |
| Srcr.SimpleRegretBest | search/srcr.py:36-38 | `best_child(C_sr, 0)` takes a child no sibling beats on `Q() + C_sr * U_sr()`. |
| Srcr.MinNodeRule | search/srcr.py:46-47 | At a min node the child taken is exactly UCT's `best_child` with `C_cr` as its constant: a cumulative-regret choice. |
| Srcr.Expand | search/srcr.py:54-60 | One child per prior, in order, each with total 0 and no visits. Unlike UCT there is no first-play seed. The node is marked expanded and nothing else changes. |
| Srcr.NoFirstPlaySeed | search/srcr.py:21 | A new SRCR child's Q is 0, where a new UCT child's Q is its parent's Q negated. |
| Srcr.Round | search/srcr.py:92-95 | One round adds a root visit and leaves the root's total alone. |
| Srcr.Search | search/srcr.py:88-103 | The root has exactly `max(num_reads, 0)` visits and total 0, and the result ranks by (visits, Q). |
| Sota.Q | search/sota.py:29-30 | `Q(alpha)` is the Bellman value at alpha 0 and the minimax value at alpha 1. |
| Sota.QBetween | search/sota.py:29-30 | For alpha in [0, 1], `Q(alpha)` lies between the Bellman and the minimax value. |
| Sota.BestChild | search/sota.py:46-50 | `best_child` is a child maximal under (score, prior), and the first such in child order. |
| Sota.TiesGoToPrior | search/sota.py:47-49 | Among children with equal scores, the one taken has the highest prior. |
| Sota.Pick | search/sota.py:52-60 | Even depths use the max-node constants and odd depths the min-node constants. The descent only steps to children. |
| Sota.Expand | search/sota.py:66-72 | One blank child per prior, in order, and the node marked expanded. |
| Sota.BellmanLoopSum | search/sota.py:89-91 | Subtracting each visited child's share in turn leaves the node's own share minus the visit-weighted sum of the children's Bellman values, over the node's visits. |
| Sota.RefreshBellman | search/sota.py:89-91 | The rebuilt Bellman value is the node's reward weighted by its leaf visits, minus the visited children's visit-weighted Bellman values, all over its visits. |
| Sota.Backup | search/sota.py:74-95 | The leaf's reward, Bellman and minimax values all become `-v`, and its leaf visits and visits grow by one. Every other node on the path gains one visit, and the root gains two. Every ancestor is rebuilt from its children, and nodes off the path are unchanged. |
| Sota.BackupMinimax | search/sota.py:85-86 | After a backup, every ancestor's minimax value is minus the largest minimax value among its visited children. |
| Sota.Grow | search/sota.py:120-123 | A round adds two visits to the root. |
| Sota.Search | search/sota.py:111-137 | After `num_reads` rounds the root has twice that many visits. The result is the first child ranked highest by (visits, `Q(alpha)`). |
| Climb.KidStats | search/minmax_backup.py:50 | The statistics of a node's children, in child order. |
| Climb.Climb | search/minmax_backup.py:47-50 | Walking up from a node, every proper ancestor is refreshed from its own statistics and its children's as they stand after the nodes below were refreshed. Nodes off the path and nodes from the start node on are unchanged. |
| Climb.ClimbAt | search/alphabeta_uct.py:157-165 | The same walk, where the refresh also sees how many levels above the start node it is. |
| Climb.MaxVisited | search/minmax_backup.py:50 | The largest value among the visited children, attained by one of them. None exactly when no child is visited, which is where Python's `max` of an empty list raises. |
| MinMax.U | search/minmax_backup.py:18-20 | `U()` times one plus the visits is the square root of the parent's visits times the prior. |
| MinMax.BestIndex | search/minmax_backup.py:22-24 | `best_child(C)` is the first child maximising `Q + C * U()`. |
| MinMax.Pick | search/minmax_backup.py:26-29 | The descent steps to children only, by `best_child(C)`. |
| MinMax.Expand | search/minmax_backup.py:35-41 | One blank child per prior, in order, and the node marked expanded; nothing else changes. |
| MinMax.Backup | search/minmax_backup.py:43-51 | The leaf's Q is overwritten with `-v`. Every path node but the root gains one visit, and the root gains two, also when the leaf is the root. Every ancestor's Q is the negated largest Q among its visited children. `total_value` never changes, and nodes off the path are unchanged. |
| MinMax.BackupMinimax | search/minmax_backup.py:47-50 | For every ancestor the visited set is non-empty, because the child on the path was just visited, and its Q is minus the largest Q in it. |
| MinMax.Round | search/minmax_backup.py:70-74 | One round adds two root visits. Old totals are unchanged, and new nodes have total 0. |
| MinMax.Grow | search/minmax_backup.py:72-74 | Expanding the leaf and backing up adds two root visits and writes no total. |
| Mpa.Q | search/mpa_backup.py:19-21 | `Q` times one plus the visits is the total. |
| Mpa.U | search/mpa_backup.py:23-25 | `U()` times one plus the visits is the square root of the parent's visits times the prior. |
| Mpa.BestIndex | search/mpa_backup.py:27-29 | `best_child(C)` is the first child maximising `Q + C * U()`. |
| Mpa.Pick | search/mpa_backup.py:31-34 | The descent steps to children only, by `best_child(C)`. |
| Mpa.DepthIsDistance | search/mpa_backup.py:45-46 | When every child's depth is its parent's plus one and the root's is 0, a node's `tree_depth` is its distance from the root. |
| Mpa.Expand | search/mpa_backup.py:40-46 | One blank child per prior, in order, each with depth one more than the node's. The node is marked expanded, and the depth invariant is kept. |
| Mpa.SumVisits | search/mpa_backup.py:60 | The summed visits are at least each child's. |
| Mpa.OutflowBounded | search/mpa_backup.py:56-59 | With visited children's Q in [-1, 1], the summed `visits * Q` lies within plus or minus the summed visits. |
| Mpa.RefreshInRange | search/mpa_backup.py:52-61 | Rebuilding a node from children whose Q lies in [-1, 1] gives a Q in [-1, 1]. |
| Mpa.Backup | search/mpa_backup.py:48-61 | The leaf's total is overwritten with `-v` and gains one visit, two if it is the root. Every ancestor's total becomes minus the sum of `visits * Q` over its visited children, and its visits become their sum, plus one at the root. Depths and nodes off the path are unchanged. |
| Mpa.BackupKeepsDepths | search/mpa_backup.py:48-61 | A backup keeps every child's depth one more than its parent's. |
| Mpa.Grow | search/mpa_backup.py:82-84 | Expanding and backing up leaves the leaf's total at minus the evaluation, gives the root at least one visit, and keeps the depth invariant. |
| Mpa.Search | search/mpa_backup.py:77-92 | Without reads the root is the fresh node and there is no move, where `max` raises. After any read the root has been visited. The result is the first root child with the most visits, ties going to the higher Q. |
| Voi.Q | search/voi.py:30-31 | `Q * (1 + visits) == total`. |
| Voi.U | search/voi.py:33-34 | `U * (1 + visits) == sqrt(parent visits) * prior`. |
| Voi.UctChild | search/voi.py:39-41 | The policy child is a child of the node. No child has a higher desirability `Q + c * U`. |
| Voi.Vois | search/voi.py:54-68 | One value of information per child, in child order. |
| Voi.Scan | search/voi.py:61-73 | The running maximum starts at -1 and is replaced only on a strict increase. No result exactly when every VOI is at most -1. Otherwise the result is the first index holding the maximum, and the stored maximum bounds every VOI. |
| Voi.BestVoi | search/voi.py:43-74 | With fewer than two children, the first child and no vmax. Otherwise it also returns vmax, the value the source assigns to `self.V`. The child is the first with the maximal VOI, or none when all VOIs are at most -1. |
| Voi.Pick | search/voi.py:76-79 | The descent follows `best_child_voi` wherever it names a child. |
| Voi.Expand | search/voi.py:85-91 | The node is marked expanded and nothing else in the tree moves. One new child per prior, each with total `-Q(parent)` and zero counts. A childless node with distinct moves gets exactly the new nodes. |
| Voi.SumQSet | search/voi.py:103-107 | Replacing one node's statistics moves the sum of `q_visits` by that node's change. |
| Voi.SumQGrown | search/voi.py:91 | Appending nodes and keeping old `q_visits` never lowers the sum of `q_visits`. |
| Voi.ExpandSumQ | search/voi.py:85-91 | Expanding never lowers the sum of `q_visits`. |
| Voi.Credit | search/voi.py:106-107 | The root's policy child gains one `q_visits`; nothing else changes. |
| Voi.Ascend | search/voi.py:100-104 | The ancestor gains a visit. Its policy child, chosen after that visit, gains a `q_visits`, and the ancestor's total drops by that child's Q. Nothing else changes. |
| Voi.Finish | search/voi.py:105-108 | The root gains a visit and its policy child a `q_visits`. No total or reward moves. |
| Voi.BackupFrom | search/voi.py:99-108 | The climb fails, with NoChildren, exactly when the root or an ancestor on the path has no children. Otherwise: one `q_visits` is credited per path node, the root gets two visits and every other path ancestor one, and totals off the path are kept. |
| Voi.Visit | search/voi.py:96-98 | The leaf gains a visit, its reward is set to `-v`, and its total gains `-v`. |
| Voi.Backup | search/voi.py:93-108 | Fails exactly when the path is blocked. Otherwise the leaf's reward is `-v` and its total drops by `v`. The root's visits rise by two and every other path node's by one. The sum of `q_visits` rises by the path length, and totals off the path are unchanged. |
| Voi.LinkedNotBlocked | search/voi.py:78-79 | On a path the descent produced, only a childless root blocks the backup. |
| Voi.Grow | search/voi.py:131-133 | Fails exactly when the leaf is the root and is still childless after expansion (the `max` of an empty sequence). Otherwise the root gains two visits and the sum of `q_visits` strictly rises. |
| Voi.Round | search/voi.py:129-133 | Any failure is NoChoice or NoChildren. A descent stopped by an ancestor whose VOI choice is None fails with NoChoice. A NoChildren failure can only come from the root. A success adds two root visits. |
| Voi.Start | search/voi.py:127-128 | A given root is reused as is. Otherwise the tree is a single blank node holding the board. |
| Voi.FirstBestVisited | search/voi.py:137-138 | None exactly when no child is visited. Otherwise the first visited child whose `(Q, q_visits)` nothing visited beats, and every earlier visited child is strictly below it. This is the stable descending sort's head. |
| Voi.FirstBestVisitedUnique | search/voi.py:137-138 | Any index meeting that characterisation is the one returned. |
| Voi.Outcome | search/voi.py:137-141 | Fails, with NoChildren, exactly when no root child has been visited (`pv[0]` on an empty list). Otherwise a visited root child whose `(Q, q_visits)` no visited sibling beats. |
| Voi.Search | search/voi.py:125-141 | Any failure is a round's NoChoice or NoChildren, or the final `pv[0]`'s NoChildren. A fresh root searched with no reads fails with NoChildren. On success the root gains two visits per read, the `q_visits` sum gains at least one per read, and the move returned is the Outcome. |
| Voi.FreshOutcome | search/voi.py:137-141 | A fresh root has no visited child, so `pv[0]` fails with NoChildren. |
| Thompson.Counts | search/thompson.py:11-12 | The pseudo-counts sum to `2 + prior_weight`, and losses minus wins is `-prior_weight * action_value`. For an action value in [-1, 1] each count is at least one. |
| Thompson.Q | search/thompson.py:14-15 | `Q * (wins + losses) == losses - wins`. |
| Thompson.QRange | search/thompson.py:14-15 | With non-negative counts that are not both zero, Q lies in [-1, 1]. |
| Thompson.SaneQ | search/thompson.py:11-15 | A node whose counts are each at least one has Q in [-1, 1] and at least two pseudo-counts. |
| Thompson.Clip | search/thompson.py:28 | `numpy.clip(x, -1, 1)`: inside the range x is kept, below it -1, above it 1. |
| Thompson.SquaredPriors | search/thompson.py:26 | The sum of squared priors is non-negative. |
| Thompson.ActionValue | search/thompson.py:28 | The faked action value lies in [-1, 1]. |
| Thompson.Seed | search/thompson.py:11-12 | Every new child has counts of at least one each, summing to `2 + prior_weight`, and no visits. |
| Thompson.Expand | search/thompson.py:17-35 | An expanded node is returned unchanged. Otherwise the node is marked expanded and gets one child per prior. Each child's wins minus losses is `prior_weight` times its clipped action value. Nothing else changes, and sane counts stay sane. |
| Thompson.ExpandIdempotent | search/thompson.py:23-24 | A second expansion, with any priors, changes nothing. |
| Thompson.Tally | search/thompson.py:45-53 | One backup step adds exactly one pseudo-count and moves losses minus wins by the signed value. |
| Thompson.TallyIncrements | search/thompson.py:45-46 | For a value in [-1, 1], wins and losses each grow by between 0 and 1, so sane counts stay sane. |
| Thompson.BackupFrom | search/thompson.py:48-53 | Only statistics on the path to the root change. Each path node is tallied once, with the sign alternating per level. |
| Thompson.BackupStep | search/thompson.py:48-53 | Tallying the current node and then the path above it with the opposite sign tallies the whole path. |
| Thompson.Backup | search/thompson.py:42-53 | Statistics change only on the leaf's path. Each path node gains one visit and one pseudo-count, with the value's sign flipping per level. Values in [-1, 1] keep the counts sane. |
| Thompson.BackupKeepsSane | search/thompson.py:42-53 | A backup of a value in [-1, 1] keeps every node's counts at least one. |
| Thompson.BackupCounts | search/thompson.py:45-53 | The k-th node of the path gains one visit and one pseudo-count. Its losses minus wins moves by `v` at even k and by `-v` at odd k. |
| Thompson.Pick | search/thompson.py:37-40 | The descent takes a child whose draw no sibling exceeds. |
| Thompson.FirstDraw | search/thompson.py:40 | `max` with the draw as key: the first position holding the largest draw. |
| Thompson.Round | search/mcts.py:10-15 | One round adds one root visit and one root pseudo-count. Values in [-1, 1] keep the counts sane. |
| Thompson.Start | search/mcts.py:7-8 | A given root is reused. Otherwise a single node with action value 0, so Q 0 and sane counts. |
| Thompson.OutcomeAsWritten | search/thompson.py:55-69 | As written, a root without children fails with NoChildren; otherwise it returns a root child. |
| Thompson.Outcome | search/thompson.py:55-69 | None exactly when the root has no children. Otherwise a root child with the most visits, ties to the higher Q. |
| Thompson.OutcomeGuard | search/thompson.py:63-69 | The guarded and unguarded outcomes agree wherever the root has a child. |
| Thompson.NoBudgetRaises | search/thompson.py:63 | A fresh root searched with no budget makes the unguarded outcome fail. |
| Thompson.Search | search/mcts.py:3-17 | The root gains `max(budget, 0)` visits and as many pseudo-counts, and sanity is kept. The result is `outcome()` as written, so a fresh root with no budget raises NoChildren. |
| Running.MeanStep | search/bayes.py:78-79 | `q' * n == q * (n - 1) + s`: the mean of the old samples and the new one. |
| Running.SseStep | search/bayes.py:80 | The sum of squared errors never decreases. |
| Running.SseIncrement | search/bayes.py:78-80 | The increment `e * (s - q')` equals `e * e * (n - 1) / n`, so it is non-negative. |
| Running.MeanBetween | search/bayes.py:78-79 | The new mean lies between the old mean and the sample. |
| Running.FeedIsMean | search/bayes.py:76-79 | Feeding samples one by one leaves `mean * count == old mean * old count + their sum`. |
| Bayes.BestChild | search/bayes.py:47-52 | A child whose `policy + c * u` no sibling exceeds. |
| Bayes.Pick | search/bayes.py:54-58 | The descent follows `best_child()`. |
| Bayes.Expand | search/bayes.py:60-70 | An expanded node is returned unchanged. Otherwise one child per prior, with policy the prior, `q = -parent.q`, the initial error sum, one visit and the parent's board plus the move. Nothing else changes. |
| Bayes.ExpandIdempotent | search/bayes.py:61-62 | A second expansion changes nothing. |
| Bayes.ExpandPositive | search/bayes.py:60-65 | Positive priors keep every non-root policy positive. |
| Bayes.LearnFacts | search/bayes.py:77-82 | One visit more, `q * n` grows by the sample, and the error sum does not decrease. With a positive exp, a positive policy stays positive. |
| Bayes.SumPolicyPositive | search/bayes.py:83 | Positive policies have a positive sum. |
| Bayes.SumPolicySame | search/bayes.py:83 | The sum depends only on the children's policies. |
| Bayes.Scale | search/bayes.py:84-85 | Each child of the node has its policy divided by the norm, and no other node changes. |
| Bayes.SumScaled | search/bayes.py:83-85 | After the division the children's policies sum to the old sum over the norm. |
| Bayes.Normalize | search/bayes.py:83-85 | Fails with ZeroDivision exactly when the node has children whose policies sum to zero. Otherwise only the children's policies change. |
| Bayes.NormalizeSumsToOne | search/bayes.py:83-85 | After a successful normalisation the children's policies sum to one. |
| Bayes.NormalizeKeepsPositive | search/bayes.py:83-85 | With positive policies, normalisation succeeds and keeps them positive. |
| Bayes.BackupFrom | search/bayes.py:76-88 | Any failure is ZeroDivision. On success, each path node learns the sample with alternating sign. Each path node's children sum to one, and only path nodes and their children change. Positive policies with a positive exp always succeed and stay positive. |
| Bayes.BackupLocal | search/bayes.py:77-85 | One step learns the sample at the node and normalises its children. |
| Bayes.FramedCompose | search/bayes.py:76-88 | The changed region of a step and of the rest of the climb compose. |
| Bayes.LearnedCompose | search/bayes.py:86-88 | Learning `x` at the node and `-x` above it is the alternating learning of the whole path. |
| Bayes.NormalizedCompose | search/bayes.py:83-88 | Normalisation at the node survives the climb above it. |
| Bayes.Backup | search/bayes.py:72-88 | The same, starting from the sample `-v` at the leaf. |
| Bayes.Round | search/mcts.py:10-15 | Any failure is ZeroDivision. On success the root gains a visit, its error sum does not decrease, and its children's policies sum to one. Positive priors and exp guarantee success. |
| Bayes.BackupRoot | search/bayes.py:76-88 | The root ends the climb with one more visit, a non-decreasing error sum and normalised children. |
| Bayes.Start | search/bayes.py:20-33 | A given root is reused. Otherwise a single node with `q = 0`, `sse = 0.1` and one visit. |
| Bayes.OutcomeAsWritten | search/bayes.py:95-109 | As written, a root without children fails with NoChildren. |
| Bayes.Outcome | search/bayes.py:95-109 | None exactly when the root has no children. Otherwise a root child with the most visits, ties to the higher policy. |
| Bayes.OutcomeGuard | search/bayes.py:103-109 | The guarded and unguarded outcomes agree wherever the root has a child. |
| Bayes.Search | search/mcts.py:3-17 | The root gains `max(budget, 0)` visits and the move is `outcome()` as written. Any failure is ZeroDivision or NoChildren. With positive priors and exp, only NoChildren is possible, and a fresh root with no budget gives it. |
| Normal.Optimism | search/normal.py:50-52 | The optimistic sample is the larger of q and the normal draw: it is one of them and at least both. |
| Normal.Keys | search/normal.py:48-52 | One key per child, in child order: that child's optimistic sample. |
| Normal.BestIndex | search/normal.py:47-55 | With one child, or a coin below beta, the first child of largest key. Otherwise a child other than the top one, of largest key among the rest and not above the top. |
| Normal.PlusTakesSecond | search/normal.py:53-55 | With `beta=0.0` and at least two children, the runner-up is always taken, never the top child. |
| Normal.Pick | search/normal.py:57-61 | The descent follows `best_child()` under each node's coin. |
| Normal.Expand | search/normal.py:63-73 | An expanded node is returned unchanged. Otherwise one child per prior with `q = -parent.q`, the initial error sum, one visit and the parent's board plus the move. Nothing else changes. |
| Normal.ExpandIdempotent | search/normal.py:64-65 | A second expansion changes nothing. |
| Normal.LearnFacts | search/normal.py:80-83 | One visit more, `q * n` grows by the sample, and the error sum does not decrease. |
| Normal.LearnBounded | search/normal.py:80-83 | Learning a sample in [-1, 1] keeps q in [-1, 1]: the new mean lies between the old one and the sample. |
| Normal.BackupFrom | search/normal.py:79-85 | Only statistics on the path change. Each path node learns the sample, with the sign flipping per level. |
| Normal.BackupStepFrame | search/normal.py:79-85 | The changed region of one step and of the climb above it compose. |
| Normal.BackupStep | search/normal.py:84-85 | Learning `x` at the node and `-x` above it is the alternating learning of the whole path. |
| Normal.Backup | search/normal.py:75-85 | The same, starting from `-v` at the leaf. |
| Normal.BackupBounded | search/normal.py:75-85 | With every q in [-1, 1] and v in [-1, 1], every q stays in [-1, 1]. |
| Normal.ExpandBounded | search/normal.py:63-73 | Expansion keeps every q in [-1, 1], since children start at `-parent.q`. |
| Normal.Round | search/mcts.py:10-15 | The root gains one visit and its error sum does not decrease. Bounded values keep q bounded. |
| Normal.Start | search/normal.py:17-27 | A given root is reused. Otherwise a single node with `q = 0`, `sse = 0.1` and one visit. |
| Normal.OutcomeAsWritten | search/normal.py:92-106 | As written, a root without children fails with NoChildren. |
| Normal.Outcome | search/normal.py:92-106 | None exactly when the root has no children. Otherwise a root child with the most visits, ties to the higher q. |
| Normal.OutcomeGuard | search/normal.py:100-106 | The guarded and unguarded outcomes agree wherever the root has a child. |
| Normal.Search | search/mcts.py:3-17 | The root gains `max(budget, 0)` visits and bounded values keep q bounded. The result is `outcome()` as written, so a fresh root with no budget raises NoChildren. |
| Bounds.MaxOf | search/alphabeta.py:75 | `max` of a non-empty list: an element no element exceeds. |
| Bounds.MinOf | search/alphabeta.py:76 | `min` of a non-empty list: an element no element is below. |
| Bounds.Max | search/alphabeta.py:43 | The larger of two values. |
| Bounds.Min | search/alphabeta.py:44 | The smaller of two values. |
| Bounds.SoundToMove | search/alphabeta.py:69-76 | Reading values from the side to move, as the leaf's `+value_estimate` does, `-min` on both lines brackets the parent's value. |
| Bounds.ExactClosesToMove | search/alphabeta.py:69-76 | In that reading, exactly known children close the `-min` pair at the parent's value. |
| Bounds.Sound | search/alphabeta_uct.py:160-161 | When every child's value lies within its bounds, the parent's value (minus the best child's) lies within the refreshed bounds. |
| Bounds.AsWrittenLooser | search/alphabeta.py:76 | The `-min` upper bound is never below the `-max` one, so it is still an upper bound. |
| Bounds.ExactCloses | search/alphabeta_uct.py:160-161 | With every child known exactly, the `-max` pair meets at the parent's value. |
| Bounds.AsWrittenCloses | search/alphabeta.py:75-76 | With every child known exactly, the `-max`/`-min` pair meets exactly when all the children are worth the same. |
| Bounds.AsWrittenStaysOpen | search/alphabeta.py:75-76 | Children worth exactly 0.5 and -0.5 leave the as-written bounds at -0.5 and 0.5, where the `-max` pair meets. |
| AlphaBeta.Take | search/alphabeta.py:60 | `list(...)[:k]`: the first `min(k, len)` priors, in order. |
| AlphaBeta.Expand | search/alphabeta.py:57-64 | Appends one fresh child per kept prior to the node's list and marks it expanded. Nothing else changes. A second call appends again. |
| AlphaBeta.PlusAt | search/alphabeta.py:76 | The children's upper bounds at one slot, in child order. |
| AlphaBeta.MinusAt | search/alphabeta.py:75 | The children's lower bounds at one slot, in child order. |
| AlphaBeta.AtSame | search/alphabeta.py:75-76 | The lists depend only on the children's bounds at that slot. |
| AlphaBeta.Blocker | search/alphabeta.py:72-76 | The loop fails only on a childless ancestor or on running past the ten slots. |
| AlphaBeta.BlockerSame | search/alphabeta.py:72-76 | Where the loop fails depends only on the tree's shape. |
| AlphaBeta.BlockerPath | search/alphabeta.py:72-76 | The loop gets through exactly when every node on the way has children and the top level is below ten. |
| AlphaBeta.Step | search/alphabeta.py:73-76 | One node's slot d gets, as written, minus the largest upper bound of its children at d - 1 as its lower bound, and minus the smallest lower bound as its upper bound. Nothing else changes. |
| AlphaBeta.RefreshMeets | search/alphabeta.py:75-78 | With every child known exactly, a node's refreshed slot meets exactly when all its children are worth the same, so the root settles only then. |
| AlphaBeta.BoundsOnlyCompose | search/alphabeta.py:72-76 | Bound-only changes compose. |
| AlphaBeta.Ascend | search/alphabeta.py:72-76 | Fails exactly where Blocker says, with its fault. Otherwise only statistics change. |
| AlphaBeta.AscendUnfold | search/alphabeta.py:72-76 | A successful climb took one step at the node and went on from its parent. |
| AlphaBeta.AscendOk | search/alphabeta.py:72-76 | The climb succeeds exactly when every node on the path has children and the level stays below ten. With children everywhere, the only failure is DepthOutOfRange. |
| AlphaBeta.AscendFrame | search/alphabeta.py:72-76 | The climb changes bound lists only, and no node below where it starts. |
| AlphaBeta.AscendAgrees | search/alphabeta.py:72-76 | After the climb, every node from the start up has slot d equal to the as-written `-max`/`-min` recurrence over its children at d - 1. |
| AlphaBeta.AscendUntouched | search/alphabeta.py:72-76 | Nodes off the path are unchanged. |
| AlphaBeta.FirstMatch | search/alphabeta.py:88 | None exactly when no child's upper bound equals v. Otherwise the first child whose does. |
| AlphaBeta.Follow | search/alphabeta.py:86-88 | Any failure is NoFeasibleChild. The result lies `d - 1` levels below (the node itself when `d <= 1`) and has `v_plus[1] == v`. |
| AlphaBeta.FollowSame | search/alphabeta.py:86-88 | The walk depends only on shape and upper bounds. |
| AlphaBeta.FirstMatchSame | search/alphabeta.py:88 | The match depends only on upper bounds. |
| AlphaBeta.GetBestChild | search/alphabeta.py:82-90 | A d of ten or more is DepthOutOfRange; any other failure is NoFeasibleChild. The result lies `d - 1` levels down and carries the starting `v_plus[d]` at slot 1. |
| AlphaBeta.Close | search/alphabeta.py:78-80 | When the root's bounds at its depth meet, the root records `get_best_child(d)` of the leaf and goes one depth deeper. Otherwise it is untouched. It fails when the root depth is past the slots or the walk fails, and no other node changes. |
| AlphaBeta.SetLeaf | search/alphabeta.py:69-70 | Both bounds of the leaf's slot 0 become the value. The other slots and nodes are kept. |
| AlphaBeta.Bound | search/alphabeta.py:67-76 | Fails exactly when the parent's climb is blocked. Otherwise only statistics change. |
| AlphaBeta.BoundOk | search/alphabeta.py:67-76 | Succeeds exactly when every ancestor has children and the leaf is fewer than ten levels down. |
| AlphaBeta.BoundFrame | search/alphabeta.py:67-76 | Only bound lists change, and at the leaf only slot 0, which holds v. |
| AlphaBeta.BoundUntouched | search/alphabeta.py:67-76 | Nodes off the path are unchanged. |
| AlphaBeta.BoundAgrees | search/alphabeta.py:72-76 | Every ancestor agrees at its level with its children under the as-written `-max`/`-min` recurrence. |
| AlphaBeta.Backup | search/alphabeta.py:66-80 | Any failure is a childless ancestor, a depth out of range or a missing match. Success changes statistics only and keeps the root depth at most ten. |
| AlphaBeta.BelowBlocker | search/alphabeta.py:72-76 | Below the root, no ancestor of a node is childless. |
| AlphaBeta.AgreesSame | search/alphabeta.py:72-76 | Agreement depends only on shape and bounds. |
| AlphaBeta.BackupErrors | search/alphabeta.py:66-80 | Below the root no NoChildren failure occurs. A leaf ten or more levels down fails with DepthOutOfRange, and success needs the leaf and root depths below ten. |
| AlphaBeta.BackupFrame | search/alphabeta.py:67-76 | A successful backup keeps nodes off the path and leaves v in the leaf's slot 0. |
| AlphaBeta.BackupKeepsBounds | search/alphabeta.py:78-80 | Settling the root changes no bound list. |
| AlphaBeta.BackupAgrees | search/alphabeta.py:72-76 | After a backup every ancestor agrees at its level with its children under the as-written `-max`/`-min` recurrence. |
| AlphaBeta.BackupSettles | search/alphabeta.py:78-80 | The root goes one depth deeper, with the walk's result as best child, exactly when its bounds have met. Otherwise depth and best child are kept. |
| AlphaBeta.Narrow | search/alphabeta.py:43-44 | The window becomes the parent's window cut down to the child's bounds at slot j. Nothing else changes. |
| AlphaBeta.NarrowOpen | search/alphabeta.py:43-45 | The child is feasible exactly when the parent's window is open, meets the child's bounds on both sides, and the child's bounds are open. |
| AlphaBeta.WindowsOnlyFacts | search/alphabeta.py:40-46 | Window-only changes keep shape, bounds, flags and boards. |
| AlphaBeta.WindowsOnlyCompose | search/alphabeta.py:39-50 | Window-only changes compose. |
| AlphaBeta.Windows | search/alphabeta.py:41-44 | Every child gets its narrowed window; no other node changes. |
| AlphaBeta.FirstOpen | search/alphabeta.py:45-47 | None exactly when every window is shut. Otherwise the first open one. |
| AlphaBeta.Choose | search/alphabeta.py:40-47 | None, the IndexError, exactly when every child is shut. Otherwise a child position, with only windows changed. |
| AlphaBeta.ChooseFacts | search/alphabeta.py:40-47 | The chosen child is the first one not shut. Its window is the parent's narrowed to its bounds, and only the children are windowed. |
| AlphaBeta.WindowsShut | search/alphabeta.py:41-46 | A windowed child is shut exactly when Shut holds of its old bounds and the parent's window. |
| AlphaBeta.Descent | search/alphabeta.py:33-51 | Any failure is NoFeasibleChild. Only windows change and the root is kept. The node reached lies at most the root's depth down. It is either a node where the loop stops or exactly that deep. Its parent let the loop go on, and its window is open within its bounds. |
| AlphaBeta.WalkStart | search/alphabeta.py:34-37 | The invariant holds at the root. |
| AlphaBeta.WalkDone | search/alphabeta.py:39 | Where the loop stops, the invariant gives the descent's promises. |
| AlphaBeta.WalkStep | search/alphabeta.py:40-50 | One pass keeps the invariant. |
| AlphaBeta.WalkInto | search/alphabeta.py:47-50 | Stepping into an open child with its negated window keeps the invariant. |
| AlphaBeta.SelectLeaf | search/alphabeta.py:33-55 | The descent, then the leaf's board is built. Only windows and that one board change. |
| AlphaBeta.MaterializeDescended | search/alphabeta.py:52-54 | Building the leaf's board keeps every other board and flag. |
| AlphaBeta.Round | search/mcts.py:10-15 | Fails only on a shut window, a depth out of range, or a `get_best_child` walk that finds no child matching the value, and always once the root depth is ten. Success keeps the root board and moves the root depth by zero or one. The best child changes only with the depth and stays set once settled. |
| AlphaBeta.Grow | search/mcts.py:12-14 | The same, from a selected leaf. |
| AlphaBeta.Start | search/alphabeta.py:13-31 | A given root is reused. Otherwise a fresh node: window [-1, 1], depth 0, bounds -1 and 1 in all ten slots. |
| AlphaBeta.Outcome | search/alphabeta.py:103-104 | Fails with Unset exactly when no best child is recorded; otherwise that child. |
| AlphaBeta.OutcomeSettled | search/alphabeta.py:78-80 | On a settled root the outcome exists exactly when the depth is positive. |
| AlphaBeta.Search | search/mcts.py:3-17 | Any failure is one of the round faults or Unset. The root depth grows by at most the budget, and the result is the Outcome. A fresh root with no budget fails with Unset. |
| AbUct.UnwrittenOpen | search/alphabeta_uct.py:38-39 | A depth no backup has written reads -1 and 1, which have not met. |
| AbUct.Q | search/alphabeta_uct.py:52-53 | `Q * (1 + visits) == total`; an unvisited node's Q is its total. |
| AbUct.Seed | search/alphabeta_uct.py:40 | A new child's Q is minus its parent's. |
| AbUct.Expand | search/alphabeta_uct.py:127-139 | Appends one child per prior to the node's list, in order, and marks the node expanded. Nothing else changes. There is no guard against a second call. |
| AbUct.ExpandSeeds | search/alphabeta_uct.py:37-42 | A new child has Q minus its parent's, no visits, no bonus, and reads LOSS and WIN at every depth. |
| AbUct.BestChildUct | search/alphabeta_uct.py:55-61 | Fails with ZeroDivision exactly when some child has a zero U denominator. Otherwise a child whose `Q + cpuct * U` no sibling exceeds, with the sibling-visit sum of line 56. |
| AbUct.Keep | search/alphabeta_uct.py:77-80 | Keeps exactly the visited (or unvisited) entries. |
| AbUct.KeepSplit | search/alphabeta_uct.py:77-80 | Every child lands on exactly one side. |
| AbUct.PriorKeys | search/alphabeta_uct.py:81 | One prior key per entry, in order. |
| AbUct.Drop | search/alphabeta_uct.py:79-81 | One entry removed, every other kept. |
| AbUct.DropMultiset | search/alphabeta_uct.py:79-81 | Removing position i removes exactly one occurrence of that entry. |
| AbUct.Top | search/alphabeta_uct.py:79-81 | `nlargest(m, ...)` returns `min(m, len)` entries of the input, and all of them when m covers it. |
| AbUct.TopRest | search/alphabeta_uct.py:79-81 | After taking out the first maximum, nothing left ranks above it. |
| AbUct.TopSorted | search/alphabeta_uct.py:79-81 | The picked entries come in descending order of prior. |
| AbUct.TopSortedStep | search/alphabeta_uct.py:79-81 | Putting the first maximum in front of a sorted pick of the rest keeps the order. |
| AbUct.ConsSorted | search/alphabeta_uct.py:79-81 | An entry at least as high as every remaining one extends a descending list. |
| AbUct.TopAbove | search/alphabeta_uct.py:79-81 | Every entry left out ranks no higher than any entry picked. |
| AbUct.ConsAbove | search/alphabeta_uct.py:79-81 | The same property extends from the rest to the whole list. |
| AbUct.TopSubMultiset | search/alphabeta_uct.py:79-81 | The pick takes each entry at most as often as it occurs, and all of them when m covers the input: a sub-multiset. |
| AbUct.TopMultisetStep | search/alphabeta_uct.py:79-81 | The sub-multiset property extends by one pick. |
| AbUct.ConsMultiset | search/alphabeta_uct.py:79 | Prepending adds one occurrence. |
| AbUct.AbChildren | search/alphabeta_uct.py:76-82 | The candidates are nodes of the tree. |
| AbUct.AbChildrenMembers | search/alphabeta_uct.py:76-82 | Every candidate is a child, and every visited child is a candidate. |
| AbUct.AbChildrenTop | search/alphabeta_uct.py:78-81 | An unvisited child is left out only in favour of unvisited candidates of no lower prior. |
| AbUct.AbChildrenCount | search/alphabeta_uct.py:76-82 | More than k candidates only when all are visited, fewer than k only when every child is one. With k at least 1, there are candidates exactly when there are children. |
| AbUct.First | search/alphabeta_uct.py:97-105 | None exactly when no entry passes. Otherwise the first one that does. |
| AbUct.DescendAb | search/alphabeta_uct.py:96-107 | Any failure is NoFeasibleChild. The node reached hangs below the start, through expanded parents, at most d levels down. |
| AbUct.Feasible | search/alphabeta_uct.py:97-105 | The first open candidate is a child of the node. |
| AbUct.Next | search/alphabeta_uct.py:119-122 | A step of `update_root` goes to a child. |
| AbUct.NextMatches | search/alphabeta_uct.py:119-122 | The step takes the first matching child, and stops only when none matches. |
| AbUct.Chain | search/alphabeta_uct.py:118-124 | The walk has at most d nodes, each deeper in the arena than the start. |
| AbUct.ChainFollows | search/alphabeta_uct.py:118-124 | Each node of the walk is the first matching child of the one before, and the walk ends at depth 0 or where nothing matches. |
| AbUct.ChainedCons | search/alphabeta_uct.py:118-124 | A first matching child in front of its own walk is the walk. |
| AbUct.Pow | search/alphabeta_uct.py:117 | `x ** 0 == 1`, and a base of at least one gives at least one. |
| AbUct.SetBonus | search/alphabeta_uct.py:123 | Exactly the listed nodes get the bonus. |
| AbUct.UpdateRoot | search/alphabeta_uct.py:114-125 | The root's depth rises by one and nothing else of it changes. Exactly the nodes of the walk get the bonus `weight * wscale^depth`. Bounds, totals and visits are kept. |
| AbUct.UpdateRootChain | search/alphabeta_uct.py:118-124 | The update walks at most depth-many nodes, each the first matching child of the one before. |
| AbUct.PendingShrinks | search/alphabeta_uct.py:86-87 | Passing a met depth leaves one written depth fewer, so the settling loop ends. |
| AbUct.Settle | search/alphabeta_uct.py:86-88 | The root's depth ends at the first depth from the start where its bounds are apart. Every depth skipped had them met. With nothing met the tree is unchanged, and bounds, totals and visits are kept. |
| AbUct.SelectedCompose | search/alphabeta_uct.py:63-74 | Selection-only changes compose. |
| AbUct.MaterializeSelected | search/alphabeta_uct.py:109-111 | Building the leaf's board keeps a ready tree ready and the leaf's path. |
| AbUct.SelectLeafAb | search/alphabeta_uct.py:84-112 | Any failure is NoFeasibleChild. Only bonuses, the root depth and boards change. The root depth rises to an unmet depth, and the leaf has a board and lies at most that depth down. |
| AbUct.UctWalk | search/alphabeta_uct.py:64-70 | Any failure is ZeroDivision. The node reached hangs below the start. The walk reports a break to alpha-beta exactly when the node does not stop the loop. |
| AbUct.NoUctStep | search/alphabeta_uct.py:63-70 | With p at most 0 no draw in [0, 1) is below it, so the walk never takes a UCT step. |
| AbUct.SelectLeaf | search/alphabeta_uct.py:63-74 | Any failure is ZeroDivision or NoFeasibleChild. The leaf has a board and only selection fields change. With p at most 0 on an expanded root, the root ends at an unmet depth. |
| AbUct.Uppers | search/alphabeta_uct.py:160 | The children's upper bounds at one depth, in order. |
| AbUct.Lowers | search/alphabeta_uct.py:161 | The children's lower bounds at one depth, in order. |
| AbUct.Backup | search/alphabeta_uct.py:141-165 | Fails with NoChildren exactly when an ancestor is childless. Otherwise only statistics on the leaf's path change. |
| AbUct.BackupBelow | search/alphabeta_uct.py:157-161 | Below the root, the backup always succeeds. |
| AbUct.BackupAt | search/alphabeta_uct.py:149-165 | A successful backup is the leaf update followed by the recurrence at each ancestor. |
| AbUct.BackupCounts | search/alphabeta_uct.py:153-165 | Every path node gains a visit and `v` with a sign flipping per level, `-v` at the leaf. Depths and bonuses stay, and other nodes are untouched. |
| AbUct.BackupBounds | search/alphabeta_uct.py:151-161 | The leaf's depth 0 holds `-v` both ways, with its other depths kept. The ancestor k levels up holds the recurrence at depth k. |
| AbUct.LiftBounds | search/alphabeta_uct.py:160-161 | The lift writes `-max` of the children's upper and lower bounds at depth k and keeps every other depth. |
| AbUct.LiftOrdered | search/alphabeta_uct.py:160-161 | Children with ordered bounds give an ordered pair. |
| AbUct.BackupOrdered | search/alphabeta_uct.py:141-165 | A backup keeps every node's lower bound at or below its upper bound, at every depth. |
| AbUct.OrderedFrom | search/alphabeta_uct.py:157-165 | Order holds from any position on, by induction up the arena. |
| AbUct.OrderedAt | search/alphabeta_uct.py:157-165 | A node whose later nodes are ordered is ordered after the backup. |
| AbUct.AtLeafOrdered | search/alphabeta_uct.py:151-152 | Writing `-v` both ways keeps order. |
| AbUct.LiftCloses | search/alphabeta_uct.py:160-161 | Children whose bounds at d-1 have met give bounds at d that meet at minus the best child's value. |
| AbUct.ExpandOrdered | search/alphabeta_uct.py:127-139 | New children read LOSS and WIN, so expansion keeps order. |
| AbUct.SelectedOrdered | search/alphabeta_uct.py:63-125 | Selection changes no bound. |
| AbUct.Outcome | search/alphabeta_uct.py:179-193 | Fails with NoChildren exactly when the root has no children; otherwise a root child. |
| AbUct.OutcomeBest | search/alphabeta_uct.py:180-182 | The outcome has the most visits counting bonuses, then the highest Q, then the highest prior. |
| AbUct.Round | search/mcts.py:10-15 | Any failure is ZeroDivision or NoFeasibleChild. On success the root gains a visit, keeps its board, and its depth does not fall. Order is kept. |
| AbUct.Grow | search/mcts.py:12-14 | The root gains a visit and keeps its depth. Order is kept. |
| AbUct.Start | search/alphabeta_uct.py:20-46 | A given root is reused. Otherwise a fresh node with nothing written, which is ordered. |
| AbUct.Search | search/mcts.py:3-17 | Any failure is a round fault or NoChildren. The root gains `max(budget, 0)` visits, order is kept, and the move is the Outcome. A fresh root with no budget fails with NoChildren. |
| Ucd.Link | search/ucd.py:100 | The new edge is appended to the child's in-edges and the parent's out-edges. Nothing else changes. |
| Ucd.Lookup | search/ucd.py:96-99 | A cached position returns its node and leaves the world alone. An uncached one appends a blank node and caches it. |
| Ucd.Attach | search/ucd.py:93-100 | Appends a fresh edge (no value, no visits) from the node to the cached child, listed on both sides. The cache and the other nodes' lists are kept. |
| Ucd.AddChild | search/ucd.py:125-126 | One fresh edge to the node for the pushed position: the cached one, so a transposition shares the node, or a new cached node. |
| Ucd.Expand | search/ucd.py:26-29 | One fresh out-edge per prior, in order, appended to the node's out-edges; other nodes keep theirs. |
| Ucd.ExpandStep | search/ucd.py:28-29 | One added child followed by the rest is the whole expansion. |
| Ucd.GrewTrans | search/ucd.py:97-100 | Growth of the shared graph composes. |
| Ucd.Transposition | search/ucd.py:96-99 | Two edges reaching positions with the same hash lead to the same node. |
| Ucd.Q | search/ucd.py:77-88 | At `d1 = 0`: `Q * (1 + visits) == total`. |
| Ucd.P | search/ucd.py:71-75 | At `d2 = 0`: with no visits on the sibling edges, the sum is zero. |
| Ucd.ZeroVisits | search/ucd.py:71-75 | Summing unvisited edges gives zero. |
| Ucd.U | search/ucd.py:90-91 | At `d3 = 0`: `U * (1 + visits) == prior * sqrt(P)`. |
| Ucd.BestIndex | search/ucd.py:112-114 | The first out-edge of maximal `Q + cpuct * U`. |
| Ucd.BestEdge | search/ucd.py:112-114 | The chosen edge is an out-edge of the node. |
| Ucd.At | search/ucd.py:19-24 | The node reached after k edges of a history is a node of the graph. |
| Ucd.LeafNode | search/ucd.py:19-24 | The leaf is a node of the graph. |
| Ucd.Walk | search/ucd.py:118-122 | The walk follows `best_edge()` at every step. Stopping before the fuel runs out means a node without out-edges. |
| Ucd.WalkStep | search/ucd.py:119-122 | A best edge followed by a walk from its child is a walk, with the same leaf. |
| Ucd.AtShift | search/ucd.py:119-122 | The node k edges in is the node k - 1 edges in from the first edge's child. |
| Ucd.Rollout | search/ucd.py:116-123 | Any failure is Cycle. Otherwise the history follows `best_edge()` from the root to a node without out-edges. |
| Ucd.Trail | search/ucd.py:116-123 | The nodes visited, one more than the edges. |
| Ucd.Pigeonhole | search/ucd.py:119 | More visits than nodes means a repeated node. |
| Ucd.DistinctBound | search/ucd.py:119 | Distinct nodes number at most the graph's size. |
| Ucd.RolloutCycles | search/ucd.py:119-122 | A Cycle failure means the walk revisited a node, where the source loops forever. |
| Ucd.RepeatKeepsGoing | search/ucd.py:119-122 | Once a deterministic walk revisits a node it never reaches a leaf. |
| Ucd.RolloutDistinct | search/ucd.py:116-123 | A finished rollout visits no node twice. |
| Ucd.RolloutEdgesDistinct | search/ucd.py:116-123 | A finished rollout uses no edge twice. |
| Ucd.RankFalls | search/ucd.py:119-122 | When every edge lowers a rank, the walk's ranks strictly fall. |
| Ucd.RolloutRanked | search/ucd.py:116-123 | An acyclic (ranked) graph always gives a finished rollout. |
| Ucd.Pop | search/ucd.py:34-38 | Popping the history keeps the edge count. |
| Ucd.PopFrame | search/ucd.py:34-38 | Only totals and visits change, and only on history edges. |
| Ucd.PopVisits | search/ucd.py:38 | Each edge gains one visit per occurrence in the history. |
| Ucd.AltFlip | search/ucd.py:35 | Flipping the value is one more level of alternation. |
| Ucd.PopTotal | search/ucd.py:35-37 | On a history without repeats, the j-th edge gains the value with sign `(-1)^(len - 1 - j)`. |
| Ucd.Backup | search/ucd.py:31-38 | Nodes and cache are kept, and only totals, visits and rewards of history edges change. Each edge gains one visit per occurrence, the last edge's reward is `-reward`, and an empty history changes nothing. |
| Ucd.BackupTotals | search/ucd.py:34-37 | On a history without repeats, the last edge gains `-reward`, the one before `+reward`, and so on. |
| Ucd.BackupValid | search/ucd.py:31-38 | A backup keeps the graph consistent. |
| Ucd.OutcomeIndex | search/ucd.py:129-131 | The first out-edge with the most visits, ties to the higher Q. |
| Ucd.Outcome | search/ucd.py:128-134 | Fails with NoChildren exactly when the root has no out-edges. Otherwise the move and child of one of its out-edges. |
| Ucd.Round | search/mcds.py:7-10 | Fails with Cycle exactly when the rollout does. Otherwise: the leaf's board is evaluated; the leaf gains exactly one fresh out-edge per prior; each edge gains one visit per occurrence in the rollout; old boards are kept. |
| Ucd.RoundStep | search/mcds.py:7-10 | Expansion followed by backup gives that result. |
| Ucd.Run | search/mcds.py:6-10 | Any failure is Cycle. k rounds evaluate k boards, keep the graph consistent and keep the root's board. |
| Ucd.Start | search/mcds.py:4-5 | A given root is reused. Otherwise a blank node is appended, not cached. |
| Ucd.Search | search/mcds.py:2-12 | Any failure is Cycle or NoChildren. `max(num_reads, 0)` boards are evaluated and the result is the root's Outcome. |
| Ucd.SearchAsWritten | search/mcds.py:2-12 | As written, with no reads it agrees with the corrected search. |
| Ucd.AsWrittenFails | search/mcds.py:9 | As written, any search with a read fails, with NoAttribute exactly when its first rollout finishes. |
| Ucd.MissingExpand | search/mcds.py:9 | One read from a fresh root with one legal move: the corrected search returns that move; as written it fails. |
| Ucd.DistinctCount | search/ucd.py:36 | A history without repeats holds each edge at most once. |
| Ucd.RolloutBackupOnce | search/ucd.py:31-38 | Backing up a finished rollout gives each of its edges exactly one visit and no other edge any. |
| Ucd.RoundRootVisit | search/mcds.py:7-10 | From a root with out-edges, exactly the rollout's first edge among them gains a visit. |
| Ucd.RootEdgeOnce | search/ucd.py:116-123 | A rollout that never revisits a node leaves the root once, through its first edge. |
| Brue.Update | search/brue.py:52-54 | One visit more. |
| Brue.UpdateTotal | search/brue.py:52-54 | `q' * n' == q * n + reward`: the running mean gains the reward. |
| Brue.UpdatesSum | search/brue.py:52-54 | After a run of updates the count rises by their number, and `q * n` by their sum. |
| Brue.UpdatesMean | search/brue.py:52-54 | From a fresh node, q is the mean of the rewards it received. |
| Brue.Expand | search/brue.py:24-35 | One child per prior: q 0, no visits, the parent's board plus the move. A repeated move replaces the earlier child in the dict. Other nodes and the node's statistics are kept. A childless node with distinct moves gets exactly the new nodes. It ends with children exactly when it had some or the priors are non-empty. |
| Brue.EndOfProbe | search/brue.py:41-50 | Reports the end of the probe exactly when the node has no children. A node with children, or a finished game, leaves the tree unchanged. Otherwise the node is expanded with the evaluator's priors, and its q becomes the evaluation with one visit. |
| Brue.Choice | search/brue.py:16-22 | A child of the node. From depth `switch` on it is the first child of maximal q (`exploitation`). Below it is the child the sampler names (`exploration`). |
| Brue.Qs | search/brue.py:62-71 | One q per node of the probe's path. |
| Brue.RewardAlternates | search/brue.py:65-71 | The probe's reward `q0 - (q1 - (q2 - ...))` is the alternating sum of the path's q values, ending with the leaf's. |
| Brue.AltSumCons | search/brue.py:71 | The alternating sum peels one term: `AltSum(qs) == qs[0] - AltSum(qs[1..])`. |
| Brue.Probe | search/brue.py:61-76 | The path starts at the node and follows Choice at each depth to a childless leaf, whose end-of-probe is applied. The reward is the alternating sum of the path's q values. Exactly one node is updated, at depth `switch` or at the leaf if the path is shorter. Only statistics on the path change. |
| Brue.ProbeLeaf | search/brue.py:62-75 | At a leaf the path is the leaf, the reward its q, and it is updated when `switch >= depth`. |
| Brue.LeafSettled | search/brue.py:62-75 | The leaf's update settles a one-node path. |
| Brue.DescentCons | search/brue.py:67-71 | A choice followed by a descent from the chosen child is a descent. |
| Brue.SettledCons | search/brue.py:71-75 | Updating the node at `depth == switch` with its q minus the child's reward settles the longer path. |
| Brue.DoneCons | search/brue.py:66-76 | The same for the whole post-state of a probe. |
| Brue.ProbeShape | search/brue.py:61-76 | A probe keeps the tree well formed and every old board, and never shrinks it. |
| Brue.ProbeKeepsInner | search/brue.py:43-44 | Nodes that had children keep exactly those children. |
| Brue.ProbeAtLeaf | search/brue.py:62-65 | A probe from a childless node stops there, with the children the end-of-probe gave. |
| Brue.ProbeUpdatesOne | search/brue.py:63-75 | From the root, only the path node at position `min(switch, len - 1)` is updated, with the reward from there down. Every other path node keeps its statistics. |
| Brue.Switch | search/brue.py:37-39 | `1 + num % int(1 + log(1 + num))` lies between 1 and `num + 1`, and below `1 + log`. |
| Brue.Probes | search/brue.py:80-82 | The probes keep the tree well formed, boarded and the root's board. Children of the root stay. The first probe from a childless root that is not over, with non-empty priors, gives it children. |
| Brue.Search | search/brue.py:78-91 | On success the result is a root child whose `(q, visits)` no sibling beats, with its move. Any failure is NoChildren, the `max` of an empty dict. No reads always fails. A read on a live position with moves always succeeds. |
| Position.Join | engine.py:33 | Joining one part gives that part. |
| Position.Slice | engine.py:33 | Python's clamped slice has length `min(hi, len) - min(lo, hi, len)`. |
| Position.PushAll | engine.py:40-44 | The moves are pushed in order on the same setup. |
| Position.Parse | engine.py:25-44 | Fewer than two tokens is TooFewTokens, the IndexError on `tokens[1]`. The setup is the joined FEN fields after `fen`, otherwise the start position. The pushed moves are a proper suffix of the tokens: when there are any, they are every token after a `moves` at the setup's offset (2 after `startpos`, 8 after `fen`, otherwise 0). |
| Position.ParseCommand | engine.py:25-44 | Parsing the command for a setup and moves gives that setup with those moves pushed in order, when a FEN has its six fields. |
| Position.ParseWithoutMoves | engine.py:37-44 | Without `moves` at the setup's end, the board is the bare setup. |
| Position.ParseUnknownSetup | engine.py:28-44 | A second token that is neither `startpos` nor `fen` keeps the start position and offset 0. Moves are then read only after a leading `moves` token. |

## Behaviour worth knowing

- `UCTNode.expand` (search/uct.py:43-46) has no guard. A second call re-inserts every move, and the `OrderedDict` keeps each key's old position with the new child. `Arena.AddChild` models that replacement. Only the Thompson, Bayes and normal-sampling nodes return early when they are already expanded.
- `SRCRNode` starts every new child with a total of 0 (search/srcr.py:21), where `UCTNode` seeds it with the parent's Q negated. `Srcr.Expand` starts them at 0.
- `mcts_eval_search` reads `leaf.reward` on an already-expanded leaf (search/mcts.py:29). No UCT node class defines it, so that branch raises before it can charge `rollout_cost`. `Mcts.EvalRound` returns NoAttribute there.
- `generate_rollout` (search/ucd.py:116-123) has no repetition check, so a transposition cycle loops forever. `Ucd.Rollout` reports such a descent as `Cycle`.
- The `ABUCTNode.expand` docstring speaks of the best k children, but the code adds one child per prior (search/alphabeta_uct.py:127-139). `AbUct.Expand` adds them all.
- The `mcts_search` drivers return `root.outcome()`. For Thompson, Bayes and normal-sampling nodes that reads `pv[0]` before its guard, so a root without children raises. The drivers return that fault; the guarded `Outcome` is proved to agree wherever the root has a child.

## Left out

- Printing: the `verbose` output, `dump`, and the printed principal variations and predictions. None of them changes the tree.
- Voi.BestVoi: the `V` attributes written at search/voi.py:69 (per child) and search/voi.py:73 (the node's own) are not kept in the tree, because only the print at search/voi.py:140 reads them.
- Floating point: values, priors and sums are Dafny `real`s. Rounding and NaN are not modelled.
- `math.sqrt`, `math.log`, `math.exp` and `math.pow`: these are function parameters, and the model proves no numeric fact about the U terms or the VOI formula.
- Random draws: these are parameters or index oracles. This covers Thompson's beta sample, the normal samples of `bayes.py` and `normal.py`, and `random.choices` in the BRUE exploration step.
- Move legality, `push_uci` errors and FEN parse errors (a malformed FEN raising in `LeelaBoard(fen=fen)`, engine.py:33-34): these are decided by the chess library. A board is its setup, as the joined FEN text, plus the moves pushed on it.
- The zobrist hash is the parameter `hash` of the transposition model.
- `NODE_CACHE` (search/ucd.py:11) is a module global. In the model it is the `World` value, passed in and returned.
- Ucd.Rollout: a descent that returns to a node it has already passed through makes the source loop forever. The model stops after as many edges as there are nodes and returns `Cycle`.
- `UCDEdge.n`, `p` and `mu` at depths above 0 (search/ucd.py:62-85) are left out: `mu` recurses on itself instead of on the child edge and can divide by zero. The search only uses depth 0. `terminal_value` and `terminal_visits` are never read at depth 0.
- `MinMax_search`'s final ranking (search/minmax_backup.py:78, 82) calls `Q()` on a float attribute, which raises. The MinMax search driver therefore stops at `MinMax.Grow`.
- The `defaultdict` reads of `ABUCTNode` insert the default entry. The values read do not change, so the model reads -1/+1 without inserting.
- Huang's claim that a feasible child always exists (search/alphabeta_uct.py:104) is not proved. Its failure is modelled as `NoFeasibleChild`.
- `heapq.nlargest(5, …)` principal variations are modelled only through their first element. The prediction loop that follows them only prints.
- The domain error of `math.sqrt` on a negative argument is not modelled, because the oracle is total.
- Parents are held as weak references in the source. The arena's parent ids stand in for them.
- `get_node`, which reuses a subtree for the next move, and the comparison of a move against nodes in search/alphabeta.py:92-95 are left out.
- The command loops of engine.py, engine_minmax.py and engine_bellman.py, and the game driver leela_lite.py: standard input and output, argument parsing, weight loading and timing.
- search/__init__.py imports names that no file defines.
- search/asymmetric.py calls `best_child` with coefficients on a plain `UCTNode` child, which raises at depth 1.
- search/bounds.py reads `beta` on plain `UCTNode` children.
- search/policy.py divides by a zero root policy on the first backup.
- search/backups.py calls `V()`, which no node class defines.
- search/uctv.py reads an undefined `parent` and a missing `num_visits`.
- search/variants.py reads a `reward` that `UCTNode` never sets, and its loop guard cannot hold.
- search/nse.py is a float `pow`/`ceil` budget schedule that iterates move keys as if they were nodes.
- Mcts.EvalSearch: the charge of `rollout_cost` (search/mcts.py:30) is not modelled, because line 29 raises first for every UCT node class. Node classes that do define `reward` are not drivers of this loop here.
- Brue.Choice: `random.choices` is an index oracle that may name a child whose prior is 0, which the weighted draw never picks. When every prior is 0, Python 3.9 and later raise ValueError and earlier versions pick the last child; the model picks a child in either case.
- Brue.Switch: the logarithm is an oracle. The contract bounds the switching depth by `1 + log(1 + num)` truncated, not by the exact value.

## Findings

| source | as written | input that shows it | evidently intended | confidence | as-written member | corrected member |
|---|---|---|---|---|---|---|
| search/thompson.py:63-69 | `outcome()` reads `pv[0]` for the printed prediction before the `if pv` guard | a fresh root searched with a budget of 0 has no children, so `pv[0]` raises IndexError | the guard covers the prediction, and a childless root returns no move | not executed | Thompson.OutcomeAsWritten, Thompson.NoBudgetRaises | Thompson.Outcome, Thompson.OutcomeGuard |
| search/bayes.py:103-109 | `outcome()` reads `pv[0]` before the `if pv` guard | a root without children, e.g. `BayesNode` searched with `num_reads` 0 | the guard covers the prediction | not executed | Bayes.OutcomeAsWritten, Bayes.OutcomeGuard | Bayes.Outcome |
| search/normal.py:100-106 | `outcome()` reads `pv[0]` before the `if pv` guard | a root without children, e.g. `NSNode` searched with `num_reads` 0 | the guard covers the prediction | not executed | Normal.OutcomeAsWritten, Normal.OutcomeGuard | Normal.Outcome |
| search/alphabeta.py:75-76 | the lower bound is `-max(c.v_plus[d-1])` but the upper bound is `-min(c.v_minus[d-1])`: the two lines follow different sign conventions | two exactly known children worth 0.5 and -0.5 give the parent the bounds -0.5 and 0.5, which never meet, so the root never settles | one convention on both lines: `-max` on both, as search/alphabeta_uct.py:160-161 has it, or `-min` on both, the reading of the `+value_estimate` the leaf stores at lines 69-70 | not executed | Bounds.PlusAsWritten, Bounds.AsWrittenStaysOpen, AlphaBeta.RefreshMeets | Bounds.ExactCloses, Bounds.ExactClosesToMove |
| search/mcds.py:9 | `rollout.leaf_node().expand(...)` calls `expand` on a `UCDNode`, which has no such method | a fresh root, one read, and one legal move e2e4 raise AttributeError | `rollout.expand(child_priors)` (search/ucd.py:26-29) | not executed | Ucd.SearchAsWritten, Ucd.MissingExpand | Ucd.Search, Ucd.Round |

=== FILE: alphabeta.dfy ===
/**
 * Rollout alpha-beta search (search/alphabeta.py).
 *
 * Every node carries ten lower bounds v_minus[0..9] and ten upper bounds
 * v_plus[0..9], one pair per search depth, and a window [alpha, beta] that
 * the descent writes into it. The root also carries the depth currently
 * being searched and the child recorded once that depth is settled. A
 * backup writes the leaf's value into slot 0 and recomputes slot d of the
 * ancestor d levels up from its children's slot d-1; when the root's bounds
 * at its depth meet, the root records a best child and moves one depth on.
 * The descent goes at most that depth deep, always into the first child
 * whose narrowed window is still open.
 */
module AlphaBeta {
  import opened Wrappers
  import opened Arena
  import Bounds

  /** `[-1] * 10` and `[1] * 10`: one slot per depth, so indexes 0 to 9. */
  const SLOTS: nat := 10

  /** `k=9`: `expand` keeps the first nine priors. */
  const K: nat := 9

  datatype Stat = Stat(alpha: real, beta: real, depth: nat, vMinus: seq<real>, vPlus: seq<real>, best: Option<nat>)

  type AbTree = Tree<Stat>

  /** A new node: window [-1, 1], depth 0, every lower bound -1 and every upper bound 1, no best child. */
  function Fresh(): Stat {
    Stat(-1.0, 1.0, 0, seq(SLOTS, _ => -1.0), seq(SLOTS, _ => 1.0), None)
  }

  function Seed(parent: Stat, prior: real): Stat {
    Fresh()
  }

  /** Every node has its ten slots. */
  predicate Slotted(t: AbTree) {
    forall i :: 0 <= i < |t| ==> |t[i].stat.vMinus| == SLOTS && |t[i].stat.vPlus| == SLOTS
  }

  /** The states a search passes through: ten slots everywhere and a root depth of at most ten. */
  predicate Ready(t: AbTree) {
    WellFormed(t) && BoardsReady(t) && Slotted(t) && t[0].stat.depth <= SLOTS
  }

  /** `list(child_priors.items())[:k]`. */
  function Take(ps: Priors, k: nat): (r: Priors)
    ensures |r| == if |ps| < k then |ps| else k
    ensures r == ps[..|r|]
  {
    if |ps| <= k then ps else ps[..k]
  }

  /**
   * `expand(child_priors)`: mark the node expanded and append a fresh child
   * for each of the first k priors, in order. There is no `is_expanded`
   * guard, so a second call appends again.
   */
  function Expand(t: AbTree, n: nat, ps: Priors): (u: AbTree)
    requires Ready(t) && n < |t| && t[n].board.Some?
    ensures Ready(u) && |u| == |t| + |Take(ps, K)|
    ensures u[n] == t[n].(expanded := true, children := t[n].children + seq(|Take(ps, K)|, k => |t| + k))
    ensures forall i :: 0 <= i < |t| && i != n ==> u[i] == t[i]
    ensures forall k :: 0 <= k < |u| - |t| ==> u[|t| + k] == Node(Some(n), ps[k].0, ps[k].1, false, [], None, Fresh())
  {
    var t1 := MarkExpanded(t, n);
    var qs := Take(ps, K);
    var u := AppendChildren(t1, n, qs, Seed);
    forall k | 0 <= k < |qs|
      ensures u[|t| + k] == Node(Some(n), ps[k].0, ps[k].1, false, [], None, Fresh())
    {
      assert u[|t| + k] == ChildFor(t1, n, qs[k], false, Seed);
    }
    forall i | |t| <= i < |u|
      ensures !u[i].expanded && |u[i].stat.vMinus| == SLOTS && |u[i].stat.vPlus| == SLOTS
    {
      assert u[|t| + (i - |t|)] == ChildFor(t1, n, qs[i - |t|], false, Seed);
    }
    u
  }

  /** The children's upper bounds at slot j, in child order. */
  function PlusAt(t: AbTree, kids: seq<nat>, j: nat): (r: seq<real>)
    requires Slotted(t) && j < SLOTS && forall i :: 0 <= i < |kids| ==> kids[i] < |t|
    ensures |r| == |kids| && forall i :: 0 <= i < |kids| ==> r[i] == t[kids[i]].stat.vPlus[j]
  {
    seq(|kids|, i requires 0 <= i < |kids| => t[kids[i]].stat.vPlus[j])
  }

  /** The children's lower bounds at slot j, in child order. */
  function MinusAt(t: AbTree, kids: seq<nat>, j: nat): (r: seq<real>)
    requires Slotted(t) && j < SLOTS && forall i :: 0 <= i < |kids| ==> kids[i] < |t|
    ensures |r| == |kids| && forall i :: 0 <= i < |kids| ==> r[i] == t[kids[i]].stat.vMinus[j]
  {
    seq(|kids|, i requires 0 <= i < |kids| => t[kids[i]].stat.vMinus[j])
  }

  /** Two trees that agree on the children's slot j agree on the lists read from them. */
  lemma AtSame(t: AbTree, u: AbTree, kids: seq<nat>, j: nat)
    requires Slotted(t) && Slotted(u) && j < SLOTS
    requires forall i :: 0 <= i < |kids| ==> kids[i] < |t| && kids[i] < |u|
    requires forall i :: 0 <= i < |kids| ==>
               u[kids[i]].stat.vPlus[j] == t[kids[i]].stat.vPlus[j] && u[kids[i]].stat.vMinus[j] == t[kids[i]].stat.vMinus[j]
    ensures PlusAt(u, kids, j) == PlusAt(t, kids, j) && MinusAt(u, kids, j) == MinusAt(t, kids, j)
  {}

  /**
   * `v_minus[d] = -max(c.v_plus[d-1])` and `v_plus[d] = -min(c.v_minus[d-1])`
   * over the node's children, as written; Bounds.AsWrittenCloses says when
   * this pair can meet.
   */
  function Refresh(t: AbTree, n: nat, d: nat): (s: Stat)
    requires WellFormed(t) && Slotted(t) && n < |t| && 0 < d < SLOTS && |t[n].children| > 0
  {
    var kids := t[n].children;
    var st := t[n].stat;
    st.(vMinus := st.vMinus[d := Bounds.Minus(PlusAt(t, kids, d - 1))],
        vPlus := st.vPlus[d := Bounds.PlusAsWritten(MinusAt(t, kids, d - 1))])
  }

  /**
   * With every child known exactly at slot d - 1, the refreshed slot d meets
   * only when all the children are worth the same: two children settled at
   * different values leave the node open at that depth.
   */
  lemma RefreshMeets(t: AbTree, n: nat, d: nat)
    requires WellFormed(t) && Slotted(t) && n < |t| && 0 < d < SLOTS && |t[n].children| > 0
    requires forall i :: 0 <= i < |t[n].children| ==>
               t[t[n].children[i]].stat.vMinus[d - 1] == t[t[n].children[i]].stat.vPlus[d - 1]
    ensures var s, kids := Refresh(t, n, d), t[n].children;
      s.vMinus[d] == s.vPlus[d] <==>
        forall i :: 0 <= i < |kids| ==> t[kids[i]].stat.vPlus[d - 1] == t[kids[0]].stat.vPlus[d - 1]
  {
    var kids := t[n].children;
    assert MinusAt(t, kids, d - 1) == PlusAt(t, kids, d - 1);
    Bounds.AsWrittenCloses(PlusAt(t, kids, d - 1));
  }

  /** Every node on p has at least one child. */
  predicate HasChildren(t: AbTree, p: seq<nat>) {
    forall k :: 0 <= k < |p| ==> p[k] < |t| && |t[p[k]].children| > 0
  }

  /** Only the bound lists differ between t and u. */
  predicate BoundsOnly(t: AbTree, u: AbTree) {
    |u| == |t| && forall i :: 0 <= i < |t| ==> u[i].stat.(vMinus := t[i].stat.vMinus, vPlus := t[i].stat.vPlus) == t[i].stat
  }

  /**
   * Node cur, d levels above the leaf, has children and its slot d agrees
   * with their slot d - 1, and so on for every node above it, one level up
   * each time.
   */
  predicate Agrees(u: AbTree, cur: nat, d: nat)
    requires WellFormed(u) && Slotted(u) && cur < |u| && d > 0
    decreases cur
  {
    && |u[cur].children| > 0 && d < SLOTS
    && u[cur].stat.vMinus[d] == Bounds.Minus(PlusAt(u, u[cur].children, d - 1))
    && u[cur].stat.vPlus[d] == Bounds.PlusAsWritten(MinusAt(u, u[cur].children, d - 1))
    && (cur > 0 ==> Agrees(u, u[cur].parent.value, d + 1))
  }

  /**
   * Where the loop of `backup` from cur, d levels above the leaf, gives up,
   * read off the tree's shape alone: the first node on the way up without
   * children makes `max` raise, and a level of ten or more is past the slots.
   */
  function Blocker(t: AbTree, cur: nat, d: nat): (r: Option<Fault>)
    requires WellFormed(t) && cur < |t|
    ensures r.Some? ==> r.value == NoChildren || r.value == DepthOutOfRange
    decreases cur
  {
    if |t[cur].children| == 0 then Some(NoChildren)
    else if d >= SLOTS then Some(DepthOutOfRange)
    else if cur == 0 then None
    else Blocker(t, t[cur].parent.value, d + 1)
  }

  lemma {:induction false} BlockerSame(t: AbTree, u: AbTree, cur: nat, d: nat)
    requires WellFormed(t) && SameShape(t, u) && cur < |t|
    ensures WellFormed(u) && Blocker(u, cur, d) == Blocker(t, cur, d)
    decreases cur
  {
    PathSameShape(t, u, 0);
    if cur > 0 {
      BlockerSame(t, u, t[cur].parent.value, d + 1);
    }
  }

  /** The loop gets through exactly when every node from cur up has children and the top level is below ten. */
  lemma {:induction false} BlockerPath(t: AbTree, cur: nat, d: nat)
    requires WellFormed(t) && cur < |t|
    ensures Blocker(t, cur, d).None? <==> HasChildren(t, Path(t, cur)) && d + |Path(t, cur)| <= SLOTS
    ensures HasChildren(t, Path(t, cur)) ==> Blocker(t, cur, d) != Some(NoChildren)
    decreases cur
  {
    var p := Path(t, cur);
    if |t[cur].children| == 0 {
      assert p[0] == cur;
    } else if d >= SLOTS {
      assert |p| > 0;
    } else if cur == 0 {
      assert p == [0];
    } else {
      var par := t[cur].parent.value;
      PathStep(t, cur);
      BlockerPath(t, par, d + 1);
      HasChildrenCons(t, cur, Path(t, par));
    }
  }

  /** A path has children all along exactly when its head and its tail do. */
  lemma HasChildrenCons(t: AbTree, cur: nat, q: seq<nat>)
    requires cur < |t|
    ensures HasChildren(t, [cur] + q) <==> |t[cur].children| > 0 && HasChildren(t, q)
  {
    var p := [cur] + q;
    if HasChildren(t, p) {
      assert p[0] == cur;
      forall k | 0 <= k < |q|
        ensures q[k] < |t| && |t[q[k]].children| > 0
      {
        assert p[k + 1] == q[k];
      }
    }
    if |t[cur].children| > 0 && HasChildren(t, q) {
      forall k | 0 <= k < |p|
        ensures p[k] < |t| && |t[p[k]].children| > 0
      {
        if k > 0 {
          assert p[k] == q[k - 1];
        }
      }
    }
  }

  /** One turn of the loop of `backup`: refresh slot d of node cur from its children. */
  function Step(t: AbTree, cur: nat, d: nat): (u: AbTree)
    requires WellFormed(t) && Slotted(t) && cur < |t| && 0 < d < SLOTS && |t[cur].children| > 0
    ensures WellFormed(u) && Slotted(u) && SameShape(t, u) && OnlyStats(t, u) && BoundsOnly(t, u)
    ensures forall i :: 0 <= i < |t| && i != cur ==> u[i] == t[i]
    ensures u[cur].stat.vMinus[d] == Bounds.Minus(PlusAt(t, t[cur].children, d - 1))
    ensures u[cur].stat.vPlus[d] == Bounds.PlusAsWritten(MinusAt(t, t[cur].children, d - 1))
  {
    var u := SetStat(t, cur, Refresh(t, cur, d));
    SetStatWellFormed(t, cur, u[cur].stat);
    u
  }

  /** Bound-only changes compose. */
  lemma BoundsOnlyCompose(t: AbTree, m: AbTree, u: AbTree)
    requires BoundsOnly(t, m) && BoundsOnly(m, u)
    ensures BoundsOnly(t, u)
  {
    forall i | 0 <= i < |t|
      ensures u[i].stat.(vMinus := t[i].stat.vMinus, vPlus := t[i].stat.vPlus) == t[i].stat
    {
      assert u[i].stat.(vMinus := m[i].stat.vMinus, vPlus := m[i].stat.vPlus) == m[i].stat;
      assert m[i].stat.(vMinus := t[i].stat.vMinus, vPlus := t[i].stat.vPlus) == t[i].stat;
    }
  }

  /**
   * The `while current.parent is not None` loop of `backup` from cur, which
   * sits d levels above the leaf: refresh slot d of cur from its children,
   * then go on from its parent one level up. It fails where Blocker says.
   */
  function Ascend(t: AbTree, cur: nat, d: nat): (r: Result<AbTree>)
    requires WellFormed(t) && Slotted(t) && cur < |t| && d > 0
    ensures r.Err? <==> Blocker(t, cur, d).Some?
    ensures r.Err? ==> r.fault == Blocker(t, cur, d).value
    ensures r.Ok? ==> OnlyStats(t, r.value) && Slotted(r.value)
    decreases cur
  {
    var kids := t[cur].children;
    if |kids| == 0 then Err(NoChildren)
    else if d >= SLOTS then Err(DepthOutOfRange)
    else
      var t1 := Step(t, cur, d);
      if cur == 0 then Ok(t1)
      else
        BlockerSame(t, t1, t[cur].parent.value, d + 1);
        Ascend(t1, t[cur].parent.value, d + 1)
  }

  /** A loop that gets through took one step at cur and went on from its parent. */
  lemma AscendUnfold(t: AbTree, cur: nat, d: nat)
    requires WellFormed(t) && Slotted(t) && cur < |t| && d > 0 && Ascend(t, cur, d).Ok?
    ensures |t[cur].children| > 0 && d < SLOTS
    ensures cur == 0 ==> Ascend(t, cur, d).value == Step(t, cur, d)
    ensures cur > 0 ==> Ascend(t, cur, d) == Ascend(Step(t, cur, d), t[cur].parent.value, d + 1)
  {}

  /** The loop gets to the root exactly when every node on the way has children and the top level is below ten. */
  lemma AscendOk(t: AbTree, cur: nat, d: nat)
    requires WellFormed(t) && Slotted(t) && cur < |t| && d > 0
    ensures Ascend(t, cur, d).Ok? <==> HasChildren(t, Path(t, cur)) && d + |Path(t, cur)| <= SLOTS
    ensures Ascend(t, cur, d).Err? && HasChildren(t, Path(t, cur)) ==> Ascend(t, cur, d).fault == DepthOutOfRange
  {
    BlockerPath(t, cur, d);
  }

  /** The loop changes bound lists only, and none of a node below cur. */
  lemma {:induction false} AscendFrame(t: AbTree, cur: nat, d: nat)
    requires WellFormed(t) && Slotted(t) && cur < |t| && d > 0 && Ascend(t, cur, d).Ok?
    ensures BoundsOnly(t, Ascend(t, cur, d).value)
    ensures forall i :: cur < i < |t| ==> Ascend(t, cur, d).value[i] == t[i]
    decreases cur
  {
    AscendUnfold(t, cur, d);
    if cur > 0 {
      var t1 := Step(t, cur, d);
      AscendFrame(t1, t[cur].parent.value, d + 1);
      BoundsOnlyCompose(t, t1, Ascend(t, cur, d).value);
    }
  }

  /** After the loop, cur and every node above it agree, at their levels, with their children. */
  lemma {:induction false} AscendAgrees(t: AbTree, cur: nat, d: nat)
    requires WellFormed(t) && Slotted(t) && cur < |t| && d > 0 && Ascend(t, cur, d).Ok?
    ensures OnlyStats(t, Ascend(t, cur, d).value) && WellFormed(Ascend(t, cur, d).value)
    ensures Agrees(Ascend(t, cur, d).value, cur, d)
    decreases cur
  {
    AscendUnfold(t, cur, d);
    var t1 := Step(t, cur, d);
    var u := Ascend(t, cur, d).value;
    OnlyStatsWellFormed(t, u);
    var kids := t[cur].children;
    assert u[cur] == t1[cur] && PlusAt(u, kids, d - 1) == PlusAt(t, kids, d - 1) && MinusAt(u, kids, d - 1) == MinusAt(t, kids, d - 1) by {
      ChildrenOf(t, cur);
      if cur > 0 {
        AscendFrame(t1, t[cur].parent.value, d + 1);
      }
      forall i | 0 <= i < |kids|
        ensures kids[i] < |t| && kids[i] < |u| && u[kids[i]] == t[kids[i]]
      {
        assert kids[i] in kids;
      }
      AtSame(t, u, kids, d - 1);
    }
    if cur > 0 {
      AscendAgrees(t1, t[cur].parent.value, d + 1);
    }
  }

  /** The loop leaves every node off the path from cur up alone. */
  lemma {:induction false} AscendUntouched(t: AbTree, cur: nat, d: nat)
    requires WellFormed(t) && Slotted(t) && cur < |t| && d > 0 && Ascend(t, cur, d).Ok?
    ensures Untouched(t, Ascend(t, cur, d).value, Path(t, cur))
    decreases cur
  {
    AscendUnfold(t, cur, d);
    if cur > 0 {
      var t1 := Step(t, cur, d);
      var par := t[cur].parent.value;
      AscendUntouched(t1, par, d + 1);
      PathStep(t, cur);
      PathSameShape(t, t1, par);
    }
  }

  /**
   * The first child in kids whose upper bound at slot j equals v, as an
   * index into kids: `[c for c in children if c.v_plus[j] == v][0]`.
   */
  function FirstMatch(t: AbTree, kids: seq<nat>, j: nat, v: real): (r: Option<nat>)
    requires Slotted(t) && j < SLOTS && forall i :: 0 <= i < |kids| ==> kids[i] < |t|
    ensures r.None? <==> forall i :: 0 <= i < |kids| ==> t[kids[i]].stat.vPlus[j] != v
    ensures r.Some? ==> r.value < |kids| && t[kids[r.value]].stat.vPlus[j] == v
    ensures r.Some? ==> forall i :: 0 <= i < r.value ==> t[kids[i]].stat.vPlus[j] != v
    decreases |kids|
  {
    if |kids| == 0 then None
    else if t[kids[0]].stat.vPlus[j] == v then Some(0)
    else match FirstMatch(t, kids[1..], j, v)
      case None => None
      case Some(i) => Some(i + 1)
  }

  /**
   * The loop of `get_best_child`: `while d > 1`, step into the first child
   * whose `v_plus[d-1]` equals v. The result lies d - 1 levels below cur
   * (cur itself when d <= 1).
   */
  function Follow(t: AbTree, cur: nat, d: nat, v: real): (r: Result<nat>)
    requires WellFormed(t) && Slotted(t) && cur < |t| && d < SLOTS
    ensures r.Err? ==> r.fault == NoFeasibleChild
    ensures r.Ok? ==> r.value < |t| && Depth(t, r.value) == Depth(t, cur) + (if d <= 1 then 0 else d - 1)
    ensures r.Ok? && d <= 1 ==> r.value == cur
    ensures r.Ok? && d > 1 ==> t[r.value].stat.vPlus[1] == v
    decreases d
  {
    if d <= 1 then Ok(cur)
    else
      ChildrenOf(t, cur);
      match FirstMatch(t, t[cur].children, d - 1, v)
      case None => Err(NoFeasibleChild)
      case Some(j) =>
        var c := t[cur].children[j];
        assert c in t[cur].children;
        PathStep(t, c);
        Follow(t, c, d - 1, v)
  }

  /** Two trees with the same shape and upper bounds follow the same way. */
  lemma {:induction false} FollowSame(t: AbTree, u: AbTree, cur: nat, d: nat, v: real)
    requires WellFormed(t) && Slotted(t) && WellFormed(u) && Slotted(u) && cur < |t| && d < SLOTS
    requires SameShape(t, u) && forall i :: 0 <= i < |t| ==> u[i].stat.vPlus == t[i].stat.vPlus
    ensures Follow(u, cur, d, v) == Follow(t, cur, d, v)
    decreases d
  {
    if d > 1 {
      ChildrenOf(t, cur);
      FirstMatchSame(t, u, t[cur].children, d - 1, v);
      match FirstMatch(t, t[cur].children, d - 1, v)
      case None =>
      case Some(j) =>
        FollowSame(t, u, t[cur].children[j], d - 1, v);
    }
  }

  lemma {:induction false} FirstMatchSame(t: AbTree, u: AbTree, kids: seq<nat>, j: nat, v: real)
    requires Slotted(t) && Slotted(u) && j < SLOTS && |u| == |t| && forall i :: 0 <= i < |kids| ==> kids[i] < |t|
    requires forall i :: 0 <= i < |t| ==> u[i].stat.vPlus == t[i].stat.vPlus
    ensures FirstMatch(u, kids, j, v) == FirstMatch(t, kids, j, v)
    decreases |kids|
  {
    if |kids| > 0 {
      FirstMatchSame(t, u, kids[1..], j, v);
    }
  }

  /**
   * `get_best_child(d)` on node n: read n's `v_plus[d]` and follow the first
   * children matching it. A d of ten or more is past the slots.
   */
  function GetBestChild(t: AbTree, n: nat, d: nat): (r: Result<nat>)
    requires WellFormed(t) && Slotted(t) && n < |t|
    ensures r.Err? ==> r.fault == (if d >= SLOTS then DepthOutOfRange else NoFeasibleChild)
    ensures d >= SLOTS ==> r.Err?
    ensures r.Ok? ==> r.value < |t| && Depth(t, r.value) == Depth(t, n) + (if d <= 1 then 0 else d - 1)
    ensures r.Ok? && d <= 1 ==> r.value == n
    ensures r.Ok? && d > 1 ==> t[r.value].stat.vPlus[1] == t[n].stat.vPlus[d]
  {
    if d >= SLOTS then Err(DepthOutOfRange) else Follow(t, n, d, t[n].stat.vPlus[d])
  }

  /** The root's bounds at its own depth have met. */
  predicate Met(t: AbTree) {
    |t| > 0 && t[0].stat.depth < |t[0].stat.vMinus| && t[0].stat.depth < |t[0].stat.vPlus|
    && t[0].stat.vMinus[t[0].stat.depth] == t[0].stat.vPlus[t[0].stat.depth]
  }

  /**
   * The end of `backup`: when the root's bounds at its depth meet, record
   * `self.get_best_child(d)` as the root's best child and go one depth
   * deeper. `self` is the node the backup started from, the leaf, and d is
   * the number of levels the loop climbed.
   */
  function Close(t: AbTree, leaf: nat, d: nat): (r: Result<AbTree>)
    requires WellFormed(t) && Slotted(t) && leaf < |t|
    ensures r.Err? <==> t[0].stat.depth >= SLOTS || (Met(t) && GetBestChild(t, leaf, d).Err?)
    ensures r.Err? ==> r.fault == (if t[0].stat.depth >= SLOTS then DepthOutOfRange else GetBestChild(t, leaf, d).fault)
    ensures r.Ok? ==> WellFormed(r.value) && Slotted(r.value) && OnlyStats(t, r.value)
    ensures r.Ok? ==> forall i :: 0 < i < |t| ==> r.value[i] == t[i]
    ensures r.Ok? ==> r.value[0].stat == t[0].stat.(depth := r.value[0].stat.depth, best := r.value[0].stat.best)
    ensures r.Ok? && Met(t) ==>
              r.value[0].stat.depth == t[0].stat.depth + 1 && r.value[0].stat.best == Some(GetBestChild(t, leaf, d).value)
    ensures r.Ok? && !Met(t) ==> r.value[0] == t[0]
    ensures r.Ok? ==> r.value[0].stat.depth <= SLOTS
  {
    var rd := t[0].stat.depth;
    if rd >= SLOTS then Err(DepthOutOfRange)
    else if t[0].stat.vMinus[rd] == t[0].stat.vPlus[rd] then
      match GetBestChild(t, leaf, d)
      case Err(f) => Err(f)
      case Ok(b) =>
        var u := SetStat(t, 0, t[0].stat.(best := Some(b), depth := rd + 1));
        SetStatWellFormed(t, 0, u[0].stat);
        Ok(u)
    else Ok(t)
  }

  /** `current.v_plus[0] = current.v_minus[0] = value_estimate` at the leaf. */
  function AtLeaf(s: Stat, v: real): Stat
    requires |s.vMinus| == SLOTS && |s.vPlus| == SLOTS
  {
    s.(vMinus := s.vMinus[0 := v], vPlus := s.vPlus[0 := v])
  }

  /** The first statement of `backup`: the leaf's slot 0 holds the value, both bounds. */
  function SetLeaf(t: AbTree, leaf: nat, v: real): (u: AbTree)
    requires WellFormed(t) && Slotted(t) && leaf < |t|
    ensures WellFormed(u) && Slotted(u) && SameShape(t, u) && OnlyStats(t, u) && BoundsOnly(t, u)
    ensures u[leaf].stat.vMinus[0] == v && u[leaf].stat.vPlus[0] == v
    ensures forall j :: 0 < j < SLOTS ==> u[leaf].stat.vMinus[j] == t[leaf].stat.vMinus[j] && u[leaf].stat.vPlus[j] == t[leaf].stat.vPlus[j]
    ensures forall i :: 0 <= i < |t| && i != leaf ==> u[i] == t[i]
  {
    var u := SetStat(t, leaf, AtLeaf(t[leaf].stat, v));
    SetStatWellFormed(t, leaf, u[leaf].stat);
    u
  }

  /** The bounds pass of `backup`: the leaf's slot 0, then every ancestor's slot. */
  function Bound(t: AbTree, leaf: nat, v: real): (r: Result<AbTree>)
    requires WellFormed(t) && Slotted(t) && leaf < |t|
    ensures r.Err? <==> leaf > 0 && Blocker(t, t[leaf].parent.value, 1).Some?
    ensures r.Err? ==> r.fault == Blocker(t, t[leaf].parent.value, 1).value
    ensures r.Ok? ==> OnlyStats(t, r.value) && Slotted(r.value)
  {
    var t1 := SetLeaf(t, leaf, v);
    if leaf == 0 then Ok(t1)
    else
      BlockerSame(t, t1, t[leaf].parent.value, 1);
      Ascend(t1, t[leaf].parent.value, 1)
  }

  /**
   * The bounds pass succeeds exactly when every ancestor of the leaf has
   * children and the leaf is fewer than ten levels down.
   */
  lemma BoundOk(t: AbTree, leaf: nat, v: real)
    requires WellFormed(t) && Slotted(t) && leaf < |t|
    ensures Bound(t, leaf, v).Ok? <==> HasChildren(t, Path(t, leaf)[1..]) && |Path(t, leaf)| <= SLOTS
    ensures Bound(t, leaf, v).Err? && HasChildren(t, Path(t, leaf)[1..]) ==> Bound(t, leaf, v).fault == DepthOutOfRange
  {
    if leaf > 0 {
      PathStep(t, leaf);
      assert Path(t, leaf)[1..] == Path(t, t[leaf].parent.value);
      BlockerPath(t, t[leaf].parent.value, 1);
    }
  }

  /**
   * A successful bounds pass changes bound lists only, and at the leaf only
   * slot 0, which now holds v.
   */
  lemma BoundFrame(t: AbTree, leaf: nat, v: real)
    requires WellFormed(t) && Slotted(t) && leaf < |t| && Bound(t, leaf, v).Ok?
    ensures WellFormed(Bound(t, leaf, v).value) && BoundsOnly(t, Bound(t, leaf, v).value)
    ensures Bound(t, leaf, v).value[leaf].stat == AtLeaf(t[leaf].stat, v)
  {
    var t1 := SetLeaf(t, leaf, v);
    var u := Bound(t, leaf, v).value;
    OnlyStatsWellFormed(t, u);
    if leaf > 0 {
      var par := t[leaf].parent.value;
      BlockerSame(t, t1, par, 1);
      assert u == Ascend(t1, par, 1).value;
      AscendFrame(t1, par, 1);
      BoundsOnlyCompose(t, t1, u);
    }
  }

  /** A successful bounds pass leaves every node off the path from the leaf up alone. */
  lemma BoundUntouched(t: AbTree, leaf: nat, v: real)
    requires WellFormed(t) && Slotted(t) && leaf < |t| && Bound(t, leaf, v).Ok?
    ensures Untouched(t, Bound(t, leaf, v).value, Path(t, leaf))
  {
    if leaf > 0 {
      var t1 := SetLeaf(t, leaf, v);
      var par := t[leaf].parent.value;
      BlockerSame(t, t1, par, 1);
      AscendUntouched(t1, par, 1);
      PathStep(t, leaf);
      PathSameShape(t, t1, par);
    }
  }

  /** After a successful bounds pass every ancestor of the leaf agrees, at its level, with its children. */
  lemma BoundAgrees(t: AbTree, leaf: nat, v: real)
    requires WellFormed(t) && Slotted(t) && 0 < leaf < |t| && Bound(t, leaf, v).Ok?
    ensures OnlyStats(t, Bound(t, leaf, v).value) && WellFormed(Bound(t, leaf, v).value)
    ensures Agrees(Bound(t, leaf, v).value, t[leaf].parent.value, 1)
  {
    var t1 := SetLeaf(t, leaf, v);
    var par := t[leaf].parent.value;
    OnlyStatsWellFormed(t, Bound(t, leaf, v).value);
    BlockerSame(t, t1, par, 1);
    AscendAgrees(t1, par, 1);
    assert t1[leaf].parent == t[leaf].parent;
  }

  /**
   * `backup(value_estimate)`: write the leaf's slot 0, recompute every
   * ancestor's slot, and settle the root's depth if its bounds have met.
   */
  function Backup(t: AbTree, leaf: nat, v: real): (r: Result<AbTree>)
    requires WellFormed(t) && Slotted(t) && leaf < |t|
    ensures r.Err? ==> r.fault == NoChildren || r.fault == DepthOutOfRange || r.fault == NoFeasibleChild
    ensures r.Ok? ==> WellFormed(r.value) && Slotted(r.value) && OnlyStats(t, r.value) && r.value[0].stat.depth <= SLOTS
  {
    match Bound(t, leaf, v)
    case Err(f) => Err(f)
    case Ok(m) =>
      OnlyStatsWellFormed(t, m);
      PathSameShape(t, m, leaf);
      Close(m, leaf, Depth(t, leaf))
  }

  /** Below the root, no ancestor of the leaf is childless, so the loop of `backup` can only run out of slots. */
  lemma {:induction false} BelowBlocker(t: AbTree, leaf: nat, d: nat)
    requires WellFormed(t) && 0 < leaf < |t| && Below(t, leaf, 0)
    ensures Blocker(t, t[leaf].parent.value, d) != Some(NoChildren)
    decreases leaf
  {
    var par := t[leaf].parent.value;
    assert leaf in t[par].children;
    if d < SLOTS && par > 0 {
      BelowBlocker(t, par, d + 1);
    }
  }

  /** Bound lists the same on every node. */
  predicate SameBounds(t: AbTree, u: AbTree) {
    |u| == |t| && forall i :: 0 <= i < |t| ==> u[i].stat.vMinus == t[i].stat.vMinus && u[i].stat.vPlus == t[i].stat.vPlus
  }

  lemma {:induction false} AgreesSame(t: AbTree, u: AbTree, cur: nat, d: nat)
    requires WellFormed(t) && Slotted(t) && SameShape(t, u) && SameBounds(t, u) && cur < |t| && d > 0
    ensures WellFormed(u) && Slotted(u) && (Agrees(u, cur, d) <==> Agrees(t, cur, d))
    decreases cur
  {
    PathSameShape(t, u, 0);
    ChildrenOf(t, cur);
    if d < SLOTS {
      AtSame(t, u, t[cur].children, d - 1);
    }
    if cur > 0 {
      AgreesSame(t, u, t[cur].parent.value, d + 1);
    }
  }

  /**
   * The failures of `backup`: a childless ancestor, a leaf ten or more levels
   * down, a root depth of ten, or `get_best_child` running out of matching
   * children. Below the root the first cannot happen, and a leaf ten levels
   * down always fails.
   */
  lemma BackupErrors(t: AbTree, leaf: nat, v: real)
    requires WellFormed(t) && Slotted(t) && leaf < |t|
    ensures Below(t, leaf, 0) && Backup(t, leaf, v).Err? ==> Backup(t, leaf, v).fault != NoChildren
    ensures Below(t, leaf, 0) && Depth(t, leaf) >= SLOTS ==> Backup(t, leaf, v) == Err(DepthOutOfRange)
    ensures Backup(t, leaf, v).Ok? ==> Depth(t, leaf) < SLOTS && t[0].stat.depth < SLOTS
  {
    BoundOk(t, leaf, v);
    if leaf > 0 && Below(t, leaf, 0) {
      BelowBlocker(t, leaf, 1);
    }
    if Bound(t, leaf, v).Ok? {
      BoundFrame(t, leaf, v);
    }
  }

  /** A successful backup leaves v in the leaf's slot 0 and nodes off the path alone. */
  lemma BackupFrame(t: AbTree, leaf: nat, v: real)
    requires WellFormed(t) && Slotted(t) && leaf < |t| && Backup(t, leaf, v).Ok?
    ensures var u := Backup(t, leaf, v).value;
      && Untouched(t, u, Path(t, leaf))
      && u[leaf].stat.vMinus[0] == v && u[leaf].stat.vPlus[0] == v
  {
    BoundFrame(t, leaf, v);
    BoundUntouched(t, leaf, v);
    var m := Bound(t, leaf, v).value;
    PathSameShape(t, m, leaf);
    assert Path(t, leaf)[|Path(t, leaf)| - 1] == 0;
  }

  /** Settling the root touches no bound list: a successful backup has the bounds of its bounds pass. */
  lemma BackupKeepsBounds(t: AbTree, leaf: nat, v: real)
    requires WellFormed(t) && Slotted(t) && leaf < |t| && Backup(t, leaf, v).Ok?
    ensures Bound(t, leaf, v).Ok?
    ensures SameShape(Bound(t, leaf, v).value, Backup(t, leaf, v).value)
    ensures SameBounds(Bound(t, leaf, v).value, Backup(t, leaf, v).value)
  {
    var m := Bound(t, leaf, v).value;
    OnlyStatsWellFormed(t, m);
    PathSameShape(t, m, leaf);
    assert Backup(t, leaf, v) == Close(m, leaf, Depth(t, leaf));
  }

  /** After a successful backup every ancestor of the leaf agrees, at its level, with its children. */
  lemma BackupAgrees(t: AbTree, leaf: nat, v: real)
    requires WellFormed(t) && Slotted(t) && 0 < leaf < |t| && Backup(t, leaf, v).Ok?
    ensures OnlyStats(t, Backup(t, leaf, v).value) && WellFormed(Backup(t, leaf, v).value)
    ensures Agrees(Backup(t, leaf, v).value, t[leaf].parent.value, 1)
  {
    BackupKeepsBounds(t, leaf, v);
    BoundAgrees(t, leaf, v);
    AgreesSame(Bound(t, leaf, v).value, Backup(t, leaf, v).value, t[leaf].parent.value, 1);
    OnlyStatsWellFormed(t, Backup(t, leaf, v).value);
  }

  /**
   * A successful backup moves the root one depth on, recording
   * `get_best_child` of the leaf, exactly when the root's bounds at its depth
   * have met after the bounds pass; otherwise the root keeps its depth and
   * best child.
   */
  lemma BackupSettles(t: AbTree, leaf: nat, v: real)
    requires WellFormed(t) && Slotted(t) && leaf < |t| && Backup(t, leaf, v).Ok?
    ensures var u := Backup(t, leaf, v).value;
      && (Met(Bound(t, leaf, v).value) ==>
            u[0].stat.depth == t[0].stat.depth + 1 && u[0].stat.best.Some? && GetBestChild(u, leaf, Depth(t, leaf)) == Ok(u[0].stat.best.value))
      && (!Met(Bound(t, leaf, v).value) ==> u[0].stat.depth == t[0].stat.depth && u[0].stat.best == t[0].stat.best)
  {
    BoundFrame(t, leaf, v);
    var m := Bound(t, leaf, v).value;
    var u := Backup(t, leaf, v).value;
    var d := Depth(t, leaf);
    PathSameShape(t, m, leaf);
    assert m[0].stat.depth == t[0].stat.depth && m[0].stat.best == t[0].stat.best;
    if Met(m) {
      assert SameBounds(m, u);
      OnlyStatsWellFormed(m, u);
      FollowSame(m, u, leaf, d, m[leaf].stat.vPlus[d]);
    }
  }

  /**
   * `child.alpha = max(alpha, child.v_minus[j])` and
   * `child.beta = min(beta, child.v_plus[j])`: the parent's window cut down
   * to the child's bounds at slot j.
   */
  function Narrow(s: Stat, alpha: real, beta: real, j: nat): (r: Stat)
    requires j < |s.vMinus| && j < |s.vPlus|
    ensures r == s.(alpha := r.alpha, beta := r.beta)
    ensures alpha <= r.alpha && s.vMinus[j] <= r.alpha && (r.alpha == alpha || r.alpha == s.vMinus[j])
    ensures r.beta <= beta && r.beta <= s.vPlus[j] && (r.beta == beta || r.beta == s.vPlus[j])
  {
    s.(alpha := Bounds.Max(alpha, s.vMinus[j]), beta := Bounds.Min(beta, s.vPlus[j]))
  }

  /** The window is open exactly when both the parent's window and the child's bounds leave room. */
  lemma NarrowOpen(s: Stat, alpha: real, beta: real, j: nat)
    requires j < |s.vMinus| && j < |s.vPlus|
    ensures var r := Narrow(s, alpha, beta, j);
      r.alpha < r.beta <==> alpha < beta && alpha < s.vPlus[j] && s.vMinus[j] < beta && s.vMinus[j] < s.vPlus[j]
  {}

  /** Only the windows differ between t and u. */
  predicate WindowsOnly(t: AbTree, u: AbTree) {
    |u| == |t| && forall i :: 0 <= i < |t| ==> u[i] == t[i].(stat := t[i].stat.(alpha := u[i].stat.alpha, beta := u[i].stat.beta))
  }

  lemma WindowsOnlyFacts(t: AbTree, u: AbTree)
    requires WellFormed(t) && Slotted(t) && WindowsOnly(t, u)
    ensures OnlyStats(t, u) && SameShape(t, u) && SameBounds(t, u) && WellFormed(u) && Slotted(u)
    ensures forall i :: 0 <= i < |t| ==> u[i].expanded == t[i].expanded && u[i].board == t[i].board
  {
    assert OnlyStats(t, u);
    OnlyStatsWellFormed(t, u);
  }

  lemma WindowsOnlyCompose(t: AbTree, m: AbTree, u: AbTree)
    requires WindowsOnly(t, m) && WindowsOnly(m, u)
    ensures WindowsOnly(t, u)
  {
    forall i | 0 <= i < |t|
      ensures u[i] == t[i].(stat := t[i].stat.(alpha := u[i].stat.alpha, beta := u[i].stat.beta))
    {
      assert m[i] == t[i].(stat := t[i].stat.(alpha := m[i].stat.alpha, beta := m[i].stat.beta));
    }
  }

  /** The inner `for child in current.children` loop: every child of the node gets its window. */
  function Windows(t: AbTree, kids: seq<nat>, alpha: real, beta: real, j: nat): (u: AbTree)
    requires Slotted(t) && j < SLOTS
    ensures WindowsOnly(t, u)
    ensures forall i :: 0 <= i < |t| && i !in kids ==> u[i] == t[i]
    ensures forall i :: 0 <= i < |t| && i in kids ==> u[i].stat == Narrow(t[i].stat, alpha, beta, j)
  {
    seq(|t|, i requires 0 <= i < |t| => if i in kids then t[i].(stat := Narrow(t[i].stat, alpha, beta, j)) else t[i])
  }

  /** `feasible_children[0]`: the position of the first child whose window is open, None if none is. */
  function FirstOpen(u: AbTree, kids: seq<nat>): (r: Option<nat>)
    requires forall k :: 0 <= k < |kids| ==> kids[k] < |u|
    ensures r.None? <==> forall k :: 0 <= k < |kids| ==> u[kids[k]].stat.beta <= u[kids[k]].stat.alpha
    ensures r.Some? ==> r.value < |kids| && u[kids[r.value]].stat.alpha < u[kids[r.value]].stat.beta
    ensures r.Some? ==> forall k :: 0 <= k < r.value ==> u[kids[k]].stat.beta <= u[kids[k]].stat.alpha
  {
    if |kids| == 0 then None
    else if u[kids[0]].stat.alpha < u[kids[0]].stat.beta then Some(0)
    else
      match FirstOpen(u, kids[1..])
      case None => None
      case Some(k) => Some(k + 1)
  }

  /** Neither bound leaves room: `max(alpha, v_minus[j]) >= min(beta, v_plus[j])`. */
  predicate Shut(s: Stat, alpha: real, beta: real, j: nat)
    requires j < |s.vMinus| && j < |s.vPlus|
  {
    Bounds.Min(beta, s.vPlus[j]) <= Bounds.Max(alpha, s.vMinus[j])
  }

  /**
   * One pass of the loop body: window every child of cur at slot j and take
   * the position of the first child left open. None when every child is
   * shut, where `feasible_children[0]` raises.
   */
  function Choose(t: AbTree, cur: nat, j: nat, alpha: real, beta: real): (r: Option<(AbTree, nat)>)
    requires WellFormed(t) && Slotted(t) && cur < |t| && j < SLOTS
    ensures r.None? <==> forall c :: c in t[cur].children ==> Shut(t[c].stat, alpha, beta, j)
    ensures r.Some? ==> WindowsOnly(t, r.value.0) && r.value.1 < |t[cur].children|
  {
    var kids := t[cur].children;
    ChildrenOf(t, cur);
    var u := Windows(t, kids, alpha, beta, j);
    WindowsShut(t, kids, alpha, beta, j);
    match FirstOpen(u, kids)
    case None => None
    case Some(k) => Some((u, k))
  }

  /**
   * What `Choose` picks: the first child left open, whose window is the
   * parent's window narrowed to its bounds; only the children are windowed.
   */
  lemma ChooseFacts(t: AbTree, cur: nat, j: nat, alpha: real, beta: real)
    requires WellFormed(t) && Slotted(t) && cur < |t| && j < SLOTS && Choose(t, cur, j, alpha, beta).Some?
    ensures var u, k := Choose(t, cur, j, alpha, beta).value.0, Choose(t, cur, j, alpha, beta).value.1;
      && WellFormed(u) && Slotted(u) && SameShape(t, u) && SameBounds(t, u)
      && k < |t[cur].children|
      && var c := t[cur].children[k];
      && cur < c < |t| && t[c].parent == Some(cur)
      && u[c].stat == Narrow(t[c].stat, alpha, beta, j) && !Shut(t[c].stat, alpha, beta, j)
      && (forall k' :: 0 <= k' < k ==> Shut(t[t[cur].children[k']].stat, alpha, beta, j))
      && (forall i :: 0 <= i < |t| && i !in t[cur].children ==> u[i] == t[i])
  {
    var kids := t[cur].children;
    ChildrenOf(t, cur);
    var u := Windows(t, kids, alpha, beta, j);
    WindowsOnlyFacts(t, u);
    WindowsShut(t, kids, alpha, beta, j);
  }

  /** A windowed child is closed exactly when its own bounds and the parent's window shut it. */
  lemma WindowsShut(t: AbTree, kids: seq<nat>, alpha: real, beta: real, j: nat)
    requires Slotted(t) && j < SLOTS && forall k :: 0 <= k < |kids| ==> kids[k] < |t|
    ensures var u := Windows(t, kids, alpha, beta, j);
      && (forall k :: 0 <= k < |kids| ==> (u[kids[k]].stat.beta <= u[kids[k]].stat.alpha <==> Shut(t[kids[k]].stat, alpha, beta, j)))
      && ((forall k :: 0 <= k < |kids| ==> u[kids[k]].stat.beta <= u[kids[k]].stat.alpha) <==>
          forall c :: c in kids ==> Shut(t[c].stat, alpha, beta, j))
  {
    var u := Windows(t, kids, alpha, beta, j);
    assert forall k :: 0 <= k < |kids| ==> u[kids[k]].stat == Narrow(t[kids[k]].stat, alpha, beta, j);
  }

  /** u is t after a descent: windows rewritten and boards built, nothing else. */
  predicate Descended(t: AbTree, u: AbTree) {
    |u| == |t| && forall i :: 0 <= i < |t| ==>
      u[i] == t[i].(board := u[i].board, stat := t[i].stat.(alpha := u[i].stat.alpha, beta := u[i].stat.beta))
  }

  /**
   * The loop of `select_leaf()`: from the root with d = the root's depth
   * and the root's window, while the node is expanded, has children and d
   * is not 0, window the children at slot d-1 and step into the first open
   * one, taking its negated window and one level less. No open child is the
   * `IndexError` of `feasible_children[0]`. Returns the windowed tree and
   * the node the loop stopped at.
   */
  method Descent(t: AbTree) returns (r: Result<(AbTree, nat)>)
    requires WellFormed(t) && Slotted(t) && t[0].stat.depth <= SLOTS
    ensures r.Err? ==> r.fault == NoFeasibleChild
    ensures r.Ok? ==> WindowsOnly(t, r.value.0) && r.value.0[0] == t[0] && r.value.1 < |t|
    ensures r.Ok? ==> Below(t, r.value.1, 0) && Depth(t, r.value.1) <= t[0].stat.depth
    ensures r.Ok? ==> Stops(t[r.value.1]) || Depth(t, r.value.1) == t[0].stat.depth
    ensures r.Ok? && r.value.1 != 0 ==> !Stops(t[t[r.value.1].parent.value])
    ensures r.Ok? && r.value.1 != 0 ==>
              var u, leaf := r.value.0, r.value.1;
              var j := t[0].stat.depth - Depth(t, leaf);
              && j < SLOTS
              && t[leaf].stat.vMinus[j] <= u[leaf].stat.alpha < u[leaf].stat.beta <= t[leaf].stat.vPlus[j]
  {
    var d: nat := t[0].stat.depth;
    var alpha, beta := t[0].stat.alpha, t[0].stat.beta;
    var u, cur := t, 0;
    WalkStart(t);
    while !Stops(u[cur]) && d > 0
      invariant Walking(t, u, cur, d)
      decreases d
    {
      match Choose(u, cur, d - 1, alpha, beta)
      case None =>
        return Err(NoFeasibleChild);
      case Some(p) =>
        WalkStep(t, u, cur, d, alpha, beta);
        u, cur, d := p.0, u[cur].children[p.1], d - 1;
        alpha, beta := -u[cur].stat.beta, -u[cur].stat.alpha;
    }
    WalkDone(t, u, cur, d);
    r := Ok((u, cur));
  }

  lemma WalkStart(t: AbTree)
    requires WellFormed(t) && Slotted(t) && t[0].stat.depth <= SLOTS
    ensures Walking(t, t, 0, t[0].stat.depth)
  {
    assert WindowsOnly(t, t);
  }

  /** Where the loop stops, the invariant gives what the descent promises. */
  lemma WalkDone(t: AbTree, u: AbTree, leaf: nat, d: nat)
    requires Walking(t, u, leaf, d) && (Stops(u[leaf]) || d == 0)
    ensures WindowsOnly(t, u) && u[0] == t[0] && leaf < |t|
    ensures Below(t, leaf, 0) && Depth(t, leaf) <= t[0].stat.depth
    ensures Stops(t[leaf]) || Depth(t, leaf) == t[0].stat.depth
    ensures leaf != 0 ==> !Stops(t[t[leaf].parent.value])
    ensures leaf != 0 ==>
              var j := t[0].stat.depth - Depth(t, leaf);
              && j < SLOTS
              && t[leaf].stat.vMinus[j] <= u[leaf].stat.alpha < u[leaf].stat.beta <= t[leaf].stat.vPlus[j]
  {
    WindowsOnlyFacts(t, u);
  }

  /**
   * The loop invariant of `select_leaf()`: u is t with windows rewritten,
   * the root untouched; cur hangs below the root with d levels left; a
   * non-root cur was stepped into, so its parent let the loop go on and its
   * window is open within its bounds at slot d.
   */
  predicate Walking(t: AbTree, u: AbTree, cur: nat, d: nat) {
    && WellFormed(t) && Slotted(t) && WellFormed(u) && Slotted(u) && WindowsOnly(t, u) && u[0] == t[0]
    && t[0].stat.depth <= SLOTS && cur < |t| && Below(t, cur, 0) && Depth(t, cur) + d == t[0].stat.depth
    && (cur != 0 ==> !Stops(t[t[cur].parent.value]) && d < SLOTS)
    && (cur != 0 ==> t[cur].stat.vMinus[d] <= u[cur].stat.alpha < u[cur].stat.beta <= t[cur].stat.vPlus[d])
  }

  /** One pass of the loop keeps the invariant. */
  lemma WalkStep(t: AbTree, u: AbTree, cur: nat, d: nat, alpha: real, beta: real)
    requires Walking(t, u, cur, d) && !Stops(u[cur]) && d > 0 && Choose(u, cur, d - 1, alpha, beta).Some?
    ensures var p := Choose(u, cur, d - 1, alpha, beta).value;
      p.1 < |u[cur].children| && Walking(t, p.0, u[cur].children[p.1], d - 1)
  {
    WindowsOnlyFacts(t, u);
    ChooseFacts(u, cur, d - 1, alpha, beta);
    var p := Choose(u, cur, d - 1, alpha, beta).value;
    WalkInto(t, u, p.0, cur, u[cur].children[p.1], d, alpha, beta);
  }

  /** Stepping into an open child c of cur, whose window alone changed, keeps the invariant. */
  lemma WalkInto(t: AbTree, u: AbTree, w: AbTree, cur: nat, c: nat, d: nat, alpha: real, beta: real)
    requires Walking(t, u, cur, d) && !Stops(u[cur]) && d > 0
    requires WindowsOnly(u, w) && c in u[cur].children && w[0] == u[0]
    requires w[c].stat == Narrow(u[c].stat, alpha, beta, d - 1) && !Shut(u[c].stat, alpha, beta, d - 1)
    ensures Walking(t, w, c, d - 1)
  {
    WindowsOnlyFacts(t, u);
    WindowsOnlyFacts(u, w);
    WindowsOnlyCompose(t, u, w);
    BelowStep(t, c, cur);
    PathStep(t, c);
    NarrowOpen(u[c].stat, alpha, beta, d - 1);
  }

  /**
   * `select_leaf()`: the descent, then `if not current.board:` build the
   * leaf's board from its parent's, which an expanded parent always has.
   */
  method SelectLeaf(t: AbTree) returns (r: Result<(AbTree, nat)>)
    requires Ready(t)
    ensures r.Err? ==> r.fault == NoFeasibleChild
    ensures r.Ok? ==> Ready(r.value.0) && SameShape(t, r.value.0) && SameBounds(t, r.value.0) && Descended(t, r.value.0)
    ensures r.Ok? ==> r.value.1 < |t| && r.value.0[r.value.1].board.Some?
    ensures r.Ok? ==> forall i :: 0 <= i < |t| && i != r.value.1 ==> r.value.0[i].board == t[i].board
    ensures r.Ok? ==> r.value.0[0] == t[0]
    ensures r.Ok? ==> Below(t, r.value.1, 0) && Depth(t, r.value.1) <= t[0].stat.depth
    ensures r.Ok? ==> Stops(t[r.value.1]) || Depth(t, r.value.1) == t[0].stat.depth
    ensures r.Ok? && r.value.1 != 0 ==>
              var u, leaf := r.value.0, r.value.1;
              var j := t[0].stat.depth - Depth(t, leaf);
              && j < SLOTS
              && t[leaf].stat.vMinus[j] <= u[leaf].stat.alpha < u[leaf].stat.beta <= t[leaf].stat.vPlus[j]
  {
    var walk := Descent(t);
    if walk.Err? {
      return Err(walk.fault);
    }
    var u, leaf := walk.value.0, walk.value.1;
    WindowsOnlyFacts(t, u);
    var m := Materialize(u, leaf);
    MaterializeDescended(t, u, m, leaf);
    r := Ok((m, leaf));
  }

  /** Building the leaf's board after the descent keeps every other board and flag, so the tree stays ready. */
  lemma MaterializeDescended(t: AbTree, u: AbTree, m: AbTree, leaf: nat)
    requires Ready(t) && WindowsOnly(t, u) && leaf < |t| && u[0] == t[0]
    requires leaf != 0 ==> !Stops(t[t[leaf].parent.value])
    requires WellFormed(u) && (u[leaf].board.None? ==> leaf != 0 && u[u[leaf].parent.value].board.Some?)
    requires m == Materialize(u, leaf)
    ensures Ready(m) && SameShape(t, m) && SameBounds(t, m) && Descended(t, m)
    ensures m[leaf].board.Some? && forall i :: 0 <= i < |t| && i != leaf ==> m[i].board == t[i].board
    ensures m[0] == t[0]
  {
    WindowsOnlyFacts(t, u);
    PathSameShape(t, m, 0);
  }

  /** The root's depth is positive exactly when it has recorded a best child. */
  predicate Settled(t: AbTree) {
    |t| > 0 && (t[0].stat.best.Some? <==> t[0].stat.depth > 0)
  }

  /**
   * One round of `mcts_search` over ABNodes: select a leaf, evaluate its
   * board, expand it, back up the value. Below the root no ancestor is
   * childless, so a round fails only on a shut window (NoFeasibleChild), a
   * depth past the ten slots (DepthOutOfRange), or a `get_best_child` walk
   * that finds no child matching the value (NoFeasibleChild); once the
   * root's depth reaches ten every round fails.
   */
  method Round(t: AbTree, net: Board -> Evaluation) returns (r: Result<AbTree>)
    requires Ready(t)
    ensures r.Err? ==> r.fault == NoFeasibleChild || r.fault == DepthOutOfRange
    ensures t[0].stat.depth >= SLOTS ==> r.Err?
    ensures r.Ok? ==> Ready(r.value) && |r.value| >= |t| && r.value[0].board == t[0].board
    ensures r.Ok? ==> r.value[0].stat.depth == t[0].stat.depth || r.value[0].stat.depth == t[0].stat.depth + 1
    ensures r.Ok? && r.value[0].stat.depth == t[0].stat.depth ==> r.value[0].stat.best == t[0].stat.best
    ensures r.Ok? && r.value[0].stat.depth != t[0].stat.depth ==> r.value[0].stat.best.Some?
    ensures r.Ok? && Settled(t) ==> Settled(r.value)
  {
    var sel := SelectLeaf(t);
    if sel.Err? {
      return Err(sel.fault);
    }
    var t1, leaf := sel.value.0, sel.value.1;
    BelowSame(t, t1, leaf, 0);
    r := Grow(t1, leaf, net);
  }

  /** Evaluate the selected leaf's board, expand the leaf with the priors and back up the value. */
  method Grow(t: AbTree, leaf: nat, net: Board -> Evaluation) returns (r: Result<AbTree>)
    requires Ready(t) && leaf < |t| && t[leaf].board.Some? && Below(t, leaf, 0)
    ensures r.Err? ==> r.fault == NoFeasibleChild || r.fault == DepthOutOfRange
    ensures t[0].stat.depth >= SLOTS ==> r.Err?
    ensures r.Ok? ==> Ready(r.value) && |r.value| >= |t| && r.value[0].board == t[0].board
    ensures r.Ok? ==> r.value[0].stat.depth == t[0].stat.depth || r.value[0].stat.depth == t[0].stat.depth + 1
    ensures r.Ok? && r.value[0].stat.depth == t[0].stat.depth ==> r.value[0].stat.best == t[0].stat.best
    ensures r.Ok? && r.value[0].stat.depth != t[0].stat.depth ==> r.value[0].stat.best.Some?
    ensures r.Ok? && Settled(t) ==> Settled(r.value)
  {
    var ev := net(t[leaf].board.value);
    var t2 := Expand(t, leaf, ev.priors);
    assert t2[0].stat == t[0].stat && t2[0].board == t[0].board;
    BelowGrown(t, t2, leaf, 0);
    BackupErrors(t2, leaf, ev.value);
    r := Backup(t2, leaf, ev.value);
    if r.Ok? {
      BackupSettles(t2, leaf, ev.value);
      BoundFrame(t2, leaf, ev.value);
      OnlyStatsReady(t2, r.value);
    }
  }

  /** The root `mcts_search` works on: the one supplied, or `ABNode(board=board)`. */
  function Start(board: Board, root: Option<AbTree>): (t: AbTree)
    requires root.Some? ==> Ready(root.value)
    ensures Ready(t)
    ensures root.Some? ==> t == root.value
    ensures root.None? ==> |t| == 1 && t[0].board == Some(board) && t[0].stat == Fresh() && Settled(t)
  {
    if root.Some? then root.value else Singleton(board, Fresh())
  }

  /** `outcome()`: `self.best_child.move` raises while no best child is recorded. */
  function Outcome(t: AbTree): (r: Result<nat>)
    requires |t| > 0
    ensures r.Err? <==> t[0].stat.best.None?
    ensures r.Err? ==> r.fault == Unset
    ensures r.Ok? ==> Some(r.value) == t[0].stat.best
  {
    match t[0].stat.best
    case None => Err(Unset)
    case Some(b) => Ok(b)
  }

  /** On a settled root the outcome is there exactly when some depth has been settled. */
  lemma OutcomeSettled(t: AbTree)
    requires Settled(t)
    ensures Outcome(t).Ok? <==> t[0].stat.depth > 0
  {}

  /**
   * `mcts_search` over ABNodes: `max(budget, 0)` rounds, then `outcome()`.
   * A failing round ends the search with its error.
   */
  method Search(board: Board, budget: int, net: Board -> Evaluation, root: Option<AbTree>)
    returns (r: Result<(AbTree, nat)>)
    requires root.Some? ==> Ready(root.value)
    ensures r.Err? ==> r.fault in {NoFeasibleChild, DepthOutOfRange, Unset}
    ensures r.Ok? ==> Ready(r.value.0) && |r.value.0| >= |Start(board, root)|
    ensures r.Ok? ==> Outcome(r.value.0) == Ok(r.value.1)
    ensures r.Ok? ==> Start(board, root)[0].stat.depth <= r.value.0[0].stat.depth <= Start(board, root)[0].stat.depth + (if budget > 0 then budget else 0)
    ensures root.None? && budget <= 0 ==> r == Err(Unset)
  {
    var t := Start(board, root);
    var b := budget;
    var n: nat := 0;
    while b > 0
      invariant Ready(t) && |t| >= |Start(board, root)|
      invariant n == (if budget > 0 then budget else 0) - (if b > 0 then b else 0)
      invariant Start(board, root)[0].stat.depth <= t[0].stat.depth <= Start(board, root)[0].stat.depth + n
      invariant n == 0 ==> t == Start(board, root)
    {
      var step := Round(t, net);
      if step.Err? {
        return Err(step.fault);
      }
      t := step.value;
      b := b - 1;
      n := n + 1;
    }
    match Outcome(t)
    case Err(f) => r := Err(f);
    case Ok(best) => r := Ok((t, best));
  }
}

=== FILE: alphabeta_uct.dfy ===
/**
 * Rollout alpha-beta search mixed with UCT (search/alphabeta_uct.py).
 *
 * Every node keeps, per depth, a lower bound v_minus[d] and an upper bound
 * v_plus[d] in dictionaries that read -1 (LOSS) and 1 (WIN) for depths never
 * written, plus the UCT statistics (total value, visits) and a bonus visit
 * count that the root hands out when it moves on to the next depth. The root
 * also keeps the depth being searched. Selection either steps down by UCT
 * (with probability p) or restarts from the root with the alpha-beta descent:
 * first move the root's depth on while its bounds there have met, then go at
 * most that many levels down, each time into the first of the node's
 * candidate children whose narrowed window is still open. The candidates are
 * the visited children topped up with the highest-prior unvisited ones, k in
 * all. A backup writes the leaf's value into depth 0 and recomputes depth d of
 * the ancestor d levels up from its children's depth d-1.
 */
module AbUct {
  import opened Wrappers
  import opened Arena
  import Rank
  import opened Climb
  import Bounds

  /** `TOLERANCE = 1e-8`, used where two floats are compared for equality. */
  const TOLERANCE: real := 0.00000001

  /** What a bound dictionary reads at a depth never written: `LOSS` for v_minus, `WIN` for v_plus. */
  const LOSS: real := -1.0
  const WIN: real := 1.0

  /** The search parameters a node is built with. */
  datatype Params = Params(k: int, cpuct: real, p: real, weight: real, wscale: real)

  /** `k=5, cpuct=3.4, p=0., weight=1, wscale=5`: what every child is built with. */
  const Defaults: Params := Params(5, 3.4, 0.0, 1.0, 5.0)

  /**
   * The parameters of node n: the root's are the caller's, every other node
   * is created by `add_child` and so has the defaults.
   */
  function ParamsAt(root: Params, n: nat): Params {
    if n == 0 then root else Defaults
  }

  datatype Stat = Stat(depth: nat, vMinus: map<int, real>, vPlus: map<int, real>, total: real, bonus: real, visits: nat)

  type AbuTree = Tree<Stat>

  /** `v_minus[d]` of a defaultdict with default LOSS. */
  function Lower(s: Stat, d: int): real {
    if d in s.vMinus then s.vMinus[d] else LOSS
  }

  /** `v_plus[d]` of a defaultdict with default WIN. */
  function Upper(s: Stat, d: int): real {
    if d in s.vPlus then s.vPlus[d] else WIN
  }

  function Abs(x: real): real {
    if x < 0.0 then -x else x
  }

  /** `math.fabs(v_minus[d] - v_plus[d]) < TOLERANCE`: the bounds at depth d have met. */
  predicate Closed(s: Stat, d: int) {
    Abs(Lower(s, d) - Upper(s, d)) < TOLERANCE
  }

  /** A depth no backup has written reads [-1, 1], which is open. */
  lemma UnwrittenOpen(s: Stat, d: int)
    requires d !in s.vMinus && d !in s.vPlus
    ensures !Closed(s, d)
  {}

  /** `Q() = total_value / (1 + number_visits)`; the denominator is at least 1. */
  function Q(s: Stat): (r: real)
    ensures s.visits == 0 ==> r == s.total
    ensures r * (1 + s.visits) as real == s.total
  {
    s.total / (1 + s.visits) as real
  }

  /** `ABUCTNode(board=board)`: a root with no bounds written and no value. */
  function Fresh(): Stat {
    Stat(0, map[], map[], 0.0, 0.0, 0)
  }

  /** `ABUCTNode(parent=self, move=move, prior=prior)`: `total_value = -parent.Q()`, no visits, no bonus. */
  function Seed(parent: Stat, prior: real): (s: Stat)
    ensures Q(s) == -Q(parent)
  {
    Stat(0, map[], map[], -Q(parent), 0.0, 0)
  }

  /** The trees a search passes through: well formed, with every board a descent can need. */
  predicate Ready(t: AbuTree) {
    WellFormed(t) && BoardsReady(t)
  }

  /**
   * `expand(child_priors)`: mark the node expanded and append one child per
   * prior entry, in order. The docstring's "best k children" is not applied
   * here (k only limits the alpha-beta candidates), and there is no
   * `is_expanded` guard, so a second call appends again.
   */
  function Expand(t: AbuTree, n: nat, ps: Priors): (u: AbuTree)
    requires Ready(t) && n < |t| && t[n].board.Some?
    ensures Ready(u) && |u| == |t| + |ps|
    ensures u[n] == t[n].(expanded := true, children := t[n].children + seq(|ps|, k => |t| + k))
    ensures forall i :: 0 <= i < |t| && i != n ==> u[i] == t[i]
    ensures forall k :: 0 <= k < |ps| ==>
              u[|t| + k] == Node(Some(n), ps[k].0, ps[k].1, false, [], None, Seed(t[n].stat, ps[k].1))
  {
    var t1 := MarkExpanded(t, n);
    var u := AppendChildren(t1, n, ps, Seed);
    forall k | 0 <= k < |ps|
      ensures u[|t| + k] == Node(Some(n), ps[k].0, ps[k].1, false, [], None, Seed(t[n].stat, ps[k].1))
    {
      assert u[|t| + k] == ChildFor(t1, n, ps[k], false, Seed);
    }
    forall i | |t| <= i < |u|
      ensures !u[i].expanded
    {
      assert u[|t| + (i - |t|)] == ChildFor(t1, n, ps[i - |t|], false, Seed);
    }
    u
  }

  /** A new child starts at minus its parent's Q, with nothing written into its bounds. */
  lemma ExpandSeeds(t: AbuTree, n: nat, ps: Priors, k: nat)
    requires Ready(t) && n < |t| && t[n].board.Some? && k < |ps|
    ensures var c := Expand(t, n, ps)[|t| + k];
      && Q(c.stat) == -Q(t[n].stat) && c.stat.visits == 0 && c.stat.bonus == 0.0
      && (forall d :: Lower(c.stat, d) == LOSS && Upper(c.stat, d) == WIN)
  {
    var u := Expand(t, n, ps);
    assert u[|t| + k] == Node(Some(n), ps[k].0, ps[k].1, false, [], None, Seed(t[n].stat, ps[k].1));
  }

  // ---------------------------------------------------------------- UCT step

  /** Every entry of xs is a node of t (stated by position and by membership). */
  predicate Ids(t: AbuTree, xs: seq<nat>) {
    (forall i :: 0 <= i < |xs| ==> xs[i] < |t|) && (forall x :: x in xs ==> x < |t|)
  }

  /** `number_visits + bonus_visits` summed over the nodes xs. */
  function Weight(t: AbuTree, xs: seq<nat>): real
    requires Ids(t, xs)
  {
    if |xs| == 0 then 0.0
    else Weight(t, xs[..|xs| - 1]) + t[xs[|xs| - 1]].stat.visits as real + t[xs[|xs| - 1]].stat.bonus
  }

  /** `1 + number_visits + bonus_visits`, the denominator of U. */
  function Spread(s: Stat): real {
    1.0 + s.visits as real + s.bonus
  }

  /** No child of n has a zero U denominator (a bonus of minus one more than its visits). */
  predicate Divisible(t: AbuTree, n: nat)
    requires WellFormed(t) && n < |t|
  {
    forall j :: 0 <= j < |t[n].children| ==> Spread(t[t[n].children[j]].stat) != 0.0
  }

  /**
   * `Q() + cpuct * U()` with `U() = sqrt(sibling visits) * prior / (1 + visits + bonus)`,
   * sqrt supplied by the caller. Where the denominator is zero this reads 0;
   * BestChildUct never ranks such a node.
   */
  function UctScore(nd: Node<Stat>, cpuct: real, siblings: real, sqrt: real -> real): real {
    var spread := Spread(nd.stat);
    Q(nd.stat) + cpuct * (if spread == 0.0 then 0.0 else sqrt(siblings) * nd.prior / spread)
  }

  /**
   * `best_child_uct()`: the first child maximising `Q + cpuct * U`, with node
   * n's own cpuct. A zero denominator raises ZeroDivisionError.
   */
  function BestChildUct(t: AbuTree, root: Params, n: nat, sqrt: real -> real): (r: Result<nat>)
    requires WellFormed(t) && n < |t| && |t[n].children| > 0
    ensures r.Err? <==> !Divisible(t, n)
    ensures r.Err? ==> r.fault == ZeroDivision
    ensures r.Ok? ==> r.value in t[n].children && r.value < |t|
    ensures r.Ok? ==> forall c :: c in t[n].children ==>
              UctScore(t[c], ParamsAt(root, n).cpuct, Weight(t, t[n].children), sqrt)
              <= UctScore(t[r.value], ParamsAt(root, n).cpuct, Weight(t, t[n].children), sqrt)
  {
    ChildrenOf(t, n);
    if !Divisible(t, n) then Err(ZeroDivision)
    else
      var w := Weight(t, t[n].children);
      var cpuct := ParamsAt(root, n).cpuct;
      Ok(BestBy(t, n, nd => Rank.K1(UctScore(nd, cpuct, w, sqrt))).value)
  }

  // ---------------------------------------------------------- the candidates

  /** `[c for c in xs if c.number_visits > 0]` (visited) or `[c for c in xs if not c.number_visits]`. */
  function Keep(t: AbuTree, xs: seq<nat>, visited: bool): (r: seq<nat>)
    requires Ids(t, xs)
    ensures Ids(t, r) && |r| <= |xs|
    ensures forall x :: x in r <==> x in xs && (t[x].stat.visits > 0) == visited
  {
    if |xs| == 0 then []
    else
      var init := xs[..|xs| - 1];
      var last := xs[|xs| - 1];
      assert xs == init + [last];
      var r := Keep(t, init, visited);
      if (t[last].stat.visits > 0) == visited then r + [last] else r
  }

  /** Every node goes to exactly one side. */
  lemma {:induction false} KeepSplit(t: AbuTree, xs: seq<nat>)
    requires Ids(t, xs)
    ensures |Keep(t, xs, true)| + |Keep(t, xs, false)| == |xs|
  {
    if |xs| > 0 {
      KeepSplit(t, xs[..|xs| - 1]);
    }
  }

  /** The prior of each of xs as a ranking key. */
  function PriorKeys(t: AbuTree, xs: seq<nat>): (ks: seq<Rank.Key>)
    requires Ids(t, xs)
    ensures |ks| == |xs| && forall i :: 0 <= i < |xs| ==> ks[i] == Rank.K1(t[xs[i]].prior)
  {
    seq(|xs|, i requires 0 <= i < |xs| => Rank.K1(t[xs[i]].prior))
  }

  /** xs without its entry at position i. */
  function Drop(xs: seq<nat>, i: nat): (r: seq<nat>)
    requires i < |xs|
    ensures |r| == |xs| - 1
    ensures forall x :: x in r ==> x in xs
    ensures forall x :: x in xs ==> x == xs[i] || x in r
  {
    assert xs == xs[..i] + [xs[i]] + xs[i + 1..];
    xs[..i] + xs[i + 1..]
  }

  /** xs without position i keeps every other entry as often as before. */
  lemma DropMultiset(xs: seq<nat>, i: nat)
    requires i < |xs|
    ensures multiset(xs) == multiset([xs[i]]) + multiset(Drop(xs, i))
  {
    assert xs == xs[..i] + [xs[i]] + xs[i + 1..];
  }

  /**
   * `heapq.nlargest(m, xs, key=lambda c: c.prior)`: a stable sort by
   * descending prior cut to m, i.e. the first maximum, then the first
   * maximum of the rest, and so on. TopSorted, TopAbove and TopSubMultiset
   * state what it picks.
   */
  function Top(t: AbuTree, xs: seq<nat>, m: nat): (r: seq<nat>)
    requires Ids(t, xs)
    ensures Ids(t, r) && |r| == if m < |xs| then m else |xs|
    ensures forall x :: x in r ==> x in xs
    ensures m >= |xs| ==> forall x :: x in xs ==> x in r
    decreases m
  {
    if m == 0 || |xs| == 0 then []
    else
      var i := Rank.FirstMax(PriorKeys(t, xs));
      var rest := Drop(xs, i);
      TopRest(t, xs, i);
      [xs[i]] + Top(t, rest, m - 1)
  }

  /** Taking out the first maximum leaves entries that rank no higher than it. */
  lemma TopRest(t: AbuTree, xs: seq<nat>, i: nat)
    requires Ids(t, xs)
    requires |xs| > 0 && i == Rank.FirstMax(PriorKeys(t, xs))
    ensures Ids(t, Drop(xs, i))
    ensures forall y :: y in Drop(xs, i) ==> t[y].prior <= t[xs[i]].prior
  {
    var ks := PriorKeys(t, xs);
    forall y | y in Drop(xs, i)
      ensures t[y].prior <= t[xs[i]].prior
    {
      var j :| 0 <= j < |xs| && xs[j] == y;
      assert !Rank.Below(ks[i], ks[j]);
    }
  }

  /** r is in descending order of prior. */
  predicate Descending(t: AbuTree, r: seq<nat>)
    requires Ids(t, r)
  {
    forall a, b :: 0 <= a < b < |r| ==> t[r[b]].prior <= t[r[a]].prior
  }

  /** Every entry of xs left out of r ranks no higher than any entry of r. */
  predicate Above(t: AbuTree, xs: seq<nat>, r: seq<nat>)
    requires Ids(t, xs) && Ids(t, r)
  {
    forall x, y :: x in xs && x !in r && y in r ==> t[x].prior <= t[y].prior
  }

  /** The picked entries come in descending order of prior. */
  lemma {:induction false} TopSorted(t: AbuTree, xs: seq<nat>, m: nat)
    requires Ids(t, xs)
    ensures Descending(t, Top(t, xs, m))
    decreases m
  {
    if m > 0 && |xs| > 0 {
      var i := Rank.FirstMax(PriorKeys(t, xs));
      TopUnfold(t, xs, m, i);
      TopSorted(t, Drop(xs, i), m - 1);
      TopSortedStep(t, xs, m, i);
    }
  }

  lemma TopSortedStep(t: AbuTree, xs: seq<nat>, m: nat, i: nat)
    requires Ids(t, xs) && m > 0 && |xs| > 0 && i == Rank.FirstMax(PriorKeys(t, xs)) && Ids(t, Drop(xs, i))
    requires Descending(t, Top(t, Drop(xs, i), m - 1))
    ensures Descending(t, Top(t, xs, m))
  {
    TopRest(t, xs, i);
    var rest := Drop(xs, i);
    var r := Top(t, rest, m - 1);
    TopUnfold(t, xs, m, i);
    ConsSorted(t, xs[i], rest, r);
  }

  /** nlargest puts the first highest-prior entry first, then takes m - 1 from the rest. */
  lemma TopUnfold(t: AbuTree, xs: seq<nat>, m: nat, i: nat)
    requires Ids(t, xs) && m > 0 && |xs| > 0 && i == Rank.FirstMax(PriorKeys(t, xs))
    ensures Ids(t, Drop(xs, i)) && Top(t, xs, m) == [xs[i]] + Top(t, Drop(xs, i), m - 1)
  {
    TopRest(t, xs, i);
  }

  lemma ConsSorted(t: AbuTree, top: nat, rest: seq<nat>, r: seq<nat>)
    requires Ids(t, rest) && Ids(t, r) && top < |t|
    requires forall y :: y in r ==> y in rest
    requires forall y :: y in rest ==> t[y].prior <= t[top].prior
    requires Descending(t, r)
    ensures Ids(t, [top] + r) && Descending(t, [top] + r)
  {
    var q := [top] + r;
    forall a, b | 0 <= a < b < |q|
      ensures t[q[b]].prior <= t[q[a]].prior
    {
      assert q[b] == r[b - 1] && q[b] in r;
      if a > 0 {
        assert q[a] == r[a - 1];
      }
    }
  }

  /** Every entry left out ranks no higher than any entry picked. */
  lemma {:induction false} TopAbove(t: AbuTree, xs: seq<nat>, m: nat)
    requires Ids(t, xs)
    ensures Above(t, xs, Top(t, xs, m))
    decreases m
  {
    if m > 0 && |xs| > 0 {
      var i := Rank.FirstMax(PriorKeys(t, xs));
      TopRest(t, xs, i);
      TopUnfold(t, xs, m, i);
      var rest := Drop(xs, i);
      TopAbove(t, rest, m - 1);
      ConsAbove(t, xs, xs[i], rest, Top(t, rest, m - 1));
    }
  }

  lemma ConsAbove(t: AbuTree, xs: seq<nat>, top: nat, rest: seq<nat>, r: seq<nat>)
    requires Ids(t, xs) && Ids(t, rest) && Ids(t, r) && top < |t|
    requires forall x :: x in xs ==> x == top || x in rest
    requires forall y :: y in rest ==> t[y].prior <= t[top].prior
    requires Above(t, rest, r)
    ensures Ids(t, [top] + r) && Above(t, xs, [top] + r)
  {
    var q := [top] + r;
    forall x, y | x in xs && x !in q && y in q
      ensures t[x].prior <= t[y].prior
    {
      assert x in rest;
      if y != top {
        assert y in r;
      }
    }
  }

  /** r takes each entry of xs at most as often as it occurs, and all of them when m covers xs. */
  predicate SubBag(r: seq<nat>, xs: seq<nat>, m: nat) {
    multiset(r) <= multiset(xs) && (m >= |xs| ==> multiset(r) == multiset(xs))
  }

  /** nlargest takes each entry at most as often as it occurs, and all of them when m covers xs. */
  lemma {:induction false} TopSubMultiset(t: AbuTree, xs: seq<nat>, m: nat, r: seq<nat>)
    requires Ids(t, xs) && r == Top(t, xs, m)
    ensures SubBag(r, xs, m)
    decreases m
  {
    if m > 0 && |xs| > 0 {
      var i := Rank.FirstMax(PriorKeys(t, xs));
      TopUnfold(t, xs, m, i);
      var rest := Drop(xs, i);
      var r' := Top(t, rest, m - 1);
      TopSubMultiset(t, rest, m - 1, r');
      TopMultisetStep(xs, m, i, r, r');
    }
  }

  lemma TopMultisetStep(xs: seq<nat>, m: nat, i: nat, r: seq<nat>, r': seq<nat>)
    requires m > 0 && i < |xs| && r == [xs[i]] + r'
    requires SubBag(r', Drop(xs, i), m - 1)
    ensures SubBag(r, xs, m)
  {
    DropMultiset(xs, i);
    ConsMultiset(xs[i], r');
  }

  lemma ConsMultiset(x: nat, r: seq<nat>)
    ensures multiset([x] + r) == multiset([x]) + multiset(r)
  {}

  /**
   * `ab_children()`: the visited children in child order, then, while there
   * are fewer than k of them, the k - len highest-prior unvisited children.
   */
  function AbChildren(t: AbuTree, n: nat, k: int): (r: seq<nat>)
    requires WellFormed(t) && n < |t|
    ensures Ids(t, r)
  {
    assert Ids(t, t[n].children);
    var vis := Keep(t, t[n].children, true);
    if |vis| < k then vis + Top(t, Keep(t, t[n].children, false), k - |vis|) else vis
  }

  /** The candidates are children of n, and every visited child is one. */
  lemma AbChildrenMembers(t: AbuTree, n: nat, k: int)
    requires WellFormed(t) && n < |t|
    ensures var r := AbChildren(t, n, k);
      && (forall x :: x in r ==> x in t[n].children)
      && (forall x :: x in t[n].children && t[x].stat.visits > 0 ==> x in r)
  {
    assert Ids(t, t[n].children);
  }

  /** An unvisited child is left out only in favour of unvisited candidates of no lower prior. */
  lemma AbChildrenTop(t: AbuTree, n: nat, k: int, x: nat, y: nat)
    requires WellFormed(t) && n < |t|
    requires x in t[n].children && x !in AbChildren(t, n, k)
    requires y in AbChildren(t, n, k) && t[y].stat.visits == 0
    ensures x < |t| && t[x].stat.visits == 0 && t[x].prior <= t[y].prior
  {
    assert Ids(t, t[n].children);
    TopAbove(t, Keep(t, t[n].children, false), k - |Keep(t, t[n].children, true)|);
  }

  /**
   * There are more than k candidates only when all of them are visited, and
   * fewer than k only when every child is one; so with k at least 1 there
   * are candidates exactly when there are children.
   */
  lemma AbChildrenCount(t: AbuTree, n: nat, k: int)
    requires WellFormed(t) && n < |t|
    ensures var r := AbChildren(t, n, k);
      && (|r| > k ==> forall x :: x in r ==> t[x].stat.visits > 0)
      && (|r| < k ==> forall x :: x in t[n].children ==> x in r)
      && (k >= 1 ==> (|r| > 0 <==> |t[n].children| > 0))
  {
    var kids := t[n].children;
    assert Ids(t, kids);
    KeepSplit(t, kids);
  }

  // ---------------------------------------------------- the alpha-beta descent

  /** `max(alpha, c.v_minus[j]) < min(beta, c.v_plus[j])`: the narrowed window is open. */
  predicate Open(s: Stat, alpha: real, beta: real, j: int) {
    Bounds.Max(alpha, Lower(s, j)) < Bounds.Min(beta, Upper(s, j))
  }

  /** The test `select_leaf_ab` puts each candidate to, as a predicate on its statistics. */
  function OpenAt(alpha: real, beta: real, j: int): Stat -> bool {
    s => Open(s, alpha, beta, j)
  }

  /** `[c for c in kids if ok(c)][0]`: the position of the first entry whose statistics pass ok, if any. */
  function First(t: AbuTree, kids: seq<nat>, ok: Stat -> bool): (r: Option<nat>)
    requires Ids(t, kids)
    ensures r.None? <==> forall i :: 0 <= i < |kids| ==> !ok(t[kids[i]].stat)
    ensures r.Some? ==> r.value < |kids| && ok(t[kids[r.value]].stat)
    ensures r.Some? ==> forall i :: 0 <= i < r.value ==> !ok(t[kids[i]].stat)
  {
    if |kids| == 0 then None
    else if ok(t[kids[0]].stat) then Some(0)
    else
      match First(t, kids[1..], ok)
      case None => None
      case Some(i) => Some(i + 1)
  }

  /** Where the descent stops: an unexpanded node, one without candidates, or no depth left. */
  predicate Halts(t: AbuTree, root: Params, n: nat, d: nat)
    requires WellFormed(t) && n < |t|
  {
    !t[n].expanded || |AbChildren(t, n, ParamsAt(root, n).k)| == 0 || d == 0
  }

  /** leaf is cur, or a node whose parent is expanded (so its board can be built from the parent's). */
  predicate Entered(t: AbuTree, leaf: nat, cur: nat)
    requires WellFormed(t) && leaf < |t|
  {
    leaf == cur || (leaf > 0 && t[t[leaf].parent.value].expanded)
  }

  /**
   * The loop of `select_leaf_ab` from node cur with d levels left and window
   * [alpha, beta]: step into the first open candidate, narrow the window to
   * the child's bounds at d-1 and flip it to the child's side. No open
   * candidate is an IndexError on `feasible_children[0]`.
   */
  function DescendAb(t: AbuTree, root: Params, cur: nat, d: nat, alpha: real, beta: real): (r: Result<nat>)
    requires WellFormed(t) && cur < |t|
    ensures r.Err? ==> r.fault == NoFeasibleChild
    ensures r.Ok? ==> r.value < |t| && Below(t, r.value, cur) && Entered(t, r.value, cur)
    ensures r.Ok? ==> |Path(t, r.value)| <= |Path(t, cur)| + d
    decreases d
  {
    if Halts(t, root, cur, d) then Ok(cur)
    else
      match Feasible(t, root, cur, d, alpha, beta)
      case None => Err(NoFeasibleChild)
      case Some(c) =>
        var r := DescendAb(t, root, c, d - 1, -Bounds.Min(beta, Upper(t[c].stat, d - 1)), -Bounds.Max(alpha, Lower(t[c].stat, d - 1)));
        if r.Ok? then BelowChild(t, r.value, c, cur); PathStep(t, c); r else r
  }

  /** `feasible_children[0]`: the first candidate of cur whose window at d-1 is open, or None. */
  function Feasible(t: AbuTree, root: Params, cur: nat, d: nat, alpha: real, beta: real): (r: Option<nat>)
    requires WellFormed(t) && cur < |t| && d > 0
    ensures r.Some? ==> r.value in t[cur].children && cur < r.value < |t|
  {
    var kids := AbChildren(t, cur, ParamsAt(root, cur).k);
    AbChildrenMembers(t, cur, ParamsAt(root, cur).k);
    ChildrenOf(t, cur);
    match First(t, kids, OpenAt(alpha, beta, d - 1))
    case None => None
    case Some(i) => Some(kids[i])
  }

  // ------------------------------------------------------ moving the root on

  /** `math.fabs(up + c.v_minus[j]) < TOLERANCE`: the child's lower bound at j meets the parent's upper bound, flipped. */
  predicate Matches(s: Stat, up: real, j: int) {
    Abs(up + Lower(s, j)) < TOLERANCE
  }

  /** The test `update_root` puts each child of n at depth d to. */
  function MatchAt(up: real, j: int): Stat -> bool {
    s => Matches(s, up, j)
  }

  /** c is the first child of n whose lower bound at d-1 meets n's upper bound at d. */
  predicate FirstMatching(t: AbuTree, n: nat, d: nat, c: nat)
    requires WellFormed(t) && n < |t| && d > 0
  {
    var kids := t[n].children;
    && c < |t| && c in kids && Matches(t[c].stat, Upper(t[n].stat, d), d - 1)
    && forall i :: 0 <= i < |kids| && Matches(t[kids[i]].stat, Upper(t[n].stat, d), d - 1) ==> c in kids[..i + 1]
  }

  /** No child of n has its lower bound at d-1 meeting n's upper bound at d. */
  predicate NoMatch(t: AbuTree, n: nat, d: nat)
    requires WellFormed(t) && n < |t| && d > 0
  {
    forall i :: 0 <= i < |t[n].children| ==> !Matches(t[t[n].children[i]].stat, Upper(t[n].stat, d), d - 1)
  }

  /** `candidates[0]` of one `update_root` step from n at depth d, or None where the loop breaks. */
  function Next(t: AbuTree, n: nat, d: nat): (r: Option<nat>)
    requires WellFormed(t) && n < |t| && d > 0
    ensures r.Some? ==> n < r.value < |t|
  {
    var kids := t[n].children;
    assert Ids(t, kids);
    match First(t, kids, MatchAt(Upper(t[n].stat, d), d - 1))
    case None => None
    case Some(m) => Some(kids[m])
  }

  /** Next picks the first matching child, and finds none only when no child matches. */
  lemma NextMatches(t: AbuTree, n: nat, d: nat)
    requires WellFormed(t) && n < |t| && d > 0
    ensures Next(t, n, d).Some? ==> FirstMatching(t, n, d, Next(t, n, d).value)
    ensures Next(t, n, d).None? ==> NoMatch(t, n, d)
  {
    var kids := t[n].children;
    assert Ids(t, kids);
    match First(t, kids, MatchAt(Upper(t[n].stat, d), d - 1))
    case None =>
    case Some(m) =>
      forall i | 0 <= i < |kids| && Matches(t[kids[i]].stat, Upper(t[n].stat, d), d - 1)
        ensures kids[m] in kids[..i + 1]
      {
        assert i >= m && kids[..i + 1][m] == kids[m];
      }
  }

  /**
   * The nodes `update_root` walks through from node n at depth d: the first
   * matching child, then the same from that child at d-1, until depth 0 or
   * no child matches.
   */
  function Chain(t: AbuTree, n: nat, d: nat): (r: seq<nat>)
    requires WellFormed(t) && n < |t|
    ensures |r| <= d && Ids(t, r)
    ensures forall i :: 0 <= i < |r| ==> n < r[i]
    decreases d
  {
    if d == 0 then []
    else
      match Next(t, n, d)
      case None => []
      case Some(c) => [c] + Chain(t, c, d - 1)
  }

  /** r is the walk from n at depth d: each entry the first matching child of the one before, ending at depth 0 or where nothing matches. */
  predicate Chained(t: AbuTree, n: nat, d: nat, r: seq<nat>)
    requires WellFormed(t) && n < |t|
    decreases |r|
  {
    if |r| == 0 then d == 0 || NoMatch(t, n, d)
    else d > 0 && FirstMatching(t, n, d, r[0]) && Chained(t, r[0], d - 1, r[1..])
  }

  lemma {:induction false} ChainFollows(t: AbuTree, n: nat, d: nat)
    requires WellFormed(t) && n < |t|
    ensures Chained(t, n, d, Chain(t, n, d))
    decreases d
  {
    if d > 0 {
      NextMatches(t, n, d);
      var next := Next(t, n, d);
      if next.Some? {
        var c := next.value;
        ChainFollows(t, c, d - 1);
        ChainedCons(t, n, d, c, Chain(t, c, d - 1));
      }
    }
  }

  lemma ChainedCons(t: AbuTree, n: nat, d: nat, c: nat, q: seq<nat>)
    requires WellFormed(t) && n < |t| && d > 0 && FirstMatching(t, n, d, c) && Chained(t, c, d - 1, q)
    ensures Chained(t, n, d, [c] + q)
  {
    assert ([c] + q)[1..] == q;
  }

  /** `math.pow(x, n)` for a whole exponent. */
  function Pow(x: real, n: nat): (r: real)
    ensures n == 0 ==> r == 1.0
    ensures x >= 1.0 ==> r >= 1.0
  {
    if n == 0 then 1.0 else x * Pow(x, n - 1)
  }

  /** `weight * math.pow(wscale, depth)`: the bonus the root hands out when it leaves depth d. */
  function Bonus(root: Params, d: nat): real {
    root.weight * Pow(root.wscale, d)
  }

  /** The bonus of every node of xs set to b. */
  function SetBonus(t: AbuTree, xs: seq<nat>, b: real): (u: AbuTree)
    requires Ids(t, xs)
    ensures |u| == |t|
    ensures forall i :: 0 <= i < |t| ==> u[i] == if i in xs then t[i].(stat := t[i].stat.(bonus := b)) else t[i]
  {
    if |xs| == 0 then t
    else
      var u := SetBonus(t, xs[1..], b);
      u[xs[0] := u[xs[0]].(stat := u[xs[0]].stat.(bonus := b))]
  }

  /** The bounds, totals and visits of every node are as they were. */
  predicate BoundsKept(t: AbuTree, u: AbuTree) {
    |u| == |t| && forall i :: 0 <= i < |t| ==>
      u[i].stat.(depth := t[i].stat.depth, bonus := t[i].stat.bonus) == t[i].stat
  }

  /**
   * `update_root()`: walk the chain down from the root at its depth D,
   * giving each node on it the bonus weight * wscale^D, then raise the
   * root's depth by one. Nothing else changes.
   */
  function UpdateRoot(t: AbuTree, root: Params): (u: AbuTree)
    requires WellFormed(t)
    ensures WellFormed(u) && OnlyStats(t, u) && BoundsKept(t, u)
    ensures u[0].stat.depth == t[0].stat.depth + 1 && u[0].stat.bonus == t[0].stat.bonus
    ensures forall i :: 0 < i < |t| ==> u[i].stat.depth == t[i].stat.depth
    ensures forall i :: 0 < i < |t| ==>
              u[i].stat.bonus == if i in Chain(t, 0, t[0].stat.depth) then Bonus(root, t[0].stat.depth) else t[i].stat.bonus
  {
    var d := t[0].stat.depth;
    var chain := Chain(t, 0, d);
    var v := SetBonus(t, chain, Bonus(root, d));
    assert 0 !in chain;
    var u := v[0 := v[0].(stat := v[0].stat.(depth := d + 1))];
    OnlyStatsWellFormed(t, u);
    u
  }

  /** The update walks at most D nodes, each the first matching child of the one before. */
  lemma UpdateRootChain(t: AbuTree, root: Params)
    requires WellFormed(t)
    ensures var c := Chain(t, 0, t[0].stat.depth);
      |c| <= t[0].stat.depth && Chained(t, 0, t[0].stat.depth, c)
  {
    ChainFollows(t, 0, t[0].stat.depth);
  }

  /** The depths from d on at which s has a bound written. */
  function Pending(s: Stat, d: int): set<int> {
    set k | k in s.vMinus.Keys + s.vPlus.Keys && k >= d
  }

  /** Bounds that have met at d were written there, so moving past d leaves one depth fewer pending. */
  lemma PendingShrinks(s: Stat, d: int)
    requires Closed(s, d)
    ensures |Pending(s, d + 1)| < |Pending(s, d)|
  {
    if d !in s.vMinus && d !in s.vPlus {
      UnwrittenOpen(s, d);
    }
    assert Pending(s, d) == Pending(s, d + 1) + {d};
  }

  /**
   * The loop at the top of `select_leaf_ab`: `update_root()` while the
   * root's bounds at its depth have met. The root's bounds never change on
   * the way, so the depth ends at the first depth from the start at which
   * they are apart, and every depth skipped had them met.
   */
  method Settle(t: AbuTree, root: Params) returns (u: AbuTree)
    requires WellFormed(t)
    ensures WellFormed(u) && OnlyStats(t, u) && BoundsKept(t, u)
    ensures t[0].stat.depth <= u[0].stat.depth && u[0].stat.bonus == t[0].stat.bonus
    ensures forall d :: t[0].stat.depth <= d < u[0].stat.depth ==> Closed(t[0].stat, d)
    ensures !Closed(u[0].stat, u[0].stat.depth) && !Closed(t[0].stat, u[0].stat.depth)
    ensures !Closed(t[0].stat, t[0].stat.depth) ==> u == t
  {
    u := t;
    while Closed(u[0].stat, u[0].stat.depth)
      invariant WellFormed(u) && OnlyStats(t, u) && BoundsKept(t, u)
      invariant t[0].stat.depth <= u[0].stat.depth && u[0].stat.bonus == t[0].stat.bonus
      invariant forall d :: t[0].stat.depth <= d < u[0].stat.depth ==> Closed(t[0].stat, d)
      invariant u[0].stat.depth == t[0].stat.depth ==> u == t
      decreases |Pending(t[0].stat, u[0].stat.depth)|
    {
      assert u[0].stat.vMinus == t[0].stat.vMinus && u[0].stat.vPlus == t[0].stat.vPlus;
      PendingShrinks(t[0].stat, u[0].stat.depth);
      u := UpdateRoot(u, root);
    }
    assert u[0].stat.vMinus == t[0].stat.vMinus && u[0].stat.vPlus == t[0].stat.vPlus;
  }

  // ------------------------------------------------------------- selection

  /** u is t with at most the bonuses, the root's depth and missing boards changed. */
  predicate Selected(t: AbuTree, u: AbuTree) {
    && BoundsKept(t, u)
    && (forall i :: 0 <= i < |t| ==> u[i] == t[i].(stat := u[i].stat, board := u[i].board))
    && (forall i :: 0 <= i < |t| && t[i].board.Some? ==> u[i].board == t[i].board)
  }

  lemma SelectedCompose(t: AbuTree, m: AbuTree, u: AbuTree)
    requires Selected(t, m) && Selected(m, u)
    ensures Selected(t, u)
  {}

  /** Building the leaf's board keeps a ready tree ready and the leaf where it hangs. */
  lemma MaterializeSelected(t: AbuTree, leaf: nat)
    requires Ready(t) && leaf < |t| && Entered(t, leaf, 0) && Below(t, leaf, 0)
    ensures t[leaf].board.None? ==> leaf != 0 && t[t[leaf].parent.value].board.Some?
    ensures var u := Materialize(t, leaf);
      Ready(u) && Selected(t, u) && u[leaf].board.Some? && Below(u, leaf, 0) && Path(u, leaf) == Path(t, leaf)
  {
    var u := Materialize(t, leaf);
    BelowSame(t, u, leaf, 0);
    PathSameShape(t, u, leaf);
  }

  /**
   * `select_leaf_ab()`: settle the root's depth D, then descend from the
   * root with the window [-v_plus[D], -v_minus[D]] of the root's bounds,
   * and build the leaf's board. The leaf is at most D levels down.
   */
  method SelectLeafAb(t: AbuTree, root: Params) returns (r: Result<(AbuTree, nat)>)
    requires Ready(t)
    ensures r.Err? ==> r.fault == NoFeasibleChild
    ensures r.Ok? ==> Ready(r.value.0) && Selected(t, r.value.0) && r.value.1 < |r.value.0|
    ensures r.Ok? ==> r.value.0[r.value.1].board.Some? && Below(r.value.0, r.value.1, 0)
    ensures r.Ok? ==> t[0].stat.depth <= r.value.0[0].stat.depth && !Closed(t[0].stat, r.value.0[0].stat.depth)
    ensures r.Ok? ==> |Path(r.value.0, r.value.1)| <= 1 + r.value.0[0].stat.depth
  {
    var u := Settle(t, root);
    OnlyStatsReady(t, u);
    var d := u[0].stat.depth;
    var leaf := DescendAb(u, root, 0, d, -Upper(u[0].stat, d), -Lower(u[0].stat, d));
    if leaf.Err? {
      return Err(leaf.fault);
    }
    MaterializeSelected(u, leaf.value);
    var m := Materialize(u, leaf.value);
    SelectedCompose(t, u, m);
    r := Ok((m, leaf.value));
  }

  /**
   * The loop of `select_leaf()` from cur: while the node is expanded and
   * has children, a draw below the root's p steps to `best_child_uct()`
   * and any other draw breaks out to the alpha-beta selection from the
   * root (reported as true). coin(i) is the i-th `random.random()` draw.
   */
  function UctWalk(t: AbuTree, root: Params, cur: nat, i: nat, coin: nat -> real, sqrt: real -> real): (r: Result<(nat, bool)>)
    requires WellFormed(t) && cur < |t|
    ensures r.Err? ==> r.fault == ZeroDivision
    ensures r.Ok? ==> r.value.0 < |t| && Below(t, r.value.0, cur) && Entered(t, r.value.0, cur)
    ensures r.Ok? ==> (r.value.1 <==> !Stops(t[r.value.0]))
    decreases |t| - cur
  {
    if Stops(t[cur]) then Ok((cur, false))
    else if coin(i) < root.p then
      match BestChildUct(t, root, cur, sqrt)
      case Err(f) => Err(f)
      case Ok(c) =>
        ChildrenOf(t, cur);
        var r := UctWalk(t, root, c, i + 1, coin, sqrt);
        if r.Ok? then BelowChild(t, r.value.0, c, cur); r else r
    else Ok((cur, true))
  }

  /**
   * With p at most 0 (the default is 0) no draw of `random.random()`,
   * which lies in [0, 1), is below p: the walk never takes a UCT step.
   */
  lemma NoUctStep(t: AbuTree, root: Params, cur: nat, i: nat, coin: nat -> real, sqrt: real -> real)
    requires WellFormed(t) && cur < |t|
    requires root.p <= 0.0 && forall j :: 0.0 <= coin(j)
    ensures UctWalk(t, root, cur, i, coin, sqrt) == Ok((cur, !Stops(t[cur])))
  {}

  /**
   * `select_leaf()`: the UCT walk from the root, then either the alpha-beta
   * selection from the root or the walk's own leaf, whose board is built
   * if it has none.
   */
  method SelectLeaf(t: AbuTree, root: Params, coin: nat -> real, sqrt: real -> real) returns (r: Result<(AbuTree, nat)>)
    requires Ready(t)
    ensures r.Err? ==> r.fault == ZeroDivision || r.fault == NoFeasibleChild
    ensures r.Ok? ==> Ready(r.value.0) && Selected(t, r.value.0) && r.value.1 < |r.value.0|
    ensures r.Ok? ==> r.value.0[r.value.1].board.Some? && Below(r.value.0, r.value.1, 0)
    ensures r.Ok? ==> t[0].stat.depth <= r.value.0[0].stat.depth
    ensures root.p <= 0.0 && (forall j :: 0.0 <= coin(j)) && !Stops(t[0]) ==> r.Err? || !Closed(t[0].stat, r.value.0[0].stat.depth)
  {
    var w := UctWalk(t, root, 0, 0, coin, sqrt);
    if root.p <= 0.0 && (forall j :: 0.0 <= coin(j)) {
      NoUctStep(t, root, 0, 0, coin, sqrt);
    }
    if w.Err? {
      return Err(w.fault);
    }
    var leaf := w.value.0;
    if w.value.1 {
      r := SelectLeafAb(t, root);
    } else {
      MaterializeSelected(t, leaf);
      r := Ok((Materialize(t, leaf), leaf));
    }
  }

  // ---------------------------------------------------------------- backup

  /** `backup` at the leaf: both bounds at depth 0 become -v, the total gains -v, one more visit. */
  function AtLeaf(s: Stat, v: real): Stat {
    s.(vMinus := s.vMinus[0 := -v], vPlus := s.vPlus[0 := -v], total := s.total - v, visits := s.visits + 1)
  }

  /** `[c.v_plus[j] for c in children]`, given the children's statistics. */
  function Uppers(ks: seq<Stat>, j: int): (r: seq<real>)
    ensures |r| == |ks| && forall i :: 0 <= i < |ks| ==> r[i] == Upper(ks[i], j)
  {
    seq(|ks|, i requires 0 <= i < |ks| => Upper(ks[i], j))
  }

  /** `[c.v_minus[j] for c in children]`, given the children's statistics. */
  function Lowers(ks: seq<Stat>, j: int): (r: seq<real>)
    ensures |r| == |ks| && forall i :: 0 <= i < |ks| ==> r[i] == Lower(ks[i], j)
  {
    seq(|ks|, i requires 0 <= i < |ks| => Lower(ks[i], j))
  }

  /**
   * The loop of `backup` at the ancestor d levels above the leaf, from its
   * statistics s and its children's ks: `v_minus[d] = -max(c.v_plus[d-1])`,
   * `v_plus[d] = -max(c.v_minus[d-1])`, one more visit, and v added with
   * the sign of `turnfactor`. A node without children is left alone here;
   * Backup never reaches one.
   */
  function Lift(v: real, s: Stat, ks: seq<Stat>, d: nat): Stat {
    if |ks| == 0 then s
    else
      s.(vMinus := s.vMinus[d := Bounds.Minus(Uppers(ks, d - 1))],
         vPlus := s.vPlus[d := Bounds.Plus(Lowers(ks, d - 1))],
         total := s.total + Alt(-v, d), visits := s.visits + 1)
  }

  function LiftBy(v: real): (Stat, seq<Stat>, nat) -> Stat {
    (s: Stat, ks: seq<Stat>, d: nat) => Lift(v, s, ks, d)
  }

  /** Every node of p after the first has a child. */
  predicate Childful(t: AbuTree, p: seq<nat>) {
    forall k :: 1 <= k < |p| ==> p[k] < |t| && |t[p[k]].children| > 0
  }

  /**
   * `backup(v)` from the leaf: the leaf's own update, then the recurrence at
   * every ancestor, the one d levels up at depth d. `max` over a childless
   * ancestor raises, which is the only failure.
   */
  function Backup(t: AbuTree, leaf: nat, v: real): (r: Result<AbuTree>)
    requires WellFormed(t) && leaf < |t|
    ensures r.Err? <==> !Childful(t, Path(t, leaf))
    ensures r.Err? ==> r.fault == NoChildren
    ensures r.Ok? ==> WellFormed(r.value) && OnlyStats(t, r.value) && Untouched(t, r.value, Path(t, leaf))
  {
    if !Childful(t, Path(t, leaf)) then Err(NoChildren)
    else
      var t1 := SetStat(t, leaf, AtLeaf(t[leaf].stat, v));
      SetStatWellFormed(t, leaf, AtLeaf(t[leaf].stat, v));
      PathSameShape(t, t1, leaf);
      Ok(Climb.ClimbAt(t1, leaf, 0, LiftBy(v)))
  }

  /** Below the root every ancestor has the child the path came through, so the backup succeeds. */
  lemma BackupBelow(t: AbuTree, leaf: nat, v: real)
    requires WellFormed(t) && leaf < |t| && Below(t, leaf, 0)
    ensures Backup(t, leaf, v).Ok?
  {
    BelowLinked(t, leaf);
    var p := Path(t, leaf);
    forall k | 1 <= k < |p|
      ensures p[k] < |t| && |t[p[k]].children| > 0
    {
      assert p[k - 1] in t[p[k]].children;
    }
  }

  /**
   * u is what the backup of v from leaf leaves: the leaf's update at the
   * leaf, the recurrence over the children in u at each ancestor, every
   * other node as in t.
   */
  ghost predicate Backed(t: AbuTree, u: AbuTree, leaf: nat, v: real)
    requires WellFormed(t) && leaf < |t|
  {
    var p := Path(t, leaf);
    && WellFormed(u) && |u| == |t| && Untouched(t, u, p)
    && u[leaf].stat == AtLeaf(t[leaf].stat, v)
    && (forall i :: 0 <= i < |t| ==> u[i] == t[i].(stat := u[i].stat))
    && forall k :: 1 <= k < |p| ==>
         |KidStats(u, p[k])| > 0 && u[p[k]].stat == Lift(v, t[p[k]].stat, KidStats(u, p[k]), k)
  }

  lemma BackupAt(t: AbuTree, leaf: nat, v: real, u: AbuTree)
    requires WellFormed(t) && leaf < |t| && Backup(t, leaf, v) == Ok(u)
    ensures Backed(t, u, leaf, v)
  {
    var t1 := SetStat(t, leaf, AtLeaf(t[leaf].stat, v));
    SetStatWellFormed(t, leaf, AtLeaf(t[leaf].stat, v));
    PathSameShape(t, t1, leaf);
    assert u == Climb.ClimbAt(t1, leaf, 0, LiftBy(v));
    BackedFrom(t, t1, u, leaf, v);
  }

  /** BackupAt from the climb's contract alone. */
  lemma BackedFrom(t: AbuTree, t1: AbuTree, u: AbuTree, leaf: nat, v: real)
    requires WellFormed(t) && leaf < |t| && Childful(t, Path(t, leaf))
    requires t1 == SetStat(t, leaf, AtLeaf(t[leaf].stat, v)) && WellFormed(t1) && Path(t1, leaf) == Path(t, leaf)
    requires WellFormed(u) && OnlyStats(t1, u) && Untouched(t1, u, Path(t, leaf))
    requires forall i :: leaf <= i < |t1| ==> u[i] == t1[i]
    requires Climb.RefreshedAt(t1, u, Path(t, leaf), 0, LiftBy(v))
    ensures Backed(t, u, leaf, v)
  {
    var p := Path(t, leaf);
    BackedFrame(t, t1, u, p, leaf, v);
    BackedLifts(t, t1, u, p, leaf, v);
  }

  /** Off the path nothing changes, the leaf took AtLeaf, and only statistics differ. */
  lemma BackedFrame(t: AbuTree, t1: AbuTree, u: AbuTree, p: seq<nat>, leaf: nat, v: real)
    requires leaf < |t| && |p| > 0 && p[0] == leaf
    requires t1 == SetStat(t, leaf, AtLeaf(t[leaf].stat, v))
    requires OnlyStats(t1, u) && Untouched(t1, u, p) && forall i :: leaf <= i < |t1| ==> u[i] == t1[i]
    ensures |u| == |t| && Untouched(t, u, p) && u[leaf].stat == AtLeaf(t[leaf].stat, v)
    ensures forall i :: 0 <= i < |t| ==> u[i] == t[i].(stat := u[i].stat)
  {
    assert leaf in p;
  }

  /** Every node of the path above the leaf took Lift. */
  lemma BackedLifts(t: AbuTree, t1: AbuTree, u: AbuTree, p: seq<nat>, leaf: nat, v: real)
    requires WellFormed(t) && leaf < |t| && p == Path(t, leaf) && Childful(t, p)
    requires t1 == SetStat(t, leaf, AtLeaf(t[leaf].stat, v))
    requires WellFormed(u) && OnlyStats(t1, u)
    requires Climb.RefreshedAt(t1, u, p, 0, LiftBy(v))
    ensures forall k :: 1 <= k < |p| ==>
      |KidStats(u, p[k])| > 0 && u[p[k]].stat == Lift(v, t[p[k]].stat, KidStats(u, p[k]), k)
  {
    forall k | 1 <= k < |p|
      ensures |KidStats(u, p[k])| > 0 && u[p[k]].stat == Lift(v, t[p[k]].stat, KidStats(u, p[k]), k)
    {
      LiftedAt(t, t1, u, p, leaf, v, k);
    }
  }

  /** The k-th node of the path took Lift of its own statistics and its children's in u. */
  lemma LiftedAt(t: AbuTree, t1: AbuTree, u: AbuTree, p: seq<nat>, leaf: nat, v: real, k: nat)
    requires WellFormed(t) && leaf < |t| && p == Path(t, leaf) && 1 <= k < |p| && Childful(t, p)
    requires t1 == SetStat(t, leaf, AtLeaf(t[leaf].stat, v))
    requires WellFormed(u) && OnlyStats(t1, u)
    requires Climb.RefreshedAt(t1, u, p, 0, LiftBy(v))
    ensures |KidStats(u, p[k])| > 0 && u[p[k]].stat == Lift(v, t[p[k]].stat, KidStats(u, p[k]), k)
  {
    assert p[k] < leaf;
    assert t1[p[k]] == t[p[k]];
    assert u[p[k]].children == t[p[k]].children;
    assert u[p[k]].stat == LiftBy(v)(t1[p[k]].stat, KidStats(u, p[k]), k);
  }

  /**
   * Every node on the path gets one more visit and v with a sign that
   * flips at each level, -v at the leaf; the root takes part too. Depths
   * and bonuses stay, and nodes off the path are untouched.
   */
  lemma BackupCounts(t: AbuTree, leaf: nat, v: real, u: AbuTree)
    requires WellFormed(t) && leaf < |t| && Backed(t, u, leaf, v)
    ensures forall k :: 0 <= k < |Path(t, leaf)| ==>
              && u[Path(t, leaf)[k]].stat.visits == t[Path(t, leaf)[k]].stat.visits + 1
              && u[Path(t, leaf)[k]].stat.total == t[Path(t, leaf)[k]].stat.total + Alt(-v, k)
    ensures forall i :: 0 <= i < |t| ==> u[i].stat.depth == t[i].stat.depth && u[i].stat.bonus == t[i].stat.bonus
    ensures forall i :: 0 <= i < |t| && i !in Path(t, leaf) ==> u[i] == t[i]
  {
    var p := Path(t, leaf);
    forall k | 0 <= k < |p|
      ensures u[p[k]].stat.visits == t[p[k]].stat.visits + 1 && u[p[k]].stat.total == t[p[k]].stat.total + Alt(-v, k)
    {
      if k > 0 {
        var ks := KidStats(u, p[k]);
        assert u[p[k]].stat == Lift(v, t[p[k]].stat, ks, k) && |ks| > 0;
      }
    }
    forall i | 0 <= i < |t|
      ensures u[i].stat.depth == t[i].stat.depth && u[i].stat.bonus == t[i].stat.bonus
    {
      if i in p {
        var k :| 0 <= k < |p| && p[k] == i;
      }
    }
  }

  /**
   * The bounds the backup writes: -v at depth 0 of the leaf, the
   * recurrence over the children's new bounds at depth k of the ancestor k
   * levels up, and every other depth as it was.
   */
  lemma BackupBounds(t: AbuTree, leaf: nat, v: real, u: AbuTree)
    requires WellFormed(t) && leaf < |t| && Backed(t, u, leaf, v)
    ensures Lower(u[leaf].stat, 0) == -v && Upper(u[leaf].stat, 0) == -v
    ensures forall j :: j != 0 ==> Lower(u[leaf].stat, j) == Lower(t[leaf].stat, j) && Upper(u[leaf].stat, j) == Upper(t[leaf].stat, j)
    ensures forall k :: 1 <= k < |Path(t, leaf)| ==> Recurrence(t, u, Path(t, leaf)[k], k)
  {
    var p := Path(t, leaf);
    forall k | 1 <= k < |p|
      ensures Recurrence(t, u, p[k], k)
    {
      LiftBounds(v, t[p[k]].stat, KidStats(u, p[k]), k);
    }
  }

  /**
   * Node n of u holds the recurrence at depth k over its children in u, and
   * its other depths as in t.
   */
  ghost predicate Recurrence(t: AbuTree, u: AbuTree, n: nat, k: nat)
    requires WellFormed(u) && n < |u| && n < |t|
  {
    var ks := KidStats(u, n);
    && |ks| > 0
    && Lower(u[n].stat, k) == -Bounds.MaxOf(Uppers(ks, k - 1))
    && Upper(u[n].stat, k) == -Bounds.MaxOf(Lowers(ks, k - 1))
    && forall j :: j != k ==> Lower(u[n].stat, j) == Lower(t[n].stat, j) && Upper(u[n].stat, j) == Upper(t[n].stat, j)
  }

  lemma LiftBounds(v: real, s: Stat, ks: seq<Stat>, k: nat)
    requires |ks| > 0
    ensures Lower(Lift(v, s, ks, k), k) == -Bounds.MaxOf(Uppers(ks, k - 1))
    ensures Upper(Lift(v, s, ks, k), k) == -Bounds.MaxOf(Lowers(ks, k - 1))
    ensures forall j :: j != k ==> Lower(Lift(v, s, ks, k), j) == Lower(s, j) && Upper(Lift(v, s, ks, k), j) == Upper(s, j)
  {}

  /** No depth of s has its lower bound above its upper bound. */
  ghost predicate OrderedStat(s: Stat) {
    forall d :: Lower(s, d) <= Upper(s, d)
  }

  ghost predicate Ordered(t: AbuTree) {
    forall i :: 0 <= i < |t| ==> OrderedStat(t[i].stat)
  }

  /** The recurrence keeps bounds in order: the children's ordered bounds give an ordered pair. */
  lemma LiftOrdered(v: real, s: Stat, ks: seq<Stat>, d: nat)
    requires OrderedStat(s) && forall i :: 0 <= i < |ks| ==> OrderedStat(ks[i])
    ensures OrderedStat(Lift(v, s, ks, d))
  {
    if |ks| > 0 {
      var lo, hi := Lowers(ks, d - 1), Uppers(ks, d - 1);
      forall i | 0 <= i < |ks|
        ensures lo[i] <= lo[i] <= hi[i]
      {
        assert OrderedStat(ks[i]);
        assert Lower(ks[i], d - 1) <= Upper(ks[i], d - 1);
      }
      Bounds.Sound(lo, lo, hi);
      var r := Lift(v, s, ks, d);
      forall j
        ensures Lower(r, j) <= Upper(r, j)
      {
        if j != d {
          assert Lower(r, j) == Lower(s, j) && Upper(r, j) == Upper(s, j);
        }
      }
    }
  }

  /** A backup keeps every node's bounds in order. */
  lemma BackupOrdered(t: AbuTree, leaf: nat, v: real, u: AbuTree)
    requires WellFormed(t) && leaf < |t| && Backed(t, u, leaf, v) && Ordered(t)
    ensures Ordered(u)
  {
    OrderedFrom(t, u, leaf, v, 0);
  }

  lemma {:induction false} OrderedFrom(t: AbuTree, u: AbuTree, leaf: nat, v: real, i: nat)
    requires WellFormed(t) && leaf < |t| && Backed(t, u, leaf, v) && Ordered(t)
    ensures forall j :: i <= j < |u| ==> OrderedStat(u[j].stat)
    decreases |u| - i
  {
    if i < |u| {
      OrderedFrom(t, u, leaf, v, i + 1);
      OrderedAt(t, u, leaf, v, i);
    }
  }

  lemma OrderedAt(t: AbuTree, u: AbuTree, leaf: nat, v: real, i: nat)
    requires WellFormed(t) && leaf < |t| && Backed(t, u, leaf, v) && Ordered(t) && i < |u|
    requires forall j :: i < j < |u| ==> OrderedStat(u[j].stat)
    ensures OrderedStat(u[i].stat)
  {
    var p := Path(t, leaf);
    assert OrderedStat(t[i].stat);
    if i in p {
      var k :| 0 <= k < |p| && p[k] == i;
      if k == 0 {
        AtLeafOrdered(t[i].stat, v);
      } else {
        assert u[p[k]].stat == Lift(v, t[p[k]].stat, KidStats(u, p[k]), k);
        LiftedOrdered(u, i, v, t[i].stat, k);
      }
    } else {
      assert u[i] == t[i];
    }
  }

  /** A node lifted from children whose bounds are in order has its own bounds in order. */
  lemma LiftedOrdered(u: AbuTree, i: nat, v: real, s: Stat, k: nat)
    requires WellFormed(u) && i < |u| && OrderedStat(s)
    requires forall j :: i < j < |u| ==> OrderedStat(u[j].stat)
    requires u[i].stat == Lift(v, s, KidStats(u, i), k)
    ensures OrderedStat(u[i].stat)
  {
    var ks := KidStats(u, i);
    forall j | 0 <= j < |ks|
      ensures OrderedStat(ks[j])
    {
      assert i < u[i].children[j] < |u|;
    }
    LiftOrdered(v, s, ks, k);
  }

  lemma AtLeafOrdered(s: Stat, v: real)
    requires OrderedStat(s)
    ensures OrderedStat(AtLeaf(s, v))
  {
    var r := AtLeaf(s, v);
    forall j
      ensures Lower(r, j) <= Upper(r, j)
    {
      if j != 0 {
        assert Lower(r, j) == Lower(s, j) && Upper(r, j) == Upper(s, j);
      }
    }
  }

  /** Children whose bounds at d-1 have met give bounds at d that meet, at minus the best child's value. */
  lemma LiftCloses(v: real, s: Stat, ks: seq<Stat>, d: nat)
    requires |ks| > 0 && forall i :: 0 <= i < |ks| ==> Lower(ks[i], d - 1) == Upper(ks[i], d - 1)
    ensures Lower(Lift(v, s, ks, d), d) == Upper(Lift(v, s, ks, d), d) == Bounds.Value(Lowers(ks, d - 1))
    ensures Closed(Lift(v, s, ks, d), d)
  {
    assert Uppers(ks, d - 1) == Lowers(ks, d - 1);
    Bounds.ExactCloses(Lowers(ks, d - 1));
  }

  /** New children start with no bound written, so expanding keeps every node's bounds in order. */
  lemma ExpandOrdered(t: AbuTree, n: nat, ps: Priors)
    requires Ready(t) && n < |t| && t[n].board.Some? && Ordered(t)
    ensures Ordered(Expand(t, n, ps))
  {
    var u := Expand(t, n, ps);
    forall i | 0 <= i < |u|
      ensures OrderedStat(u[i].stat)
    {
      if i >= |t| {
        assert u[|t| + (i - |t|)].stat == Seed(t[n].stat, ps[i - |t|].1);
      } else {
        assert u[i].stat == t[i].stat;
      }
    }
  }

  /** Selection changes no bound, so it keeps them in order. */
  lemma SelectedOrdered(t: AbuTree, u: AbuTree)
    requires Selected(t, u) && Ordered(t)
    ensures Ordered(u)
  {
    forall i | 0 <= i < |u|
      ensures OrderedStat(u[i].stat)
    {
      assert u[i].stat.vMinus == t[i].stat.vMinus && u[i].stat.vPlus == t[i].stat.vPlus;
      assert OrderedStat(t[i].stat);
      forall d
        ensures Lower(u[i].stat, d) <= Upper(u[i].stat, d)
      {
        assert Lower(u[i].stat, d) == Lower(t[i].stat, d) && Upper(u[i].stat, d) == Upper(t[i].stat, d);
      }
    }
  }

  // ------------------------------------------------------ outcome and search

  /** `(number_visits + bonus_visits, Q(), prior)`, the ranking of `outcome()`. */
  function OutcomeKey(nd: Node<Stat>): Rank.Key {
    Rank.Key(nd.stat.visits as real + nd.stat.bonus, Q(nd.stat), nd.prior)
  }

  /**
   * `outcome()`: `pv[0]` of `heapq.nlargest` by OutcomeKey, which is the
   * first child with the largest key; with no children `pv[0]` raises.
   */
  function Outcome(t: AbuTree): (r: Result<nat>)
    requires WellFormed(t)
    ensures r.Err? <==> |t[0].children| == 0
    ensures r.Err? ==> r.fault == NoChildren
    ensures r.Ok? ==> r.value in t[0].children && r.value < |t|
  {
    match BestBy(t, 0, OutcomeKey)
    case None => Err(NoChildren)
    case Some(c) => Ok(c)
  }

  /**
   * The outcome has the most visits counting bonuses; among those the
   * highest Q; among those the highest prior.
   */
  lemma OutcomeBest(t: AbuTree)
    requires WellFormed(t) && Outcome(t).Ok?
    ensures var b := t[Outcome(t).value];
      forall c :: c in t[0].children ==>
        && Spread(t[c].stat) <= Spread(b.stat)
        && (Spread(t[c].stat) == Spread(b.stat) ==> Q(t[c].stat) <= Q(b.stat))
        && (Spread(t[c].stat) == Spread(b.stat) && Q(t[c].stat) == Q(b.stat) ==> t[c].prior <= b.prior)
  {
    var b := t[Outcome(t).value];
    forall c | c in t[0].children
      ensures Spread(t[c].stat) <= Spread(b.stat)
    {
      assert !Rank.Below(OutcomeKey(b), OutcomeKey(t[c]));
    }
  }

  /**
   * One round of `mcts_search` over ABUCT nodes: select a leaf, evaluate
   * its board, expand it, back up the value. coin gives the round's
   * `random.random()` draws.
   */
  method Round(t: AbuTree, root: Params, net: Board -> Evaluation, coin: nat -> real, sqrt: real -> real)
    returns (r: Result<AbuTree>)
    requires Ready(t)
    ensures r.Err? ==> r.fault == ZeroDivision || r.fault == NoFeasibleChild
    ensures r.Ok? ==> Ready(r.value) && |r.value| >= |t| && r.value[0].board == t[0].board
    ensures r.Ok? ==> r.value[0].stat.visits == t[0].stat.visits + 1 && t[0].stat.depth <= r.value[0].stat.depth
    ensures r.Ok? && Ordered(t) ==> Ordered(r.value)
  {
    var sel := SelectLeaf(t, root, coin, sqrt);
    if sel.Err? {
      return Err(sel.fault);
    }
    if Ordered(t) {
      SelectedOrdered(t, sel.value.0);
    }
    var u := Grow(sel.value.0, sel.value.1, net);
    r := Ok(u);
  }

  /** Evaluate the selected leaf's board, expand the leaf with the priors and back up the value. */
  method Grow(t: AbuTree, leaf: nat, net: Board -> Evaluation) returns (u: AbuTree)
    requires Ready(t) && leaf < |t| && t[leaf].board.Some? && Below(t, leaf, 0)
    ensures Ready(u) && |u| >= |t| && u[0].board == t[0].board
    ensures u[0].stat.visits == t[0].stat.visits + 1 && u[0].stat.depth == t[0].stat.depth
    ensures Ordered(t) ==> Ordered(u)
  {
    var ev := net(t[leaf].board.value);
    var t2 := Expand(t, leaf, ev.priors);
    assert t2[0].stat == t[0].stat && t2[0].board == t[0].board;
    BelowGrown(t, t2, leaf, 0);
    BackupBelow(t2, leaf, ev.value);
    u := Backup(t2, leaf, ev.value).value;
    BackupAt(t2, leaf, ev.value, u);
    BackupCounts(t2, leaf, ev.value, u);
    var p := Path(t2, leaf);
    assert p[|p| - 1] == 0;
    OnlyStatsReady(t2, u);
    if Ordered(t) {
      ExpandOrdered(t, leaf, ev.priors);
      BackupOrdered(t2, leaf, ev.value, u);
    }
  }

  /** The root `mcts_search` works on: the one supplied, or `ABUCTNode(board=board)`. */
  function Start(board: Board, root: Option<AbuTree>): (t: AbuTree)
    requires root.Some? ==> Ready(root.value)
    ensures Ready(t)
    ensures root.Some? ==> t == root.value
    ensures root.None? ==> |t| == 1 && t[0].board == Some(board) && t[0].stat == Fresh() && Ordered(t)
  {
    if root.Some? then root.value else Singleton(board, Fresh())
  }

  /**
   * `mcts_search` over ABUCT nodes: `max(budget, 0)` rounds, then
   * `outcome()`. A root the search builds itself has the default
   * parameters; a supplied one has `params`. coin(n) gives round n's draws.
   * A failing round ends the search with its error.
   */
  method Search(board: Board, budget: int, params: Params, net: Board -> Evaluation, coin: nat -> nat -> real,
                sqrt: real -> real, root: Option<AbuTree>)
    returns (r: Result<(AbuTree, nat)>)
    requires root.Some? ==> Ready(root.value)
    ensures r.Err? ==> r.fault in {ZeroDivision, NoFeasibleChild, NoChildren}
    ensures r.Ok? ==> Ready(r.value.0) && |r.value.0| >= |Start(board, root)|
    ensures r.Ok? ==> Outcome(r.value.0) == Ok(r.value.1)
    ensures r.Ok? ==> r.value.0[0].stat.visits == Start(board, root)[0].stat.visits + (if budget > 0 then budget else 0)
    ensures r.Ok? && Ordered(Start(board, root)) ==> Ordered(r.value.0)
    ensures root.None? && budget <= 0 ==> r == Err(NoChildren)
  {
    var ps := if root.Some? then params else Defaults;
    var t := Start(board, root);
    var b := budget;
    var n: nat := 0;
    while b > 0
      invariant Ready(t) && |t| >= |Start(board, root)|
      invariant n == (if budget > 0 then budget else 0) - (if b > 0 then b else 0)
      invariant t[0].stat.visits == Start(board, root)[0].stat.visits + n
      invariant Ordered(Start(board, root)) ==> Ordered(t)
      invariant n == 0 ==> t == Start(board, root)
    {
      var step := Round(t, ps, net, coin(n), sqrt);
      if step.Err? {
        return Err(step.fault);
      }
      t := step.value;
      b := b - 1;
      n := n + 1;
    }
    match Outcome(t)
    case Err(f) => r := Err(f);
    case Ok(best) => r := Ok((t, best));
  }
}

=== FILE: arena.dfy ===
/**
 * The search tree as an arena of nodes.
 *
 * Every node class of the search package keeps a parent reference, an
 * insertion-ordered collection of children, the move that led to it, its
 * prior and a lazily or eagerly built board, plus class-specific statistics.
 * Here a tree is a sequence of nodes whose index is the node's identity; node
 * 0 is the root, and a node is always created after its parent, so a parent's
 * index is smaller than its child's. The statistics are the type parameter S.
 */
module Arena {
  import opened Wrappers
  import Rank

  type Move = string

  /** A position: the position it was set up from and the moves pushed onto it since. */
  datatype Board = Board(setup: string, pushed: seq<Move>)

  /** `board.copy()` followed by `push_uci(move)`. */
  function Push(b: Board, m: Move): Board {
    Board(b.setup, b.pushed + [m])
  }

  datatype Node<S> = Node(
    parent: Option<nat>,
    move: Move,
    prior: real,
    expanded: bool,
    children: seq<nat>,
    board: Option<Board>,
    stat: S)

  type Tree<S> = seq<Node<S>>

  /** The evaluator's move-to-prior mapping, in its iteration order. */
  type Priors = seq<(Move, real)>

  /** What `net.evaluate(board)` returns: the priors and a value in the mover's view. */
  datatype Evaluation = Evaluation(priors: Priors, value: real)

  predicate DistinctMoves(ps: Priors) {
    forall i, j :: 0 <= i < j < |ps| ==> ps[i].0 != ps[j].0
  }

  predicate WellFormed<S>(t: Tree<S>) {
    && |t| > 0
    && t[0].parent.None?
    && (forall i :: 0 < i < |t| ==> t[i].parent.Some? && t[i].parent.value < i)
    && (forall i, j :: 0 <= i < |t| && 0 <= j < |t[i].children| ==>
          i < t[i].children[j] < |t| && t[t[i].children[j]].parent == Some(i))
  }

  /** A fresh one-node tree: the root a search builds when none is supplied. */
  function Singleton<S>(board: Board, stat: S): (t: Tree<S>)
    ensures WellFormed(t)
  {
    [Node(None, "", 0.0, false, [], Some(board), stat)]
  }

  /** The ids from node i up to the root: i first, 0 last. */
  function Path<S>(t: Tree<S>, i: nat): (p: seq<nat>)
    requires WellFormed(t) && i < |t|
    ensures |p| > 0 && p[0] == i && p[|p| - 1] == 0
    ensures forall k :: 0 <= k < |p| ==> p[k] <= i < |t|
    ensures forall k :: 0 < k < |p| ==> p[k] < i
    ensures forall k :: 0 <= k < |p| - 1 ==> t[p[k]].parent == Some(p[k + 1]) && p[k + 1] < p[k]
    decreases i
  {
    if i == 0 then [0] else [i] + Path(t, t[i].parent.value)
  }

  /** A node's depth below the root. */
  function Depth<S>(t: Tree<S>, i: nat): nat
    requires WellFormed(t) && i < |t|
  {
    |Path(t, i)| - 1
  }

  /** x at even k and -x at odd k: an amount whose sign flips at every level above the leaf. */
  function Alt(x: real, k: nat): real {
    if k % 2 == 0 then x else -x
  }

  /** u differs from t in statistics only. */
  predicate OnlyStats<S(==)>(t: Tree<S>, u: Tree<S>) {
    |u| == |t| && forall i :: 0 <= i < |t| ==> u[i] == t[i].(stat := u[i].stat)
  }

  /** Every node of t off the list p is the same in u. */
  predicate Untouched<S(==)>(t: Tree<S>, u: Tree<S>, p: seq<nat>) {
    |u| == |t| && forall i :: 0 <= i < |t| && i !in p ==> u[i] == t[i]
  }

  /** Changing only statistics keeps the shape and so the parent links. */
  lemma OnlyStatsWellFormed<S>(t: Tree<S>, u: Tree<S>)
    requires WellFormed(t) && OnlyStats(t, u)
    ensures SameShape(t, u) && WellFormed(u)
  {
    assert SameShape(t, u);
    PathSameShape(t, u, 0);
  }

  /** Same parent links, children, moves and priors: only statistics, boards or flags differ. */
  predicate SameShape<S>(t: Tree<S>, u: Tree<S>) {
    && |t| == |u|
    && forall i :: 0 <= i < |t| ==>
         t[i].parent == u[i].parent && t[i].children == u[i].children
         && t[i].move == u[i].move && t[i].prior == u[i].prior
  }

  lemma {:induction false} PathSameShape<S>(t: Tree<S>, u: Tree<S>, i: nat)
    requires WellFormed(t) && SameShape(t, u) && i < |t|
    ensures WellFormed(u) && Path(u, i) == Path(t, i)
    decreases i
  {
    if i != 0 {
      PathSameShape(t, u, t[i].parent.value);
    }
  }

  /** Ids strictly decrease along a path, so no node appears on it twice. */
  lemma {:induction false} PathDecreasing<S>(t: Tree<S>, i: nat, a: nat, b: nat)
    requires WellFormed(t) && i < |t| && a < b < |Path(t, i)|
    ensures Path(t, i)[b] < Path(t, i)[a]
    decreases b - a
  {
    if b > a + 1 {
      PathDecreasing(t, i, a + 1, b);
    }
  }

  /** Path(t, i) goes through the parent of i next. */
  lemma PathStep<S>(t: Tree<S>, i: nat)
    requires WellFormed(t) && 0 < i < |t|
    ensures Path(t, i) == [i] + Path(t, t[i].parent.value)
  {}

  /** If c lies on the path from i, that path continues as the path from c. */
  lemma {:induction false} PathSuffix<S>(t: Tree<S>, i: nat, k: nat)
    requires WellFormed(t) && i < |t| && k < |Path(t, i)|
    ensures Path(t, i)[k..] == Path(t, Path(t, i)[k])
    decreases i
  {
    if k > 0 {
      assert i != 0;
      var q := t[i].parent.value;
      var p, pq := Path(t, i), Path(t, q);
      PathStep(t, i);
      PathSuffix(t, q, k - 1);
      assert p[k..] == pq[k - 1..];
    }
  }

  /** Replace a node's statistics, nothing else. */
  function SetStat<S>(t: Tree<S>, i: nat, s: S): (u: Tree<S>)
    requires i < |t|
    ensures SameShape(t, u) && |u| == |t|
    ensures u[i] == t[i].(stat := s)
    ensures forall j :: 0 <= j < |t| && j != i ==> u[j] == t[j]
  {
    t[i := t[i].(stat := s)]
  }

  lemma SetStatWellFormed<S>(t: Tree<S>, i: nat, s: S)
    requires WellFormed(t) && i < |t|
    ensures WellFormed(SetStat(t, i, s))
  {
    PathSameShape(t, SetStat(t, i, s), 0);
  }

  /** The first position in `kids` whose node has move m. */
  function FindMove<S>(t: Tree<S>, kids: seq<nat>, m: Move): (r: Option<nat>)
    requires forall j :: 0 <= j < |kids| ==> kids[j] < |t|
    ensures r.Some? ==> r.value < |kids| && t[kids[r.value]].move == m
    ensures r.None? ==> forall j :: 0 <= j < |kids| ==> t[kids[j]].move != m
  {
    if |kids| == 0 then None
    else if t[kids[0]].move == m then Some(0)
    else match FindMove(t, kids[1..], m)
      case None => None
      case Some(j) => Some(j + 1)
  }

  /**
   * `self.children[move] = child` on an OrderedDict: a new move is appended,
   * an existing move keeps its position and now maps to the new node.
   */
  function AddChild<S>(t: Tree<S>, n: nat, child: Node<S>): (u: Tree<S>)
    requires WellFormed(t) && n < |t| && child.parent == Some(n) && child.children == []
    ensures WellFormed(u) && |u| == |t| + 1 && u[|t|] == child
    ensures forall i :: 0 <= i < |t| && i != n ==> u[i] == t[i]
    ensures u[n] == t[n].(children := u[n].children)
    ensures |t[n].children| <= |u[n].children| <= |t[n].children| + 1
    ensures (forall j :: 0 <= j < |t[n].children| ==> t[t[n].children[j]].move != child.move)
            ==> u[n].children == t[n].children + [|t|]
  {
    var kids := t[n].children;
    var kids' := match FindMove(t, kids, child.move)
      case Some(j) => kids[j := |t|]
      case None => kids + [|t|];
    var u := (t + [child])[n := t[n].(children := kids')];
    assert forall i :: 0 <= i < |t| && i != n ==> u[i] == t[i];
    forall i, j | 0 <= i < |u| && 0 <= j < |u[i].children|
      ensures i < u[i].children[j] < |u| && u[u[i].children[j]].parent == Some(i)
    {
      var c := u[i].children[j];
      if i == n {
        if c != |t| {
          var j' :| 0 <= j' < |kids| && kids[j'] == c;
          assert i < c < |t| && t[c].parent == Some(i);
          assert u[c].parent == t[c].parent;
        }
      } else {
        assert i < |t| && u[i] == t[i];
        assert i < c < |t| && t[c].parent == Some(i);
        assert u[c].parent == t[c].parent;
      }
    }
    u
  }

  /** `children.append(child)` on a list of children. */
  function AppendChild<S>(t: Tree<S>, n: nat, child: Node<S>): (u: Tree<S>)
    requires WellFormed(t) && n < |t| && child.parent == Some(n) && child.children == []
    ensures WellFormed(u) && |u| == |t| + 1 && u[|t|] == child
    ensures forall i :: 0 <= i < |t| && i != n ==> u[i] == t[i]
    ensures u[n] == t[n].(children := t[n].children + [|t|])
  {
    var u := (t + [child])[n := t[n].(children := t[n].children + [|t|])];
    forall i, j | 0 <= i < |u| && 0 <= j < |u[i].children|
      ensures i < u[i].children[j] < |u| && u[u[i].children[j]].parent == Some(i)
    {
      var c := u[i].children[j];
      if i == n {
        if j < |t[n].children| {
          assert c == t[n].children[j];
          assert i < c < |t| && t[c].parent == Some(i);
          assert u[c].parent == t[c].parent;
        }
      } else {
        assert i < |t| && u[i] == t[i];
        assert i < c < |t| && t[c].parent == Some(i);
        assert u[c].parent == t[c].parent;
      }
    }
    u
  }

  /** The node `expand` creates for one prior entry of node n. */
  function ChildFor<S>(t: Tree<S>, n: nat, e: (Move, real), eager: bool, seed: (S, real) -> S): Node<S>
    requires n < |t| && (eager ==> t[n].board.Some?)
  {
    Node(Some(n), e.0, e.1, false, [],
         if eager then Some(Push(t[n].board.value, e.0)) else None,
         seed(t[n].stat, e.1))
  }

  /**
   * `for move, prior in child_priors.items(): self.add_child(move, prior)` on an
   * OrderedDict of children. With `eager` the child gets the parent's board plus
   * its move at once; otherwise its board is built when the descent reaches it.
   * `seed` computes the child's initial statistics from the parent's and the prior.
   */
  function AddChildren<S>(t: Tree<S>, n: nat, ps: Priors, eager: bool, seed: (S, real) -> S): (u: Tree<S>)
    requires WellFormed(t) && n < |t| && (eager ==> t[n].board.Some?)
    ensures WellFormed(u) && |u| == |t| + |ps|
    ensures forall i :: 0 <= i < |t| && i != n ==> u[i] == t[i]
    ensures u[n] == t[n].(children := u[n].children)
    ensures forall k :: 0 <= k < |ps| ==> u[|t| + k] == ChildFor(t, n, ps[k], eager, seed)
    decreases |ps|
  {
    if |ps| == 0 then t
    else
      var pre := ps[..|ps| - 1];
      var v := AddChildren(t, n, pre, eager, seed);
      var u := AddChild(v, n, ChildFor(t, n, ps[|ps| - 1], eager, seed));
      NewChildrenKept(t, n, ps, pre, eager, seed, v, u);
      u
  }

  /** Appending the last prior's child keeps the children made for the earlier priors. */
  lemma NewChildrenKept<S>(t: Tree<S>, n: nat, ps: Priors, pre: Priors, eager: bool, seed: (S, real) -> S, v: Tree<S>, u: Tree<S>)
    requires n < |t| && (eager ==> t[n].board.Some?) && |ps| > 0 && pre == ps[..|ps| - 1]
    requires |v| == |t| + |pre|
    requires forall k :: 0 <= k < |pre| ==> v[|t| + k] == ChildFor(t, n, pre[k], eager, seed)
    requires |u| == |v| + 1 && u[|v|] == ChildFor(t, n, ps[|ps| - 1], eager, seed)
    requires forall i :: 0 <= i < |v| && i != n ==> u[i] == v[i]
    ensures forall k :: 0 <= k < |ps| ==> u[|t| + k] == ChildFor(t, n, ps[k], eager, seed)
  {
    forall k | 0 <= k < |ps|
      ensures u[|t| + k] == ChildFor(t, n, ps[k], eager, seed)
    {
      if k < |pre| {
        assert pre[k] == ps[k];
        assert u[|t| + k] == v[|t| + k];
      }
    }
  }

  /** On a childless node and a duplicate-free prior map, the children are the new nodes in prior order. */
  lemma {:induction false} AddChildrenFresh<S>(t: Tree<S>, n: nat, ps: Priors, eager: bool, seed: (S, real) -> S)
    requires WellFormed(t) && n < |t| && (eager ==> t[n].board.Some?)
    requires t[n].children == [] && DistinctMoves(ps)
    ensures AddChildren(t, n, ps, eager, seed)[n].children == seq(|ps|, k => |t| + k)
    decreases |ps|
  {
    if |ps| > 0 {
      var pre := ps[..|ps| - 1];
      var last := ps[|ps| - 1];
      assert DistinctMoves(pre) by {
        forall i, j | 0 <= i < j < |pre| ensures pre[i].0 != pre[j].0 {
          assert pre[i] == ps[i] && pre[j] == ps[j];
        }
      }
      var v := AddChildren(t, n, pre, eager, seed);
      AddChildrenFresh(t, n, pre, eager, seed);
      assert v[n].children == seq(|pre|, k => |t| + k);
      forall j | 0 <= j < |v[n].children|
        ensures v[v[n].children[j]].move != last.0
      {
        EarlierMoveDiffers(t, n, ps, eager, seed, v, j);
      }
      AddChildAppends(v, n, ChildFor(t, n, last, eager, seed), |t|);
    }
  }

  /** The child made for an earlier prior carries a move other than the last prior's. */
  lemma EarlierMoveDiffers<S>(t: Tree<S>, n: nat, ps: Priors, eager: bool, seed: (S, real) -> S, v: Tree<S>, j: nat)
    requires n < |t| && (eager ==> t[n].board.Some?) && DistinctMoves(ps) && j < |ps| - 1
    requires |v| == |t| + |ps| - 1 && n < |v| && j < |v[n].children| && v[n].children[j] == |t| + j
    requires v[|t| + j] == ChildFor(t, n, ps[..|ps| - 1][j], eager, seed)
    ensures v[v[n].children[j]].move != ps[|ps| - 1].0
  {
    assert ps[..|ps| - 1][j] == ps[j];
  }

  /** Adding children never shortens a node's list, and gives a node at least one child once any prior is added. */
  lemma {:induction false} AddChildrenGrows<S>(t: Tree<S>, n: nat, ps: Priors, eager: bool, seed: (S, real) -> S)
    requires WellFormed(t) && n < |t| && (eager ==> t[n].board.Some?)
    ensures |t[n].children| <= |AddChildren(t, n, ps, eager, seed)[n].children|
    ensures |ps| > 0 ==> |AddChildren(t, n, ps, eager, seed)[n].children| > 0
    decreases |ps|
  {
    if |ps| > 0 {
      AddChildrenGrows(t, n, ps[..|ps| - 1], eager, seed);
    }
  }

  lemma AddChildAppends<S>(v: Tree<S>, n: nat, child: Node<S>, base: nat)
    requires WellFormed(v) && n < |v| && child.parent == Some(n) && child.children == []
    requires base <= |v| && v[n].children == seq(|v| - base, k => base + k)
    requires forall j :: 0 <= j < |v[n].children| ==> v[v[n].children[j]].move != child.move
    ensures AddChild(v, n, child)[n].children == seq(|v| + 1 - base, k => base + k)
  {
    var u := AddChild(v, n, child);
    assert u[n].children == v[n].children + [|v|];
  }

  /** The list variant: `children.append` for every prior entry, no replacement. */
  function AppendChildren<S>(t: Tree<S>, n: nat, ps: Priors, seed: (S, real) -> S): (u: Tree<S>)
    requires WellFormed(t) && n < |t|
    ensures WellFormed(u) && |u| == |t| + |ps|
    ensures forall i :: 0 <= i < |t| && i != n ==> u[i] == t[i]
    ensures u[n] == t[n].(children := t[n].children + seq(|ps|, k => |t| + k))
    ensures forall k :: 0 <= k < |ps| ==> u[|t| + k] == ChildFor(t, n, ps[k], false, seed)
    decreases |ps|
  {
    if |ps| == 0 then
      assert t[n].children + seq(0, k => |t| + k) == t[n].children;
      t
    else
      var v := AppendChildren(t, n, ps[..|ps| - 1], seed);
      var u := AppendChild(v, n, ChildFor(t, n, ps[|ps| - 1], false, seed));
      assert u[n].children == t[n].children + seq(|ps|, k => |t| + k);
      u
  }

  /** Nodes where the descent `while current.is_expanded and current.children` stops. */
  predicate Stops<S>(nd: Node<S>) {
    !nd.expanded || |nd.children| == 0
  }

  /** A child-picking rule that always returns a child of the node it is asked about. */
  predicate PicksChildren<S>(t: Tree<S>, pick: nat -> nat) {
    forall a {:trigger pick(a)} :: 0 <= a < |t| && !Stops(t[a]) ==> pick(a) in t[a].children
  }

  /**
   * Along the path p (leaf first), every node at or below n except the leaf
   * let the descent continue and passed it to the child `pick` chose.
   */
  predicate HandedDown<S>(t: Tree<S>, p: seq<nat>, n: nat, pick: nat -> nat) {
    forall k :: 1 <= k < |p| && p[k] >= n ==>
      p[k] < |t| && !Stops(t[p[k]]) && p[k - 1] == pick(p[k])
  }

  /**
   * `while current.is_expanded and current.children: current = pick(current)`.
   * The result stops the loop, lies below n, and every node on the way down
   * from n handed the descent to the child `pick` chose.
   */
  function Descend<S>(t: Tree<S>, n: nat, pick: nat -> nat): (leaf: nat)
    requires WellFormed(t) && n < |t| && PicksChildren(t, pick)
    ensures leaf < |t| && Stops(t[leaf]) && n in Path(t, leaf)
    ensures HandedDown(t, Path(t, leaf), n, pick)
    decreases |t| - n
  {
    if Stops(t[n]) then n
    else
      var c := pick(n);
      var leaf := Descend(t, c, pick);
      DescendStep(t, n, c, leaf, pick);
      leaf
  }

  /** The path from leaf runs through c and then straight on to c's parent. */
  lemma PathThrough<S>(t: Tree<S>, leaf: nat, c: nat) returns (j: nat)
    requires WellFormed(t) && leaf < |t| && c in Path(t, leaf) && c != 0
    ensures j + 1 < |Path(t, leaf)| && Path(t, leaf)[j] == c && Path(t, leaf)[j + 1] == t[c].parent.value
  {
    var p := Path(t, leaf);
    j :| 0 <= j < |p| && p[j] == c;
    PathSuffix(t, leaf, j);
    assert p[j..] == Path(t, c);
  }

  predicate StrictlyDecreasing(p: seq<nat>) {
    forall a, b :: 0 <= a < b < |p| ==> p[b] < p[a]
  }

  lemma {:induction false} PathStrictlyDecreasing<S>(t: Tree<S>, i: nat)
    requires WellFormed(t) && i < |t|
    ensures StrictlyDecreasing(Path(t, i))
  {
    var p := Path(t, i);
    forall a, b | 0 <= a < b < |p| ensures p[b] < p[a] {
      PathDecreasing(t, i, a, b);
    }
  }

  lemma HandedDownExtend<S>(t: Tree<S>, p: seq<nat>, j: nat, n: nat, pick: nat -> nat)
    requires StrictlyDecreasing(p) && j + 1 < |p| && p[j + 1] == n
    requires n < |t| && !Stops(t[n]) && p[j] == pick(n)
    requires HandedDown(t, p, p[j], pick)
    ensures HandedDown(t, p, n, pick)
  {
    forall k | 1 <= k < |p| && p[k] >= n
      ensures p[k] < |t| && !Stops(t[p[k]]) && p[k - 1] == pick(p[k])
    {
      if k <= j {
        assert p[k] >= p[j];
      }
    }
  }

  lemma DescendStep<S>(t: Tree<S>, n: nat, c: nat, leaf: nat, pick: nat -> nat)
    requires WellFormed(t) && n < |t| && !Stops(t[n]) && c == pick(n) && PicksChildren(t, pick)
    requires leaf < |t| && c in Path(t, leaf)
    requires HandedDown(t, Path(t, leaf), c, pick)
    ensures n in Path(t, leaf)
    ensures HandedDown(t, Path(t, leaf), n, pick)
  {
    assert c in t[n].children;
    assert t[c].parent == Some(n) && c != 0;
    var j := PathThrough(t, leaf, c);
    PathStrictlyDecreasing(t, leaf);
    HandedDownExtend(t, Path(t, leaf), j, n, pick);
  }

  /**
   * `max(kids, key=key)`: the position of the first of `kids` whose node has
   * a maximal key.
   */
  function ArgBest<S>(t: Tree<S>, kids: seq<nat>, key: Node<S> -> Rank.Key): (i: nat)
    requires |kids| > 0 && forall j :: 0 <= j < |kids| ==> kids[j] < |t|
    ensures i < |kids|
    ensures forall j :: 0 <= j < |kids| ==> !Rank.Below(key(t[kids[i]]), key(t[kids[j]]))
    ensures forall j :: 0 <= j < i ==> Rank.Below(key(t[kids[j]]), key(t[kids[i]]))
  {
    var ks := seq(|kids|, j requires 0 <= j < |kids| => key(t[kids[j]]));
    assert forall j :: 0 <= j < |kids| ==> ks[j] == key(t[kids[j]]);
    Rank.FirstMax(ks)
  }

  /**
   * The child of n ranked first by `key`, or None when n has no children
   * (where the search code's `pv[0]` or `max` would raise).
   */
  function BestBy<S>(t: Tree<S>, n: nat, key: Node<S> -> Rank.Key): (r: Option<nat>)
    requires WellFormed(t) && n < |t|
    ensures r.None? <==> |t[n].children| == 0
    ensures r.Some? ==> r.value in t[n].children && r.value < |t|
    ensures r.Some? ==> forall c :: c in t[n].children ==> !Rank.Below(key(t[r.value]), key(t[c]))
    ensures r.Some? ==> forall j :: 0 <= j < |t[n].children| && t[n].children[j] != r.value ==>
              Rank.Below(key(t[t[n].children[j]]), key(t[r.value])) || exists i :: 0 <= i < j && t[n].children[i] == r.value
  {
    var kids := t[n].children;
    if |kids| == 0 then None
    else
      var i := ArgBest(t, kids, key);
      forall j | 0 <= j < |kids| && kids[j] != kids[i]
        ensures Rank.Below(key(t[kids[j]]), key(t[kids[i]])) || exists i' :: 0 <= i' < j && kids[i'] == kids[i]
      {
        if i < j {
          assert 0 <= i < j && kids[i] == kids[i];
        }
      }
      Some(kids[i])
  }

  /**
   * `if not current.board: current.board = current.parent.board.copy();
   * current.board.push_uci(current.move)` at the end of the descent.
   */
  function Materialize<S>(t: Tree<S>, leaf: nat): (u: Tree<S>)
    requires WellFormed(t) && leaf < |t|
    requires t[leaf].board.None? ==> leaf != 0 && t[t[leaf].parent.value].board.Some?
    ensures WellFormed(u) && SameShape(t, u)
    ensures u[leaf].board == if t[leaf].board.Some? then t[leaf].board
                             else Some(Push(t[t[leaf].parent.value].board.value, t[leaf].move))
    ensures forall i :: 0 <= i < |t| ==> u[i] == t[i].(board := u[i].board)
    ensures forall i :: 0 <= i < |t| && i != leaf ==> u[i] == t[i]
  {
    if t[leaf].board.Some? then t
    else
      var u := t[leaf := t[leaf].(board := Some(Push(t[t[leaf].parent.value].board.value, t[leaf].move)))];
      PathSameShape(t, u, 0);
      u
  }

  /** The root has a board and so does every expanded node: a descent can always build its leaf's board. */
  predicate BoardsReady<S>(t: Tree<S>) {
    && |t| > 0 && t[0].board.Some?
    && forall i :: 0 <= i < |t| && t[i].expanded ==> t[i].board.Some?
  }

  /** A descent from the root ends at the root or below an expanded node. */
  lemma DescendReady<S>(t: Tree<S>, pick: nat -> nat)
    requires WellFormed(t) && BoardsReady(t) && PicksChildren(t, pick)
    ensures var leaf := Descend(t, 0, pick);
      t[leaf].board.None? ==> leaf != 0 && t[t[leaf].parent.value].board.Some?
  {
    var leaf := Descend(t, 0, pick);
    if leaf != 0 {
      var p := Path(t, leaf);
      assert p[1] == t[leaf].parent.value && p[1] >= 0;
      assert !Stops(t[p[1]]);
    }
  }

  /**
   * `select_leaf()`: descend from the root by `pick` while the node is
   * expanded and has children, then build the leaf's board from its parent's
   * if it has none yet.
   */
  function SelectLeaf<S>(t: Tree<S>, pick: nat -> nat): (r: (Tree<S>, nat))
    requires WellFormed(t) && BoardsReady(t) && PicksChildren(t, pick)
    ensures WellFormed(r.0) && BoardsReady(r.0) && SameShape(t, r.0)
    ensures r.1 == Descend(t, 0, pick) && r.1 < |r.0| && r.0[r.1].board.Some?
    ensures forall i :: 0 <= i < |t| ==> r.0[i] == t[i].(board := r.0[i].board)
    ensures forall i :: 0 <= i < |t| && i != r.1 ==> r.0[i] == t[i]
    ensures Linked(r.0, Path(r.0, r.1))
  {
    var leaf := Descend(t, 0, pick);
    DescendReady(t, pick);
    DescendLinked(t, pick);
    var u := Materialize(t, leaf);
    MaterializeReady(t, u, leaf);
    LinkedSameShape(t, u, leaf);
    (u, leaf)
  }

  /** Giving the leaf a board keeps every other board, so expanded nodes still have theirs. */
  lemma MaterializeReady<S>(t: Tree<S>, u: Tree<S>, leaf: nat)
    requires BoardsReady(t) && |u| == |t| && leaf < |t| && u[leaf].board.Some?
    requires forall i :: 0 <= i < |t| ==> u[i] == t[i].(board := u[i].board)
    requires forall i :: 0 <= i < |t| && i != leaf ==> u[i] == t[i]
    ensures BoardsReady(u)
  {
    assert leaf != 0 ==> u[0] == t[0];
  }

  /** A change that keeps the shape keeps a linked path linked. */
  lemma LinkedSameShape<S>(t: Tree<S>, u: Tree<S>, leaf: nat)
    requires WellFormed(t) && SameShape(t, u) && leaf < |t| && Linked(t, Path(t, leaf))
    ensures Linked(u, Path(u, leaf))
  {
    PathSameShape(t, u, leaf);
    var p := Path(t, leaf);
    forall k | 0 < k < |p|
      ensures p[k] < |u| && p[k - 1] in u[p[k]].children
    {
      assert t[p[k]].children == u[p[k]].children;
    }
  }

  /** Along p (leaf first), every node after the first lists the node before it among its children. */
  predicate Linked<S>(t: Tree<S>, p: seq<nat>) {
    forall k :: 0 < k < |p| ==> p[k] < |t| && p[k - 1] in t[p[k]].children
  }

  /** The path a descent took is linked: the descent only ever steps into listed children. */
  lemma DescendLinked<S>(t: Tree<S>, pick: nat -> nat)
    requires WellFormed(t) && PicksChildren(t, pick)
    ensures Linked(t, Path(t, Descend(t, 0, pick)))
  {
    var p := Path(t, Descend(t, 0, pick));
    forall k | 0 < k < |p|
      ensures p[k] < |t| && p[k - 1] in t[p[k]].children
    {
      assert p[k] >= 0;
    }
  }

  /** Adding nodes after the existing ones keeps the path of an existing node. */
  lemma {:induction false} PathGrown<S>(t: Tree<S>, u: Tree<S>, i: nat)
    requires WellFormed(t) && WellFormed(u) && i < |t| <= |u|
    requires forall j :: 0 <= j < |t| ==> u[j].parent == t[j].parent
    ensures Path(u, i) == Path(t, i)
    decreases i
  {
    if i != 0 {
      PathGrown(t, u, t[i].parent.value);
    }
  }

  /**
   * Expanding the leaf of a linked path keeps it linked: the nodes above the
   * leaf keep their children.
   */
  lemma LinkedGrown<S>(t: Tree<S>, u: Tree<S>, leaf: nat)
    requires WellFormed(t) && WellFormed(u) && leaf < |t| <= |u|
    requires forall j :: 0 <= j < |t| && j != leaf ==> u[j] == t[j]
    requires u[leaf].parent == t[leaf].parent
    requires Linked(t, Path(t, leaf))
    ensures Path(u, leaf) == Path(t, leaf) && Linked(u, Path(u, leaf))
  {
    PathGrown(t, u, leaf);
    var p := Path(t, leaf);
    forall k | 0 < k < |p|
      ensures p[k] < |u| && p[k - 1] in u[p[k]].children
    {
      assert p[k] < leaf;
    }
  }

  /** `self.is_expanded = True`. */
  function MarkExpanded<S>(t: Tree<S>, n: nat): (u: Tree<S>)
    requires WellFormed(t) && n < |t|
    ensures WellFormed(u) && SameShape(t, u) && u[n] == t[n].(expanded := true)
    ensures forall i :: 0 <= i < |t| && i != n ==> u[i] == t[i]
    ensures BoardsReady(t) && t[n].board.Some? ==> BoardsReady(u)
  {
    var u := t[n := t[n].(expanded := true)];
    PathSameShape(t, u, 0);
    u
  }

  /** New children are unexpanded, so adding them keeps every expanded node's board in place. */
  lemma AddChildrenReady<S>(t: Tree<S>, n: nat, ps: Priors, eager: bool, seed: (S, real) -> S)
    requires WellFormed(t) && n < |t| && BoardsReady(t) && (eager ==> t[n].board.Some?)
    ensures BoardsReady(AddChildren(t, n, ps, eager, seed))
  {
    var u := AddChildren(t, n, ps, eager, seed);
    forall i | 0 <= i < |u|
      ensures u[i].expanded ==> u[i].board.Some?
    {
      if i >= |t| {
        assert u[|t| + (i - |t|)] == ChildFor(t, n, ps[i - |t|], eager, seed);
      }
    }
  }

  /** A change to statistics only keeps every board and flag, so it keeps BoardsReady. */
  lemma OnlyStatsReady<S>(t: Tree<S>, u: Tree<S>)
    requires WellFormed(t) && BoardsReady(t) && OnlyStats(t, u)
    ensures WellFormed(u) && BoardsReady(u) && u[0].board == t[0].board
  {
    OnlyStatsWellFormed(t, u);
    assert forall i :: 0 <= i < |u| ==> u[i].expanded == t[i].expanded && u[i].board == t[i].board;
  }

  /** A child listed under n points back at n and has a larger id. */
  lemma ChildrenOf<S>(t: Tree<S>, n: nat)
    requires WellFormed(t) && n < |t|
    ensures forall c :: c in t[n].children ==> n < c < |t| && t[c].parent == Some(n)
  {}

  /** Every node has its board: the invariant of node classes that build a child's board when they add it. */
  predicate Boarded<S>(t: Tree<S>) {
    forall i :: 0 <= i < |t| ==> t[i].board.Some?
  }

  /** Adding children with their boards built keeps every board in place. */
  lemma AddChildrenBoarded<S>(t: Tree<S>, n: nat, ps: Priors, seed: (S, real) -> S)
    requires WellFormed(t) && n < |t| && Boarded(t)
    ensures Boarded(AddChildren(t, n, ps, true, seed))
  {
    var u := AddChildren(t, n, ps, true, seed);
    forall i | 0 <= i < |u|
      ensures u[i].board.Some?
    {
      if i >= |t| {
        assert u[|t| + (i - |t|)] == ChildFor(t, n, ps[i - |t|], true, seed);
      }
    }
  }

  /** leaf hangs below cur: each node on the way up from leaf to cur lists the one below it among its children. */
  predicate Below<S>(t: Tree<S>, leaf: nat, cur: nat)
    requires WellFormed(t) && leaf < |t|
    decreases leaf
  {
    leaf == cur || (leaf > 0 && leaf in t[t[leaf].parent.value].children && Below(t, t[leaf].parent.value, cur))
  }

  lemma {:induction false} BelowSame<S>(t: Tree<S>, u: Tree<S>, leaf: nat, cur: nat)
    requires WellFormed(t) && SameShape(t, u) && leaf < |t|
    ensures WellFormed(u) && (Below(u, leaf, cur) <==> Below(t, leaf, cur))
    decreases leaf
  {
    PathSameShape(t, u, 0);
    if leaf > 0 {
      BelowSame(t, u, t[leaf].parent.value, cur);
    }
  }

  /** Hanging below a child of cur is hanging below cur. */
  lemma {:induction false} BelowChild<S>(t: Tree<S>, leaf: nat, c: nat, cur: nat)
    requires WellFormed(t) && leaf < |t| && cur < |t| && c in t[cur].children && Below(t, leaf, c)
    ensures Below(t, leaf, cur)
    decreases leaf
  {
    ChildrenOf(t, cur);
    if leaf != c {
      BelowChild(t, t[leaf].parent.value, c, cur);
    }
  }

  /** A child of a node below the root is below the root. */
  lemma BelowStep<S>(t: Tree<S>, c: nat, cur: nat)
    requires WellFormed(t) && cur < |t| && c in t[cur].children && Below(t, cur, 0)
    ensures c < |t| && Below(t, c, 0)
  {
    ChildrenOf(t, cur);
  }

  /** Adding children to leaf keeps leaf where it hangs: its parent and the nodes above it are untouched. */
  lemma {:induction false} BelowGrown<S>(t: Tree<S>, u: Tree<S>, leaf: nat, cur: nat)
    requires WellFormed(t) && WellFormed(u) && leaf < |t| <= |u|
    requires forall j :: 0 <= j < leaf ==> u[j] == t[j]
    requires u[leaf].parent == t[leaf].parent && Below(t, leaf, cur)
    ensures Below(u, leaf, cur)
    decreases leaf
  {
    if leaf != cur {
      BelowGrown(t, u, t[leaf].parent.value, cur);
    }
  }

  /** Below the root, each node on the path up lists the one before it among its children. */
  lemma {:induction false} BelowLinked<S>(t: Tree<S>, leaf: nat)
    requires WellFormed(t) && leaf < |t| && Below(t, leaf, 0)
    ensures Linked(t, Path(t, leaf))
    decreases leaf
  {
    if leaf > 0 {
      var par := t[leaf].parent.value;
      BelowLinked(t, par);
      PathStep(t, leaf);
    }
  }
}

=== FILE: bayes.dfy ===
/**
 * Bayesian-inference search (search/bayes.py).
 *
 * A node keeps a policy weight, a running mean q of the values backed up
 * through it, their sum of squared errors and a visit count that starts at
 * one. Selection takes the child maximising `policy + c * u`, where u grows
 * with the parent's visits and the node's spread. The backup walks from the
 * leaf to the root: every node takes in the sample (the negated value at
 * the leaf, flipping sign per level), scales its own policy by
 * `exp(e / (temp * n))`, and then renormalises its children's policies to
 * sum to one.
 */
module Bayes {
  import opened Wrappers
  import opened Arena
  import Rank
  import opened Running

  datatype Stat = Stat(policy: real, q: real, sse: real, visits: Pos)

  type BayesTree = Tree<Stat>

  /** `sse=0.1` and `temp=2.2`. */
  const SSE0: real := 0.1
  const TEMP: real := 2.2

  /** `c` of BayesNode, BayesMinusNode and BayesPlusNode. */
  const C_BAYES: real := 1.0
  const C_MINUS: real := 0.5
  const C_PLUS: real := 1.5

  /** `sigma()`: sqrt(sse / visits); visits never drop below one, so the division is safe. */
  function Sigma(s: Stat, sqrt: real -> real): real {
    sqrt(s.sse / s.visits as real)
  }

  /** `u()`: sqrt(sqrt(parent visits) / visits) * sigma. */
  function U(parentVisits: nat, s: Stat, sqrt: real -> real): real {
    sqrt(sqrt(parentVisits as real) / s.visits as real) * Sigma(s, sqrt)
  }

  function Score(parentVisits: nat, nd: Node<Stat>, c: real, sqrt: real -> real): real {
    nd.stat.policy + c * U(parentVisits, nd.stat, sqrt)
  }

  /** `best_child()`: the first child of maximal `policy + c * u`. */
  function BestChild(t: BayesTree, n: nat, c: real, sqrt: real -> real): (r: nat)
    requires WellFormed(t) && n < |t| && |t[n].children| > 0
    ensures r in t[n].children
    ensures forall d :: d in t[n].children ==>
              Score(t[n].stat.visits, t[d], c, sqrt) <= Score(t[n].stat.visits, t[r], c, sqrt)
  {
    var pv := t[n].stat.visits;
    t[n].children[ArgBest(t, t[n].children, nd => Rank.K1(Score(pv, nd, c, sqrt)))]
  }

  function Pick(t: BayesTree, c: real, sqrt: real -> real): (pick: nat -> nat)
    requires WellFormed(t)
    ensures PicksChildren(t, pick)
    ensures forall a: nat :: a < |t| && |t[a].children| > 0 ==> pick(a) == BestChild(t, a, c, sqrt)
  {
    (a: nat) => if a < |t| && |t[a].children| > 0 then BestChild(t, a, c, sqrt) else 0
  }

  /** A child just added for prior entry e of node n: policy the prior, mean -parentQ, one visit. */
  predicate Blank(nd: Node<Stat>, n: nat, e: (Move, real), parentBoard: Board, parentQ: real) {
    && nd.parent == Some(n) && nd.move == e.0 && nd.prior == e.1
    && !nd.expanded && nd.children == [] && nd.board == Some(Push(parentBoard, e.0))
    && nd.stat == Stat(e.1, -parentQ, SSE0, 1)
  }

  function Seed(parent: Stat, prior: real): Stat {
    Stat(prior, -parent.q, SSE0, 1)
  }

  /** `expand(child_priors)`: nothing on an expanded node; otherwise one child per prior, each with its board. */
  function Expand(t: BayesTree, n: nat, ps: Priors): (u: BayesTree)
    requires WellFormed(t) && n < |t| && (!t[n].expanded ==> t[n].board.Some?)
    ensures WellFormed(u) && |u| >= |t| && u[n].expanded
    ensures t[n].expanded ==> u == t
    ensures !t[n].expanded ==> |u| == |t| + |ps|
    ensures !t[n].expanded ==> forall k :: 0 <= k < |ps| ==> Blank(u[|t| + k], n, ps[k], t[n].board.value, t[n].stat.q)
    ensures u[n] == t[n].(expanded := true, children := u[n].children)
    ensures forall i :: 0 <= i < |t| && i != n ==> u[i] == t[i]
    ensures Boarded(t) ==> Boarded(u)
  {
    if t[n].expanded then t
    else
      var t1 := MarkExpanded(t, n);
      var u := AddChildren(t1, n, ps, true, Seed);
      forall k | 0 <= k < |ps|
        ensures Blank(u[|t| + k], n, ps[k], t[n].board.value, t[n].stat.q)
      {
        assert u[|t| + k] == ChildFor(t1, n, ps[k], true, Seed);
      }
      assert Boarded(t) ==> Boarded(u) by {
        if Boarded(t) {
          AddChildrenBoarded(t1, n, ps, Seed);
        }
      }
      u
  }

  /** A second `expand` changes nothing. */
  lemma ExpandIdempotent(t: BayesTree, n: nat, ps: Priors, qs: Priors)
    requires WellFormed(t) && n < |t| && (!t[n].expanded ==> t[n].board.Some?)
    ensures Expand(Expand(t, n, ps), n, qs) == Expand(t, n, ps)
  {}

  /** The network gives every move a positive prior. */
  ghost predicate PositivePriors(net: Board -> Evaluation) {
    forall b, k :: 0 <= k < |net(b).priors| ==> net(b).priors[k].1 > 0.0
  }

  /** The exponential oracle is positive everywhere, as exp is. */
  ghost predicate PositiveExp(exp: real -> real) {
    forall y :: exp(y) > 0.0
  }

  /** Every node but the root has a positive policy (the root's is its prior, 0). */
  predicate Positive(t: BayesTree) {
    forall i :: 0 < i < |t| ==> t[i].stat.policy > 0.0
  }

  /** Positive priors make positive children. */
  lemma ExpandPositive(t: BayesTree, n: nat, ps: Priors)
    requires WellFormed(t) && n < |t| && (!t[n].expanded ==> t[n].board.Some?) && Positive(t)
    requires forall k :: 0 <= k < |ps| ==> ps[k].1 > 0.0
    ensures Positive(Expand(t, n, ps))
  {
    var u := Expand(t, n, ps);
    if !t[n].expanded {
      forall i | 0 < i < |u| ensures u[i].stat.policy > 0.0 {
        if i >= |t| {
          assert Blank(u[|t| + (i - |t|)], n, ps[i - |t|], t[n].board.value, t[n].stat.q);
        }
      }
    }
  }

  /**
   * A node's own step with sample x: a visit, the running mean and error sum
   * take x in, and the policy is scaled by `exp(e / (temp * n))` with
   * `e = x - q` and n the new count.
   */
  function Learn(s: Stat, x: real, exp: real -> real): Stat {
    var n: Pos := s.visits + 1;
    Stat(s.policy * exp((x - s.q) / (TEMP * n as real)), MeanStep(s.q, n, x), SseStep(s.q, s.sse, n, x), n)
  }

  /** The mean, error sum and count after a step; the policy is scaled by a positive factor when exp is positive. */
  lemma LearnFacts(s: Stat, x: real, exp: real -> real)
    ensures Learn(s, x, exp).visits == s.visits + 1
    ensures Learn(s, x, exp).q * Learn(s, x, exp).visits as real == s.q * s.visits as real + x
    ensures Learn(s, x, exp).sse >= s.sse
    ensures s.policy > 0.0 && PositiveExp(exp) ==> Learn(s, x, exp).policy > 0.0
  {}

  /** The policies of the nodes listed in kids, added up. */
  function SumPolicy(t: BayesTree, kids: seq<nat>): real
    requires forall j :: 0 <= j < |kids| ==> kids[j] < |t|
  {
    if |kids| == 0 then 0.0 else SumPolicy(t, kids[..|kids| - 1]) + t[kids[|kids| - 1]].stat.policy
  }

  lemma {:induction false} SumPolicyPositive(t: BayesTree, kids: seq<nat>)
    requires forall j :: 0 <= j < |kids| ==> 0 < kids[j] < |t|
    requires Positive(t) && |kids| > 0
    ensures SumPolicy(t, kids) > 0.0
    decreases |kids|
  {
    if |kids| > 1 {
      SumPolicyPositive(t, kids[..|kids| - 1]);
    }
  }

  /** Two trees that agree on the listed policies agree on their sum. */
  lemma {:induction false} SumPolicySame(t: BayesTree, u: BayesTree, kids: seq<nat>)
    requires forall j :: 0 <= j < |kids| ==> kids[j] < |t| && kids[j] < |u| && u[kids[j]].stat.policy == t[kids[j]].stat.policy
    ensures SumPolicy(u, kids) == SumPolicy(t, kids)
    decreases |kids|
  {
    if |kids| > 0 {
      SumPolicySame(t, u, kids[..|kids| - 1]);
    }
  }

  /** Every child of n has its policy divided by norm. */
  function Scale(t: BayesTree, n: nat, norm: real): (u: BayesTree)
    requires WellFormed(t) && n < |t| && norm != 0.0
    ensures OnlyStats(t, u)
    ensures forall i :: 0 <= i < |t| && i in t[n].children ==> u[i].stat == t[i].stat.(policy := t[i].stat.policy / norm)
    ensures forall i :: 0 <= i < |t| && i !in t[n].children ==> u[i] == t[i]
  {
    seq(|t|, i requires 0 <= i < |t| =>
      if i in t[n].children then t[i].(stat := t[i].stat.(policy := t[i].stat.policy / norm)) else t[i])
  }

  /** Dividing every listed policy by norm divides their sum by norm. */
  lemma {:induction false} SumScaled(t: BayesTree, u: BayesTree, kids: seq<nat>, norm: real)
    requires norm != 0.0
    requires forall j :: 0 <= j < |kids| ==> kids[j] < |t| && kids[j] < |u| && u[kids[j]].stat.policy == t[kids[j]].stat.policy / norm
    ensures SumPolicy(u, kids) == SumPolicy(t, kids) / norm
    decreases |kids|
  {
    if |kids| > 0 {
      var pre := kids[..|kids| - 1];
      SumScaled(t, u, pre, norm);
      var a := SumPolicy(t, pre);
      var b := t[kids[|kids| - 1]].stat.policy;
      assert a / norm + b / norm == (a + b) / norm;
    }
  }

  /**
   * `norm = sum(children's policies); child.policy /= norm` for each child
   * of n. A zero sum raises ZeroDivisionError; a childless node is left
   * alone, since no division happens.
   */
  function Normalize(t: BayesTree, n: nat): (r: Result<BayesTree>)
    requires WellFormed(t) && n < |t|
    ensures r.Err? <==> |t[n].children| > 0 && SumPolicy(t, t[n].children) == 0.0
    ensures r.Err? ==> r.fault == ZeroDivision
    ensures r.Ok? ==> OnlyStats(t, r.value)
    ensures r.Ok? ==> forall i :: 0 <= i < |t| ==> r.value[i].stat == t[i].stat.(policy := r.value[i].stat.policy)
    ensures r.Ok? ==> forall i :: 0 <= i < |t| && i !in t[n].children ==> r.value[i] == t[i]
  {
    var kids := t[n].children;
    if |kids| == 0 then Ok(t)
    else
      var norm := SumPolicy(t, kids);
      if norm == 0.0 then Err(ZeroDivision) else Ok(Scale(t, n, norm))
  }

  /** After a normalisation the children's policies sum to one. */
  lemma NormalizeSumsToOne(t: BayesTree, n: nat)
    requires WellFormed(t) && n < |t| && Normalize(t, n).Ok? && |t[n].children| > 0
    ensures SumPolicy(Normalize(t, n).value, t[n].children) == 1.0
  {
    var kids := t[n].children;
    var norm := SumPolicy(t, kids);
    var u := Scale(t, n, norm);
    ScaleChildren(t, n, norm);
    SumScaled(t, u, kids, norm);
    DivSelf(norm);
  }

  /** Scale divides exactly the children's policies by norm. */
  lemma ScaleChildren(t: BayesTree, n: nat, norm: real)
    requires WellFormed(t) && n < |t| && norm != 0.0
    ensures var u, kids := Scale(t, n, norm), t[n].children;
      forall j :: 0 <= j < |kids| ==> kids[j] < |t| && kids[j] < |u| && u[kids[j]].stat.policy == t[kids[j]].stat.policy / norm
  {
    var u, kids := Scale(t, n, norm), t[n].children;
    forall j | 0 <= j < |kids|
      ensures kids[j] < |t| && kids[j] < |u| && u[kids[j]].stat.policy == t[kids[j]].stat.policy / norm
    {
      assert kids[j] in kids;
    }
  }

  lemma DivSelf(x: real)
    requires x != 0.0
    ensures x / x == 1.0
  {
  }

  /** With every policy positive the sum cannot be zero, and dividing by it keeps them positive. */
  lemma NormalizeKeepsPositive(t: BayesTree, n: nat)
    requires WellFormed(t) && n < |t| && Positive(t)
    ensures Normalize(t, n).Ok? && Positive(Normalize(t, n).value)
  {
    var kids := t[n].children;
    if |kids| > 0 {
      ChildrenOf(t, n);
      SumPolicyPositive(t, kids);
      ScalePositive(t, n, SumPolicy(t, kids));
    }
  }

  lemma ScalePositive(t: BayesTree, n: nat, norm: real)
    requires WellFormed(t) && n < |t| && Positive(t) && norm > 0.0
    ensures Positive(Scale(t, n, norm))
  {
    var u := Scale(t, n, norm);
    forall i | 0 < i < |u|
      ensures u[i].stat.policy > 0.0
    {
      if i in t[n].children {
        DivPositive(t[i].stat.policy, norm);
      }
    }
  }

  lemma DivPositive(a: real, b: real)
    requires a > 0.0 && b > 0.0
    ensures a / b > 0.0
  {
  }

  /** Nodes a backup along the path p may touch: those on p and their children. */
  predicate Near(t: BayesTree, p: seq<nat>, i: nat)
    requires i < |t|
  {
    i in p || (t[i].parent.Some? && t[i].parent.value in p)
  }

  /** Node p[k] took the sample Alt(x, k) into its visits, mean and error sum. */
  predicate Learned(t: BayesTree, u: BayesTree, p: seq<nat>, x: real) {
    forall k :: 0 <= k < |p| ==> Took(t, u, p[k], Alt(x, k))
  }

  predicate Took(t: BayesTree, u: BayesTree, i: nat, x: real) {
    && i < |t| && i < |u|
    && u[i].stat.visits == t[i].stat.visits + 1
    && u[i].stat.q == MeanStep(t[i].stat.q, t[i].stat.visits + 1, x)
    && u[i].stat.sse == SseStep(t[i].stat.q, t[i].stat.sse, t[i].stat.visits + 1, x)
  }

  /** Off p only policies change, and nodes away from p do not change at all. */
  predicate Framed(t: BayesTree, u: BayesTree, p: seq<nat>) {
    && OnlyStats(t, u)
    && (forall i :: 0 <= i < |t| && i !in p ==> u[i].stat == t[i].stat.(policy := u[i].stat.policy))
    && (forall i :: 0 <= i < |t| && !Near(t, p, i) ==> u[i] == t[i])
  }

  /** Every node on p that has children has children whose policies sum to one. */
  predicate Normalized(t: BayesTree, u: BayesTree, p: seq<nat>)
    requires |u| == |t|
  {
    forall k :: 0 <= k < |p| && p[k] < |t| ==>
      |t[p[k]].children| > 0 ==> SumsToOne(u, t[p[k]].children)
  }

  predicate SumsToOne(u: BayesTree, kids: seq<nat>) {
    (forall j :: 0 <= j < |kids| ==> kids[j] < |u|) && SumPolicy(u, kids) == 1.0
  }

  /** The loop of `backup` from cur, where cur takes the sample x. */
  function BackupFrom(t: BayesTree, cur: nat, x: real, exp: real -> real): (r: Result<BayesTree>)
    requires WellFormed(t) && cur < |t|
    ensures r.Err? ==> r.fault == ZeroDivision
    ensures r.Ok? ==> Framed(t, r.value, Path(t, cur))
    ensures r.Ok? ==> Learned(t, r.value, Path(t, cur), x)
    ensures r.Ok? ==> Normalized(t, r.value, Path(t, cur))
    ensures Positive(t) && PositiveExp(exp) ==> r.Ok? && Positive(r.value)
    decreases cur
  {
    var t1 := SetStat(t, cur, Learn(t[cur].stat, x, exp));
    SetStatWellFormed(t, cur, t1[cur].stat);
    assert Positive(t) && PositiveExp(exp) ==> Positive(t1) by {
      if Positive(t) && PositiveExp(exp) && cur > 0 {
        LearnFacts(t[cur].stat, x, exp);
      }
    }
    assert Positive(t1) ==> Normalize(t1, cur).Ok? by {
      if Positive(t1) {
        NormalizeKeepsPositive(t1, cur);
      }
    }
    match Normalize(t1, cur)
    case Err(f) => Err(f)
    case Ok(t2) =>
      BackupLocal(t, t1, t2, cur, x, exp);
      assert Positive(t1) ==> Positive(t2) by {
        if Positive(t1) {
          NormalizeKeepsPositive(t1, cur);
        }
      }
      if cur == 0 then Ok(t2)
      else
        var par := t[cur].parent.value;
        PathStep(t, cur);
        PathSameShape(t, t2, par);
        var q := Path(t, par);
        match BackupFrom(t2, par, -x, exp)
        case Err(f) => Err(f)
        case Ok(u) =>
          FramedCompose(t, t2, u, cur, q);
          LearnedCompose(t, t2, u, cur, q, x);
          NormalizedCompose(t, t2, u, cur, q);
          Ok(u)
  }

  /** What one node's step does to the tree: its own statistics take x in, its children are renormalised. */
  lemma BackupLocal(t: BayesTree, t1: BayesTree, t2: BayesTree, cur: nat, x: real, exp: real -> real)
    requires WellFormed(t) && cur < |t| && t1 == SetStat(t, cur, Learn(t[cur].stat, x, exp))
    requires WellFormed(t1) && Normalize(t1, cur) == Ok(t2)
    ensures Framed(t, t2, [cur]) && Learned(t, t2, [cur], x) && Normalized(t, t2, [cur])
    ensures WellFormed(t2) && SameShape(t, t2)
  {
    ChildrenOf(t1, cur);
    OnlyStatsWellFormed(t1, t2);
    if |t[cur].children| > 0 {
      NormalizeSumsToOne(t1, cur);
    }
    assert Took(t, t2, cur, Alt(x, 0));
  }

  lemma FramedCompose(t: BayesTree, t2: BayesTree, u: BayesTree, cur: nat, q: seq<nat>)
    requires Framed(t, t2, [cur]) && Framed(t2, u, q)
    ensures Framed(t, u, [cur] + q)
  {
    var p := [cur] + q;
    forall i | 0 <= i < |t| && !Near(t, p, i)
      ensures u[i] == t[i]
    {
      assert t2[i].parent == t[i].parent;
      assert !Near(t, [cur], i) && !Near(t2, q, i);
    }
  }

  lemma LearnedCompose(t: BayesTree, t2: BayesTree, u: BayesTree, cur: nat, q: seq<nat>, x: real)
    requires Framed(t, t2, [cur]) && Learned(t, t2, [cur], x)
    requires Framed(t2, u, q) && Learned(t2, u, q, -x) && cur !in q
    ensures Learned(t, u, [cur] + q, x)
  {
    var p := [cur] + q;
    assert Took(t, t2, cur, Alt(x, 0));
    forall k | 0 < k < |p|
      ensures Took(t, u, p[k], Alt(x, k))
    {
      var i := q[k - 1];
      assert p[k] == i && i != cur;
      assert Took(t2, u, i, Alt(-x, k - 1));
      assert Alt(x, k) == Alt(-x, k - 1);
    }
  }

  lemma NormalizedCompose(t: BayesTree, t2: BayesTree, u: BayesTree, cur: nat, q: seq<nat>)
    requires WellFormed(t) && cur < |t| && Framed(t, t2, [cur]) && Normalized(t, t2, [cur])
    requires Framed(t2, u, q) && Normalized(t2, u, q)
    requires forall k :: 0 <= k < |q| ==> q[k] < cur
    ensures Normalized(t, u, [cur] + q)
  {
    var p := [cur] + q;
    if |t[cur].children| > 0 {
      assert p[0] == cur;
      NormalizedAtCur(t, t2, u, cur, q);
    }
    forall k | 0 < k < |p| && p[k] < |t| && |t[p[k]].children| > 0
      ensures SumsToOne(u, t[p[k]].children)
    {
      assert p[k] == q[k - 1];
      assert t2[p[k]].children == t[p[k]].children;
    }
  }

  /** The climb above cur leaves cur's children's policies, and so their sum, alone. */
  lemma NormalizedAtCur(t: BayesTree, t2: BayesTree, u: BayesTree, cur: nat, q: seq<nat>)
    requires WellFormed(t) && cur < |t| && |t[cur].children| > 0
    requires Framed(t, t2, [cur]) && SumsToOne(t2, t[cur].children)
    requires Framed(t2, u, q) && forall k :: 0 <= k < |q| ==> q[k] < cur
    ensures SumsToOne(u, t[cur].children)
  {
    var kids := t[cur].children;
    forall j | 0 <= j < |kids|
      ensures kids[j] < |t2| && kids[j] < |u| && u[kids[j]].stat.policy == t2[kids[j]].stat.policy
    {
      ChildPolicyKept(t, t2, u, cur, q, j);
    }
    SumPolicySame(t2, u, kids);
  }

  /** A child of cur is neither on the path above cur nor a child of a node there. */
  lemma ChildPolicyKept(t: BayesTree, t2: BayesTree, u: BayesTree, cur: nat, q: seq<nat>, j: nat)
    requires WellFormed(t) && cur < |t| && j < |t[cur].children|
    requires OnlyStats(t, t2) && Framed(t2, u, q) && forall k :: 0 <= k < |q| ==> q[k] < cur
    ensures t[cur].children[j] < |t2| && t[cur].children[j] < |u|
    ensures u[t[cur].children[j]] == t2[t[cur].children[j]]
  {
    var c := t[cur].children[j];
    ChildrenOf(t, cur);
    assert c in t[cur].children;
    assert t2[c].parent == Some(cur) && cur < c;
    assert !Near(t2, q, c);
  }


  /** `backup(value_estimate)`: the leaf takes in -v, its parent v, and so on up to the root. */
  function Backup(t: BayesTree, leaf: nat, v: real, exp: real -> real): (r: Result<BayesTree>)
    requires WellFormed(t) && leaf < |t|
    ensures r.Err? ==> r.fault == ZeroDivision
    ensures r.Ok? ==> WellFormed(r.value) && Framed(t, r.value, Path(t, leaf))
    ensures r.Ok? ==> Learned(t, r.value, Path(t, leaf), -v) && Normalized(t, r.value, Path(t, leaf))
    ensures Positive(t) && PositiveExp(exp) ==> r.Ok? && Positive(r.value)
  {
    var r := BackupFrom(t, leaf, -v, exp);
    if r.Ok? then
      OnlyStatsWellFormed(t, r.value);
      r
    else r
  }

  /**
   * One round of `mcts_search` over BayesNodes: descend, evaluate, expand,
   * back up. A zero policy sum on the way up ends the search with an error.
   */
  method Round(t: BayesTree, net: Board -> Evaluation, c: real, sqrt: real -> real, exp: real -> real)
    returns (r: Result<BayesTree>)
    requires WellFormed(t) && Boarded(t)
    ensures r.Err? ==> r.fault == ZeroDivision
    ensures r.Ok? ==> WellFormed(r.value) && Boarded(r.value) && |r.value| >= |t|
    ensures r.Ok? ==> r.value[0].stat.visits == t[0].stat.visits + 1 && r.value[0].stat.sse >= t[0].stat.sse
    ensures r.Ok? && |r.value[0].children| > 0 ==> SumPolicy(r.value, r.value[0].children) == 1.0
    ensures Positive(t) && PositivePriors(net) && PositiveExp(exp) ==> r.Ok? && Positive(r.value)
  {
    var leaf := Descend(t, 0, Pick(t, c, sqrt));
    var ev := net(t[leaf].board.value);
    var t2 := Expand(t, leaf, ev.priors);
    if Positive(t) && PositivePriors(net) {
      ExpandPositive(t, leaf, ev.priors);
    }
    r := Backup(t2, leaf, ev.value, exp);
    if r.Ok? {
      BackupRoot(t2, leaf, ev.value, exp);
    }
  }

  /** What a successful backup does at the root: one more visit, a larger error sum, children summing to one. */
  lemma BackupRoot(t: BayesTree, leaf: nat, v: real, exp: real -> real)
    requires WellFormed(t) && leaf < |t| && Boarded(t) && Backup(t, leaf, v, exp).Ok?
    ensures var u := Backup(t, leaf, v, exp).value;
      && Boarded(u)
      && u[0].stat.visits == t[0].stat.visits + 1 && u[0].stat.sse >= t[0].stat.sse
      && (|u[0].children| > 0 ==> SumPolicy(u, u[0].children) == 1.0)
  {
    var u := Backup(t, leaf, v, exp).value;
    assert forall i :: 0 <= i < |u| ==> u[i].board == t[i].board;
    var p := Path(t, leaf);
    var k := |p| - 1;
    assert p[k] == 0 && Took(t, u, p[k], Alt(-v, k));
    assert u[0].children == t[0].children;
  }

  /** The root `mcts_search` builds when none is supplied: q 0, policy 0, one visit. */
  function Start(board: Board, root: Option<BayesTree>): (t: BayesTree)
    requires root.Some? ==> WellFormed(root.value) && Boarded(root.value)
    ensures WellFormed(t) && Boarded(t)
    ensures root.Some? ==> t == root.value
    ensures root.None? ==> |t| == 1 && t[0].board == Some(board) && t[0].stat == Stat(0.0, 0.0, SSE0, 1) && Positive(t)
  {
    if root.Some? then root.value else Singleton(board, Stat(0.0, 0.0, SSE0, 1))
  }

  /** The ranking of `outcome()`: visits, then policy. */
  function OutcomeKey(nd: Node<Stat>): Rank.Key {
    Rank.K2(nd.stat.visits as real, nd.stat.policy)
  }

  /** `outcome()` as written: `pv[0]` is read before the `if pv` guard, so a childless root raises. */
  function OutcomeAsWritten(t: BayesTree): (r: Result<nat>)
    requires WellFormed(t)
    ensures r.Err? <==> |t[0].children| == 0
    ensures r.Ok? ==> r.value in t[0].children
  {
    match BestBy(t, 0, OutcomeKey)
    case None => Err(NoChildren)
    case Some(c) => Ok(c)
  }

  /** `outcome()` as its guard intends: None on a childless root. */
  function Outcome(t: BayesTree): (r: Option<nat>)
    requires WellFormed(t)
    ensures r.None? <==> |t[0].children| == 0
    ensures r.Some? ==> r.value in t[0].children && forall d :: d in t[0].children ==>
              && t[d].stat.visits <= t[r.value].stat.visits
              && (t[d].stat.visits == t[r.value].stat.visits ==> t[d].stat.policy <= t[r.value].stat.policy)
  {
    BestBy(t, 0, OutcomeKey)
  }

  lemma OutcomeGuard(t: BayesTree)
    requires WellFormed(t)
    ensures |t[0].children| > 0 ==> OutcomeAsWritten(t) == Ok(Outcome(t).value)
    ensures |t[0].children| == 0 ==> OutcomeAsWritten(t) == Err(NoChildren) && Outcome(t) == None
  {}

  /**
   * `mcts_search` over BayesNodes: `max(budget, 0)` rounds, then `outcome()`
   * as written, which raises on a root still without children.
   */
  method Search(board: Board, budget: int, net: Board -> Evaluation, c: real, root: Option<BayesTree>,
                sqrt: real -> real, exp: real -> real)
    returns (r: Result<(BayesTree, nat)>)
    requires root.Some? ==> WellFormed(root.value) && Boarded(root.value)
    ensures r.Err? ==> r.fault == ZeroDivision || r.fault == NoChildren
    ensures r.Ok? ==> WellFormed(r.value.0) && Boarded(r.value.0) && |r.value.0| >= |Start(board, root)|
    ensures r.Ok? ==> r.value.0[0].stat.visits == Start(board, root)[0].stat.visits + (if budget > 0 then budget else 0)
    ensures r.Ok? ==> OutcomeAsWritten(r.value.0) == Ok(r.value.1)
    ensures Positive(Start(board, root)) && PositivePriors(net) && PositiveExp(exp) && r.Err? ==> r.fault == NoChildren
    ensures budget <= 0 && root.None? ==> r == Err(NoChildren)
  {
    var t := Start(board, root);
    var b := budget;
    var n: nat := 0;
    while b > 0
      invariant WellFormed(t) && Boarded(t) && |t| >= |Start(board, root)|
      invariant budget <= 0 ==> t == Start(board, root)
      invariant n == (if budget > 0 then budget else 0) - (if b > 0 then b else 0)
      invariant t[0].stat.visits == Start(board, root)[0].stat.visits + n
      invariant Positive(Start(board, root)) && PositivePriors(net) && PositiveExp(exp) ==> Positive(t)
    {
      var step := Round(t, net, c, sqrt, exp);
      if step.Err? {
        return Err(step.fault);
      }
      t := step.value;
      b := b - 1;
      n := n + 1;
    }
    var best := OutcomeAsWritten(t);
    if best.Err? {
      return Err(best.fault);
    }
    r := Ok((t, best.value));
  }
}

=== FILE: bounds.dfy ===
/**
 * The per-depth bound recurrences of the rollout alpha-beta searches
 * (search/alphabeta.py and search/alphabeta_uct.py).
 *
 * A node keeps, for every depth d, a lower bound v_minus[d] and an upper
 * bound v_plus[d] on its value as seen by the player who moved into it (its
 * parent's player). That player's opponent picks the child that is best for
 * them, so a node's value is minus the largest of its children's values, and
 * the bounds follow:
 *
 *   v_minus[d] = -max(child v_plus[d-1]),  v_plus[d] = -max(child v_minus[d-1]).
 *
 * search/alphabeta_uct.py uses exactly this pair. search/alphabeta.py takes
 * -min for v_plus instead (`PlusAsWritten`): still an upper bound, but one
 * that meets the lower bound only when all children are worth the same.
 *
 * Were a node's value read from the side to move at the node instead, as
 * the leaf's `+value_estimate` in search/alphabeta.py suggests, the pair
 * would take -min on both lines (`MinusToMove`, `PlusAsWritten`); that pair
 * closes on exactly known children too.
 */
module Bounds {

  function MaxOf(xs: seq<real>): (r: real)
    requires |xs| > 0
    ensures r in xs
    ensures forall i :: 0 <= i < |xs| ==> xs[i] <= r
  {
    if |xs| == 1 then xs[0]
    else
      var m := MaxOf(xs[..|xs| - 1]);
      if xs[|xs| - 1] > m then xs[|xs| - 1] else m
  }

  function MinOf(xs: seq<real>): (r: real)
    requires |xs| > 0
    ensures r in xs
    ensures forall i :: 0 <= i < |xs| ==> r <= xs[i]
  {
    if |xs| == 1 then xs[0]
    else
      var m := MinOf(xs[..|xs| - 1]);
      if xs[|xs| - 1] < m then xs[|xs| - 1] else m
  }

  /** Python's `max(a, b)` and `min(a, b)` on two numbers: the first argument unless the second is strictly better. */
  function Max(a: real, b: real): (r: real)
    ensures a <= r && b <= r && (r == a || r == b)
  {
    if b > a then b else a
  }

  function Min(a: real, b: real): (r: real)
    ensures r <= a && r <= b && (r == a || r == b)
  {
    if b < a then b else a
  }

  /** `v_minus[d] = -max(c.v_plus[d-1] for c in children)`, given the children's upper bounds. */
  function Minus(plus: seq<real>): real
    requires |plus| > 0
  {
    -MaxOf(plus)
  }

  /** `v_plus[d] = -max(c.v_minus[d-1] for c in children)`, given the children's lower bounds. */
  function Plus(minus: seq<real>): real
    requires |minus| > 0
  {
    -MaxOf(minus)
  }

  /** search/alphabeta.py's upper bound: `v_plus[d] = -min(c.v_minus[d-1] for c in children)`. */
  function PlusAsWritten(minus: seq<real>): real
    requires |minus| > 0
  {
    -MinOf(minus)
  }

  /** A node's value from its children's: minus the best of them. */
  function Value(vals: seq<real>): real
    requires |vals| > 0
  {
    -MaxOf(vals)
  }

  /** Children whose values lie within their bounds give a parent whose value lies within its bounds. */
  predicate Within(minus: seq<real>, vals: seq<real>, plus: seq<real>) {
    |minus| == |vals| == |plus| && forall i :: 0 <= i < |vals| ==> minus[i] <= vals[i] <= plus[i]
  }

  lemma Sound(minus: seq<real>, vals: seq<real>, plus: seq<real>)
    requires |vals| > 0 && Within(minus, vals, plus)
    ensures Minus(plus) <= Value(vals) <= Plus(minus)
  {
    var i :| 0 <= i < |vals| && vals[i] == MaxOf(vals);
    var j :| 0 <= j < |minus| && minus[j] == MaxOf(minus);
    assert MaxOf(vals) <= plus[i] <= MaxOf(plus);
    assert MaxOf(minus) <= vals[j] <= MaxOf(vals);
  }

  /** The as-written upper bound is an upper bound too, never below the corrected one. */
  lemma AsWrittenLooser(minus: seq<real>)
    requires |minus| > 0
    ensures Plus(minus) <= PlusAsWritten(minus)
  {
    var j :| 0 <= j < |minus| && minus[j] == MaxOf(minus);
    assert MinOf(minus) <= minus[j];
  }

  /** The side-to-move lower bound: `-min(c.v_plus[d-1] for c in children)`. */
  function MinusToMove(plus: seq<real>): real
    requires |plus| > 0
  {
    -MinOf(plus)
  }

  /** A node's value from the side to move there: the best of minus its children's. */
  function ValueToMove(vals: seq<real>): real
    requires |vals| > 0
  {
    -MinOf(vals)
  }

  /** In the side-to-move reading, -min on both lines brackets the parent's value. */
  lemma SoundToMove(minus: seq<real>, vals: seq<real>, plus: seq<real>)
    requires |vals| > 0 && Within(minus, vals, plus)
    ensures MinusToMove(plus) <= ValueToMove(vals) <= PlusAsWritten(minus)
  {
    var i :| 0 <= i < |vals| && vals[i] == MinOf(vals);
    var j :| 0 <= j < |minus| && minus[j] == MinOf(minus);
    assert MinOf(plus) <= plus[i];
    assert MinOf(vals) <= vals[j];
  }

  /** Every child known exactly: the side-to-move pair meets, at the parent's exact value. */
  lemma ExactClosesToMove(vals: seq<real>)
    requires |vals| > 0
    ensures MinusToMove(vals) == ValueToMove(vals) == PlusAsWritten(vals)
  {}

  /** Every child known exactly: the corrected bounds meet, at the parent's exact value. */
  lemma ExactCloses(vals: seq<real>)
    requires |vals| > 0
    ensures Minus(vals) == Value(vals) == Plus(vals)
  {}

  /**
   * Every child known exactly: the as-written bounds meet only when all the
   * children are worth the same.
   */
  lemma AsWrittenCloses(vals: seq<real>)
    requires |vals| > 0
    ensures Minus(vals) == PlusAsWritten(vals) <==> forall i :: 0 <= i < |vals| ==> vals[i] == vals[0]
  {
    if Minus(vals) == PlusAsWritten(vals) {
      forall i | 0 <= i < |vals|
        ensures vals[i] == vals[0]
      {
        assert MinOf(vals) <= vals[i] <= MaxOf(vals);
        assert MinOf(vals) <= vals[0] <= MaxOf(vals);
      }
    } else {
      var i :| 0 <= i < |vals| && vals[i] == MaxOf(vals);
      var j :| 0 <= j < |vals| && vals[j] == MinOf(vals);
      assert vals[i] != vals[j];
    }
  }

  /** Two exactly known children worth 0.5 and -0.5: the as-written bounds stay apart. */
  lemma AsWrittenStaysOpen()
    ensures Minus([0.5, -0.5]) == -0.5 && PlusAsWritten([0.5, -0.5]) == 0.5
    ensures Minus([0.5, -0.5]) == Plus([0.5, -0.5])
  {
    assert [0.5, -0.5][..1] == [0.5];
  }
}

=== FILE: brue.dfy ===
/**
 * BRUE (search/brue.py): probes that explore, then exploit, and update one
 * node each.
 *
 * A node keeps a value q, the mean of the rewards it has been updated with,
 * and a visit count. A probe walks down from the root: above the switching
 * depth it picks a child at random, weighted by the priors (exploration); at
 * and below it, the first child with the highest q (exploitation). A node
 * without children ends the probe: unless its position is over, it is
 * evaluated and expanded, and takes the evaluator's value as its q with one
 * visit. Going back up, a node's reward is its own q minus the reward of the
 * child below it, and only the node at the switching depth, or the leaf when
 * the probe ended above it, is updated with its reward.
 *
 * Children get their boards when they are created. The random choice of the
 * exploration, the evaluator and the game-over test are parameters.
 */
module Brue {
  import opened Wrappers
  import opened Arena
  import Rank

  datatype Stat = Stat(q: real, visits: nat)

  type BrueTree = Tree<Stat>

  /** A new node: `q = 0.` and no visits, whatever its parent and prior. */
  function Fresh(parent: Stat, prior: real): Stat {
    Stat(0.0, 0)
  }

  /**
   * `update_node(reward)`: one more visit, and q moved towards the reward by
   * a 1/visits share, the incremental form of the mean.
   */
  function Update(s: Stat, r: real): (u: Stat)
    ensures u.visits == s.visits + 1
  {
    Stat(s.q + (r - s.q) / (s.visits + 1) as real, s.visits + 1)
  }

  /** After an update, q times visits is the old q times visits plus the reward. */
  lemma UpdateTotal(s: Stat, r: real)
    ensures Update(s, r).q * Update(s, r).visits as real == s.q * s.visits as real + r
  {
    var n := (s.visits + 1) as real;
    var d := (r - s.q) / n;
    assert d * n == r - s.q;
    assert (s.q + d) * n == s.q * n + d * n;
  }

  /** The stat after the updates rs, in order. */
  function Updates(s: Stat, rs: seq<real>): Stat
    decreases |rs|
  {
    if |rs| == 0 then s else Updates(Update(s, rs[0]), rs[1..])
  }

  function Sum(rs: seq<real>): real
    decreases |rs|
  {
    if |rs| == 0 then 0.0 else rs[0] + Sum(rs[1..])
  }

  /** Updates keep q times visits equal to the sum of all rewards seen. */
  lemma {:induction false} UpdatesSum(s: Stat, rs: seq<real>)
    ensures Updates(s, rs).visits == s.visits + |rs|
    ensures Updates(s, rs).q * Updates(s, rs).visits as real == s.q * s.visits as real + Sum(rs)
    decreases |rs|
  {
    if |rs| > 0 {
      UpdateTotal(s, rs[0]);
      UpdatesSum(Update(s, rs[0]), rs[1..]);
    }
  }

  /** From a node that was never updated, q is the mean of the rewards. */
  lemma UpdatesMean(rs: seq<real>)
    requires |rs| > 0
    ensures Updates(Stat(0.0, 0), rs).q == Sum(rs) / |rs| as real
  {
    UpdatesSum(Stat(0.0, 0), rs);
  }

  /** The children `expand(child_priors)` adds under n: boards built at once, q 0, no visits. */
  function Expand(t: BrueTree, n: nat, ps: Priors): (u: BrueTree)
    requires WellFormed(t) && Boarded(t) && n < |t|
    ensures WellFormed(u) && Boarded(u) && |u| == |t| + |ps|
    ensures forall i :: 0 <= i < |t| && i != n ==> u[i] == t[i]
    ensures u[n] == t[n].(children := u[n].children)
    ensures forall k :: 0 <= k < |ps| ==>
              u[|t| + k] == Node(Some(n), ps[k].0, ps[k].1, false, [], Some(Push(t[n].board.value, ps[k].0)), Stat(0.0, 0))
    ensures t[n].children == [] && DistinctMoves(ps) ==> u[n].children == seq(|ps|, k => |t| + k)
    ensures |u[n].children| > 0 <==> |t[n].children| > 0 || |ps| > 0
  {
    AddChildrenBoarded(t, n, ps, Fresh);
    AddChildrenGrows(t, n, ps, true, Fresh);
    var u := AddChildren(t, n, ps, true, Fresh);
    if t[n].children == [] && DistinctMoves(ps) then
      AddChildrenFresh(t, n, ps, true, Fresh);
      u
    else
      u
  }

  /** What a node holds once `end_of_probe` has handled it childless: its evaluation unless its game is over. */
  function LeafStat(t: BrueTree, n: nat, net: Board -> Evaluation, over: Board -> bool): Stat
    requires Boarded(t) && n < |t|
  {
    if over(t[n].board.value) then t[n].stat else Stat(net(t[n].board.value).value, 1)
  }

  /**
   * `end_of_probe(node, net, _)`: false, changing nothing, when n has
   * children; otherwise true, after expanding n with the evaluator's priors
   * and setting its q to the evaluator's value with one visit, unless n's
   * game is over, in which case nothing changes.
   */
  function EndOfProbe(t: BrueTree, n: nat, net: Board -> Evaluation, over: Board -> bool): (r: (BrueTree, bool))
    requires WellFormed(t) && Boarded(t) && n < |t|
    ensures WellFormed(r.0) && Boarded(r.0) && |r.0| >= |t|
    ensures r.1 <==> |t[n].children| == 0
    ensures !r.1 || over(t[n].board.value) ==> r.0 == t
    ensures forall i :: 0 <= i < |t| && i != n ==> r.0[i] == t[i]
    ensures r.1 ==> r.0[n] == t[n].(children := r.0[n].children, stat := LeafStat(t, n, net, over))
    ensures r.1 && !over(t[n].board.value) && DistinctMoves(net(t[n].board.value).priors) ==>
              r.0[n].children == seq(|net(t[n].board.value).priors|, k => |t| + k)
    ensures r.1 && !over(t[n].board.value) ==> (|r.0[n].children| > 0 <==> |net(t[n].board.value).priors| > 0)
  {
    if |t[n].children| > 0 then (t, false)
    else if over(t[n].board.value) then (t, true)
    else
      var ev := net(t[n].board.value);
      var u := Expand(t, n, ev.priors);
      SetStatWellFormed(u, n, Stat(ev.value, 1));
      (SetStat(u, n, Stat(ev.value, 1)), true)
  }

  /** The key of `exploitation`: q alone. */
  function QKey(nd: Node<Stat>): Rank.Key {
    Rank.K1(nd.stat.q)
  }

  /**
   * The child `probe` steps to from n at `depth`: `exploration()` above the
   * switching depth, the child at position `choose(depth)` (modulo the
   * number of children) standing for the weighted random pick; otherwise
   * `exploitation()`, the first child with the highest q.
   */
  function Choice(t: BrueTree, n: nat, depth: nat, switch: nat, choose: nat -> nat): (c: nat)
    requires WellFormed(t) && n < |t| && |t[n].children| > 0
    ensures c in t[n].children && n < c < |t|
    ensures depth >= switch ==> forall d :: d in t[n].children ==> t[d].stat.q <= t[c].stat.q
    ensures depth >= switch ==> forall j :: 0 <= j < |t[n].children| && t[n].children[j] != c ==>
              t[t[n].children[j]].stat.q < t[c].stat.q || exists i :: 0 <= i < j && t[n].children[i] == c
  {
    ChildrenOf(t, n);
    if depth < switch then t[n].children[choose(depth) % |t[n].children|]
    else BestBy(t, n, QKey).value
  }

  /**
   * p is the path of a probe from n at `depth`: each node is followed by
   * the child the rule picks for it at its depth, and the last node has no
   * children.
   */
  predicate Descent(t: BrueTree, p: seq<nat>, n: nat, depth: nat, switch: nat, choose: nat -> nat)
    requires WellFormed(t)
  {
    && |p| > 0 && p[0] == n
    && (forall k :: 0 <= k < |p| ==> n <= p[k] < |t|)
    && (forall k :: 0 <= k < |p| - 1 ==> |t[p[k]].children| > 0 && p[k + 1] == Choice(t, p[k], depth + k, switch, choose))
    && |t[p[|p| - 1]].children| == 0
  }

  /** The position on a probe path of length len, from `depth`, of the one node `update_node` is called on; -1 for none. */
  function UpdatedAt(depth: nat, switch: nat, len: nat): int {
    if switch < depth then -1
    else if switch - depth < len - 1 then switch - depth
    else len - 1
  }

  /** The q values along p, the leaf's taken after `end_of_probe`. */
  function Qs(t: BrueTree, p: seq<nat>, leaf: Stat): (qs: seq<real>)
    requires forall k :: 0 <= k < |p| ==> p[k] < |t|
    ensures |qs| == |p|
  {
    seq(|p|, k requires 0 <= k < |p| => if k == |p| - 1 then leaf.q else t[p[k]].stat.q)
  }

  /** The reward `probe` returns from the first of qs: its q minus the reward below it. */
  function Reward(qs: seq<real>): real
    requires |qs| > 0
    decreases |qs|
  {
    if |qs| == 1 then qs[0] else qs[0] - Reward(qs[1..])
  }

  /** The reward is the alternating sum of the q values down the path. */
  lemma {:induction false} RewardAlternates(qs: seq<real>)
    requires |qs| > 0
    ensures Reward(qs) == AltSum(qs)
    decreases |qs|
  {
    if |qs| > 1 {
      RewardAlternates(qs[1..]);
      AltSumCons(qs);
    }
  }

  /** `qs[0] - qs[1] + qs[2] - ...`. */
  function AltSum(qs: seq<real>): real
    decreases |qs|
  {
    if |qs| == 0 then 0.0 else AltSum(qs[..|qs| - 1]) + Alt(qs[|qs| - 1], |qs| - 1)
  }

  lemma {:induction false} AltSumCons(qs: seq<real>)
    requires |qs| > 0
    ensures AltSum(qs) == qs[0] - AltSum(qs[1..])
    decreases |qs|
  {
    if |qs| > 1 {
      var init := qs[..|qs| - 1];
      AltSumCons(init);
      assert init[1..] == qs[1..][..|qs| - 2];
      assert Alt(qs[|qs| - 1], |qs| - 1) == -Alt(qs[|qs| - 1], |qs| - 2);
    } else {
      assert qs[..0] == [];
    }
  }

  /** The stat of p[k] before the probe's update: its stat in t, or the leaf's after `end_of_probe`. */
  function Before(t: BrueTree, p: seq<nat>, leaf: Stat, k: nat): Stat
    requires k < |p| && forall i :: 0 <= i < |p| ==> p[i] < |t|
  {
    if k == |p| - 1 then leaf else t[p[k]].stat
  }

  /**
   * Every node of p holds its stat from before the probe, except the node
   * at UpdatedAt, which was updated with the reward of the path below it.
   */
  predicate Settled(t: BrueTree, u: BrueTree, p: seq<nat>, leaf: Stat, depth: nat, switch: nat)
    requires forall i :: 0 <= i < |p| ==> p[i] < |t| <= |u|
  {
    forall k :: 0 <= k < |p| ==>
      u[p[k]].stat == if k == UpdatedAt(depth, switch, |p|) then Update(Before(t, p, leaf, k), Reward(Qs(t, p, leaf)[k..]))
                      else Before(t, p, leaf, k)
  }

  /** A probe's result: the tree after it, its reward and the nodes it went through. */
  datatype Probed = Probed(tree: BrueTree, reward: real, path: seq<nat>)

  /**
   * What a probe from n at `depth` leaves behind, given its path: the tree
   * `end_of_probe` made at the leaf with only stats of the path changed, as
   * Settled says, and the reward of the whole path.
   */
  predicate Done(t: BrueTree, r: Probed, net: Board -> Evaluation, over: Board -> bool, depth: nat, switch: nat)
    requires WellFormed(t) && Boarded(t) && |r.path| > 0 && forall k :: 0 <= k < |r.path| ==> r.path[k] < |t|
  {
    var leaf := r.path[|r.path| - 1];
    var e := EndOfProbe(t, leaf, net, over).0;
    var ls := LeafStat(t, leaf, net, over);
    && OnlyStats(e, r.tree) && Untouched(e, r.tree, r.path)
    && Settled(t, r.tree, r.path, ls, depth, switch)
    && r.reward == Reward(Qs(t, r.path, ls))
  }

  predicate ProbeSpec(t: BrueTree, n: nat, depth: nat, switch: nat, net: Board -> Evaluation, over: Board -> bool,
                      choose: nat -> nat, r: Probed)
    requires WellFormed(t) && Boarded(t)
  {
    Descent(t, r.path, n, depth, switch, choose) && Done(t, r, net, over, depth, switch)
  }

  /**
   * `probe(node, depth, switch)`: descend by Choice until `end_of_probe`,
   * then return the reward up the path, updating the node at the
   * switching depth, or the leaf if the path ends above it.
   */
  function Probe(t: BrueTree, n: nat, depth: nat, switch: nat, net: Board -> Evaluation, over: Board -> bool,
                 choose: nat -> nat): (r: Probed)
    requires WellFormed(t) && Boarded(t) && n < |t|
    ensures ProbeSpec(t, n, depth, switch, net, over, choose, r)
    decreases |t| - n
  {
    if |t[n].children| == 0 then
      var e := EndOfProbe(t, n, net, over).0;
      var ls := e[n].stat;
      var u := if switch >= depth then SetStat(e, n, Update(ls, ls.q)) else e;
      ProbeLeaf(t, n, depth, switch, net, over, choose, u);
      Probed(u, ls.q, [n])
    else
      var c := Choice(t, n, depth, switch, choose);
      var r := Probe(t, c, depth + 1, switch, net, over, choose);
      var reward := t[n].stat.q - r.reward;
      var u := if depth == switch then SetStat(r.tree, n, Update(r.tree[n].stat, reward)) else r.tree;
      DescentCons(t, n, c, depth, switch, choose, r.path);
      DoneCons(t, n, depth, switch, net, over, r, reward, u);
      Probed(u, reward, [n] + r.path)
  }

  lemma ProbeLeaf(t: BrueTree, n: nat, depth: nat, switch: nat, net: Board -> Evaluation, over: Board -> bool,
                  choose: nat -> nat, u: BrueTree)
    requires WellFormed(t) && Boarded(t) && n < |t| && |t[n].children| == 0
    requires var e := EndOfProbe(t, n, net, over).0;
      u == if switch >= depth then SetStat(e, n, Update(e[n].stat, e[n].stat.q)) else e
    ensures var ls := EndOfProbe(t, n, net, over).0[n].stat;
      ProbeSpec(t, n, depth, switch, net, over, choose, Probed(u, ls.q, [n]))
  {
    var e := EndOfProbe(t, n, net, over).0;
    LeafSettled(t, n, e, u, e[n].stat, depth, switch);
  }

  /** At a leaf, the probe's path is the leaf alone, updated with its own q when it is not above the switching depth. */
  lemma LeafSettled(t: BrueTree, n: nat, e: BrueTree, u: BrueTree, ls: Stat, depth: nat, switch: nat)
    requires n < |t| <= |e| && e[n].stat == ls
    requires u == if switch >= depth then SetStat(e, n, Update(ls, ls.q)) else e
    ensures OnlyStats(e, u) && Untouched(e, u, [n])
    ensures Settled(t, u, [n], ls, depth, switch) && ls.q == Reward(Qs(t, [n], ls))
  {
    assert Qs(t, [n], ls) == [ls.q];
    assert Qs(t, [n], ls)[0..] == [ls.q];
    assert Before(t, [n], ls, 0) == ls;
    if switch >= depth {
      assert UpdatedAt(depth, switch, 1) == 0;
    } else {
      assert UpdatedAt(depth, switch, 1) == -1;
    }
  }

  /** A step by Choice from n followed by a probe path from the child is a probe path from n. */
  lemma DescentCons(t: BrueTree, n: nat, c: nat, depth: nat, switch: nat, choose: nat -> nat, p: seq<nat>)
    requires WellFormed(t) && n < |t| && |t[n].children| > 0 && c == Choice(t, n, depth, switch, choose)
    requires Descent(t, p, c, depth + 1, switch, choose)
    ensures Descent(t, [n] + p, n, depth, switch, choose)
  {
    var q := [n] + p;
    forall k | 0 < k < |q| - 1
      ensures |t[q[k]].children| > 0 && q[k + 1] == Choice(t, q[k], depth + k, switch, choose)
    {
      assert q[k] == p[k - 1] && q[k + 1] == p[k];
    }
  }

  /** Settled for the path below n, and n updated exactly when it is at the switching depth, give Settled for the path from n. */
  lemma SettledCons(t: BrueTree, n: nat, v: BrueTree, u: BrueTree, p: seq<nat>, ls: Stat, depth: nat, switch: nat, reward: real)
    requires |p| > 0 && n < |t| <= |v| && forall k :: 0 <= k < |p| ==> n < p[k] < |t|
    requires Settled(t, v, p, ls, depth + 1, switch) && v[n].stat == t[n].stat
    requires reward == t[n].stat.q - Reward(Qs(t, p, ls))
    requires |u| == |v| && u[n].stat == (if depth == switch then Update(t[n].stat, reward) else t[n].stat)
    requires forall k :: 0 <= k < |p| ==> u[p[k]] == v[p[k]]
    ensures Settled(t, u, [n] + p, ls, depth, switch)
    ensures reward == Reward(Qs(t, [n] + p, ls))
  {
    var q := [n] + p;
    assert Qs(t, q, ls)[1..] == Qs(t, p, ls);
    forall k | 0 <= k < |q|
      ensures u[q[k]].stat == if k == UpdatedAt(depth, switch, |q|) then Update(Before(t, q, ls, k), Reward(Qs(t, q, ls)[k..]))
                              else Before(t, q, ls, k)
    {
      if k > 0 {
        assert q[k] == p[k - 1];
        assert Qs(t, q, ls)[k..] == Qs(t, p, ls)[k - 1..];
        assert Before(t, q, ls, k) == Before(t, p, ls, k - 1);
      } else {
        assert Qs(t, q, ls)[0..] == Qs(t, q, ls);
      }
    }
  }

  lemma DoneCons(t: BrueTree, n: nat, depth: nat, switch: nat, net: Board -> Evaluation, over: Board -> bool,
                 r: Probed, reward: real, u: BrueTree)
    requires WellFormed(t) && Boarded(t) && n < |t|
    requires |r.path| > 0 && forall k :: 0 <= k < |r.path| ==> n < r.path[k] < |t|
    requires Done(t, r, net, over, depth + 1, switch)
    requires reward == t[n].stat.q - r.reward
    requires u == if depth == switch then SetStat(r.tree, n, Update(r.tree[n].stat, reward)) else r.tree
    ensures Done(t, Probed(u, reward, [n] + r.path), net, over, depth, switch)
  {
    var leaf := r.path[|r.path| - 1];
    var e := EndOfProbe(t, leaf, net, over).0;
    var ls := LeafStat(t, leaf, net, over);
    assert n !in r.path;
    assert r.tree[n] == e[n] == t[n];
    SettledCons(t, n, r.tree, u, r.path, ls, depth, switch, reward);
  }

  /** A probe keeps the tree well formed, builds every new board and changes none of the old. */
  lemma ProbeShape(t: BrueTree, n: nat, depth: nat, switch: nat, net: Board -> Evaluation, over: Board -> bool,
                   choose: nat -> nat, r: Probed)
    requires WellFormed(t) && Boarded(t) && n < |t| && ProbeSpec(t, n, depth, switch, net, over, choose, r)
    ensures WellFormed(r.tree) && Boarded(r.tree) && |r.tree| >= |t|
    ensures forall i :: 0 <= i < |t| ==> r.tree[i].board == t[i].board
  {
    var leaf := r.path[|r.path| - 1];
    var e := EndOfProbe(t, leaf, net, over).0;
    OnlyStatsWellFormed(e, r.tree);
    assert forall i :: 0 <= i < |e| ==> r.tree[i].board == e[i].board;
  }

  /** A probe changes the children of no node that had some: only its childless leaf can gain them. */
  lemma ProbeKeepsInner(t: BrueTree, n: nat, depth: nat, switch: nat, net: Board -> Evaluation, over: Board -> bool,
                        choose: nat -> nat, r: Probed)
    requires WellFormed(t) && Boarded(t) && n < |t| && ProbeSpec(t, n, depth, switch, net, over, choose, r)
    ensures forall i :: 0 <= i < |t| && |t[i].children| > 0 ==> r.tree[i].children == t[i].children
  {
    var leaf := r.path[|r.path| - 1];
    var e := EndOfProbe(t, leaf, net, over).0;
    forall i | 0 <= i < |t| && |t[i].children| > 0
      ensures r.tree[i].children == t[i].children
    {
      assert i != leaf;
      assert r.tree[i].children == e[i].children;
    }
  }

  /** A probe from a childless node stops there: it evaluates and expands the node alone. */
  lemma ProbeAtLeaf(t: BrueTree, n: nat, depth: nat, switch: nat, net: Board -> Evaluation, over: Board -> bool,
                    choose: nat -> nat, r: Probed)
    requires WellFormed(t) && Boarded(t) && n < |t| && ProbeSpec(t, n, depth, switch, net, over, choose, r)
    ensures |t[n].children| == 0 ==> r.path == [n] && r.tree[n].children == EndOfProbe(t, n, net, over).0[n].children
  {
  }

  /**
   * A probe from the root at depth 0 calls `update_node` on exactly one node
   * of its path: the one at the switching depth, or the leaf if the path is
   * shorter; every other node of the path keeps its stat.
   */
  lemma ProbeUpdatesOne(t: BrueTree, switch: nat, net: Board -> Evaluation, over: Board -> bool, choose: nat -> nat,
                        r: Probed)
    requires WellFormed(t) && Boarded(t) && r == Probe(t, 0, 0, switch, net, over, choose)
    ensures var p := r.path;
      var ls := LeafStat(t, p[|p| - 1], net, over);
      var at := if switch < |p| - 1 then switch else |p| - 1;
      && r.tree[p[at]].stat == Update(Before(t, p, ls, at), Reward(Qs(t, p, ls)[at..]))
      && forall k :: 0 <= k < |p| && k != at ==> r.tree[p[k]].stat == Before(t, p, ls, k)
  {
    var p := r.path;
    assert ProbeSpec(t, 0, 0, switch, net, over, choose, r);
    var ls := LeafStat(t, p[|p| - 1], net, over);
    assert Settled(t, r.tree, p, ls, 0, switch);
    SettledFromRoot(t, r.tree, p, ls, switch);
  }

  /** From depth 0 the updated position is the switching depth, cut to the leaf's. */
  lemma SettledFromRoot(t: BrueTree, u: BrueTree, p: seq<nat>, ls: Stat, switch: nat)
    requires |p| > 0 && |t| <= |u| && forall i :: 0 <= i < |p| ==> p[i] < |t|
    requires Settled(t, u, p, ls, 0, switch)
    ensures var at := if switch < |p| - 1 then switch else |p| - 1;
      && u[p[at]].stat == Update(Before(t, p, ls, at), Reward(Qs(t, p, ls)[at..]))
      && forall k :: 0 <= k < |p| && k != at ==> u[p[k]].stat == Before(t, p, ls, k)
  {
    assert UpdatedAt(0, switch, |p|) == if switch < |p| - 1 then switch else |p| - 1;
  }

  /**
   * `switch_function(num, _)`: `1 + num % int(1 + log(1 + num))`, given
   * `lg`, the logarithm of 1 + num; `int` truncates, and lg is not negative.
   */
  function Switch(num: nat, lg: real): (s: nat)
    requires lg >= 0.0
    ensures 1 <= s <= num + 1
    ensures s <= (1.0 + lg).Floor
  {
    var m := (1.0 + lg).Floor;
    1 + num % m
  }

  /** The key of `result`: q, then visits. */
  function ResultKey(nd: Node<Stat>): Rank.Key {
    Rank.K2(nd.stat.q, nd.stat.visits as real)
  }

  /**
   * The loop of `result`: probe number `num` from the root with switching
   * depth `Switch(num, log(1 + num))`, for every num below `count`.
   */
  function Probes(t: BrueTree, num: nat, count: nat, net: Board -> Evaluation, over: Board -> bool,
                  choose: nat -> nat -> nat, log: real -> real): (u: BrueTree)
    requires WellFormed(t) && Boarded(t)
    requires forall x: real :: x >= 1.0 ==> log(x) >= 0.0
    ensures WellFormed(u) && Boarded(u) && |u| >= |t|
    ensures u[0].board == t[0].board
    ensures |t[0].children| > 0 ==> |u[0].children| > 0
    ensures num < count && |t[0].children| == 0 && !over(t[0].board.value) && |net(t[0].board.value).priors| > 0 ==>
              |u[0].children| > 0
    decreases count - num
  {
    if num >= count then t
    else
      var sw := Switch(num, log(1.0 + num as real));
      var r := Probe(t, 0, 0, sw, net, over, choose(num));
      ProbeShape(t, 0, 0, sw, net, over, choose(num), r);
      ProbeKeepsInner(t, 0, 0, sw, net, over, choose(num), r);
      ProbeAtLeaf(t, 0, 0, sw, net, over, choose(num), r);
      Probes(r.tree, num + 1, count, net, over, choose, log)
  }

  /**
   * `BRUE_search(board, num_reads, net)`: `result` on a fresh root, which
   * returns the root's child with the highest q, ties going to more visits
   * and then to the first; NoChildren where `max` raises on a root without
   * children.
   */
  function Search(board: Board, numReads: int, net: Board -> Evaluation, over: Board -> bool,
                  choose: nat -> nat -> nat, log: real -> real): (r: Result<(Move, nat, BrueTree)>)
    requires forall x: real :: x >= 1.0 ==> log(x) >= 0.0
    ensures r.Ok? ==> var (m, c, t) := r.value;
      && WellFormed(t) && Boarded(t) && t[0].board == Some(board)
      && c in t[0].children && t[c].move == m
      && forall d :: d in t[0].children ==> !Rank.Below(ResultKey(t[c]), ResultKey(t[d]))
    ensures r.Err? ==> r.fault == NoChildren
    ensures numReads <= 0 ==> r == Err(NoChildren)
    ensures numReads > 0 && !over(board) && |net(board).priors| > 0 ==> r.Ok?
  {
    var t0 := Singleton(board, Stat(0.0, 0));
    var t := Probes(t0, 0, if numReads > 0 then numReads else 0, net, over, choose, log);
    match BestBy(t, 0, ResultKey)
    case None => Err(NoChildren)
    case Some(c) => Ok((t[c].move, c, t))
  }
}

=== FILE: climb.dfy ===
/**
 * Backups that recompute rather than accumulate.
 *
 * The minimax, Bellman and MPA backups (search/sota.py, search/minmax_backup.py,
 * search/mpa_backup.py) walk from the leaf to the root and, at every
 * ancestor, overwrite its statistics with a value computed from its own
 * statistics and those of its children as they are at that moment. `Climb`
 * is that walk for any recomputation rule `f`.
 */
module Climb {
  import opened Wrappers
  import opened Arena

  /** The statistics of n's children, in child order. */
  function KidStats<S>(t: Tree<S>, n: nat): (ks: seq<S>)
    requires WellFormed(t) && n < |t|
    ensures |ks| == |t[n].children|
    ensures forall j :: 0 <= j < |ks| ==> ks[j] == t[t[n].children[j]].stat
  {
    seq(|t[n].children|, j requires 0 <= j < |t[n].children| => t[t[n].children[j]].stat)
  }

  /**
   * Every node of p after the first holds f of its statistics in t and of its
   * children's statistics in u: it was recomputed from the children it ends
   * up with.
   */
  predicate Refreshed<S(==)>(t: Tree<S>, u: Tree<S>, p: seq<nat>, f: (S, seq<S>) -> S) {
    && WellFormed(u) && |u| == |t|
    && forall k :: 1 <= k < |p| ==> p[k] < |t| && u[p[k]].stat == f(t[p[k]].stat, KidStats(u, p[k]))
  }

  /**
   * `while current.parent is not None: current = current.parent; <recompute>`
   * from node cur: each proper ancestor of cur, lowest first, gets
   * f(own statistics, children's statistics).
   */
  function Climb<S(==)>(t: Tree<S>, cur: nat, f: (S, seq<S>) -> S): (u: Tree<S>)
    requires WellFormed(t) && cur < |t|
    ensures WellFormed(u) && OnlyStats(t, u) && Untouched(t, u, Path(t, cur))
    ensures forall i :: cur <= i < |t| ==> u[i] == t[i]
    ensures Refreshed(t, u, Path(t, cur), f)
    decreases cur
  {
    if cur == 0 then
      t
    else
      var par := t[cur].parent.value;
      var t1 := SetStat(t, par, f(t[par].stat, KidStats(t, par)));
      SetStatWellFormed(t, par, f(t[par].stat, KidStats(t, par)));
      PathSameShape(t, t1, par);
      var u := Climb(t1, par, f);
      PathStep(t, cur);
      ClimbStepFrame(t, t1, u, par, cur, Path(t, par));
      ClimbStepRefreshed(t, t1, u, par, Path(t, par), f);
      u
  }

  lemma ClimbStepFrame<S>(t: Tree<S>, t1: Tree<S>, u: Tree<S>, par: nat, cur: nat, q: seq<nat>)
    requires par < cur < |t| == |t1| && |q| > 0 && q[0] == par
    requires t1 == SetStat(t, par, t1[par].stat)
    requires OnlyStats(t1, u) && Untouched(t1, u, q)
    requires forall i :: par <= i < |t1| ==> u[i] == t1[i]
    ensures OnlyStats(t, u) && Untouched(t, u, [cur] + q)
    ensures forall i :: cur <= i < |t| ==> u[i] == t[i]
  {}

  lemma ClimbStepRefreshed<S>(t: Tree<S>, t1: Tree<S>, u: Tree<S>, par: nat, q: seq<nat>, f: (S, seq<S>) -> S)
    requires WellFormed(t) && par < |t| && |q| > 0 && q[0] == par
    requires forall k :: 1 <= k < |q| ==> q[k] < par
    requires t1 == SetStat(t, par, f(t[par].stat, KidStats(t, par)))
    requires |u| == |t1| && forall i :: par <= i < |t1| ==> u[i] == t1[i]
    requires Refreshed(t1, u, q, f)
    ensures forall k :: 0 <= k < |q| ==> q[k] < |t| && u[q[k]].stat == f(t[q[k]].stat, KidStats(u, q[k]))
  {
    assert KidStats(u, par) == KidStats(t, par);
    forall k | 1 <= k < |q|
      ensures u[q[k]].stat == f(t[q[k]].stat, KidStats(u, q[k]))
    {
      assert t1[q[k]] == t[q[k]];
    }
  }

  /** Refreshed, for a rule that is also told how many levels above the start node it is applied. */
  predicate RefreshedAt<S(==)>(t: Tree<S>, u: Tree<S>, p: seq<nat>, d: nat, f: (S, seq<S>, nat) -> S) {
    && WellFormed(u) && |u| == |t|
    && forall k :: 1 <= k < |p| ==> p[k] < |t| && u[p[k]].stat == f(t[p[k]].stat, KidStats(u, p[k]), d + k)
  }

  /**
   * `while current.parent is not None: current = current.parent; d += 1; <recompute at d>`
   * from node cur at level d: the ancestor k levels above cur gets
   * f(own statistics, children's statistics, d + k).
   */
  function ClimbAt<S(==)>(t: Tree<S>, cur: nat, d: nat, f: (S, seq<S>, nat) -> S): (u: Tree<S>)
    requires WellFormed(t) && cur < |t|
    ensures WellFormed(u) && OnlyStats(t, u) && Untouched(t, u, Path(t, cur))
    ensures forall i :: cur <= i < |t| ==> u[i] == t[i]
    ensures RefreshedAt(t, u, Path(t, cur), d, f)
    decreases cur
  {
    if cur == 0 then
      t
    else
      var par := t[cur].parent.value;
      var s := f(t[par].stat, KidStats(t, par), d + 1);
      var t1 := SetStat(t, par, s);
      SetStatWellFormed(t, par, s);
      PathSameShape(t, t1, par);
      var u := ClimbAt(t1, par, d + 1, f);
      PathStep(t, cur);
      ClimbStepFrame(t, t1, u, par, cur, Path(t, par));
      ClimbAtStepRefreshed(t, t1, u, cur, par, Path(t, par), d, f);
      u
  }

  lemma ClimbAtStepRefreshed<S>(t: Tree<S>, t1: Tree<S>, u: Tree<S>, cur: nat, par: nat, q: seq<nat>, d: nat, f: (S, seq<S>, nat) -> S)
    requires WellFormed(t) && par < |t| && |q| > 0 && q[0] == par
    requires forall k :: 1 <= k < |q| ==> q[k] < par
    requires t1 == SetStat(t, par, f(t[par].stat, KidStats(t, par), d + 1))
    requires |u| == |t1| && forall i :: par <= i < |t1| ==> u[i] == t1[i]
    requires RefreshedAt(t1, u, q, d + 1, f)
    ensures RefreshedAt(t, u, [cur] + q, d, f)
  {
    assert KidStats(u, par) == KidStats(t, par);
    var p := [cur] + q;
    forall k | 1 <= k < |p|
      ensures p[k] < |t| && u[p[k]].stat == f(t[p[k]].stat, KidStats(u, p[k]), d + k)
    {
      assert p[k] == q[k - 1];
      if k > 1 {
        assert t1[q[k - 1]] == t[q[k - 1]];
      }
    }
  }

  /**
   * `max([val(n) for n in children if visits(n)])`: the largest value among
   * the visited entries of ks, or None where Python's `max` would raise on
   * an empty list.
   */
  function MaxVisited<S>(ks: seq<S>, visits: S -> nat, val: S -> real): (r: Option<real>)
    ensures r.None? <==> forall j :: 0 <= j < |ks| ==> visits(ks[j]) == 0
    ensures r.Some? ==> forall j :: 0 <= j < |ks| && visits(ks[j]) > 0 ==> val(ks[j]) <= r.value
    ensures r.Some? ==> exists j :: 0 <= j < |ks| && visits(ks[j]) > 0 && val(ks[j]) == r.value
  {
    if |ks| == 0 then None
    else
      var last := ks[|ks| - 1];
      var r := MaxVisited(ks[..|ks| - 1], visits, val);
      assert forall j :: 0 <= j < |ks| - 1 ==> ks[..|ks| - 1][j] == ks[j];
      if visits(last) == 0 then r
      else if r.None? || r.value < val(last) then Some(val(last))
      else r
  }
}

=== FILE: mcts.dfy ===
/**
 * The search drivers of search/mcts.py over UCT nodes.
 *
 * The driver is handed a node class. The sufficiency-threshold and pruning
 * mixins override a method of the node they are mixed into, but `add_child`
 * builds plain `UCTNode` children, so the override acts at the root only:
 * the threshold rule on the root's choice of child, pruning on the root's
 * own expansion.
 */
module Mcts {
  import opened Wrappers
  import opened Arena
  import Uct
  import Threshold
  import Prune

  datatype NodeClass = Plain | SufficiencyThreshold | Pruned

  /** The child choice in `select_leaf`: the root's class decides at the root, UCT below it. */
  function Pick(cls: NodeClass, t: Uct.UctTree, sqrt: real -> real): (pick: nat -> nat)
    requires WellFormed(t)
    ensures PicksChildren(t, pick)
    ensures forall a: nat :: 0 < a < |t| && |t[a].children| > 0 ==> pick(a) == Uct.BestChild(t, a, Uct.CPUCT, sqrt)
    ensures |t[0].children| > 0 ==>
              pick(0) == if cls.SufficiencyThreshold? then Threshold.BestChild(t, 0, sqrt) else Uct.BestChild(t, 0, Uct.CPUCT, sqrt)
  {
    (a: nat) =>
      if a < |t| && |t[a].children| > 0 then
        if a == 0 && cls.SufficiencyThreshold? then Threshold.BestChild(t, 0, sqrt)
        else Uct.BestChild(t, a, Uct.CPUCT, sqrt)
      else 0
  }

  /** `leaf.expand(child_priors)`: pruned only when the leaf is a pruning root. */
  function ExpandLeaf(cls: NodeClass, t: Uct.UctTree, leaf: nat, ps: Priors): (u: Uct.UctTree)
    requires WellFormed(t) && leaf < |t|
    ensures WellFormed(u) && |u| >= |t|
    ensures u[leaf] == t[leaf].(expanded := true, children := u[leaf].children)
    ensures forall i :: 0 <= i < |t| && i != leaf ==> u[i] == t[i]
    ensures |u| == |t| + (if leaf == 0 && cls.Pruned? then |Prune.Kept(ps)| else |ps|)
    ensures BoardsReady(t) && t[leaf].board.Some? ==> BoardsReady(u)
  {
    if leaf == 0 && cls.Pruned? then Prune.Expand(t, leaf, ps) else Uct.Expand(t, leaf, ps)
  }

  /** The root `mcts_search` works on: the one supplied, or `nodeclass(board=board)`. */
  function Start(board: Board, root: Option<Uct.UctTree>): (t: Uct.UctTree)
    requires root.Some? ==> WellFormed(root.value) && BoardsReady(root.value)
    ensures WellFormed(t) && BoardsReady(t)
    ensures root.Some? ==> t == root.value
    ensures root.None? ==> |t| == 1 && t[0].board == Some(board) && t[0].stat == Uct.Stat(0.0, 0) && !t[0].expanded
  {
    if root.Some? then root.value else Singleton(board, Uct.Stat(0.0, 0))
  }

  /** A backup changes statistics only, so every board and flag stays where it was. */
  lemma BackupKeepsReady(t: Uct.UctTree, u: Uct.UctTree)
    requires WellFormed(t) && BoardsReady(t) && OnlyStats(t, u)
    ensures WellFormed(u) && BoardsReady(u) && u[0].board == t[0].board
  {
    OnlyStatsWellFormed(t, u);
    assert forall i :: 0 <= i < |u| ==> u[i].expanded == t[i].expanded && u[i].board == t[i].board;
  }

  /** Evaluate the selected leaf's board, expand the leaf with the priors and back up the value. */
  function Grow(cls: NodeClass, t: Uct.UctTree, leaf: nat, net: Board -> Evaluation): (u: Uct.UctTree)
    requires WellFormed(t) && BoardsReady(t) && leaf < |t| && t[leaf].board.Some?
    ensures WellFormed(u) && BoardsReady(u) && |u| >= |t|
    ensures u[0].stat.visits == t[0].stat.visits + 1 && u[0].stat.total == t[0].stat.total
    ensures u[0].board == t[0].board
  {
    var ev := net(t[leaf].board.value);
    var t2 := ExpandLeaf(cls, t, leaf, ev.priors);
    var t3 := Uct.Backup(t2, leaf, ev.value);
    BackupKeepsReady(t2, t3);
    t3
  }

  /**
   * One round of the loop: select a leaf, evaluate its board, expand it with
   * the priors and back up the value. Returns the new tree and the board
   * handed to the evaluator.
   */
  method Round(cls: NodeClass, t: Uct.UctTree, net: Board -> Evaluation, sqrt: real -> real)
    returns (u: Uct.UctTree, evaluated: Board)
    requires WellFormed(t) && BoardsReady(t)
    ensures WellFormed(u) && BoardsReady(u) && |u| >= |t|
    ensures u[0].stat.visits == t[0].stat.visits + 1 && u[0].stat.total == t[0].stat.total
    ensures u[0].board == t[0].board
    ensures evaluated == SelectLeaf(t, Pick(cls, t, sqrt)).0[SelectLeaf(t, Pick(cls, t, sqrt)).1].board.value
  {
    var (t1, leaf) := SelectLeaf(t, Pick(cls, t, sqrt));
    u := Grow(cls, t1, leaf, net);
    evaluated := t1[leaf].board.value;
  }

  /**
   * `mcts_search`: `max(budget, 0)` rounds, one evaluator call each, on the
   * supplied root or a fresh one; then the root's `outcome()`.
   */
  method Search(cls: NodeClass, board: Board, budget: int, net: Board -> Evaluation, root: Option<Uct.UctTree>, sqrt: real -> real)
    returns (t: Uct.UctTree, evaluated: seq<Board>, best: Option<nat>)
    requires root.Some? ==> WellFormed(root.value) && BoardsReady(root.value)
    ensures WellFormed(t) && BoardsReady(t) && |t| >= |Start(board, root)|
    ensures |evaluated| == if budget > 0 then budget else 0
    ensures t[0].stat.visits == Start(board, root)[0].stat.visits + |evaluated|
    ensures t[0].stat.total == Start(board, root)[0].stat.total
    ensures best.Some? ==> best.value in t[0].children
    ensures best == Uct.Outcome(t, 0)
  {
    t := Start(board, root);
    evaluated := [];
    var b := budget;
    while b > 0
      invariant WellFormed(t) && BoardsReady(t) && |t| >= |Start(board, root)|
      invariant |evaluated| == (if budget > 0 then budget else 0) - (if b > 0 then b else 0)
      invariant t[0].stat.visits == Start(board, root)[0].stat.visits + |evaluated|
      invariant t[0].stat.total == Start(board, root)[0].stat.total
    {
      var seen;
      t, seen := Round(cls, t, net, sqrt);
      evaluated := evaluated + [seen];
      b := b - 1;
    }
    best := Uct.Outcome(t, 0);
  }

  /**
   * One round of `mcts_eval_search`. An expanded leaf (one with no children)
   * would back up `-leaf.reward`, but no node class here defines `reward`,
   * so that branch raises AttributeError. Any other leaf is evaluated,
   * expanded and backed up as in `mcts_search`; the result carries the tree
   * and the board handed to the evaluator.
   */
  method EvalRound(cls: NodeClass, t: Uct.UctTree, net: Board -> Evaluation, sqrt: real -> real)
    returns (r: Result<(Uct.UctTree, Board)>)
    requires WellFormed(t) && BoardsReady(t)
    ensures r.Err? <==> t[Descend(t, 0, Pick(cls, t, sqrt))].expanded
    ensures r.Err? ==> r.fault == NoAttribute
    ensures r.Ok? ==>
              var u := r.value.0;
              && WellFormed(u) && BoardsReady(u) && |u| >= |t|
              && u[0].stat.visits == t[0].stat.visits + 1 && u[0].stat.total == t[0].stat.total
              && u[0].board == t[0].board
              && r.value.1 == SelectLeaf(t, Pick(cls, t, sqrt)).0[SelectLeaf(t, Pick(cls, t, sqrt)).1].board.value
  {
    var (t1, leaf) := SelectLeaf(t, Pick(cls, t, sqrt));
    if t1[leaf].expanded {
      r := Err(NoAttribute);
    } else {
      var u := Grow(cls, t1, leaf, net);
      r := Ok((u, t1[leaf].board.value));
    }
  }

  /** What a finished `mcts_eval_search` leaves: the tree, the boards evaluated in order, and the outcome. */
  datatype EvalRun = EvalRun(tree: Uct.UctTree, evaluated: seq<Board>, best: Option<nat>)

  /**
   * `mcts_eval_search`: rounds while budget remains, each evaluated round
   * costing 1. The reward branch would charge `rollout_cost`, but it raises
   * first (see EvalRound), so the search either ends in that fault or has
   * evaluated a leaf in every round: ceiling(budget) rounds for a positive
   * budget, none otherwise.
   */
  method EvalSearch(cls: NodeClass, board: Board, budget: real, rolloutCost: real, net: Board -> Evaluation,
                    root: Option<Uct.UctTree>, sqrt: real -> real)
    returns (r: Result<EvalRun>)
    requires root.Some? ==> WellFormed(root.value) && BoardsReady(root.value)
    ensures r.Err? ==> r.fault == NoAttribute && budget > 0.0
    ensures r.Ok? ==>
              var t, ev := r.value.tree, r.value.evaluated;
              && WellFormed(t) && BoardsReady(t) && |t| >= |Start(board, root)|
              && (budget <= 0.0 ==> |ev| == 0)
              && budget <= |ev| as real
              && (|ev| > 0 ==> (|ev| - 1) as real < budget)
              && t[0].stat.visits == Start(board, root)[0].stat.visits + |ev|
              && t[0].stat.total == Start(board, root)[0].stat.total
              && r.value.best == Uct.Outcome(t, 0)
  {
    var t := Start(board, root);
    var evaluated := [];
    var left := budget;
    while left > 0.0
      invariant WellFormed(t) && BoardsReady(t) && |t| >= |Start(board, root)|
      invariant left == budget - |evaluated| as real
      invariant budget <= 0.0 ==> |evaluated| == 0
      invariant |evaluated| > 0 ==> (|evaluated| - 1) as real < budget
      invariant t[0].stat.visits == Start(board, root)[0].stat.visits + |evaluated|
      invariant t[0].stat.total == Start(board, root)[0].stat.total
      decreases if left > 0.0 then left.Floor + 1 else 0
    {
      var step := EvalRound(cls, t, net, sqrt);
      if step.Err? {
        return Err(step.fault);
      }
      t, evaluated, left := step.value.0, evaluated + [step.value.1], left - 1.0;
    }
    r := Ok(EvalRun(t, evaluated, Uct.Outcome(t, 0)));
  }
}

=== FILE: minmax.dfy ===
/**
 * Minimax backup (search/minmax_backup.py).
 *
 * A node stores its value Q directly. The leaf's Q is overwritten with the
 * negated evaluation and every ancestor's Q becomes the negated largest Q
 * among its visited children. Ancestors gain one visit each and the root one
 * more after the walk; `total_value` is kept but never written.
 */
module MinMax {
  import opened Wrappers
  import opened Arena
  import Rank
  import Climb

  datatype Stat = Stat(total: real, visits: nat, q: real)

  type MinMaxTree = Tree<Stat>

  /** `U()`: sqrt(parent visits) * prior / (1 + visits). */
  function U(parentVisits: nat, nd: Node<Stat>, sqrt: real -> real): (u: real)
    ensures u * (1 + nd.stat.visits) as real == sqrt(parentVisits as real) * nd.prior
  {
    sqrt(parentVisits as real) * nd.prior / (1 + nd.stat.visits) as real
  }

  /** The key of `best_child(C)`: the stored Q plus C times U. */
  function Score(parentVisits: nat, nd: Node<Stat>, c: real, sqrt: real -> real): real {
    nd.stat.q + c * U(parentVisits, nd, sqrt)
  }

  /** The position, among n's children, of `best_child(C)`. */
  function BestIndex(t: MinMaxTree, n: nat, c: real, sqrt: real -> real): (i: nat)
    requires WellFormed(t) && n < |t| && |t[n].children| > 0
    ensures i < |t[n].children|
    ensures forall j :: 0 <= j < |t[n].children| ==>
              Score(t[n].stat.visits, t[t[n].children[j]], c, sqrt) <= Score(t[n].stat.visits, t[t[n].children[i]], c, sqrt)
    ensures forall j :: 0 <= j < i ==>
              Score(t[n].stat.visits, t[t[n].children[j]], c, sqrt) < Score(t[n].stat.visits, t[t[n].children[i]], c, sqrt)
  {
    var pv := t[n].stat.visits;
    ArgBest(t, t[n].children, nd => Rank.K1(Score(pv, nd, c, sqrt)))
  }

  /** The descent of `select_leaf(C)`: at each node, the first child of maximal score. */
  function Pick(t: MinMaxTree, c: real, sqrt: real -> real): (pick: nat -> nat)
    requires WellFormed(t)
    ensures PicksChildren(t, pick)
    ensures forall a: nat :: a < |t| && |t[a].children| > 0 ==> pick(a) == t[a].children[BestIndex(t, a, c, sqrt)]
  {
    (a: nat) => if a < |t| && |t[a].children| > 0 then t[a].children[BestIndex(t, a, c, sqrt)] else 0
  }

  /** `MinMaxNode(parent=self, ...)`: no total, no visits, Q 0. */
  function Seed(parent: Stat, prior: real): Stat {
    Stat(0.0, 0, 0.0)
  }

  /** A child just added for prior entry e of node n. */
  predicate Blank(nd: Node<Stat>, n: nat, e: (Move, real)) {
    && nd.parent == Some(n) && nd.move == e.0 && nd.prior == e.1
    && !nd.expanded && nd.children == [] && nd.board.None?
    && nd.stat == Stat(0.0, 0, 0.0)
  }

  /** `expand(child_priors)`: mark n expanded and add one blank child per prior, in order. */
  function Expand(t: MinMaxTree, n: nat, ps: Priors): (u: MinMaxTree)
    requires WellFormed(t) && n < |t|
    ensures WellFormed(u) && |u| == |t| + |ps|
    ensures u[n] == t[n].(expanded := true, children := u[n].children)
    ensures forall i :: 0 <= i < |t| && i != n ==> u[i] == t[i]
    ensures forall k :: 0 <= k < |ps| ==> Blank(u[|t| + k], n, ps[k])
    ensures t[n].children == [] && DistinctMoves(ps) ==> u[n].children == seq(|ps|, k => |t| + k)
    ensures BoardsReady(t) && t[n].board.Some? ==> BoardsReady(u)
  {
    var t1 := MarkExpanded(t, n);
    var u := AddChildren(t1, n, ps, false, Seed);
    forall k | 0 <= k < |ps|
      ensures Blank(u[|t| + k], n, ps[k])
    {
      assert u[|t| + k] == ChildFor(t1, n, ps[k], false, Seed);
    }
    assert BoardsReady(t) && t[n].board.Some? ==> BoardsReady(u) by {
      if BoardsReady(t) && t[n].board.Some? {
        AddChildrenReady(t1, n, ps, false, Seed);
      }
    }
    if t[n].children == [] && DistinctMoves(ps) then
      AddChildrenFresh(t1, n, ps, false, Seed);
      u
    else
      u
  }

  function Visits(s: Stat): nat { s.visits }

  function Value(s: Stat): real { s.q }

  /**
   * `-max([n.Q for n in children if n.number_visits])`. Where no child is
   * visited Python's `max` raises; the old value is kept in that case, which
   * never arises on a backup path (BackupMinimax).
   */
  function Minimax(prev: real, ks: seq<Stat>): real {
    match Climb.MaxVisited(ks, Visits, Value)
    case None => prev
    case Some(m) => -m
  }

  /** What the backup loop does at an ancestor: one more visit, Q recomputed from the children. */
  function Refresh(s: Stat, ks: seq<Stat>): Stat {
    s.(visits := s.visits + 1, q := Minimax(s.q, ks))
  }

  /** Every node on p but the last (the root) gained exactly one visit. */
  predicate Visited(t: MinMaxTree, u: MinMaxTree, p: seq<nat>) {
    forall k :: 0 <= k < |p| - 1 ==> p[k] < |t| && p[k] < |u| && u[p[k]].stat.visits == t[p[k]].stat.visits + 1
  }

  /** Every node on p after the first holds the minimax of its children as they are in u. */
  predicate Minimaxed(t: MinMaxTree, u: MinMaxTree, p: seq<nat>) {
    && WellFormed(u)
    && forall k :: 1 <= k < |p| ==> p[k] < |t| && p[k] < |u| && u[p[k]].stat.q == Minimax(t[p[k]].stat.q, Climb.KidStats(u, p[k]))
  }

  /**
   * `backup(value_estimate)`: the leaf's Q becomes -v, every ancestor's Q the
   * minimax of its children; each node on the path gains one visit and the
   * root two; no `total_value` changes.
   */
  function Backup(t: MinMaxTree, leaf: nat, v: real): (u: MinMaxTree)
    requires WellFormed(t) && leaf < |t|
    ensures WellFormed(u) && OnlyStats(t, u) && Untouched(t, u, Path(t, leaf))
    ensures forall i :: 0 <= i < |t| ==> u[i].stat.total == t[i].stat.total
    ensures u[leaf].stat.q == -v
    ensures Visited(t, u, Path(t, leaf)) && u[0].stat.visits == t[0].stat.visits + 2
    ensures Minimaxed(t, u, Path(t, leaf))
  {
    var t1 := SetStat(t, leaf, t[leaf].stat.(q := -v, visits := t[leaf].stat.visits + 1));
    SetStatWellFormed(t, leaf, t1[leaf].stat);
    PathSameShape(t, t1, leaf);
    var t2 := Climb.Climb(t1, leaf, Refresh);
    var u := SetStat(t2, 0, t2[0].stat.(visits := t2[0].stat.visits + 1));
    SetStatWellFormed(t2, 0, u[0].stat);
    BackupFacts(t, t1, t2, u, leaf, v);
    u
  }

  lemma BackupFacts(t: MinMaxTree, t1: MinMaxTree, t2: MinMaxTree, u: MinMaxTree, leaf: nat, v: real)
    requires WellFormed(t) && leaf < |t| && WellFormed(u)
    requires t1 == SetStat(t, leaf, t[leaf].stat.(q := -v, visits := t[leaf].stat.visits + 1))
    requires WellFormed(t1) && Path(t1, leaf) == Path(t, leaf)
    requires WellFormed(t2) && OnlyStats(t1, t2) && Untouched(t1, t2, Path(t, leaf))
    requires forall i :: leaf <= i < |t1| ==> t2[i] == t1[i]
    requires Climb.Refreshed(t1, t2, Path(t, leaf), Refresh)
    requires u == SetStat(t2, 0, t2[0].stat.(visits := t2[0].stat.visits + 1))
    ensures OnlyStats(t, u) && Untouched(t, u, Path(t, leaf))
    ensures forall i :: 0 <= i < |t| ==> u[i].stat.total == t[i].stat.total
    ensures u[leaf].stat.q == -v
    ensures Visited(t, u, Path(t, leaf)) && u[0].stat.visits == t[0].stat.visits + 2
    ensures Minimaxed(t, u, Path(t, leaf))
  {
    var p := Path(t, leaf);
    PathStrictlyDecreasing(t, leaf);
    assert p[|p| - 1] == 0;
    BackupFrame(t, t1, t2, u, p, leaf, v);
    BackupVisits(t, t1, t2, u, p, leaf, v);
    BackupMinimaxed(t, t1, t2, u, p, leaf, v);
  }

  lemma BackupFrame(t: MinMaxTree, t1: MinMaxTree, t2: MinMaxTree, u: MinMaxTree, p: seq<nat>, leaf: nat, v: real)
    requires leaf < |t| && |p| > 0 && p[0] == leaf && p[|p| - 1] == 0
    requires t1 == SetStat(t, leaf, t[leaf].stat.(q := -v, visits := t[leaf].stat.visits + 1))
    requires OnlyStats(t1, t2) && Untouched(t1, t2, p) && t2[leaf] == t1[leaf]
    requires Climb.Refreshed(t1, t2, p, Refresh)
    requires u == SetStat(t2, 0, t2[0].stat.(visits := t2[0].stat.visits + 1))
    ensures OnlyStats(t, u) && Untouched(t, u, p)
    ensures forall i :: 0 <= i < |t| ==> u[i].stat.total == t[i].stat.total
    ensures u[leaf].stat.q == -v
  {
    forall i | 0 <= i < |t|
      ensures t2[i].stat.total == t[i].stat.total
    {
      if i in p && i != leaf {
        var k :| 0 <= k < |p| && p[k] == i;
        assert t2[p[k]].stat.total == t1[p[k]].stat.total;
      }
    }
  }

  lemma BackupVisits(t: MinMaxTree, t1: MinMaxTree, t2: MinMaxTree, u: MinMaxTree, p: seq<nat>, leaf: nat, v: real)
    requires leaf < |t| && |p| > 0 && p[0] == leaf && p[|p| - 1] == 0 && StrictlyDecreasing(p)
    requires t1 == SetStat(t, leaf, t[leaf].stat.(q := -v, visits := t[leaf].stat.visits + 1))
    requires |t2| == |t1| && t2[leaf] == t1[leaf]
    requires Climb.Refreshed(t1, t2, p, Refresh)
    requires u == SetStat(t2, 0, t2[0].stat.(visits := t2[0].stat.visits + 1))
    ensures Visited(t, u, p) && u[0].stat.visits == t[0].stat.visits + 2
  {
    forall k | 0 <= k < |p| - 1
      ensures u[p[k]].stat.visits == t[p[k]].stat.visits + 1
    {
      assert p[|p| - 1] < p[k];
      if k > 0 {
        assert t1[p[k]] == t[p[k]];
        assert t2[p[k]].stat.visits == t1[p[k]].stat.visits + 1;
      }
    }
    if leaf != 0 {
      assert t2[p[|p| - 1]].stat.visits == t1[p[|p| - 1]].stat.visits + 1;
    }
  }

  lemma BackupMinimaxed(t: MinMaxTree, t1: MinMaxTree, t2: MinMaxTree, u: MinMaxTree, p: seq<nat>, leaf: nat, v: real)
    requires WellFormed(t) && leaf < |t| && |p| > 0 && p[0] == leaf
    requires forall k :: 1 <= k < |p| ==> p[k] < leaf
    requires t1 == SetStat(t, leaf, t[leaf].stat.(q := -v, visits := t[leaf].stat.visits + 1))
    requires Climb.Refreshed(t1, t2, p, Refresh) && WellFormed(u)
    requires u == SetStat(t2, 0, t2[0].stat.(visits := t2[0].stat.visits + 1))
    ensures Minimaxed(t, u, p)
  {
    forall k | 1 <= k < |p|
      ensures u[p[k]].stat.q == Minimax(t[p[k]].stat.q, Climb.KidStats(u, p[k]))
    {
      assert t1[p[k]] == t[p[k]];
      assert Climb.KidStats(u, p[k]) == Climb.KidStats(t2, p[k]);
    }
  }

  /** A node on a linked backup path always has a visited child: the one the path came from. */
  lemma BackupMinimax(t: MinMaxTree, leaf: nat, v: real)
    requires WellFormed(t) && leaf < |t| && Linked(t, Path(t, leaf))
    ensures var u := Backup(t, leaf, v); var p := Path(t, leaf);
      forall k :: 1 <= k < |p| ==>
        var m := Climb.MaxVisited(Climb.KidStats(u, p[k]), Visits, Value);
        m.Some? && u[p[k]].stat.q == -m.value
  {
    var u := Backup(t, leaf, v);
    var p := Path(t, leaf);
    forall k | 1 <= k < |p|
      ensures var m := Climb.MaxVisited(Climb.KidStats(u, p[k]), Visits, Value);
        m.Some? && u[p[k]].stat.q == -m.value
    {
      MinimaxAt(t, u, p, k);
    }
  }

  /** BackupMinimax at the k-th node of the path, from the backup's post-state alone. */
  lemma MinimaxAt(t: MinMaxTree, u: MinMaxTree, p: seq<nat>, k: nat)
    requires WellFormed(t) && OnlyStats(t, u) && Visited(t, u, p) && Minimaxed(t, u, p)
    requires 1 <= k < |p| && p[k] < |t| && p[k - 1] in t[p[k]].children
    ensures var m := Climb.MaxVisited(Climb.KidStats(u, p[k]), Visits, Value);
      m.Some? && u[p[k]].stat.q == -m.value
  {
    var ks := Climb.KidStats(u, p[k]);
    assert u[p[k]].children == t[p[k]].children;
    var j :| 0 <= j < |u[p[k]].children| && u[p[k]].children[j] == p[k - 1];
    assert ks[j] == u[p[k - 1]].stat;
    assert Visits(ks[j]) > 0;
  }

  /** One iteration of the `MinMax_search` loop. */
  method Round(t: MinMaxTree, c: real, net: Board -> Evaluation, sqrt: real -> real) returns (u: MinMaxTree)
    requires WellFormed(t) && BoardsReady(t)
    ensures WellFormed(u) && BoardsReady(u) && |u| >= |t|
    ensures u[0].stat.visits == t[0].stat.visits + 2
    ensures forall i :: 0 <= i < |t| ==> u[i].stat.total == t[i].stat.total
    ensures forall i :: |t| <= i < |u| ==> u[i].stat.total == 0.0
  {
    var (t1, leaf) := SelectLeaf(t, Pick(t, c, sqrt));
    assert forall i :: 0 <= i < |t| ==> t1[i].stat == t[i].stat;
    u := Grow(t1, leaf, net(t1[leaf].board.value));
  }

  /** Expand the selected leaf with the evaluation and back its value up. */
  method Grow(t: MinMaxTree, leaf: nat, ev: Evaluation) returns (u: MinMaxTree)
    requires WellFormed(t) && BoardsReady(t) && leaf < |t| && t[leaf].board.Some?
    ensures WellFormed(u) && BoardsReady(u) && |u| >= |t|
    ensures u[0].stat.visits == t[0].stat.visits + 2
    ensures forall i :: 0 <= i < |t| ==> u[i].stat.total == t[i].stat.total
    ensures forall i :: |t| <= i < |u| ==> u[i].stat.total == 0.0
  {
    var t2 := Expand(t, leaf, ev.priors);
    u := Backup(t2, leaf, ev.value);
    OnlyStatsWellFormed(t2, u);
    assert forall i :: 0 <= i < |u| ==> u[i].expanded == t2[i].expanded && u[i].board == t2[i].board;
    assert forall i :: 0 <= i < |t| ==> t2[i].stat == t[i].stat;
    RoundTotals(t, t2, u, leaf, ev.priors);
  }

  lemma RoundTotals(t: MinMaxTree, t2: MinMaxTree, u: MinMaxTree, leaf: nat, ps: Priors)
    requires leaf < |t| && |t2| == |t| + |ps| && |u| == |t2|
    requires forall i :: 0 <= i < |t| ==> t2[i].stat == t[i].stat
    requires forall k :: 0 <= k < |ps| ==> Blank(t2[|t| + k], leaf, ps[k])
    requires forall i :: 0 <= i < |t2| ==> u[i].stat.total == t2[i].stat.total
    ensures forall i :: 0 <= i < |t| ==> u[i].stat.total == t[i].stat.total
    ensures forall i :: |t| <= i < |u| ==> u[i].stat.total == 0.0
  {
    forall i | |t| <= i < |u|
      ensures u[i].stat.total == 0.0
    {
      assert Blank(t2[|t| + (i - |t|)], leaf, ps[i - |t|]);
    }
  }
}

=== FILE: mpa.dfy ===
/**
 * MPA backup (search/mpa_backup.py).
 *
 * The leaf's total is overwritten with the negated evaluation. Every
 * ancestor then forgets its own statistics and rebuilds them from its visited
 * children: its visits become the sum of theirs and its total minus the sum
 * of visits times Q over them. The root gets one visit on top after the walk.
 * Nodes also record their depth in the tree.
 */
module Mpa {
  import opened Wrappers
  import opened Arena
  import Rank
  import Climb

  datatype Stat = Stat(total: real, visits: nat, depth: nat)

  type MpaTree = Tree<Stat>

  /** The `Q` property: the total over visits plus one. */
  function Q(s: Stat): (q: real)
    ensures q * (1 + s.visits) as real == s.total
  {
    s.total / (1 + s.visits) as real
  }

  /** `U()`: sqrt(parent visits) * prior / (1 + visits). */
  function U(parentVisits: nat, nd: Node<Stat>, sqrt: real -> real): (u: real)
    ensures u * (1 + nd.stat.visits) as real == sqrt(parentVisits as real) * nd.prior
  {
    sqrt(parentVisits as real) * nd.prior / (1 + nd.stat.visits) as real
  }

  /** The key of `best_child(C)`. */
  function Score(parentVisits: nat, nd: Node<Stat>, c: real, sqrt: real -> real): real {
    Q(nd.stat) + c * U(parentVisits, nd, sqrt)
  }

  /** The position, among n's children, of `best_child(C)`. */
  function BestIndex(t: MpaTree, n: nat, c: real, sqrt: real -> real): (i: nat)
    requires WellFormed(t) && n < |t| && |t[n].children| > 0
    ensures i < |t[n].children|
    ensures forall j :: 0 <= j < |t[n].children| ==>
              Score(t[n].stat.visits, t[t[n].children[j]], c, sqrt) <= Score(t[n].stat.visits, t[t[n].children[i]], c, sqrt)
    ensures forall j :: 0 <= j < i ==>
              Score(t[n].stat.visits, t[t[n].children[j]], c, sqrt) < Score(t[n].stat.visits, t[t[n].children[i]], c, sqrt)
  {
    var pv := t[n].stat.visits;
    ArgBest(t, t[n].children, nd => Rank.K1(Score(pv, nd, c, sqrt)))
  }

  /** The descent of `select_leaf(C)`. */
  function Pick(t: MpaTree, c: real, sqrt: real -> real): (pick: nat -> nat)
    requires WellFormed(t)
    ensures PicksChildren(t, pick)
    ensures forall a: nat :: a < |t| && |t[a].children| > 0 ==> pick(a) == t[a].children[BestIndex(t, a, c, sqrt)]
  {
    (a: nat) => if a < |t| && |t[a].children| > 0 then t[a].children[BestIndex(t, a, c, sqrt)] else 0
  }

  /** `MPANode(..., depth=self.tree_depth+1)`: no total, no visits, one level deeper. */
  function Seed(parent: Stat, prior: real): Stat {
    Stat(0.0, 0, parent.depth + 1)
  }

  /** Every node records its depth: the root 0, every other node one more than its parent. */
  predicate DepthsAgree(t: MpaTree) {
    && |t| > 0 && t[0].stat.depth == 0
    && forall i :: 0 < i < |t| && t[i].parent.Some? && t[i].parent.value < |t| ==>
         t[i].stat.depth == t[t[i].parent.value].stat.depth + 1
  }

  /** Where depths agree, the recorded depth is the node's distance from the root. */
  lemma {:induction false} DepthIsDistance(t: MpaTree, i: nat)
    requires WellFormed(t) && DepthsAgree(t) && i < |t|
    ensures t[i].stat.depth == Depth(t, i)
    decreases i
  {
    if i != 0 {
      DepthIsDistance(t, t[i].parent.value);
      PathStep(t, i);
    }
  }

  /** A child just added for prior entry e of node n. */
  predicate Blank(nd: Node<Stat>, n: nat, e: (Move, real), parentDepth: nat) {
    && nd.parent == Some(n) && nd.move == e.0 && nd.prior == e.1
    && !nd.expanded && nd.children == [] && nd.board.None?
    && nd.stat == Stat(0.0, 0, parentDepth + 1)
  }

  /** `expand(child_priors)`: mark n expanded and add one child per prior, one level deeper than n. */
  function Expand(t: MpaTree, n: nat, ps: Priors): (u: MpaTree)
    requires WellFormed(t) && n < |t|
    ensures WellFormed(u) && |u| == |t| + |ps|
    ensures u[n] == t[n].(expanded := true, children := u[n].children)
    ensures forall i :: 0 <= i < |t| && i != n ==> u[i] == t[i]
    ensures forall k :: 0 <= k < |ps| ==> Blank(u[|t| + k], n, ps[k], t[n].stat.depth)
    ensures t[n].children == [] && DistinctMoves(ps) ==> u[n].children == seq(|ps|, k => |t| + k)
    ensures BoardsReady(t) && t[n].board.Some? ==> BoardsReady(u)
    ensures DepthsAgree(t) ==> DepthsAgree(u)
  {
    var t1 := MarkExpanded(t, n);
    var u := AddChildren(t1, n, ps, false, Seed);
    forall k | 0 <= k < |ps|
      ensures Blank(u[|t| + k], n, ps[k], t[n].stat.depth)
    {
      assert u[|t| + k] == ChildFor(t1, n, ps[k], false, Seed);
    }
    assert BoardsReady(t) && t[n].board.Some? ==> BoardsReady(u) by {
      if BoardsReady(t) && t[n].board.Some? {
        AddChildrenReady(t1, n, ps, false, Seed);
      }
    }
    assert DepthsAgree(t) ==> DepthsAgree(u) by {
      if DepthsAgree(t) {
        ExpandDepths(t, u, n, ps);
      }
    }
    if t[n].children == [] && DistinctMoves(ps) then
      AddChildrenFresh(t1, n, ps, false, Seed);
      u
    else
      u
  }

  lemma ExpandDepths(t: MpaTree, u: MpaTree, n: nat, ps: Priors)
    requires WellFormed(t) && DepthsAgree(t) && n < |t| && |u| == |t| + |ps|
    requires u[n].stat == t[n].stat
    requires forall i :: 0 <= i < |t| ==> u[i].parent == t[i].parent
    requires forall i :: 0 <= i < |t| && i != n ==> u[i] == t[i]
    requires forall k :: 0 <= k < |ps| ==> Blank(u[|t| + k], n, ps[k], t[n].stat.depth)
    ensures DepthsAgree(u)
  {
    forall i | 0 < i < |u| && u[i].parent.Some? && u[i].parent.value < |u|
      ensures u[i].stat.depth == u[u[i].parent.value].stat.depth + 1
    {
      if i >= |t| {
        assert Blank(u[|t| + (i - |t|)], n, ps[i - |t|], t[n].stat.depth);
      }
    }
  }

  /** The sum of the children's visits; unvisited children are skipped, which adds nothing. */
  function SumVisits(ks: seq<Stat>): (n: nat)
    ensures forall j :: 0 <= j < |ks| ==> ks[j].visits <= n
  {
    if |ks| == 0 then 0
    else
      var n := SumVisits(ks[..|ks| - 1]);
      assert forall j :: 0 <= j < |ks| - 1 ==> ks[..|ks| - 1][j] == ks[j];
      if ks[|ks| - 1].visits == 0 then n else n + ks[|ks| - 1].visits
  }

  /** The sum of visits times Q over the visited children, added up in child order. */
  function Outflow(ks: seq<Stat>): real {
    if |ks| == 0 then 0.0
    else
      var last := ks[|ks| - 1];
      Outflow(ks[..|ks| - 1]) + (if last.visits == 0 then 0.0 else Weight(last))
  }

  /** `child.number_visits * child.Q`. */
  function Weight(s: Stat): real {
    s.visits as real * Q(s)
  }

  /**
   * What the backup loop does at an ancestor: `number_visits = 0;
   * total_value = 0`, then for each visited child subtract visits * Q and
   * add its visits. The depth stays.
   */
  function Refresh(s: Stat, ks: seq<Stat>): Stat {
    Stat(-Outflow(ks), SumVisits(ks), s.depth)
  }

  /** When every visited child's Q lies in [-1, 1], so does the sum of visits times Q, scaled by the visits. */
  lemma {:induction false} OutflowBounded(ks: seq<Stat>)
    requires forall j :: 0 <= j < |ks| && ks[j].visits > 0 ==> -1.0 <= Q(ks[j]) <= 1.0
    ensures -(SumVisits(ks) as real) <= Outflow(ks) <= SumVisits(ks) as real
  {
    if |ks| > 0 {
      var pre := ks[..|ks| - 1];
      var last := ks[|ks| - 1];
      assert forall j :: 0 <= j < |pre| ==> pre[j] == ks[j];
      OutflowBounded(pre);
      if last.visits > 0 {
        WeightBound(last);
        assert SumVisits(ks) as real == SumVisits(pre) as real + last.visits as real;
      }
    }
  }

  lemma ScaledBound(n: real, q: real)
    requires n >= 0.0 && -1.0 <= q <= 1.0
    ensures -n <= n * q <= n
  {}

  lemma WeightBound(s: Stat)
    requires -1.0 <= Q(s) <= 1.0
    ensures -(s.visits as real) <= Weight(s) <= s.visits as real
  {
    ScaledBound(s.visits as real, Q(s));
  }

  /** A rebuilt node's Q stays in [-1, 1] when its visited children's do. */
  lemma RefreshInRange(s: Stat, ks: seq<Stat>)
    requires forall j :: 0 <= j < |ks| && ks[j].visits > 0 ==> -1.0 <= Q(ks[j]) <= 1.0
    ensures -1.0 <= Q(Refresh(s, ks)) <= 1.0
  {
    OutflowBounded(ks);
    var r := Refresh(s, ks);
    RatioBound(r.total, r.visits);
  }

  lemma RatioBound(x: real, n: nat)
    requires -(n as real) <= x <= n as real
    ensures -1.0 <= x / (1 + n) as real <= 1.0
  {
    var d := (1 + n) as real;
    assert -d <= x <= d;
  }

  /**
   * Every node on p after the first was rebuilt from its children as they
   * are in u; all but the root keep exactly the sum of their children's visits.
   */
  predicate Aggregated(u: MpaTree, p: seq<nat>) {
    && WellFormed(u)
    && forall k :: 1 <= k < |p| ==> p[k] < |u| && RebuiltAt(u, p[k])
  }

  /** Node a holds what the backup loop builds from its children, plus the root's extra visit. */
  predicate RebuiltAt(u: MpaTree, a: nat)
    requires WellFormed(u) && a < |u|
  {
    var ks := Climb.KidStats(u, a);
    && u[a].stat.total == -Outflow(ks)
    && u[a].stat.visits == SumVisits(ks) + (if a == 0 then 1 else 0)
  }

  /**
   * `backup(value_estimate)`: the leaf's total becomes -v and it gains a
   * visit, every ancestor is rebuilt from its children, and the root gains a
   * visit on top. Depths and everything off the path stay.
   */
  function Backup(t: MpaTree, leaf: nat, v: real): (u: MpaTree)
    requires WellFormed(t) && leaf < |t|
    ensures WellFormed(u) && OnlyStats(t, u) && Untouched(t, u, Path(t, leaf))
    ensures forall i :: 0 <= i < |t| ==> u[i].stat.depth == t[i].stat.depth
    ensures u[leaf].stat.total == -v
    ensures u[leaf].stat.visits == t[leaf].stat.visits + (if leaf == 0 then 2 else 1)
    ensures Aggregated(u, Path(t, leaf))
  {
    var t1 := SetStat(t, leaf, t[leaf].stat.(total := -v, visits := t[leaf].stat.visits + 1));
    SetStatWellFormed(t, leaf, t1[leaf].stat);
    PathSameShape(t, t1, leaf);
    var t2 := Climb.Climb(t1, leaf, Refresh);
    var u := SetStat(t2, 0, t2[0].stat.(visits := t2[0].stat.visits + 1));
    SetStatWellFormed(t2, 0, u[0].stat);
    var p := Path(t, leaf);
    PathStrictlyDecreasing(t, leaf);
    assert p[|p| - 1] == 0;
    BackupFrame(t, t1, t2, u, p, leaf, v);
    BackupAggregated(t1, t2, u, p, leaf);
    u
  }

  lemma BackupFrame(t: MpaTree, t1: MpaTree, t2: MpaTree, u: MpaTree, p: seq<nat>, leaf: nat, v: real)
    requires leaf < |t| && |p| > 0 && p[0] == leaf && p[|p| - 1] == 0
    requires t1 == SetStat(t, leaf, t[leaf].stat.(total := -v, visits := t[leaf].stat.visits + 1))
    requires OnlyStats(t1, t2) && Untouched(t1, t2, p) && t2[leaf] == t1[leaf]
    requires Climb.Refreshed(t1, t2, p, Refresh)
    requires u == SetStat(t2, 0, t2[0].stat.(visits := t2[0].stat.visits + 1))
    ensures OnlyStats(t, u) && Untouched(t, u, p)
    ensures forall i :: 0 <= i < |t| ==> u[i].stat.depth == t[i].stat.depth
    ensures u[leaf].stat.total == -v
    ensures u[leaf].stat.visits == t[leaf].stat.visits + (if leaf == 0 then 2 else 1)
  {
    forall i | 0 <= i < |t|
      ensures t2[i].stat.depth == t[i].stat.depth
    {
      if i in p && i != leaf {
        var k :| 0 <= k < |p| && p[k] == i;
        assert t2[p[k]].stat.depth == t1[p[k]].stat.depth;
      }
    }
  }

  lemma BackupAggregated(t1: MpaTree, t2: MpaTree, u: MpaTree, p: seq<nat>, leaf: nat)
    requires |p| > 0 && p[0] == leaf && StrictlyDecreasing(p) && p[|p| - 1] == 0
    requires Climb.Refreshed(t1, t2, p, Refresh) && WellFormed(u)
    requires u == SetStat(t2, 0, t2[0].stat.(visits := t2[0].stat.visits + 1))
    ensures Aggregated(u, p)
  {
    forall k | 1 <= k < |p|
      ensures RebuiltAt(u, p[k])
    {
      assert Climb.KidStats(u, p[k]) == Climb.KidStats(t2, p[k]);
    }
  }

  /** Backup changes no recorded depth, so the depth invariant survives it. */
  lemma BackupKeepsDepths(t: MpaTree, leaf: nat, v: real)
    requires WellFormed(t) && leaf < |t| && DepthsAgree(t)
    ensures DepthsAgree(Backup(t, leaf, v))
  {}

  /** The ranking key of `MPA_search`'s result: visits, then Q. */
  function OutcomeKey(nd: Node<Stat>): Rank.Key {
    Rank.K2(nd.stat.visits as real, Q(nd.stat))
  }

  /** Expand the selected leaf with the evaluation and back its value up. */
  method Grow(t: MpaTree, leaf: nat, ev: Evaluation) returns (u: MpaTree)
    requires WellFormed(t) && BoardsReady(t) && DepthsAgree(t) && leaf < |t| && t[leaf].board.Some?
    ensures WellFormed(u) && BoardsReady(u) && DepthsAgree(u) && |u| >= |t|
    ensures u[leaf].stat.total == -ev.value
    ensures u[0].stat.visits > 0
  {
    var t2 := Expand(t, leaf, ev.priors);
    assert BoardsReady(t2) && DepthsAgree(t2);
    u := Backup(t2, leaf, ev.value);
    OnlyStatsReady(t2, u);
    BackupKeepsDepths(t2, leaf, ev.value);
    if leaf != 0 {
      var p := Path(t2, leaf);
      assert |p| > 1 && p[|p| - 1] == 0;
      assert RebuiltAt(u, p[|p| - 1]);
    }
  }

  /**
   * `MPA_search`: `num_reads` rounds from a fresh root, then the root child
   * with the most visits, ties to the higher Q; None where `max` would raise
   * on a root without children. Without reads the root is the fresh node;
   * after any read it has been visited.
   */
  method Search(board: Board, numReads: int, c: real, net: Board -> Evaluation, sqrt: real -> real)
    returns (t: MpaTree, best: Option<nat>)
    ensures WellFormed(t) && BoardsReady(t) && DepthsAgree(t)
    ensures numReads <= 0 ==> t == Singleton(board, Stat(0.0, 0, 0)) && best == None
    ensures numReads > 0 ==> t[0].stat.visits > 0
    ensures best == BestBy(t, 0, OutcomeKey)
    ensures best.Some? ==> forall d :: d in t[0].children ==>
              && t[d].stat.visits <= t[best.value].stat.visits
              && (t[d].stat.visits == t[best.value].stat.visits ==> Q(t[d].stat) <= Q(t[best.value].stat))
  {
    t := Singleton(board, Stat(0.0, 0, 0));
    if numReads > 0 {
      var rounds := 0;
      while rounds < numReads
        invariant WellFormed(t) && BoardsReady(t) && DepthsAgree(t)
        invariant rounds > 0 ==> t[0].stat.visits > 0
      {
        var (t1, leaf) := SelectLeaf(t, Pick(t, c, sqrt));
        assert forall i :: 0 <= i < |t| ==> t1[i].stat == t[i].stat;
        t := Grow(t1, leaf, net(t1[leaf].board.value));
        rounds := rounds + 1;
      }
    }
    best := BestBy(t, 0, OutcomeKey);
  }
}

=== FILE: normal.dfy ===
/**
 * Normal sampling (search/normal.py).
 *
 * A node keeps a running mean q of the values backed up through it, their
 * sum of squared errors and a visit count that starts at one; a new child's
 * mean starts at the negation of its parent's. Selection ranks children by
 * an optimistic draw `max(q, sample)` (the sample comes from a normal
 * distribution around q and is a parameter here) and takes the top one with
 * probability beta, else the runner-up.
 */
module Normal {
  import opened Wrappers
  import opened Arena
  import Rank
  import opened Running

  datatype Stat = Stat(q: real, sse: real, visits: Pos)

  type NormalTree = Tree<Stat>

  /** `sse=0.1`: the squared-error sum a node starts with. */
  const SSE0: real := 0.1

  /** `beta` of NSNode, NSMinusNode and NSPlusNode. */
  const BETA_NS: real := 0.5
  const BETA_MINUS: real := 0.25
  const BETA_PLUS: real := 0.0

  /** The ranking key of a child: `max(node.q, sample)`, never below its mean. */
  function Optimism(q: real, sample: real): (r: real)
    ensures r >= q && r >= sample
    ensures r == q || r == sample
  {
    if sample > q then sample else q
  }

  /** The keys of n's children; `draw(c)` is the normal sample drawn for child c. */
  function Keys(t: NormalTree, n: nat, draw: nat -> real): (ks: seq<Rank.Key>)
    requires WellFormed(t) && n < |t|
    ensures |ks| == |t[n].children|
    ensures forall j :: 0 <= j < |ks| ==>
              ks[j] == Rank.K1(Optimism(t[t[n].children[j]].stat.q, draw(t[n].children[j])))
  {
    var kids := t[n].children;
    seq(|kids|, j requires 0 <= j < |kids| => Rank.K1(Optimism(t[kids[j]].stat.q, draw(kids[j]))))
  }

  /**
   * The position among n's children of `best_child()`: with one child that
   * child; otherwise the first of `nlargest(2, ...)` when the coin
   * (`random.random()`) falls below beta, else the second.
   */
  function BestIndex(t: NormalTree, n: nat, draw: nat -> real, coin: real, beta: real): (i: nat)
    requires WellFormed(t) && n < |t| && |t[n].children| > 0
    ensures i < |t[n].children|
    ensures var ks := Keys(t, n, draw);
      (|ks| == 1 || coin < beta) ==>
        && (forall j :: 0 <= j < |ks| ==> !Rank.Below(ks[i], ks[j]))
        && (forall j :: 0 <= j < i ==> Rank.Below(ks[j], ks[i]))
    ensures var ks := Keys(t, n, draw);
      (|ks| >= 2 && coin >= beta) ==>
        && i != Rank.FirstMax(ks)
        && (forall j :: 0 <= j < |ks| && j != Rank.FirstMax(ks) ==> !Rank.Below(ks[i], ks[j]))
        && !Rank.Below(ks[Rank.FirstMax(ks)], ks[i])
  {
    var ks := Keys(t, n, draw);
    if |ks| == 1 || coin < beta then Rank.FirstMax(ks) else Rank.SecondMax(ks)
  }

  /**
   * NSPlusNode (beta 0) never takes the top candidate when there are two:
   * `random.random()` is never below 0.
   */
  lemma PlusTakesSecond(t: NormalTree, n: nat, draw: nat -> real, coin: real)
    requires WellFormed(t) && n < |t| && |t[n].children| >= 2 && 0.0 <= coin < 1.0
    ensures BestIndex(t, n, draw, coin, BETA_PLUS) == Rank.SecondMax(Keys(t, n, draw))
    ensures BestIndex(t, n, draw, coin, BETA_PLUS) != Rank.FirstMax(Keys(t, n, draw))
  {}

  /** The descent's choice: `draw` and `coin` give the samples and coin flips of this descent. */
  function Pick(t: NormalTree, draw: nat -> real, coin: nat -> real, beta: real): (pick: nat -> nat)
    requires WellFormed(t)
    ensures PicksChildren(t, pick)
    ensures forall a: nat :: a < |t| && |t[a].children| > 0 ==>
              pick(a) == t[a].children[BestIndex(t, a, draw, coin(a), beta)]
  {
    (a: nat) =>
      if a < |t| && |t[a].children| > 0 then t[a].children[BestIndex(t, a, draw, coin(a), beta)]
      else 0
  }

  /** A child just added for prior entry e of node n: the parent's board plus the move, mean -parentQ. */
  predicate Blank(nd: Node<Stat>, n: nat, e: (Move, real), parentBoard: Board, parentQ: real) {
    && nd.parent == Some(n) && nd.move == e.0 && nd.prior == e.1
    && !nd.expanded && nd.children == [] && nd.board == Some(Push(parentBoard, e.0))
    && nd.stat == Stat(-parentQ, SSE0, 1)
  }

  function Seed(parent: Stat, prior: real): Stat {
    Stat(-parent.q, SSE0, 1)
  }

  /**
   * `expand(child_priors)`: nothing on an expanded node; otherwise mark it
   * expanded and add one child per prior, each with its board.
   */
  function Expand(t: NormalTree, n: nat, ps: Priors): (u: NormalTree)
    requires WellFormed(t) && n < |t| && (!t[n].expanded ==> t[n].board.Some?)
    ensures WellFormed(u) && |u| >= |t| && u[n].expanded
    ensures t[n].expanded ==> u == t
    ensures !t[n].expanded ==> |u| == |t| + |ps|
    ensures !t[n].expanded ==> forall k :: 0 <= k < |ps| ==> Blank(u[|t| + k], n, ps[k], t[n].board.value, t[n].stat.q)
    ensures u[n] == t[n].(expanded := true, children := u[n].children)
    ensures forall i :: 0 <= i < |t| && i != n ==> u[i] == t[i]
    ensures Boarded(t) ==> Boarded(u)
  {
    if t[n].expanded then t
    else
      var t1 := MarkExpanded(t, n);
      var u := AddChildren(t1, n, ps, true, Seed);
      forall k | 0 <= k < |ps|
        ensures Blank(u[|t| + k], n, ps[k], t[n].board.value, t[n].stat.q)
      {
        assert u[|t| + k] == ChildFor(t1, n, ps[k], true, Seed);
      }
      assert Boarded(t) ==> Boarded(u) by {
        if Boarded(t) {
          AddChildrenBoarded(t1, n, ps, Seed);
        }
      }
      u
  }

  /** A second `expand` changes nothing. */
  lemma ExpandIdempotent(t: NormalTree, n: nat, ps: Priors, qs: Priors)
    requires WellFormed(t) && n < |t| && (!t[n].expanded ==> t[n].board.Some?)
    ensures Expand(Expand(t, n, ps), n, qs) == Expand(t, n, ps)
  {}

  /**
   * One node's step of `backup` with sample x: a visit, then the running
   * mean and the squared-error sum take x in.
   */
  function Learn(s: Stat, x: real): Stat {
    var n: Pos := s.visits + 1;
    Stat(MeanStep(s.q, n, x), SseStep(s.q, s.sse, n, x), n)
  }

  /** A step keeps q the mean of all samples seen (the visit count counting the seed) and never lowers the error sum. */
  lemma LearnFacts(s: Stat, x: real)
    ensures Learn(s, x).visits == s.visits + 1
    ensures Learn(s, x).q * Learn(s, x).visits as real == s.q * s.visits as real + x
    ensures Learn(s, x).sse >= s.sse
  {}

  /** Along p, node p[k] learnt the sample Alt(x, k). */
  predicate Learned(t: NormalTree, u: NormalTree, p: seq<nat>, x: real) {
    forall k :: 0 <= k < |p| ==> p[k] < |t| && p[k] < |u| && u[p[k]].stat == Learn(t[p[k]].stat, Alt(x, k))
  }

  /** The loop of `backup` from cur, where cur learns x. */
  function BackupFrom(t: NormalTree, cur: nat, x: real): (u: NormalTree)
    requires WellFormed(t) && cur < |t|
    ensures OnlyStats(t, u) && Untouched(t, u, Path(t, cur))
    ensures Learned(t, u, Path(t, cur), x)
    decreases cur
  {
    var t1 := SetStat(t, cur, Learn(t[cur].stat, x));
    if cur == 0 then t1
    else
      OnlyStatsWellFormed(t, t1);
      var par := t[cur].parent.value;
      PathSameShape(t, t1, par);
      var u := BackupFrom(t1, par, -x);
      PathStep(t, cur);
      BackupStepFrame(t, t1, u, cur, Path(t, par), x);
      BackupStep(t, t1, u, cur, Path(t, par), x);
      u
  }

  lemma BackupStepFrame(t: NormalTree, t1: NormalTree, u: NormalTree, cur: nat, q: seq<nat>, x: real)
    requires cur < |t| && t1 == SetStat(t, cur, Learn(t[cur].stat, x))
    requires OnlyStats(t1, u) && Untouched(t1, u, q)
    ensures OnlyStats(t, u) && Untouched(t, u, [cur] + q)
  {}

  lemma BackupStep(t: NormalTree, t1: NormalTree, u: NormalTree, cur: nat, q: seq<nat>, x: real)
    requires cur < |t| && cur !in q && t1 == SetStat(t, cur, Learn(t[cur].stat, x))
    requires |u| == |t| && u[cur] == t1[cur] && Learned(t1, u, q, -x)
    ensures Learned(t, u, [cur] + q, x)
  {
    var p := [cur] + q;
    forall k | 0 < k < |p|
      ensures p[k] < |t| && u[p[k]].stat == Learn(t[p[k]].stat, Alt(x, k))
    {
      var i := q[k - 1];
      assert p[k] == i && i != cur;
      assert u[i].stat == Learn(t1[i].stat, Alt(-x, k - 1));
      assert t1[i] == t[i];
      assert Alt(x, k) == Alt(-x, k - 1);
    }
  }

  /** `backup(value_estimate)`: the sample starts at -value at the leaf and flips sign per level. */
  function Backup(t: NormalTree, leaf: nat, v: real): (u: NormalTree)
    requires WellFormed(t) && leaf < |t|
    ensures WellFormed(u) && OnlyStats(t, u) && Untouched(t, u, Path(t, leaf))
    ensures Learned(t, u, Path(t, leaf), -v)
  {
    var u := BackupFrom(t, leaf, -v);
    OnlyStatsWellFormed(t, u);
    u
  }

  /** Every mean lies in [-1, 1]. */
  predicate Bounded(t: NormalTree) {
    forall i :: 0 <= i < |t| ==> -1.0 <= t[i].stat.q <= 1.0
  }

  /**
   * The new mean is a convex combination of the old one and the sample, so
   * backing up a value in [-1, 1] keeps every mean in [-1, 1].
   */
  lemma BackupBounded(t: NormalTree, leaf: nat, v: real)
    requires WellFormed(t) && leaf < |t| && Bounded(t) && -1.0 <= v <= 1.0
    ensures Bounded(Backup(t, leaf, v))
  {
    LearnedBounded(t, Backup(t, leaf, v), Path(t, leaf), -v);
  }

  /** BackupBounded from the backup's post-state alone. */
  lemma LearnedBounded(t: NormalTree, u: NormalTree, p: seq<nat>, x: real)
    requires Bounded(t) && Untouched(t, u, p) && Learned(t, u, p, x) && -1.0 <= x <= 1.0
    ensures Bounded(u)
  {
    forall i | 0 <= i < |u| ensures -1.0 <= u[i].stat.q <= 1.0 {
      if i in p {
        var k :| 0 <= k < |p| && p[k] == i;
        LearnBounded(t[i].stat, Alt(x, k));
      }
    }
  }

  /** One step of the running mean keeps it in [-1, 1] when the sample is. */
  lemma LearnBounded(s: Stat, x: real)
    requires -1.0 <= s.q <= 1.0 && -1.0 <= x <= 1.0
    ensures -1.0 <= Learn(s, x).q <= 1.0
  {
    MeanBetween(s.q, s.visits + 1, x);
  }

  /** Expanded children start at minus their parent's mean, so expanding keeps the bounds. */
  lemma ExpandBounded(t: NormalTree, n: nat, ps: Priors)
    requires WellFormed(t) && n < |t| && (!t[n].expanded ==> t[n].board.Some?) && Bounded(t)
    ensures Bounded(Expand(t, n, ps))
  {
    var u := Expand(t, n, ps);
    if !t[n].expanded {
      forall i | 0 <= i < |u| ensures -1.0 <= u[i].stat.q <= 1.0 {
        if i >= |t| {
          assert Blank(u[|t| + (i - |t|)], n, ps[i - |t|], t[n].board.value, t[n].stat.q);
        }
      }
    }
  }

  /** One round of `mcts_search` over NSNodes: descend, evaluate, expand, back up. */
  method Round(t: NormalTree, net: Board -> Evaluation, beta: real, draw: nat -> real, coin: nat -> real)
    returns (u: NormalTree)
    requires WellFormed(t) && Boarded(t)
    ensures WellFormed(u) && Boarded(u) && |u| >= |t|
    ensures u[0].stat.visits == t[0].stat.visits + 1 && u[0].stat.sse >= t[0].stat.sse
    ensures Bounded(t) && (forall x :: -1.0 <= net(x).value <= 1.0) ==> Bounded(u)
  {
    var leaf := Descend(t, 0, Pick(t, draw, coin, beta));
    var ev := net(t[leaf].board.value);
    var t2 := Expand(t, leaf, ev.priors);
    u := Backup(t2, leaf, ev.value);
    OnlyStatsWellFormed(t2, u);
    assert forall i :: 0 <= i < |u| ==> u[i].board == t2[i].board;
    var p := Path(t2, leaf);
    assert u[p[|p| - 1]].stat == Learn(t2[0].stat, Alt(-ev.value, |p| - 1));
    LearnFacts(t2[0].stat, Alt(-ev.value, |p| - 1));
    if Bounded(t) && (forall x :: -1.0 <= net(x).value <= 1.0) {
      ExpandBounded(t, leaf, ev.priors);
      BackupBounded(t2, leaf, ev.value);
    }
  }

  /** The root `mcts_search` builds when none is supplied. */
  function Start(board: Board, root: Option<NormalTree>): (t: NormalTree)
    requires root.Some? ==> WellFormed(root.value) && Boarded(root.value)
    ensures WellFormed(t) && Boarded(t)
    ensures root.Some? ==> t == root.value
    ensures root.None? ==> |t| == 1 && t[0].board == Some(board) && t[0].stat == Stat(0.0, SSE0, 1) && Bounded(t)
  {
    if root.Some? then root.value else Singleton(board, Stat(0.0, SSE0, 1))
  }

  /** The ranking of `outcome()`: visits, then q. */
  function OutcomeKey(nd: Node<Stat>): Rank.Key {
    Rank.K2(nd.stat.visits as real, nd.stat.q)
  }

  /** `outcome()` as written: `pv[0]` is read before the `if pv` guard, so a childless root raises. */
  function OutcomeAsWritten(t: NormalTree): (r: Result<nat>)
    requires WellFormed(t)
    ensures r.Err? <==> |t[0].children| == 0
    ensures r.Ok? ==> r.value in t[0].children
  {
    match BestBy(t, 0, OutcomeKey)
    case None => Err(NoChildren)
    case Some(c) => Ok(c)
  }

  /** `outcome()` as its guard intends: None on a childless root. */
  function Outcome(t: NormalTree): (r: Option<nat>)
    requires WellFormed(t)
    ensures r.None? <==> |t[0].children| == 0
    ensures r.Some? ==> r.value in t[0].children && forall d :: d in t[0].children ==>
              && t[d].stat.visits <= t[r.value].stat.visits
              && (t[d].stat.visits == t[r.value].stat.visits ==> t[d].stat.q <= t[r.value].stat.q)
  {
    BestBy(t, 0, OutcomeKey)
  }

  lemma OutcomeGuard(t: NormalTree)
    requires WellFormed(t)
    ensures |t[0].children| > 0 ==> OutcomeAsWritten(t) == Ok(Outcome(t).value)
    ensures |t[0].children| == 0 ==> OutcomeAsWritten(t) == Err(NoChildren) && Outcome(t) == None
  {}

  /**
   * `mcts_search` over NSNodes: `max(budget, 0)` rounds, then `outcome()` as
   * written, which raises on a root still without children. `draws(r)` and
   * `coins(r)` are round r's samples and coin flips.
   */
  method Search(board: Board, budget: int, net: Board -> Evaluation, beta: real, root: Option<NormalTree>,
                draws: nat -> nat -> real, coins: nat -> nat -> real)
    returns (t: NormalTree, best: Result<nat>)
    requires root.Some? ==> WellFormed(root.value) && Boarded(root.value)
    ensures WellFormed(t) && Boarded(t) && |t| >= |Start(board, root)|
    ensures t[0].stat.visits == Start(board, root)[0].stat.visits + (if budget > 0 then budget else 0)
    ensures Bounded(Start(board, root)) && (forall x :: -1.0 <= net(x).value <= 1.0) ==> Bounded(t)
    ensures best == OutcomeAsWritten(t)
    ensures budget <= 0 && root.None? ==> best == Err(NoChildren)
  {
    t := Start(board, root);
    var b := budget;
    var r: nat := 0;
    while b > 0
      invariant WellFormed(t) && Boarded(t) && |t| >= |Start(board, root)|
      invariant budget <= 0 ==> t == Start(board, root)
      invariant r == (if budget > 0 then budget else 0) - (if b > 0 then b else 0)
      invariant t[0].stat.visits == Start(board, root)[0].stat.visits + r
      invariant Bounded(Start(board, root)) && (forall x :: -1.0 <= net(x).value <= 1.0) ==> Bounded(t)
    {
      t := Round(t, net, beta, draws(r), coins(r));
      b := b - 1;
      r := r + 1;
    }
    best := OutcomeAsWritten(t);
  }
}

=== FILE: position.dfy ===
/**
 * The `position` command of the UCI front ends (engine.py,
 * engine_minmax.py and engine_bellman.py, which share `process_position`).
 *
 * The command's tokens are, in order: `position`, then `startpos` or `fen`
 * followed by the six fields of a FEN record, then optionally `moves` and
 * the moves in UCI notation. A board is its starting setup and the moves
 * pushed on it; whether a move is legal is decided by the chess library and
 * is not modelled.
 */
module Position {
  import opened Wrappers
  import opened Arena

  /** The setup `LeelaBoard()` starts from: the standard initial position. */
  const StartFen: string := "rnbqkbnr/pppppppp/8/8/8/8/PPPPPPPP/RNBQKBNR w KQkq - 0 1"

  /** `" ".join(parts)`. */
  function Join(parts: seq<string>): (s: string)
    ensures |parts| == 1 ==> s == parts[0]
    decreases |parts|
  {
    if |parts| == 0 then ""
    else if |parts| == 1 then parts[0]
    else parts[0] + " " + Join(parts[1..])
  }

  /** `tokens[lo:hi]` with Python's clamping: bounds past the end stop at the end. */
  function Slice(tokens: seq<string>, lo: nat, hi: nat): (s: seq<string>)
    ensures |s| == (if hi <= |tokens| then hi else |tokens|) - (if lo <= hi && lo <= |tokens| then lo else if hi <= |tokens| then hi else |tokens|)
  {
    var h := if hi <= |tokens| then hi else |tokens|;
    var l := if lo <= h then lo else h;
    tokens[l..h]
  }

  /** `board.push_uci(m)` for every m of ms, in order. */
  function PushAll(b: Board, ms: seq<Move>): (r: Board)
    ensures r.setup == b.setup && r.pushed == b.pushed + ms
    decreases |ms|
  {
    if |ms| == 0 then b else PushAll(Push(b, ms[0]), ms[1..])
  }

  /**
   * `process_position(tokens)`: the setup from the second token, then the
   * moves after a `moves` keyword at the offset the setup ends at. Fewer
   * than two tokens is the IndexError of `tokens[1]`.
   */
  function Parse(tokens: seq<string>): (r: Result<Board>)
    ensures r.Err? <==> |tokens| < 2
    ensures r.Err? ==> r.fault == TooFewTokens
    ensures r.Ok? ==> r.value.setup == if tokens[1] == "fen" then Join(Slice(tokens, 2, 8)) else StartFen
    ensures r.Ok? ==> |r.value.pushed| < |tokens| && r.value.pushed == tokens[|tokens| - |r.value.pushed|..]
    ensures r.Ok? && |r.value.pushed| > 0 ==> tokens[|tokens| - |r.value.pushed| - 1] == "moves"
    ensures r.Ok? && |r.value.pushed| > 0 ==>
              |tokens| - |r.value.pushed| - 1 == (if tokens[1] == "startpos" then 2 else if tokens[1] == "fen" then 8 else 0)
  {
    if |tokens| < 2 then Err(TooFewTokens)
    else
      var (board, offset) :=
        if tokens[1] == "startpos" then (Board(StartFen, []), 2)
        else if tokens[1] == "fen" then (Board(Join(Slice(tokens, 2, 8)), []), 8)
        else (Board(StartFen, []), 0);
      if offset >= |tokens| then Ok(board)
      else if tokens[offset] == "moves" then Ok(PushAll(board, tokens[offset + 1..]))
      else Ok(board)
  }

  /** How a command names its setup: the initial position, or the six fields of a FEN record. */
  datatype Setup = StartPos | Fen(fields: seq<string>)

  function SetupOf(s: Setup): string {
    match s
    case StartPos => StartFen
    case Fen(fields) => Join(fields)
  }

  /** The `position` command a GUI sends for a setup and the moves played since. */
  function Command(s: Setup, moves: seq<Move>): (tokens: seq<string>)
    ensures |tokens| >= 2
  {
    var head := match s
      case StartPos => ["position", "startpos"]
      case Fen(fields) => ["position", "fen"] + fields;
    head + (if |moves| == 0 then [] else ["moves"] + moves)
  }

  /**
   * Parsing the command for a setup and moves gives that setup with those
   * moves pushed in order, provided a FEN has its six fields.
   */
  lemma ParseCommand(s: Setup, moves: seq<Move>)
    requires s.Fen? ==> |s.fields| == 6
    ensures Parse(Command(s, moves)) == Ok(Board(SetupOf(s), moves))
  {
    var tokens := Command(s, moves);
    var offset := if s.StartPos? then 2 else 8;
    if s.Fen? {
      assert tokens[1] == "fen";
      assert Slice(tokens, 2, 8) == s.fields;
    } else {
      assert tokens[1] == "startpos";
    }
    if |moves| > 0 {
      assert tokens[offset] == "moves";
      assert tokens[offset + 1..] == moves;
    }
  }

  /**
   * Whatever follows the setup is ignored unless it is the `moves` keyword:
   * the board is then the bare setup.
   */
  lemma ParseWithoutMoves(tokens: seq<string>)
    requires |tokens| >= 2
    requires var offset := if tokens[1] == "startpos" then 2 else if tokens[1] == "fen" then 8 else 0;
      offset >= |tokens| || tokens[offset] != "moves"
    ensures Parse(tokens).Ok? && Parse(tokens).value.pushed == []
  {
  }

  /**
   * A second token that is neither `startpos` nor `fen` leaves the initial
   * position, and the offset stays 0: the moves are then read after a
   * leading `moves` token, if there is one.
   */
  lemma ParseUnknownSetup(tokens: seq<string>)
    requires |tokens| >= 2 && tokens[1] != "startpos" && tokens[1] != "fen"
    ensures Parse(tokens) == Ok(Board(StartFen, if tokens[0] == "moves" then tokens[1..] else []))
  {
  }
}

=== FILE: prune.dfy ===
/**
 * Prior pruning (search/prune.py): `expand` adds only the moves whose prior
 * is strictly above a fraction of the largest prior, keeping their order.
 */
module Prune {
  import opened Arena
  import Uct

  /** `self.prune = 0.05`. */
  const PRUNE: real := 0.05

  /** `max(child_priors.values())`. */
  function MaxPrior(ps: Priors): (m: real)
    requires |ps| > 0
    ensures forall k :: 0 <= k < |ps| ==> ps[k].1 <= m
    ensures exists k :: 0 <= k < |ps| && ps[k].1 == m
  {
    if |ps| == 1 then ps[0].1
    else
      var m := MaxPrior(ps[..|ps| - 1]);
      assert forall k :: 0 <= k < |ps| - 1 ==> ps[k] == ps[..|ps| - 1][k];
      if ps[|ps| - 1].1 > m then ps[|ps| - 1].1 else m
  }

  /** `threshold = max(child_priors.values()) * self.prune`. */
  function Threshold(ps: Priors): real
    requires |ps| > 0
  {
    MaxPrior(ps) * PRUNE
  }

  /** Indices of the entries whose prior is strictly above `thr`, increasing. */
  function Above(ps: Priors, thr: real): (ix: seq<nat>)
    ensures forall i :: 0 <= i < |ix| ==> ix[i] < |ps| && ps[ix[i]].1 > thr
    ensures forall i, j :: 0 <= i < j < |ix| ==> ix[i] < ix[j]
    ensures forall k :: 0 <= k < |ps| && ps[k].1 > thr ==> k in ix
  {
    if |ps| == 0 then []
    else
      var ix := Above(ps[..|ps| - 1], thr);
      assert forall k :: 0 <= k < |ps| - 1 ==> ps[k] == ps[..|ps| - 1][k];
      if ps[|ps| - 1].1 > thr then ix + [|ps| - 1] else ix
  }

  /** The entries of `ps` the mixin's `expand` turns into children, in their order. */
  function Kept(ps: Priors): (r: Priors)
    ensures |ps| == 0 ==> r == []
    ensures |ps| > 0 ==> |r| == |Above(ps, Threshold(ps))|
    ensures |ps| > 0 ==> forall i :: 0 <= i < |r| ==> r[i] == ps[Above(ps, Threshold(ps))[i]]
  {
    if |ps| == 0 then []
    else
      var ix := Above(ps, Threshold(ps));
      seq(|ix|, i requires 0 <= i < |ix| => ps[ix[i]])
  }

  /** An entry is kept exactly when its prior is above 5% of the largest prior. */
  lemma {:induction false} KeptExactly(ps: Priors, e: (Move, real))
    requires |ps| > 0
    ensures e in Kept(ps) <==> e in ps && e.1 > MaxPrior(ps) * PRUNE
  {
    var ix := Above(ps, Threshold(ps));
    var r := Kept(ps);
    if e in r {
      var i :| 0 <= i < |r| && r[i] == e;
      assert ps[ix[i]] == e;
    }
    if e in ps && e.1 > MaxPrior(ps) * PRUNE {
      var k :| 0 <= k < |ps| && ps[k] == e;
      var i :| 0 <= i < |ix| && ix[i] == k;
      assert r[i] == e;
    }
  }

  /** With a positive largest prior, a move carrying it is always kept. */
  lemma MaxKept(ps: Priors)
    requires |ps| > 0 && MaxPrior(ps) > 0.0
    ensures exists e :: e in Kept(ps) && e.1 == MaxPrior(ps)
  {
    var k :| 0 <= k < |ps| && ps[k].1 == MaxPrior(ps);
    KeptExactly(ps, ps[k]);
  }

  /**
   * The mixin's `expand(child_priors)`: mark n expanded; with no priors stop
   * there, otherwise add a plain UCT child for each kept entry, in order.
   */
  function Expand(t: Uct.UctTree, n: nat, ps: Priors): (u: Uct.UctTree)
    requires WellFormed(t) && n < |t|
    ensures WellFormed(u) && |u| == |t| + |Kept(ps)|
    ensures |ps| == 0 ==> u == t[n := t[n].(expanded := true)]
    ensures u[n] == t[n].(expanded := true, children := u[n].children)
    ensures forall i :: 0 <= i < |t| && i != n ==> u[i] == t[i]
    ensures forall k :: 0 <= k < |Kept(ps)| ==> Uct.FreshChild(u[|t| + k], n, Kept(ps)[k], Uct.Q(t[n].stat))
    ensures BoardsReady(t) && t[n].board.Some? ==> BoardsReady(u)
  {
    Uct.Expand(t, n, Kept(ps))
  }
}

=== FILE: rank.dfy ===
/**
 * Ranking keys and the "first maximum wins" rule.
 *
 * Python's `max(xs, key=f)` walks `xs` and replaces its candidate only when a
 * key is strictly greater, so it returns the FIRST element with a maximal key.
 * `heapq.nlargest(n, xs, key=f)` is documented as `sorted(xs, key=f,
 * reverse=True)[:n]`, a stable sort, so its first element is that same first
 * maximum and its second element is the first maximum of the rest. Tuple keys
 * compare lexicographically; every key in the search code has at most three
 * components, so one three-component key covers them all.
 */
module Rank {

  datatype Key = Key(a: real, b: real, c: real)

  /** A one-component key. */
  function K1(x: real): Key { Key(x, 0.0, 0.0) }

  /** A two-component key, compared first on x then on y. */
  function K2(x: real, y: real): Key { Key(x, y, 0.0) }

  /** Strict lexicographic order: `x < y` on Python tuples. */
  predicate Below(x: Key, y: Key) {
    x.a < y.a || (x.a == y.a && (x.b < y.b || (x.b == y.b && x.c < y.c)))
  }

  /** The index of the first maximal key. */
  function FirstMax(ks: seq<Key>): (r: nat)
    requires |ks| > 0
    ensures r < |ks|
    ensures forall j :: 0 <= j < |ks| ==> !Below(ks[r], ks[j])
    ensures forall j :: 0 <= j < r ==> Below(ks[j], ks[r])
  {
    if |ks| == 1 then 0
    else
      var r := FirstMax(ks[..|ks| - 1]);
      if Below(ks[r], ks[|ks| - 1]) then |ks| - 1 else r
  }

  /** The two properties of FirstMax pin its result down: no other index has them. */
  lemma FirstMaxUnique(ks: seq<Key>, i: nat)
    requires i < |ks|
    requires forall j :: 0 <= j < |ks| ==> !Below(ks[i], ks[j])
    requires forall j :: 0 <= j < i ==> Below(ks[j], ks[i])
    ensures FirstMax(ks) == i
  {
  }

  /** Equal key sequences have the same first maximum (used when two scoring rules coincide). */
  lemma FirstMaxSameKeys(ks: seq<Key>, ls: seq<Key>)
    requires |ks| > 0 && ks == ls
    ensures FirstMax(ks) == FirstMax(ls)
  {}

  /** `ks` without its entry at index `i`. */
  function Without(ks: seq<Key>, i: nat): seq<Key>
    requires i < |ks|
  {
    ks[..i] + ks[i + 1..]
  }

  /**
   * The second element of a stable descending sort: the first maximum among
   * the keys other than the first maximum, as an index into `ks`.
   */
  function SecondMax(ks: seq<Key>): (r: nat)
    requires |ks| >= 2
    ensures r < |ks| && r != FirstMax(ks)
    ensures forall j :: 0 <= j < |ks| && j != FirstMax(ks) ==> !Below(ks[r], ks[j])
    ensures !Below(ks[FirstMax(ks)], ks[r])
  {
    var f := FirstMax(ks);
    var rest := Without(ks, f);
    var s := FirstMax(rest);
    var r := if s < f then s else s + 1;
    assert forall j :: 0 <= j < |ks| && j != f ==> ks[j] == rest[if j < f then j else j - 1];
    assert ks[r] == rest[s];
    r
  }
}

=== FILE: running.dfy ===
/**
 * Running mean and sum of squared errors, updated one sample at a time
 * (the Welford step of search/bayes.py, search/normal.py and, for the mean
 * alone, search/brue.py).
 *
 * With n the visit count AFTER the increment, a sample s moves the mean q
 * by (s - q) / n and the sum of squared errors by (s - q) * (s - q'), where
 * q' is the new mean.
 */
module Running {

  /** Visit counts of nodes that start at one. */
  type Pos = n: nat | n >= 1 witness 1

  /** `q += (s - q) / n`, with n the new count. */
  function MeanStep(q: real, n: Pos, s: real): (r: real)
    ensures r * n as real == q * (n - 1) as real + s
  {
    q + (s - q) / n as real
  }

  /** `q_sse += e * (s - q')` with `e = s - q` and q' the new mean. */
  function SseStep(q: real, sse: real, n: Pos, s: real): (r: real)
    ensures r >= sse
  {
    var e := s - q;
    SseIncrement(q, n, s);
    sse + e * (s - MeanStep(q, n, s))
  }

  /** The increment of SseStep is `e^2 (n - 1) / n`, never negative. */
  lemma SseIncrement(q: real, n: Pos, s: real)
    ensures (s - q) * (s - MeanStep(q, n, s)) == (s - q) * (s - q) * (n - 1) as real / n as real
    ensures (s - q) * (s - MeanStep(q, n, s)) >= 0.0
  {
    var e := s - q;
    var m := n as real;
    assert s - MeanStep(q, n, s) == e * (m - 1.0) / m;
    assert e * (e * (m - 1.0) / m) == e * e * (m - 1.0) / m;
    assert e * e >= 0.0;
    assert (m - 1.0) / m >= 0.0;
    assert e * e * (m - 1.0) / m == (e * e) * ((m - 1.0) / m);
  }

  /** The new mean lies between the old mean and the sample. */
  lemma MeanBetween(q: real, n: Pos, s: real)
    ensures q <= s ==> q <= MeanStep(q, n, s) <= s
    ensures s <= q ==> s <= MeanStep(q, n, s) <= q
  {
    var m := n as real;
    var r := MeanStep(q, n, s);
    assert r * m == q * (m - 1.0) + s;
    if q <= s {
      assert r * m >= q * m;
      assert r * m <= s * m;
    } else {
      assert r * m <= q * m;
      assert r * m >= s * m;
    }
  }

  /** Feeding the samples ss one by one into a mean q over n samples. */
  function Feed(q: real, n: Pos, ss: seq<real>): real
    decreases |ss|
  {
    if |ss| == 0 then q else Feed(MeanStep(q, n + 1, ss[0]), n + 1, ss[1..])
  }

  function Sum(ss: seq<real>): real {
    if |ss| == 0 then 0.0 else ss[0] + Sum(ss[1..])
  }

  /**
   * The running mean is the plain mean: starting from q as the mean of n
   * values and feeding in ss gives (n q + sum of ss) / (n + |ss|).
   */
  lemma {:induction false} FeedIsMean(q: real, n: Pos, ss: seq<real>)
    ensures Feed(q, n, ss) * (n + |ss|) as real == q * n as real + Sum(ss)
    decreases |ss|
  {
    if |ss| > 0 {
      var q1 := MeanStep(q, n + 1, ss[0]);
      FeedIsMean(q1, n + 1, ss[1..]);
      assert q1 * (n + 1) as real == q * n as real + ss[0];
    }
  }
}

=== FILE: sota.dfy ===
/**
 * Asymmetric simple/cumulative-regret search with minimax and Bellman
 * backups (search/sota.py).
 *
 * A node keeps the reward it was evaluated at, how often it was a leaf, a
 * minimax value and a Bellman value; its Q mixes the last two by `alpha`.
 * Selection alternates a max-node rule and a min-node rule by depth, ranking
 * children by score and then by prior. The backup overwrites the leaf's
 * values with the negated evaluation and rebuilds every ancestor's values
 * from its visited children; the root gains a second visit at the end.
 */
module Sota {
  import opened Wrappers
  import opened Arena
  import Rank
  import Climb

  datatype Stat = Stat(reward: real, minmax: real, bellman: real, visits: nat, leafVisits: nat)

  type SotaTree = Tree<Stat>

  /** `SOTA_search`'s defaults. */
  const C_MAX_SR: real := 3.4
  const C_MAX_CR: real := 0.0
  const C_MIN_SR: real := 0.0
  const C_MIN_CR: real := 3.4

  /** `Q(alpha)`: the Bellman value weighted by 1 - alpha plus the minimax value weighted by alpha. */
  function Q(s: Stat, alpha: real): (q: real)
    ensures alpha == 0.0 ==> q == s.bellman
    ensures alpha == 1.0 ==> q == s.minmax
  {
    (1.0 - alpha) * s.bellman + alpha * s.minmax
  }

  /** For alpha in [0, 1], Q lies between the Bellman and the minimax value. */
  lemma QBetween(s: Stat, alpha: real)
    requires 0.0 <= alpha <= 1.0
    ensures s.bellman <= s.minmax ==> s.bellman <= Q(s, alpha) <= s.minmax
    ensures s.minmax <= s.bellman ==> s.minmax <= Q(s, alpha) <= s.bellman
  {
    var d := s.minmax - s.bellman;
    assert Q(s, alpha) == s.bellman + alpha * d;
    assert Q(s, alpha) == s.minmax - (1.0 - alpha) * d;
    ScaleSign(alpha, d);
    ScaleSign(1.0 - alpha, d);
  }

  /** A non-negative factor keeps the sign of what it scales. */
  lemma ScaleSign(a: real, d: real)
    requires a >= 0.0
    ensures d >= 0.0 ==> a * d >= 0.0
    ensures d <= 0.0 ==> a * d <= 0.0
  {
  }

  /** `U_sr()`: prior * sqrt(sqrt(parent visits) / (1 + visits)). */
  function USr(parentVisits: nat, nd: Node<Stat>, sqrt: real -> real): real {
    nd.prior * sqrt(sqrt(parentVisits as real) / (1 + nd.stat.visits) as real)
  }

  /** `U_cr()`: prior * sqrt(log(parent visits) / (1 + visits)); `log` stands for `math.log`. */
  function UCr(parentVisits: nat, nd: Node<Stat>, sqrt: real -> real, log: real -> real): real {
    nd.prior * sqrt(log(parentVisits as real) / (1 + nd.stat.visits) as real)
  }

  /** `node_order` of `best_child(C_sr, C_cr, alpha)`: the score, then the prior. */
  function Order(parentVisits: nat, nd: Node<Stat>, csr: real, ccr: real, alpha: real,
                 sqrt: real -> real, log: real -> real): Rank.Key {
    Rank.K2(Q(nd.stat, alpha) + csr * USr(parentVisits, nd, sqrt) + ccr * UCr(parentVisits, nd, sqrt, log), nd.prior)
  }

  /** `best_child(C_sr, C_cr, alpha)`. */
  function BestChild(t: SotaTree, n: nat, csr: real, ccr: real, alpha: real,
                     sqrt: real -> real, log: real -> real): (c: nat)
    requires WellFormed(t) && n < |t| && |t[n].children| > 0
    ensures c in t[n].children && c < |t|
    ensures forall d :: d in t[n].children ==>
              !Rank.Below(Order(t[n].stat.visits, t[c], csr, ccr, alpha, sqrt, log),
                          Order(t[n].stat.visits, t[d], csr, ccr, alpha, sqrt, log))
    ensures forall j :: 0 <= j < |t[n].children| && t[n].children[j] != c ==>
              || Rank.Below(Order(t[n].stat.visits, t[t[n].children[j]], csr, ccr, alpha, sqrt, log),
                            Order(t[n].stat.visits, t[c], csr, ccr, alpha, sqrt, log))
              || exists i :: 0 <= i < j && t[n].children[i] == c
  {
    var pv := t[n].stat.visits;
    BestBy(t, n, nd => Order(pv, nd, csr, ccr, alpha, sqrt, log)).value
  }

  /** Among children of equal score the higher prior wins. */
  lemma TiesGoToPrior(t: SotaTree, n: nat, csr: real, ccr: real, alpha: real,
                      sqrt: real -> real, log: real -> real, d: nat)
    requires WellFormed(t) && n < |t| && d in t[n].children
    ensures var c := BestChild(t, n, csr, ccr, alpha, sqrt, log);
      var pv := t[n].stat.visits;
      Order(pv, t[d], csr, ccr, alpha, sqrt, log).a == Order(pv, t[c], csr, ccr, alpha, sqrt, log).a ==>
        t[d].prior <= t[c].prior
  {
    var c := BestChild(t, n, csr, ccr, alpha, sqrt, log);
    assert !Rank.Below(Order(t[n].stat.visits, t[c], csr, ccr, alpha, sqrt, log),
                       Order(t[n].stat.visits, t[d], csr, ccr, alpha, sqrt, log));
  }

  /**
   * The choice of `select_leaf`: the max-node constants at even depths,
   * counting the root as 0, and the min-node constants at odd depths.
   */
  function Pick(t: SotaTree, cMaxSr: real, cMaxCr: real, cMinSr: real, cMinCr: real, alpha: real,
                sqrt: real -> real, log: real -> real): (pick: nat -> nat)
    requires WellFormed(t)
    ensures PicksChildren(t, pick)
    ensures forall a: nat :: a < |t| && |t[a].children| > 0 && Depth(t, a) % 2 == 0 ==>
              pick(a) == BestChild(t, a, cMaxSr, cMaxCr, alpha, sqrt, log)
    ensures forall a: nat :: a < |t| && |t[a].children| > 0 && Depth(t, a) % 2 == 1 ==>
              pick(a) == BestChild(t, a, cMinSr, cMinCr, alpha, sqrt, log)
  {
    (a: nat) =>
      if a < |t| && |t[a].children| > 0 then
        if Depth(t, a) % 2 == 0 then BestChild(t, a, cMaxSr, cMaxCr, alpha, sqrt, log)
        else BestChild(t, a, cMinSr, cMinCr, alpha, sqrt, log)
      else 0
  }

  /** `SOTANode(parent=self, ...)`: every value 0, no visits. */
  function Seed(parent: Stat, prior: real): Stat {
    Stat(0.0, 0.0, 0.0, 0, 0)
  }

  /** A child just added for prior entry e of node n. */
  predicate Blank(nd: Node<Stat>, n: nat, e: (Move, real)) {
    && nd.parent == Some(n) && nd.move == e.0 && nd.prior == e.1
    && !nd.expanded && nd.children == [] && nd.board.None?
    && nd.stat == Stat(0.0, 0.0, 0.0, 0, 0)
  }

  /** `expand(child_priors)`: mark n expanded and add one blank child per prior, in order. */
  function Expand(t: SotaTree, n: nat, ps: Priors): (u: SotaTree)
    requires WellFormed(t) && n < |t|
    ensures WellFormed(u) && |u| == |t| + |ps|
    ensures u[n] == t[n].(expanded := true, children := u[n].children)
    ensures forall i :: 0 <= i < |t| && i != n ==> u[i] == t[i]
    ensures forall k :: 0 <= k < |ps| ==> Blank(u[|t| + k], n, ps[k])
    ensures t[n].children == [] && DistinctMoves(ps) ==> u[n].children == seq(|ps|, k => |t| + k)
    ensures BoardsReady(t) && t[n].board.Some? ==> BoardsReady(u)
  {
    var t1 := MarkExpanded(t, n);
    var u := AddChildren(t1, n, ps, false, Seed);
    forall k | 0 <= k < |ps|
      ensures Blank(u[|t| + k], n, ps[k])
    {
      assert u[|t| + k] == ChildFor(t1, n, ps[k], false, Seed);
    }
    assert BoardsReady(t) && t[n].board.Some? ==> BoardsReady(u) by {
      if BoardsReady(t) && t[n].board.Some? {
        AddChildrenReady(t1, n, ps, false, Seed);
      }
    }
    if t[n].children == [] && DistinctMoves(ps) then
      AddChildrenFresh(t1, n, ps, false, Seed);
      u
    else
      u
  }

  function Visits(s: Stat): nat { s.visits }

  function MinmaxOf(s: Stat): real { s.minmax }

  /** `-max([n.minmax_value for n in children if n.number_visits])`, keeping the old value where Python would raise. */
  function Minimax(prev: real, ks: seq<Stat>): real {
    match Climb.MaxVisited(ks, Visits, MinmaxOf)
    case None => prev
    case Some(m) => -m
  }

  /** A visited child's visits times its Bellman value; an unvisited child contributes nothing. */
  function Share(s: Stat): real {
    if s.visits == 0 then 0.0 else s.visits as real * s.bellman
  }

  /** The sum of Share over the children. */
  function BellmanSum(ks: seq<Stat>): real {
    if |ks| == 0 then 0.0 else Share(ks[0]) + BellmanSum(ks[1..])
  }

  /** The loop `for child in visited: bellman_value -= child.number_visits * child.bellman_value / n`, from b. */
  function BellmanLoop(b: real, ks: seq<Stat>, n: real): real
    requires n > 0.0
    decreases |ks|
  {
    if |ks| == 0 then b else BellmanLoop(b - Share(ks[0]) / n, ks[1..], n)
  }

  lemma DivAdd(x: real, y: real, n: real)
    requires n > 0.0
    ensures x / n + y / n == (x + y) / n
  {}

  /** The loop subtracts the whole visit-weighted sum, divided once by n. */
  lemma {:induction false} BellmanLoopSum(b: real, ks: seq<Stat>, n: real)
    requires n > 0.0
    ensures BellmanLoop(b, ks, n) == b - BellmanSum(ks) / n
    decreases |ks|
  {
    if |ks| > 0 {
      var x := Share(ks[0]);
      var y := BellmanSum(ks[1..]);
      BellmanLoopSum(b - x / n, ks[1..], n);
      DivAdd(x, y, n);
    }
  }

  /** The node's own evaluations: its reward times the times it was a leaf. */
  function Own(s: Stat): real {
    s.reward * s.leafVisits as real
  }

  /** What the backup loop does at an ancestor. */
  function Refresh(s: Stat, ks: seq<Stat>): Stat {
    var n := (s.visits + 1) as real;
    s.(visits := s.visits + 1,
       minmax := Minimax(s.minmax, ks),
       bellman := BellmanLoop(Own(s) / n, ks, n))
  }

  lemma DivSub(x: real, y: real, n: real)
    requires n > 0.0
    ensures x / n - y / n == (x - y) / n
  {}

  /** An ancestor's Bellman value is its own reward share minus its children's, over its new visit count. */
  lemma RefreshBellman(s: Stat, ks: seq<Stat>)
    ensures Refresh(s, ks).bellman == (Own(s) - BellmanSum(ks)) / (s.visits + 1) as real
  {
    var n := (s.visits + 1) as real;
    BellmanLoopSum(Own(s) / n, ks, n);
    DivSub(Own(s), BellmanSum(ks), n);
  }

  /** Every node on p but the last (the root) gained exactly one visit. */
  predicate Visited(t: SotaTree, u: SotaTree, p: seq<nat>) {
    forall k :: 0 <= k < |p| - 1 ==> p[k] < |t| && p[k] < |u| && u[p[k]].stat.visits == t[p[k]].stat.visits + 1
  }

  /** Node a was rebuilt from its children as they are in u: minimax and Bellman, own reward kept. */
  predicate RebuiltAt(t: SotaTree, u: SotaTree, a: nat)
    requires WellFormed(u) && a < |t| && a < |u|
  {
    var ks := Climb.KidStats(u, a);
    && u[a].stat.minmax == Minimax(t[a].stat.minmax, ks)
    && u[a].stat.bellman == (Own(t[a].stat) - BellmanSum(ks)) / (t[a].stat.visits + 1) as real
    && u[a].stat.reward == t[a].stat.reward && u[a].stat.leafVisits == t[a].stat.leafVisits
  }

  predicate Rebuilt(t: SotaTree, u: SotaTree, p: seq<nat>) {
    && WellFormed(u)
    && forall k :: 1 <= k < |p| ==> p[k] < |t| && p[k] < |u| && RebuiltAt(t, u, p[k])
  }

  /**
   * `backup(value_estimate)`: the leaf's reward, Bellman and minimax values
   * all become -v and its leaf and total visit counts grow by one; every
   * ancestor gains a visit and is rebuilt from its children; the root gains
   * a second visit.
   */
  function Backup(t: SotaTree, leaf: nat, v: real): (u: SotaTree)
    requires WellFormed(t) && leaf < |t|
    ensures WellFormed(u) && OnlyStats(t, u) && Untouched(t, u, Path(t, leaf))
    ensures u[leaf].stat.reward == -v && u[leaf].stat.bellman == -v && u[leaf].stat.minmax == -v
    ensures u[leaf].stat.leafVisits == t[leaf].stat.leafVisits + 1
    ensures Visited(t, u, Path(t, leaf)) && u[0].stat.visits == t[0].stat.visits + 2
    ensures Rebuilt(t, u, Path(t, leaf))
  {
    var t1 := SetStat(t, leaf, t[leaf].stat.(reward := -v, bellman := -v, minmax := -v,
                                            leafVisits := t[leaf].stat.leafVisits + 1,
                                            visits := t[leaf].stat.visits + 1));
    SetStatWellFormed(t, leaf, t1[leaf].stat);
    PathSameShape(t, t1, leaf);
    var t2 := Climb.Climb(t1, leaf, Refresh);
    var u := SetStat(t2, 0, t2[0].stat.(visits := t2[0].stat.visits + 1));
    SetStatWellFormed(t2, 0, u[0].stat);
    var p := Path(t, leaf);
    PathStrictlyDecreasing(t, leaf);
    assert p[|p| - 1] == 0;
    BackupFrame(t, t1, t2, u, p, leaf);
    BackupVisits(t, t1, t2, u, p, leaf);
    BackupRebuilt(t, t1, t2, u, p, leaf);
    u
  }

  lemma BackupFrame(t: SotaTree, t1: SotaTree, t2: SotaTree, u: SotaTree, p: seq<nat>, leaf: nat)
    requires leaf < |t| && |p| > 0 && p[0] == leaf && p[|p| - 1] == 0
    requires |t1| == |t| && t1 == SetStat(t, leaf, t1[leaf].stat)
    requires OnlyStats(t1, t2) && Untouched(t1, t2, p) && t2[leaf] == t1[leaf]
    requires u == SetStat(t2, 0, t2[0].stat.(visits := t2[0].stat.visits + 1))
    ensures OnlyStats(t, u) && Untouched(t, u, p)
    ensures u[leaf].stat == t1[leaf].stat.(visits := u[leaf].stat.visits)
  {}

  lemma BackupVisits(t: SotaTree, t1: SotaTree, t2: SotaTree, u: SotaTree, p: seq<nat>, leaf: nat)
    requires leaf < |t| && |p| > 0 && p[0] == leaf && p[|p| - 1] == 0 && StrictlyDecreasing(p)
    requires |t1| == |t| && t1[leaf].stat.visits == t[leaf].stat.visits + 1
    requires forall i :: 0 <= i < |t| && i != leaf ==> t1[i] == t[i]
    requires |t2| == |t1| && t2[leaf] == t1[leaf]
    requires Climb.Refreshed(t1, t2, p, Refresh)
    requires u == SetStat(t2, 0, t2[0].stat.(visits := t2[0].stat.visits + 1))
    ensures Visited(t, u, p) && u[0].stat.visits == t[0].stat.visits + 2
  {
    forall k | 0 <= k < |p| - 1
      ensures u[p[k]].stat.visits == t[p[k]].stat.visits + 1
    {
      assert p[|p| - 1] < p[k];
      if k > 0 {
        assert t1[p[k]] == t[p[k]];
        assert t2[p[k]].stat.visits == t1[p[k]].stat.visits + 1;
      }
    }
    if leaf != 0 {
      assert t2[p[|p| - 1]].stat.visits == t1[p[|p| - 1]].stat.visits + 1;
    }
  }

  lemma BackupRebuilt(t: SotaTree, t1: SotaTree, t2: SotaTree, u: SotaTree, p: seq<nat>, leaf: nat)
    requires WellFormed(t) && leaf < |t| && |p| > 0 && p[0] == leaf && StrictlyDecreasing(p)
    requires |t1| == |t| && forall i :: 0 <= i < |t| && i != leaf ==> t1[i] == t[i]
    requires Climb.Refreshed(t1, t2, p, Refresh) && WellFormed(u)
    requires u == SetStat(t2, 0, t2[0].stat.(visits := t2[0].stat.visits + 1))
    ensures Rebuilt(t, u, p)
  {
    forall k | 1 <= k < |p|
      ensures RebuiltAt(t, u, p[k])
    {
      assert p[k] < p[0];
      assert t1[p[k]] == t[p[k]];
      assert Climb.KidStats(u, p[k]) == Climb.KidStats(t2, p[k]);
      RefreshBellman(t[p[k]].stat, Climb.KidStats(t2, p[k]));
    }
  }

  /** On a linked path every ancestor has a visited child, so its minimax value is a true maximum. */
  lemma BackupMinimax(t: SotaTree, leaf: nat, v: real)
    requires WellFormed(t) && leaf < |t| && Linked(t, Path(t, leaf))
    ensures var u := Backup(t, leaf, v); var p := Path(t, leaf);
      forall k :: 1 <= k < |p| ==>
        var m := Climb.MaxVisited(Climb.KidStats(u, p[k]), Visits, MinmaxOf);
        m.Some? && u[p[k]].stat.minmax == -m.value
  {
    var u := Backup(t, leaf, v);
    var p := Path(t, leaf);
    forall k | 1 <= k < |p|
      ensures var m := Climb.MaxVisited(Climb.KidStats(u, p[k]), Visits, MinmaxOf);
        m.Some? && u[p[k]].stat.minmax == -m.value
    {
      MinimaxAt(t, u, p, k);
    }
  }

  /** BackupMinimax at the k-th node of the path, from the backup's post-state alone. */
  lemma MinimaxAt(t: SotaTree, u: SotaTree, p: seq<nat>, k: nat)
    requires WellFormed(t) && OnlyStats(t, u) && Visited(t, u, p) && Rebuilt(t, u, p)
    requires 1 <= k < |p| && p[k] < |t| && p[k - 1] in t[p[k]].children
    ensures var m := Climb.MaxVisited(Climb.KidStats(u, p[k]), Visits, MinmaxOf);
      m.Some? && u[p[k]].stat.minmax == -m.value
  {
    var ks := Climb.KidStats(u, p[k]);
    assert RebuiltAt(t, u, p[k]);
    assert u[p[k]].children == t[p[k]].children;
    var j :| 0 <= j < |u[p[k]].children| && u[p[k]].children[j] == p[k - 1];
    assert ks[j] == u[p[k - 1]].stat;
    assert Visits(ks[j]) > 0;
  }

  /** The ranking of `SOTA_search`'s result: visits, then Q(alpha). */
  function OutcomeKey(alpha: real): Node<Stat> -> Rank.Key {
    (nd: Node<Stat>) => Rank.K2(nd.stat.visits as real, Q(nd.stat, alpha))
  }

  /** Expand the selected leaf with the evaluation and back its value up. */
  method Grow(t: SotaTree, leaf: nat, ev: Evaluation) returns (u: SotaTree)
    requires WellFormed(t) && BoardsReady(t) && leaf < |t| && t[leaf].board.Some?
    ensures WellFormed(u) && BoardsReady(u) && |u| >= |t|
    ensures u[0].stat.visits == t[0].stat.visits + 2
  {
    var t2 := Expand(t, leaf, ev.priors);
    u := Backup(t2, leaf, ev.value);
    OnlyStatsWellFormed(t2, u);
    assert forall i :: 0 <= i < |u| ==> u[i].expanded == t2[i].expanded && u[i].board == t2[i].board;
  }

  /**
   * `SOTA_search`: `num_reads` rounds from a fresh root, then the first of
   * the root's children by (visits, Q(alpha)); None where `pv[0]` would raise
   * on a root without children.
   */
  method Search(board: Board, numReads: int, cMaxSr: real, cMaxCr: real, cMinSr: real, cMinCr: real, alpha: real,
                net: Board -> Evaluation, sqrt: real -> real, log: real -> real)
    returns (t: SotaTree, best: Option<nat>)
    ensures WellFormed(t) && BoardsReady(t)
    ensures t[0].stat.visits == 2 * (if numReads > 0 then numReads else 0)
    ensures best == BestBy(t, 0, OutcomeKey(alpha))
  {
    t := Singleton(board, Stat(0.0, 0.0, 0.0, 0, 0));
    var i := 0;
    while i < numReads
      invariant WellFormed(t) && BoardsReady(t)
      invariant 0 <= i <= (if numReads > 0 then numReads else 0)
      invariant t[0].stat.visits == 2 * i
    {
      var (t1, leaf) := SelectLeaf(t, Pick(t, cMaxSr, cMaxCr, cMinSr, cMinCr, alpha, sqrt, log));
      assert t1[0].stat == t[0].stat;
      t := Grow(t1, leaf, net(t1[leaf].board.value));
      i := i + 1;
    }
    best := BestBy(t, 0, OutcomeKey(alpha));
  }
}

=== FILE: srcr.dfy ===
/**
 * Simple-regret / cumulative-regret search (search/srcr.py).
 *
 * The tree alternates two selection rules by depth: at even depths (the
 * searching side, a "max" node) a simple-regret rule with a flatter
 * exploration term, at odd depths the usual cumulative-regret rule. New
 * children start with a total of 0 rather than their parent's negated value;
 * the backup is UCT's.
 */
module Srcr {
  import opened Wrappers
  import opened Arena
  import Uct

  /** `SRCR_search(..., C=1.0, C_cr=3.4)`. */
  const C_SR: real := 1.0
  const C_CR: real := 3.4

  /** `U_sr()`: prior * sqrt(sqrt(parent visits) / (1 + visits)). */
  function USr(parentVisits: nat, nd: Node<Uct.Stat>, sqrt: real -> real): real {
    nd.prior * sqrt(sqrt(parentVisits as real) / (1 + nd.stat.visits) as real)
  }

  /** `U_google()`: UCT's exploration term. */
  function UGoogle(parentVisits: nat, nd: Node<Uct.Stat>, sqrt: real -> real): real {
    nd.prior * sqrt(parentVisits as real) / (1 + nd.stat.visits) as real
  }

  /** The key of `best_child(C_sr, C_cr)`; `U_cr` does not enter it. */
  function Score(parentVisits: nat, nd: Node<Uct.Stat>, csr: real, ccr: real, sqrt: real -> real): real {
    Uct.Q(nd.stat) + csr * USr(parentVisits, nd, sqrt) + ccr * UGoogle(parentVisits, nd, sqrt)
  }

  /** The position, among n's children, of `best_child(C_sr, C_cr)`. */
  function BestIndex(t: Uct.UctTree, n: nat, csr: real, ccr: real, sqrt: real -> real): (i: nat)
    requires WellFormed(t) && n < |t| && |t[n].children| > 0
    ensures i < |t[n].children|
    ensures forall j :: 0 <= j < |t[n].children| ==>
              Score(t[n].stat.visits, t[t[n].children[j]], csr, ccr, sqrt) <= Score(t[n].stat.visits, t[t[n].children[i]], csr, ccr, sqrt)
    ensures forall j :: 0 <= j < i ==>
              Score(t[n].stat.visits, t[t[n].children[j]], csr, ccr, sqrt) < Score(t[n].stat.visits, t[t[n].children[i]], csr, ccr, sqrt)
  {
    var pv := t[n].stat.visits;
    ArgBest(t, t[n].children, nd => Rank.K1(Score(pv, nd, csr, ccr, sqrt)))
  }

  /** `best_child(C_sr, C_cr)`. */
  function BestChild(t: Uct.UctTree, n: nat, csr: real, ccr: real, sqrt: real -> real): (c: nat)
    requires WellFormed(t) && n < |t| && |t[n].children| > 0
    ensures c in t[n].children && c < |t|
  {
    t[n].children[BestIndex(t, n, csr, ccr, sqrt)]
  }

  /**
   * The choice of `select_leaf(C_sr, C_cr)`: `best_child(C_sr, 0)` at even
   * depths, counting the root as 0, and `best_child(0, C_cr)` at odd depths.
   */
  function Pick(t: Uct.UctTree, csr: real, ccr: real, sqrt: real -> real): (pick: nat -> nat)
    requires WellFormed(t)
    ensures PicksChildren(t, pick)
    ensures forall a: nat :: a < |t| && |t[a].children| > 0 && Depth(t, a) % 2 == 0 ==> pick(a) == BestChild(t, a, csr, 0.0, sqrt)
    ensures forall a: nat :: a < |t| && |t[a].children| > 0 && Depth(t, a) % 2 == 1 ==> pick(a) == BestChild(t, a, 0.0, ccr, sqrt)
  {
    (a: nat) =>
      if a < |t| && |t[a].children| > 0 then
        if Depth(t, a) % 2 == 0 then BestChild(t, a, csr, 0.0, sqrt) else BestChild(t, a, 0.0, ccr, sqrt)
      else 0
  }

  /** At a max node the choice maximises value plus the simple-regret term alone. */
  lemma MaxNodeRule(t: Uct.UctTree, a: nat, csr: real, ccr: real, sqrt: real -> real)
    requires WellFormed(t) && a < |t| && |t[a].children| > 0 && Depth(t, a) % 2 == 0
    ensures var c := Pick(t, csr, ccr, sqrt)(a);
      forall d :: d in t[a].children ==>
        Uct.Q(t[d].stat) + csr * USr(t[a].stat.visits, t[d], sqrt) <= Uct.Q(t[c].stat) + csr * USr(t[a].stat.visits, t[c], sqrt)
  {
    var pick := Pick(t, csr, ccr, sqrt);
    assert pick(a) == BestChild(t, a, csr, 0.0, sqrt);
    SimpleRegretBest(t, a, csr, sqrt);
  }

  /** `best_child(C_sr, 0)` maximises value plus the simple-regret term. */
  lemma SimpleRegretBest(t: Uct.UctTree, a: nat, csr: real, sqrt: real -> real)
    requires WellFormed(t) && a < |t| && |t[a].children| > 0
    ensures var c := BestChild(t, a, csr, 0.0, sqrt);
      forall d :: d in t[a].children ==>
        Uct.Q(t[d].stat) + csr * USr(t[a].stat.visits, t[d], sqrt) <= Uct.Q(t[c].stat) + csr * USr(t[a].stat.visits, t[c], sqrt)
  {
    var kids := t[a].children;
    forall d | d in kids
      ensures Uct.Q(t[d].stat) + csr * USr(t[a].stat.visits, t[d], sqrt)
              <= Uct.Q(t[BestChild(t, a, csr, 0.0, sqrt)].stat) + csr * USr(t[a].stat.visits, t[BestChild(t, a, csr, 0.0, sqrt)], sqrt)
    {
      var j :| 0 <= j < |kids| && kids[j] == d;
      SimpleRegretAt(t, a, csr, sqrt, j);
    }
  }

  /** The comparison of SimpleRegretBest for the child at position j. */
  lemma SimpleRegretAt(t: Uct.UctTree, a: nat, csr: real, sqrt: real -> real, j: nat)
    requires WellFormed(t) && a < |t| && j < |t[a].children|
    ensures var c, d, pv := BestChild(t, a, csr, 0.0, sqrt), t[a].children[j], t[a].stat.visits;
      Uct.Q(t[d].stat) + csr * USr(pv, t[d], sqrt) <= Uct.Q(t[c].stat) + csr * USr(pv, t[c], sqrt)
  {
    var c, d, pv := BestChild(t, a, csr, 0.0, sqrt), t[a].children[j], t[a].stat.visits;
    assert Score(pv, t[d], csr, 0.0, sqrt) <= Score(pv, t[c], csr, 0.0, sqrt);
    ScoreWithoutCr(pv, t[c], csr, sqrt);
    ScoreWithoutCr(pv, t[d], csr, sqrt);
  }

  /** With `C_cr` = 0 the key is the value plus the simple-regret term alone. */
  lemma ScoreWithoutCr(pv: nat, nd: Node<Uct.Stat>, csr: real, sqrt: real -> real)
    ensures Score(pv, nd, csr, 0.0, sqrt) == Uct.Q(nd.stat) + csr * USr(pv, nd, sqrt)
  {
  }

  /** At a min node the choice is UCT's choice with `C_cr` as the exploration constant. */
  lemma MinNodeRule(t: Uct.UctTree, a: nat, csr: real, ccr: real, sqrt: real -> real)
    requires WellFormed(t) && a < |t| && |t[a].children| > 0 && Depth(t, a) % 2 == 1
    ensures Pick(t, csr, ccr, sqrt)(a) == Uct.BestChild(t, a, ccr, sqrt)
  {
    var kids := t[a].children;
    forall j | 0 <= j < |kids|
      ensures Score(t[a].stat.visits, t[kids[j]], 0.0, ccr, sqrt) == Uct.Score(t[a].stat.visits, t[kids[j]], ccr, sqrt)
    {
      assert UGoogle(t[a].stat.visits, t[kids[j]], sqrt) == Uct.U(t[a].stat.visits, t[kids[j]], sqrt);
    }
    Uct.BestIndexUnique(t, a, ccr, sqrt, BestIndex(t, a, 0.0, ccr, sqrt));
  }

  /** `SRCRNode(parent=self, ...)`: total 0 and no visits, whatever the parent's value. */
  function Seed(parent: Uct.Stat, prior: real): Uct.Stat {
    Uct.Stat(0.0, 0)
  }

  /** A child just added for prior entry e of node n: no statistics, no board, no children. */
  predicate Blank(nd: Node<Uct.Stat>, n: nat, e: (Move, real)) {
    && nd.parent == Some(n) && nd.move == e.0 && nd.prior == e.1
    && !nd.expanded && nd.children == [] && nd.board.None?
    && nd.stat == Uct.Stat(0.0, 0)
  }

  /** `expand(child_priors)`: mark n expanded, one child per prior, each starting at 0. */
  function Expand(t: Uct.UctTree, n: nat, ps: Priors): (u: Uct.UctTree)
    requires WellFormed(t) && n < |t|
    ensures WellFormed(u) && |u| == |t| + |ps|
    ensures u[n] == t[n].(expanded := true, children := u[n].children)
    ensures forall i :: 0 <= i < |t| && i != n ==> u[i] == t[i]
    ensures forall k :: 0 <= k < |ps| ==> Blank(u[|t| + k], n, ps[k])
    ensures t[n].children == [] && DistinctMoves(ps) ==> u[n].children == seq(|ps|, k => |t| + k)
    ensures BoardsReady(t) && t[n].board.Some? ==> BoardsReady(u)
  {
    var t1 := MarkExpanded(t, n);
    var u := AddChildren(t1, n, ps, false, Seed);
    forall k | 0 <= k < |ps|
      ensures Blank(u[|t| + k], n, ps[k])
    {
      assert u[|t| + k] == ChildFor(t1, n, ps[k], false, Seed);
    }
    assert BoardsReady(t) && t[n].board.Some? ==> BoardsReady(u) by {
      if BoardsReady(t) && t[n].board.Some? {
        AddChildrenReady(t1, n, ps, false, Seed);
      }
    }
    if t[n].children == [] && DistinctMoves(ps) then
      AddChildrenFresh(t1, n, ps, false, Seed);
      u
    else
      u
  }

  /** A fresh SRCR child is worth 0, where a fresh UCT child is worth its parent's negated value. */
  lemma NoFirstPlaySeed(t: Uct.UctTree, n: nat, ps: Priors, k: nat)
    requires WellFormed(t) && n < |t| && k < |ps|
    ensures Uct.Q(Expand(t, n, ps)[|t| + k].stat) == 0.0
    ensures Uct.Q(Uct.Expand(t, n, ps)[|t| + k].stat) == -Uct.Q(t[n].stat)
  {
    assert Uct.FreshChild(Uct.Expand(t, n, ps)[|t| + k], n, ps[k], Uct.Q(t[n].stat));
  }

  /** One iteration of the `SRCR_search` loop. */
  method Round(t: Uct.UctTree, net: Board -> Evaluation, sqrt: real -> real) returns (u: Uct.UctTree)
    requires WellFormed(t) && BoardsReady(t)
    ensures WellFormed(u) && BoardsReady(u) && |u| >= |t|
    ensures u[0].stat.visits == t[0].stat.visits + 1 && u[0].stat.total == t[0].stat.total
  {
    var (t1, leaf) := SelectLeaf(t, Pick(t, C_SR, C_CR, sqrt));
    var ev := net(t1[leaf].board.value);
    var t2 := Expand(t1, leaf, ev.priors);
    u := Uct.Backup(t2, leaf, ev.value);
    OnlyStatsWellFormed(t2, u);
    assert forall i :: 0 <= i < |u| ==> u[i].expanded == t2[i].expanded && u[i].board == t2[i].board;
  }

  /**
   * `SRCR_search`: `num_reads` rounds from a fresh root, then the root child
   * with the most visits, ties to the higher value; None where `max` would
   * raise on a root without children.
   */
  method Search(board: Board, numReads: int, net: Board -> Evaluation, sqrt: real -> real)
    returns (t: Uct.UctTree, best: Option<nat>)
    ensures WellFormed(t) && BoardsReady(t)
    ensures t[0].stat.visits == if numReads > 0 then numReads else 0
    ensures t[0].stat.total == 0.0
    ensures best == Uct.Outcome(t, 0)
  {
    t := Singleton(board, Uct.Stat(0.0, 0));
    var i := 0;
    while i < numReads
      invariant WellFormed(t) && BoardsReady(t)
      invariant 0 <= i <= (if numReads > 0 then numReads else 0)
      invariant t[0].stat.visits == i
      invariant t[0].stat.total == 0.0
    {
      t := Round(t, net, sqrt);
      i := i + 1;
    }
    best := Uct.Outcome(t, 0);
  }
}

=== FILE: thompson.dfy ===
/**
 * Thompson sampling over UCT nodes (search/thompson.py).
 *
 * Each node carries a Beta(wins, losses) belief about its value. A child is
 * created with a faked action value (the negated parent Q nudged by how far
 * its prior is above the mean prior), clipped to [-1, 1] and turned into
 * pseudo-counts. Selection draws one Beta sample per child and takes the
 * largest; the draws are a parameter here. The backup adds one pseudo-count,
 * split between wins and losses by the value, at every node from the leaf to
 * the root, with the sign of the value flipping per level.
 */
module Thompson {
  import opened Wrappers
  import opened Arena
  import Rank

  /** UCTNode's fields plus the mixin's pseudo-counts. */
  datatype Stat = Stat(total: real, visits: nat, wins: real, losses: real)

  type ThompsonTree = Tree<Stat>

  /** `prior_weight=10.` */
  const PRIOR_WEIGHT: real := 10.0

  /** The `prior_scale` of the three node classes: UCTTNode, UCTTMinusNode, UCTTPlusNode. */
  const SCALE_UCTT: real := 0.1
  const SCALE_MINUS: real := 0.05
  const SCALE_PLUS: real := 0.2

  /**
   * The pseudo-counts of a node created with `action_value` av and weight pw:
   * `1 + pw * (1 + av) / 2` wins and `1 + pw * (1 - av) / 2` losses.
   */
  function Counts(av: real, pw: real): (r: (real, real))
    ensures r.0 + r.1 == 2.0 + pw
    ensures r.1 - r.0 == -pw * av
    ensures -1.0 <= av <= 1.0 && pw >= 0.0 ==> r.0 >= 1.0 && r.1 >= 1.0
  {
    (1.0 + pw * (1.0 + av) / 2.0, 1.0 + pw * (1.0 - av) / 2.0)
  }

  /**
   * `Q() = (losses - wins) / (wins + losses)`. A zero denominator, where Python
   * would raise, cannot occur on a tree that stays Sane (see SaneQ); it is
   * given the value 0 here so that Q is total.
   */
  function Q(s: Stat): (q: real)
    ensures s.wins + s.losses != 0.0 ==> q * (s.wins + s.losses) == s.losses - s.wins
  {
    if s.wins + s.losses == 0.0 then 0.0 else (s.losses - s.wins) / (s.wins + s.losses)
  }

  /** Both pseudo-counts at least one, as every node is created and as backups of values in [-1, 1] keep them. */
  predicate SaneStat(s: Stat) {
    s.wins >= 1.0 && s.losses >= 1.0
  }

  predicate Sane(t: ThompsonTree) {
    forall i :: 0 <= i < |t| ==> SaneStat(t[i].stat)
  }

  /** With non-negative counts of positive sum, Q is a value in [-1, 1]. */
  lemma QRange(s: Stat)
    requires s.wins >= 0.0 && s.losses >= 0.0 && s.wins + s.losses > 0.0
    ensures -1.0 <= Q(s) <= 1.0
  {
    var n := s.wins + s.losses;
    var d := s.losses - s.wins;
    assert -n <= d <= n;
    RatioInUnit(d, n, Q(s));
  }

  /** A ratio whose numerator is no larger in size than its positive denominator lies in [-1, 1]. */
  lemma RatioInUnit(d: real, n: real, q: real)
    requires n > 0.0 && -n <= d <= n && q * n == d
    ensures -1.0 <= q <= 1.0
  {
  }

  lemma SaneQ(s: Stat)
    requires SaneStat(s)
    ensures -1.0 <= Q(s) <= 1.0 && s.wins + s.losses >= 2.0
  {
    QRange(s);
  }

  /** `numpy.clip(x, -1., 1.)`. */
  function Clip(x: real): (r: real)
    ensures -1.0 <= r <= 1.0
    ensures -1.0 <= x <= 1.0 ==> r == x
    ensures x < -1.0 ==> r == -1.0
    ensures x > 1.0 ==> r == 1.0
  {
    if x < -1.0 then -1.0 else if x > 1.0 then 1.0 else x
  }

  /** `offset = sum([p*p for p in child_priors.values()])`. */
  function SquaredPriors(ps: Priors): (r: real)
    ensures r >= 0.0
  {
    if |ps| == 0 then 0.0
    else SquaredPriors(ps[..|ps| - 1]) + ps[|ps| - 1].1 * ps[|ps| - 1].1
  }

  /** The faked action value of a child with prior p under a parent of statistics s. */
  function ActionValue(s: Stat, p: real, offset: real, scale: real): (av: real)
    ensures -1.0 <= av <= 1.0
  {
    Clip(-Q(s) + scale * (p - offset))
  }

  /**
   * A new child: UCTNode's total `-parent.Q()` (the mixin's Q), no visits, and
   * the pseudo-counts of its action value at the default prior weight.
   */
  function Seed(offset: real, scale: real): (S: (Stat, real) -> Stat)
    ensures forall s, p :: SaneStat(S(s, p)) && S(s, p).visits == 0
    ensures forall s, p :: S(s, p).wins + S(s, p).losses == 2.0 + PRIOR_WEIGHT
  {
    (s: Stat, p: real) =>
      var c := Counts(ActionValue(s, p, offset, scale), PRIOR_WEIGHT);
      Stat(-Q(s), 0, c.0, c.1)
  }

  /**
   * `expand(child_priors)`: nothing on an expanded node; otherwise mark it
   * expanded and add one child per prior, each with the parent's board plus
   * its move.
   */
  function Expand(t: ThompsonTree, n: nat, ps: Priors, scale: real): (u: ThompsonTree)
    requires WellFormed(t) && n < |t| && (!t[n].expanded ==> t[n].board.Some?)
    ensures WellFormed(u) && |u| >= |t| && u[n].expanded
    ensures t[n].expanded ==> u == t
    ensures !t[n].expanded ==> |u| == |t| + |ps|
    ensures !t[n].expanded ==> forall k :: 0 <= k < |ps| ==>
              var s := u[|t| + k].stat;
              && u[|t| + k].parent == Some(n) && u[|t| + k].prior == ps[k].1
              && s.wins - s.losses == PRIOR_WEIGHT * ActionValue(t[n].stat, ps[k].1, SquaredPriors(ps), scale)
    ensures u[n] == t[n].(expanded := true, children := u[n].children)
    ensures forall i :: 0 <= i < |t| && i != n ==> u[i] == t[i]
    ensures Sane(t) ==> Sane(u)
    ensures BoardsReady(t) ==> BoardsReady(u)
  {
    if t[n].expanded then t
    else
      var t1 := MarkExpanded(t, n);
      var seed := Seed(SquaredPriors(ps), scale);
      var u := AddChildren(t1, n, ps, true, seed);
      forall k | 0 <= k < |ps|
        ensures u[|t| + k].parent == Some(n) && u[|t| + k].prior == ps[k].1 && u[|t| + k].stat == seed(t[n].stat, ps[k].1)
      {
        SeededChild(t, t1, u, n, ps, seed, k);
      }
      SeededSane(t, u, n, ps, SquaredPriors(ps), scale);
      SeededReady(t, t1, n, ps, seed);
      u
  }

  /** The child made for prior k hangs under n, carries the prior, and has the seed's statistics from n's. */
  lemma SeededChild(t: ThompsonTree, t1: ThompsonTree, u: ThompsonTree, n: nat, ps: Priors, seed: (Stat, real) -> Stat, k: nat)
    requires WellFormed(t) && n < |t| && t[n].board.Some? && t1 == MarkExpanded(t, n)
    requires u == AddChildren(t1, n, ps, true, seed) && k < |ps|
    ensures u[|t| + k].parent == Some(n) && u[|t| + k].prior == ps[k].1 && u[|t| + k].stat == seed(t[n].stat, ps[k].1)
  {
    assert u[|t| + k] == ChildFor(t1, n, ps[k], true, seed);
  }

  /** Sane nodes stay Sane when the only new ones are seeded Sane. */
  lemma SeededSane(t: ThompsonTree, u: ThompsonTree, n: nat, ps: Priors, offset: real, scale: real)
    requires n < |t| && |u| == |t| + |ps| && u[n].stat == t[n].stat
    requires forall i :: 0 <= i < |t| && i != n ==> u[i] == t[i]
    requires forall k :: 0 <= k < |ps| ==> u[|t| + k].stat == Seed(offset, scale)(t[n].stat, ps[k].1)
    ensures Sane(t) ==> Sane(u)
  {
    if Sane(t) {
      forall i | 0 <= i < |u| ensures SaneStat(u[i].stat) {
        if i >= |t| {
          var k := i - |t|;
          assert u[|t| + k].stat == Seed(offset, scale)(t[n].stat, ps[k].1);
          SeedSane(offset, scale, t[n].stat, ps[k].1);
        } else if i != n {
          assert u[i] == t[i];
          assert SaneStat(t[i].stat);
        } else {
          assert SaneStat(t[n].stat);
        }
      }
    }
  }

  /** A seeded child is Sane. */
  lemma SeedSane(offset: real, scale: real, s: Stat, p: real)
    ensures SaneStat(Seed(offset, scale)(s, p))
  {
    var S := Seed(offset, scale);
    assert SaneStat(S(s, p));
  }

  /** Marking n expanded and adding its children keeps every expanded node's board in place. */
  lemma SeededReady(t: ThompsonTree, t1: ThompsonTree, n: nat, ps: Priors, seed: (Stat, real) -> Stat)
    requires WellFormed(t) && n < |t| && t[n].board.Some? && t1 == MarkExpanded(t, n)
    ensures BoardsReady(t) ==> BoardsReady(AddChildren(t1, n, ps, true, seed))
  {
    if BoardsReady(t) {
      AddChildrenReady(t1, n, ps, true, seed);
    }
  }

  /** A second `expand` changes nothing, whatever priors it is handed. */
  lemma ExpandIdempotent(t: ThompsonTree, n: nat, ps: Priors, qs: Priors, scale: real)
    requires WellFormed(t) && n < |t| && (!t[n].expanded ==> t[n].board.Some?)
    ensures Expand(Expand(t, n, ps, scale), n, qs, scale) == Expand(t, n, ps, scale)
  {}

  /**
   * One node's share of a backup of x (`value_estimate * turnfactor`): a
   * visit, (1 - x)/2 wins and (1 + x)/2 losses.
   */
  function Tally(s: Stat, x: real): (r: Stat)
    ensures r.wins + r.losses == s.wins + s.losses + 1.0
    ensures r.losses - r.wins == s.losses - s.wins + x
    ensures r.visits == s.visits + 1 && r.total == s.total
  {
    s.(visits := s.visits + 1, wins := s.wins + (1.0 - x) / 2.0, losses := s.losses + (1.0 + x) / 2.0)
  }

  /** For x in [-1, 1] each increment of a tally lies in [0, 1], so a tally keeps a node Sane. */
  lemma TallyIncrements(s: Stat, x: real)
    requires -1.0 <= x <= 1.0
    ensures 0.0 <= Tally(s, x).wins - s.wins <= 1.0
    ensures 0.0 <= Tally(s, x).losses - s.losses <= 1.0
    ensures SaneStat(s) ==> SaneStat(Tally(s, x))
  {}

  /** Along p, node p[k] took a tally of Alt(x, k): x at the first node, then alternating. */
  predicate Tallied(t: ThompsonTree, u: ThompsonTree, p: seq<nat>, x: real) {
    forall k :: 0 <= k < |p| ==> p[k] < |t| && p[k] < |u| && u[p[k]].stat == Tally(t[p[k]].stat, Alt(x, k))
  }

  /** The loop of `backup` from cur, where cur takes x. */
  function BackupFrom(t: ThompsonTree, cur: nat, x: real): (u: ThompsonTree)
    requires WellFormed(t) && cur < |t|
    ensures OnlyStats(t, u) && Untouched(t, u, Path(t, cur))
    ensures Tallied(t, u, Path(t, cur), x)
    decreases cur
  {
    var t1 := SetStat(t, cur, Tally(t[cur].stat, x));
    if cur == 0 then t1
    else
      OnlyStatsWellFormed(t, t1);
      var par := t[cur].parent.value;
      PathSameShape(t, t1, par);
      var u := BackupFrom(t1, par, -x);
      PathStep(t, cur);
      BackupStep(t, t1, u, cur, Path(t, par), x);
      u
  }

  lemma BackupStep(t: ThompsonTree, t1: ThompsonTree, u: ThompsonTree, cur: nat, q: seq<nat>, x: real)
    requires cur < |t| && cur !in q && t1 == SetStat(t, cur, Tally(t[cur].stat, x))
    requires OnlyStats(t1, u) && Untouched(t1, u, q) && Tallied(t1, u, q, -x)
    ensures OnlyStats(t, u) && Untouched(t, u, [cur] + q) && Tallied(t, u, [cur] + q, x)
  {
    var p := [cur] + q;
    forall k | 0 < k < |p|
      ensures p[k] < |t| && u[p[k]].stat == Tally(t[p[k]].stat, Alt(x, k))
    {
      assert p[k] == q[k - 1];
      assert Alt(x, k) == Alt(-x, k - 1);
    }
  }

  /** `backup(value_estimate)`: the turn factor starts at +1 at the leaf. */
  function Backup(t: ThompsonTree, leaf: nat, v: real): (u: ThompsonTree)
    requires WellFormed(t) && leaf < |t|
    ensures WellFormed(u) && OnlyStats(t, u) && Untouched(t, u, Path(t, leaf))
    ensures Tallied(t, u, Path(t, leaf), v)
    ensures Sane(t) && -1.0 <= v <= 1.0 ==> Sane(u)
  {
    var u := BackupFrom(t, leaf, v);
    OnlyStatsWellFormed(t, u);
    assert Sane(t) && -1.0 <= v <= 1.0 ==> Sane(u) by {
      if Sane(t) && -1.0 <= v <= 1.0 {
        BackupKeepsSane(t, u, leaf, v);
      }
    }
    u
  }

  lemma BackupKeepsSane(t: ThompsonTree, u: ThompsonTree, leaf: nat, v: real)
    requires WellFormed(t) && leaf < |t| && Sane(t) && -1.0 <= v <= 1.0
    requires Untouched(t, u, Path(t, leaf)) && Tallied(t, u, Path(t, leaf), v)
    ensures Sane(u)
  {
    var p := Path(t, leaf);
    forall i | 0 <= i < |u| ensures SaneStat(u[i].stat) {
      if i in p {
        var k :| 0 <= k < |p| && p[k] == i;
        TallyIncrements(t[i].stat, Alt(v, k));
      }
    }
  }

  /**
   * What a backup does at every node of the path, leaf first: one more visit,
   * one more pseudo-count, and `losses - wins` moved by the value with the
   * leaf's sign, flipped per level.
   */
  lemma BackupCounts(t: ThompsonTree, leaf: nat, v: real, k: nat)
    requires WellFormed(t) && leaf < |t| && k < |Path(t, leaf)|
    ensures var i := Path(t, leaf)[k];
      var u := Backup(t, leaf, v);
      && u[i].stat.visits == t[i].stat.visits + 1
      && u[i].stat.wins + u[i].stat.losses == t[i].stat.wins + t[i].stat.losses + 1.0
      && u[i].stat.losses - u[i].stat.wins == t[i].stat.losses - t[i].stat.wins + (if k % 2 == 0 then v else -v)
  {
    var i := Path(t, leaf)[k];
    assert Backup(t, leaf, v)[i].stat == Tally(t[i].stat, Alt(v, k));
  }

  /** `best_child()`: the first child whose Beta draw is largest; `draw` gives each node's draw this time. */
  function Pick(t: ThompsonTree, draw: nat -> real): (pick: nat -> nat)
    requires WellFormed(t)
    ensures PicksChildren(t, pick)
    ensures forall a: nat :: a < |t| && |t[a].children| > 0 ==>
              pick(a) in t[a].children && forall d :: d in t[a].children ==> draw(d) <= draw(pick(a))
  {
    (a: nat) =>
      if a < |t| && |t[a].children| > 0 then
        t[a].children[FirstDraw(t, a, draw)]
      else 0
  }

  /** The position of the first child of a with the largest draw. */
  function FirstDraw(t: ThompsonTree, a: nat, draw: nat -> real): (i: nat)
    requires WellFormed(t) && a < |t| && |t[a].children| > 0
    ensures i < |t[a].children|
    ensures forall j :: 0 <= j < |t[a].children| ==> draw(t[a].children[j]) <= draw(t[a].children[i])
    ensures forall j :: 0 <= j < i ==> draw(t[a].children[j]) < draw(t[a].children[i])
  {
    var kids := t[a].children;
    var ks := seq(|kids|, j requires 0 <= j < |kids| => Rank.K1(draw(kids[j])));
    assert forall j :: 0 <= j < |kids| ==> ks[j] == Rank.K1(draw(kids[j]));
    Rank.FirstMax(ks)
  }

  /**
   * One round of `mcts_search` over Thompson nodes: descend by the round's
   * draws, evaluate the leaf's board, expand the leaf (a no-op if it is
   * already expanded) and back up the value.
   */
  method Round(t: ThompsonTree, net: Board -> Evaluation, scale: real, draw: nat -> real) returns (u: ThompsonTree)
    requires WellFormed(t) && BoardsReady(t)
    ensures WellFormed(u) && BoardsReady(u) && |u| >= |t|
    ensures u[0].stat.visits == t[0].stat.visits + 1
    ensures u[0].stat.wins + u[0].stat.losses == t[0].stat.wins + t[0].stat.losses + 1.0
    ensures Sane(t) && (forall x :: -1.0 <= net(x).value <= 1.0) ==> Sane(u)
  {
    var (t1, leaf) := SelectLeaf(t, Pick(t, draw));
    BoardsOnlySane(t, t1);
    var ev := net(t1[leaf].board.value);
    var t2 := Expand(t1, leaf, ev.priors, scale);
    assert t2[0].stat == t[0].stat;
    u := Backup(t2, leaf, ev.value);
    OnlyStatsReady(t2, u);
    RootTallied(t2, u, leaf, ev.value);
  }

  /** Building boards touches no statistics, so it keeps a tree Sane. */
  lemma BoardsOnlySane(t: ThompsonTree, t1: ThompsonTree)
    requires |t1| == |t| && forall i :: 0 <= i < |t| ==> t1[i] == t[i].(board := t1[i].board)
    ensures Sane(t) ==> Sane(t1)
  {
    assert forall i :: 0 <= i < |t| ==> t1[i].stat == t[i].stat;
  }

  /** The root ends every path, so a backup tallies it once. */
  lemma RootTallied(t: ThompsonTree, u: ThompsonTree, leaf: nat, v: real)
    requires WellFormed(t) && leaf < |t| && Tallied(t, u, Path(t, leaf), v)
    ensures 0 < |u| && u[0].stat.visits == t[0].stat.visits + 1
    ensures u[0].stat.wins + u[0].stat.losses == t[0].stat.wins + t[0].stat.losses + 1.0
  {
    var p := Path(t, leaf);
    assert u[p[|p| - 1]].stat == Tally(t[p[|p| - 1]].stat, Alt(v, |p| - 1));
  }

  /** The root `mcts_search` builds when none is supplied: `action_value=0.`, so 6 wins and 6 losses. */
  function Start(board: Board, root: Option<ThompsonTree>): (t: ThompsonTree)
    requires root.Some? ==> WellFormed(root.value) && BoardsReady(root.value)
    ensures WellFormed(t) && BoardsReady(t)
    ensures root.Some? ==> t == root.value
    ensures root.None? ==> |t| == 1 && t[0].board == Some(board) && Sane(t) && Q(t[0].stat) == 0.0
  {
    if root.Some? then root.value
    else
      var c := Counts(0.0, PRIOR_WEIGHT);
      Singleton(board, Stat(0.0, 0, c.0, c.1))
  }

  /** The ranking of `outcome()`: visits, then Q. */
  function OutcomeKey(nd: Node<Stat>): Rank.Key {
    Rank.K2(nd.stat.visits as real, Q(nd.stat))
  }

  /**
   * `outcome()` as written: `pv[0]` is read for the printed prediction before
   * the `if pv` guard, so a root without children raises IndexError.
   */
  function OutcomeAsWritten(t: ThompsonTree): (r: Result<nat>)
    requires WellFormed(t)
    ensures r.Err? <==> |t[0].children| == 0
    ensures r.Ok? ==> r.value in t[0].children
  {
    match BestBy(t, 0, OutcomeKey)
    case None => Err(NoChildren)
    case Some(c) => Ok(c)
  }

  /**
   * `outcome()` as its guard intends: the first root child with the most
   * visits, ties to the higher Q, and None when the root has no children.
   */
  function Outcome(t: ThompsonTree): (r: Option<nat>)
    requires WellFormed(t)
    ensures r.None? <==> |t[0].children| == 0
    ensures r.Some? ==> r.value in t[0].children && forall d :: d in t[0].children ==>
              && t[d].stat.visits <= t[r.value].stat.visits
              && (t[d].stat.visits == t[r.value].stat.visits ==> Q(t[d].stat) <= Q(t[r.value].stat))
  {
    BestBy(t, 0, OutcomeKey)
  }

  /** The two agree wherever the root has a child; on a childless root only the guarded one returns. */
  lemma OutcomeGuard(t: ThompsonTree)
    requires WellFormed(t)
    ensures |t[0].children| > 0 ==> OutcomeAsWritten(t) == Ok(Outcome(t).value)
    ensures |t[0].children| == 0 ==> OutcomeAsWritten(t) == Err(NoChildren) && Outcome(t) == None
  {}

  /** A fresh root searched with no budget has no children, so `outcome()` as written raises. */
  lemma NoBudgetRaises(board: Board)
    ensures OutcomeAsWritten(Start(board, None)) == Err(NoChildren)
    ensures Outcome(Start(board, None)) == None
  {}

  /**
   * `mcts_search` over Thompson nodes: `max(budget, 0)` rounds on the
   * supplied root or a fresh one, then `outcome()` as written, which raises
   * on a root still without children. `draws(r)` gives the Beta draws of
   * round r.
   */
  method Search(board: Board, budget: int, net: Board -> Evaluation, scale: real, root: Option<ThompsonTree>,
                draws: nat -> nat -> real)
    returns (t: ThompsonTree, best: Result<nat>)
    requires root.Some? ==> WellFormed(root.value) && BoardsReady(root.value)
    ensures WellFormed(t) && BoardsReady(t) && |t| >= |Start(board, root)|
    ensures t[0].stat.visits == Start(board, root)[0].stat.visits + (if budget > 0 then budget else 0)
    ensures t[0].stat.wins + t[0].stat.losses
            == Start(board, root)[0].stat.wins + Start(board, root)[0].stat.losses + (if budget > 0 then budget else 0) as real
    ensures Sane(Start(board, root)) && (forall x :: -1.0 <= net(x).value <= 1.0) ==> Sane(t)
    ensures best == OutcomeAsWritten(t)
    ensures budget <= 0 && root.None? ==> best == Err(NoChildren)
  {
    t := Start(board, root);
    var b := budget;
    var r: nat := 0;
    while b > 0
      invariant WellFormed(t) && BoardsReady(t) && |t| >= |Start(board, root)|
      invariant budget <= 0 ==> t == Start(board, root)
      invariant r == (if budget > 0 then budget else 0) - (if b > 0 then b else 0)
      invariant t[0].stat.visits == Start(board, root)[0].stat.visits + r
      invariant t[0].stat.wins + t[0].stat.losses == Start(board, root)[0].stat.wins + Start(board, root)[0].stat.losses + r as real
      invariant Sane(Start(board, root)) && (forall x :: -1.0 <= net(x).value <= 1.0) ==> Sane(t)
    {
      t := Round(t, net, scale, draws(r));
      b := b - 1;
      r := r + 1;
    }
    best := OutcomeAsWritten(t);
  }
}

=== FILE: threshold.dfy ===
/**
 * The sufficiency-threshold rule of search/st.py: once some child's value
 * exceeds the win threshold, selection stops exploring and picks the child
 * with the best value; otherwise it is UCT's rule.
 */
module Threshold {
  import opened Arena
  import Rank
  import Uct

  /** `win_threshhold = 0.25`. */
  const WIN_THRESHOLD: real := 0.25

  /** Whether some node among `kids` is worth more than the threshold. */
  function AnyWinning(t: Uct.UctTree, kids: seq<nat>): (b: bool)
    requires forall j :: 0 <= j < |kids| ==> kids[j] < |t|
    ensures b <==> exists j :: 0 <= j < |kids| && Uct.Q(t[kids[j]].stat) > WIN_THRESHOLD
  {
    if |kids| == 0 then false
    else if Uct.Q(t[kids[0]].stat) > WIN_THRESHOLD then true
    else
      var b := AnyWinning(t, kids[1..]);
      assert forall j :: 0 < j < |kids| ==> kids[j] == kids[1..][j - 1];
      b
  }

  /** The exploration weight `c`: 0 when some child of n is winning, 1 otherwise. */
  function Weight(t: Uct.UctTree, n: nat): (c: real)
    requires WellFormed(t) && n < |t|
    ensures c == 0.0 || c == 1.0
    ensures c == 0.0 <==> exists j :: 0 <= j < |t[n].children| && Uct.Q(t[t[n].children[j]].stat) > WIN_THRESHOLD
  {
    if AnyWinning(t, t[n].children) then 0.0 else 1.0
  }

  /** The key of the mixin's `best_child`. */
  function Score(t: Uct.UctTree, n: nat, nd: Node<Uct.Stat>, sqrt: real -> real): real
    requires WellFormed(t) && n < |t|
  {
    Uct.Q(nd.stat) + Weight(t, n) * Uct.CPUCT * Uct.U(t[n].stat.visits, nd, sqrt)
  }

  /** The position, among n's children, of the mixin's `best_child()`. */
  function BestIndex(t: Uct.UctTree, n: nat, sqrt: real -> real): (i: nat)
    requires WellFormed(t) && n < |t| && |t[n].children| > 0
    ensures i < |t[n].children|
    ensures forall j :: 0 <= j < |t[n].children| ==>
              Score(t, n, t[t[n].children[j]], sqrt) <= Score(t, n, t[t[n].children[i]], sqrt)
    ensures forall j :: 0 <= j < i ==>
              Score(t, n, t[t[n].children[j]], sqrt) < Score(t, n, t[t[n].children[i]], sqrt)
  {
    ArgBest(t, t[n].children, nd => Rank.K1(Score(t, n, nd, sqrt)))
  }

  /** The mixin's `best_child()`. */
  function BestChild(t: Uct.UctTree, n: nat, sqrt: real -> real): (c: nat)
    requires WellFormed(t) && n < |t| && |t[n].children| > 0
    ensures c in t[n].children && c < |t|
  {
    t[n].children[BestIndex(t, n, sqrt)]
  }

  /** Once a child is winning, the choice is the first child of maximal value. */
  lemma {:induction false} GreedyWhenWinning(t: Uct.UctTree, n: nat, sqrt: real -> real)
    requires WellFormed(t) && n < |t| && |t[n].children| > 0
    requires exists j :: 0 <= j < |t[n].children| && Uct.Q(t[t[n].children[j]].stat) > WIN_THRESHOLD
    ensures var kids := t[n].children; var i := BestIndex(t, n, sqrt);
      && (forall j :: 0 <= j < |kids| ==> Uct.Q(t[kids[j]].stat) <= Uct.Q(t[kids[i]].stat))
      && (forall j :: 0 <= j < i ==> Uct.Q(t[kids[j]].stat) < Uct.Q(t[kids[i]].stat))
  {
    assert Weight(t, n) == 0.0;
    var kids := t[n].children;
    forall j | 0 <= j < |kids|
      ensures Score(t, n, t[kids[j]], sqrt) == Uct.Q(t[kids[j]].stat)
    {
    }
  }

  /** With no winning child the choice is exactly UCT's. */
  lemma {:induction false} UctWhenNotWinning(t: Uct.UctTree, n: nat, sqrt: real -> real)
    requires WellFormed(t) && n < |t| && |t[n].children| > 0
    requires forall j :: 0 <= j < |t[n].children| ==> Uct.Q(t[t[n].children[j]].stat) <= WIN_THRESHOLD
    ensures BestIndex(t, n, sqrt) == Uct.BestIndex(t, n, Uct.CPUCT, sqrt)
  {
    assert Weight(t, n) == 1.0;
    var kids := t[n].children;
    forall j | 0 <= j < |kids|
      ensures Score(t, n, t[kids[j]], sqrt) == Uct.Score(t[n].stat.visits, t[kids[j]], Uct.CPUCT, sqrt)
    {
    }
    Uct.BestIndexUnique(t, n, Uct.CPUCT, sqrt, BestIndex(t, n, sqrt));
  }
}

=== FILE: ucd.dfy ===
/**
 * UCT over a transposition graph (search/ucd.py) and its driver
 * (search/mcds.py).
 *
 * Positions are nodes and moves are edges. A node is looked up by the hash
 * of its position in a cache shared by the whole search, so two move
 * sequences reaching the same position share one node, and a node can have
 * several parent edges. Statistics live on the edges: a running total of
 * backed-up rewards and a visit count. A rollout follows the best edge from
 * the root until it reaches a node without out-edges; the backup walks the
 * rollout's edges from the last to the first, flipping the reward's sign at
 * each step.
 *
 * Nodes and edges are kept in two arenas indexed by identity; the cache
 * (the module-global `NODE_CACHE` of the source) is a map from position
 * hashes to node identities, threaded through every operation. The position
 * hash is a parameter.
 */
module Ucd {
  import opened Wrappers
  import opened Arena
  import Rank

  /** The `cpuct=3.4` every edge is built with: `add_child` never passes another. */
  const CPUCT: real := 3.4

  /** A `UCDEdge`: the node it leaves, its move and prior, the node it enters and its statistics. */
  datatype Edge = Edge(parent: nat, move: Move, prior: real, child: nat, total: real, visits: nat, reward: real)

  /** A `UCDNode`: its position, its in-edges (`parents`) and its out-edges (`children`), as edge ids. */
  datatype DNode = DNode(board: Board, parents: seq<nat>, children: seq<nat>)

  /** All nodes and edges created so far, and the position cache. */
  datatype World = World(nodes: seq<DNode>, edges: seq<Edge>, cache: map<int, nat>)

  /** The position an edge leads to: its parent's position with the edge's move pushed. */
  function Target(w: World, e: Edge): Board
    requires e.parent < |w.nodes|
  {
    Push(w.nodes[e.parent].board, e.move)
  }

  /** An edge is linked to the node the cache holds for its target position. */
  predicate EdgeCached(w: World, hash: Board -> int, e: Edge) {
    && e.parent < |w.nodes| && e.child < |w.nodes|
    && hash(Target(w, e)) in w.cache && w.cache[hash(Target(w, e))] == e.child
  }

  /**
   * The invariants `set_child` and `add_child` keep: every edge leads to the
   * cached node of its target position, every out-edge of a node leaves it,
   * every in-edge of a node enters it, and the cache maps each hash to a node
   * whose position has that hash.
   */
  predicate Valid(w: World, hash: Board -> int) {
    && Wired(w)
    && (forall i :: 0 <= i < |w.edges| ==> EdgeCached(w, hash, w.edges[i]))
    && (forall h :: h in w.cache ==> w.cache[h] < |w.nodes| && hash(w.nodes[w.cache[h]].board) == h)
  }

  /** The graph part of Valid: edges join existing nodes and the nodes list them on the right side. */
  predicate Wired(w: World) {
    && (forall i :: 0 <= i < |w.edges| ==> w.edges[i].parent < |w.nodes| && w.edges[i].child < |w.nodes|)
    && (forall n, j :: 0 <= n < |w.nodes| && 0 <= j < |w.nodes[n].children| ==>
          w.nodes[n].children[j] < |w.edges| && w.edges[w.nodes[n].children[j]].parent == n)
    && (forall n, j :: 0 <= n < |w.nodes| && 0 <= j < |w.nodes[n].parents| ==>
          w.nodes[n].parents[j] < |w.edges| && w.edges[w.nodes[n].parents[j]].child == n)
  }

  /** w grew into u: no node lost its position, in-edges or out-edges, no edge changed, the cache only grew. */
  predicate Grew(w: World, u: World) {
    && |w.nodes| <= |u.nodes| && |w.edges| <= |u.edges|
    && (forall i :: 0 <= i < |w.nodes| ==> u.nodes[i].board == w.nodes[i].board)
    && (forall i :: 0 <= i < |w.nodes| ==> w.nodes[i].parents <= u.nodes[i].parents)
    && (forall i :: 0 <= i < |w.nodes| ==> w.nodes[i].children <= u.nodes[i].children)
    && w.edges <= u.edges
    && (forall h :: h in w.cache ==> h in u.cache && u.cache[h] == w.cache[h])
  }

  /** Records edge e as an in-edge of c and then as an out-edge of n. */
  function Link(nodes: seq<DNode>, n: nat, c: nat, e: nat): (r: seq<DNode>)
    requires n < |nodes| && c < |nodes|
    ensures |r| == |nodes|
    ensures r[c].parents == nodes[c].parents + [e]
    ensures r[n].children == nodes[n].children + [e]
    ensures forall i :: 0 <= i < |nodes| ==> r[i].board == nodes[i].board
    ensures forall i :: 0 <= i < |nodes| && i != c ==> r[i].parents == nodes[i].parents
    ensures forall i :: 0 <= i < |nodes| && i != n ==> r[i].children == nodes[i].children
  {
    var m := nodes[c := nodes[c].(parents := nodes[c].parents + [e])];
    m[n := m[n].(children := m[n].children + [e])]
  }

  /**
   * The cache lookup of `set_child` for position b: the cached node if b's
   * hash is present, otherwise a new node for b, cached under that hash.
   */
  function Lookup(w: World, b: Board, hash: Board -> int): (r: (World, nat))
    requires Valid(w, hash)
    ensures Valid(r.0, hash) && Grew(w, r.0) && r.0.edges == w.edges
    ensures r.1 < |r.0.nodes| && hash(b) in r.0.cache && r.0.cache[hash(b)] == r.1
    ensures hash(b) in w.cache ==> r.0 == w && r.1 == w.cache[hash(b)]
    ensures hash(b) !in w.cache ==>
              && r.0.nodes == w.nodes + [DNode(b, [], [])] && r.1 == |w.nodes|
              && r.0.cache == w.cache[hash(b) := |w.nodes|]
  {
    var h := hash(b);
    if h in w.cache then (w, w.cache[h])
    else
      var u := World(w.nodes + [DNode(b, [], [])], w.edges, w.cache[h := |w.nodes|]);
      assert forall i :: 0 <= i < |w.nodes| ==> u.nodes[i] == w.nodes[i];
      assert forall i :: 0 <= i < |w.edges| ==> Target(u, w.edges[i]) == Target(w, w.edges[i]);
      (u, |w.nodes|)
  }

  /** The new edge from n to c for move m: appended to the edge arena, c's in-edges and n's out-edges. */
  function Attach(w: World, n: nat, m: Move, prior: real, c: nat, hash: Board -> int): (u: World)
    requires Valid(w, hash) && n < |w.nodes| && c < |w.nodes|
    requires hash(Push(w.nodes[n].board, m)) in w.cache && w.cache[hash(Push(w.nodes[n].board, m))] == c
    ensures Valid(u, hash) && Grew(w, u) && u.cache == w.cache && |u.nodes| == |w.nodes|
    ensures u.edges == w.edges + [Edge(n, m, prior, c, 0.0, 0, 0.0)]
    ensures u.nodes[c].parents == w.nodes[c].parents + [|w.edges|]
    ensures u.nodes[n].children == w.nodes[n].children + [|w.edges|]
    ensures forall i :: 0 <= i < |w.nodes| && i != c ==> u.nodes[i].parents == w.nodes[i].parents
    ensures forall i :: 0 <= i < |w.nodes| && i != n ==> u.nodes[i].children == w.nodes[i].children
  {
    var u := World(Link(w.nodes, n, c, |w.edges|), w.edges + [Edge(n, m, prior, c, 0.0, 0, 0.0)], w.cache);
    assert forall i :: 0 <= i < |w.edges| ==> u.edges[i] == w.edges[i];
    assert forall i :: 0 <= i < |w.edges| ==> Target(u, u.edges[i]) == Target(w, w.edges[i]);
    assert Target(u, u.edges[|w.edges|]) == Push(w.nodes[n].board, m);
    u
  }

  /**
   * `add_child(move, prior)` on node n, with the edge's `set_child`: the
   * child position's hash is looked up in the cache; a node is created and
   * cached only when the hash is absent; the new edge enters the cached node
   * and is appended to its in-edges and to n's out-edges.
   */
  function AddChild(w: World, n: nat, m: Move, prior: real, hash: Board -> int): (u: World)
    requires Valid(w, hash) && n < |w.nodes|
    ensures Valid(u, hash) && Grew(w, u)
    ensures |u.edges| == |w.edges| + 1
    ensures var e := u.edges[|w.edges|];
      && e == Edge(n, m, prior, e.child, 0.0, 0, 0.0)
      && (hash(Push(w.nodes[n].board, m)) in w.cache ==>
            |u.nodes| == |w.nodes| && u.cache == w.cache && e.child == w.cache[hash(Push(w.nodes[n].board, m))])
      && (hash(Push(w.nodes[n].board, m)) !in w.cache ==>
            && |u.nodes| == |w.nodes| + 1 && e.child == |w.nodes|
            && u.nodes[e.child].board == Push(w.nodes[n].board, m)
            && u.cache == w.cache[hash(Push(w.nodes[n].board, m)) := |w.nodes|])
      && u.nodes[e.child].parents == (if e.child < |w.nodes| then w.nodes[e.child].parents else []) + [|w.edges|]
    ensures u.nodes[n].children == w.nodes[n].children + [|w.edges|]
    ensures forall i :: 0 <= i < |w.nodes| && i != n ==> u.nodes[i].children == w.nodes[i].children
    ensures forall i :: 0 <= i < |w.nodes| && i != u.edges[|w.edges|].child ==> u.nodes[i].parents == w.nodes[i].parents
  {
    var b := Push(w.nodes[n].board, m);
    var (w1, c) := Lookup(w, b, hash);
    var u := Attach(w1, n, m, prior, c, hash);
    GrewTrans(w, w1, u);
    u
  }

  /** A new, unvisited edge out of n for the prior entry p. */
  predicate FreshEdge(e: Edge, n: nat, p: (Move, real)) {
    e.parent == n && e.move == p.0 && e.prior == p.1 && e.total == 0.0 && e.visits == 0
  }

  /**
   * u is w with one fresh out-edge of n per entry of ps, in order, appended
   * to the edge arena and to n's out-edges; every other node keeps its
   * out-edges.
   */
  predicate ExpandedBy(w: World, u: World, n: nat, ps: Priors) {
    && n < |w.nodes| <= |u.nodes| && |u.edges| == |w.edges| + |ps|
    && (forall k :: 0 <= k < |ps| ==> FreshEdge(u.edges[|w.edges| + k], n, ps[k]))
    && u.nodes[n].children == w.nodes[n].children + seq(|ps|, k => |w.edges| + k)
    && (forall i :: 0 <= i < |w.nodes| && i != n ==> u.nodes[i].children == w.nodes[i].children)
  }

  /**
   * `UCDRollout.expand(child_priors)` on node n: one `add_child` per prior,
   * in the priors' order.
   */
  function Expand(w: World, n: nat, ps: Priors, hash: Board -> int): (u: World)
    requires Valid(w, hash) && n < |w.nodes|
    ensures Valid(u, hash) && Grew(w, u) && ExpandedBy(w, u, n, ps)
    decreases |ps|
  {
    if |ps| == 0 then
      assert w.nodes[n].children + [] == w.nodes[n].children;
      w
    else
      var w1 := AddChild(w, n, ps[0].0, ps[0].1, hash);
      var u := Expand(w1, n, ps[1..], hash);
      GrewTrans(w, w1, u);
      ExpandStep(w, w1, u, n, ps);
      u
  }

  lemma ExpandStep(w: World, w1: World, u: World, n: nat, ps: Priors)
    requires |ps| > 0 && n < |w.nodes| <= |w1.nodes|
    requires |w1.edges| == |w.edges| + 1 && w1.edges <= u.edges && FreshEdge(w1.edges[|w.edges|], n, ps[0])
    requires w1.nodes[n].children == w.nodes[n].children + [|w.edges|]
    requires forall i :: 0 <= i < |w.nodes| && i != n ==> w1.nodes[i].children == w.nodes[i].children
    requires ExpandedBy(w1, u, n, ps[1..])
    ensures ExpandedBy(w, u, n, ps)
  {
    forall k | 0 <= k < |ps|
      ensures FreshEdge(u.edges[|w.edges| + k], n, ps[k])
    {
      if k == 0 {
        assert u.edges[|w.edges|] == w1.edges[|w.edges|];
      } else {
        assert ps[1..][k - 1] == ps[k];
        assert FreshEdge(u.edges[|w1.edges| + (k - 1)], n, ps[1..][k - 1]);
      }
    }
    assert [|w.edges|] + seq(|ps| - 1, k => |w1.edges| + k) == seq(|ps|, k => |w.edges| + k);
  }

  lemma GrewTrans(a: World, b: World, c: World)
    requires Grew(a, b) && Grew(b, c)
    ensures Grew(a, c)
  {
  }

  /**
   * Two edges whose target positions hash alike enter the same node: a
   * position reached by two move orders is searched once.
   */
  lemma Transposition(w: World, hash: Board -> int, i: nat, j: nat)
    requires Valid(w, hash) && i < |w.edges| && j < |w.edges|
    requires hash(Target(w, w.edges[i])) == hash(Target(w, w.edges[j]))
    ensures w.edges[i].child == w.edges[j].child
  {
    assert EdgeCached(w, hash, w.edges[i]) && EdgeCached(w, hash, w.edges[j]);
  }

  /** `mu(0)`, which is `Q()` at the default depth: the total over visits plus one. */
  function Q(e: Edge): (q: real)
    ensures q * (1 + e.visits) as real == e.total
    ensures e.visits == 0 ==> q == e.total
  {
    e.total / (1 + e.visits) as real
  }

  /** The visits of the edges `ids`, added up. */
  function SumVisits(es: seq<Edge>, ids: seq<nat>): nat
    requires forall k :: 0 <= k < |ids| ==> ids[k] < |es|
    decreases |ids|
  {
    if |ids| == 0 then 0 else SumVisits(es, ids[..|ids| - 1]) + es[ids[|ids| - 1]].visits
  }

  /** `p(0)` of the out-edges of n: the visits of all of n's out-edges, `n(0)` being an edge's visits. */
  function P(w: World, n: nat): (r: nat)
    requires Wired(w) && n < |w.nodes|
    ensures (forall j :: 0 <= j < |w.nodes[n].children| ==> w.edges[w.nodes[n].children[j]].visits == 0) ==> r == 0
  {
    ZeroVisits(w.edges, w.nodes[n].children);
    SumVisits(w.edges, w.nodes[n].children)
  }

  lemma {:induction false} ZeroVisits(es: seq<Edge>, ids: seq<nat>)
    requires forall k :: 0 <= k < |ids| ==> ids[k] < |es|
    ensures (forall k :: 0 <= k < |ids| ==> es[ids[k]].visits == 0) ==> SumVisits(es, ids) == 0
    decreases |ids|
  {
    if |ids| > 0 {
      ZeroVisits(es, ids[..|ids| - 1]);
    }
  }

  /** `U()`: the prior times the square root of `p(0)` over one more than the edge's visits. */
  function U(w: World, e: Edge, sqrt: real -> real): (u: real)
    requires Wired(w) && e.parent < |w.nodes|
    ensures u * (1 + e.visits) as real == e.prior * sqrt(P(w, e.parent) as real)
  {
    e.prior * sqrt(P(w, e.parent) as real) / (1 + e.visits) as real
  }

  /** The key of `best_edge`. */
  function Score(w: World, e: Edge, sqrt: real -> real): real
    requires Wired(w) && e.parent < |w.nodes|
  {
    Q(e) + CPUCT * U(w, e, sqrt)
  }

  /** The position, among n's out-edges, of `best_edge()`: the first with the highest score. */
  function BestIndex(w: World, n: nat, sqrt: real -> real): (i: nat)
    requires Wired(w) && n < |w.nodes| && |w.nodes[n].children| > 0
    ensures i < |w.nodes[n].children|
    ensures forall j :: 0 <= j < |w.nodes[n].children| ==>
              Score(w, w.edges[w.nodes[n].children[j]], sqrt) <= Score(w, w.edges[w.nodes[n].children[i]], sqrt)
    ensures forall j :: 0 <= j < i ==>
              Score(w, w.edges[w.nodes[n].children[j]], sqrt) < Score(w, w.edges[w.nodes[n].children[i]], sqrt)
  {
    var kids := w.nodes[n].children;
    var ks := seq(|kids|, j requires 0 <= j < |kids| => Rank.K1(Score(w, w.edges[kids[j]], sqrt)));
    assert forall j :: 0 <= j < |kids| ==> ks[j] == Rank.K1(Score(w, w.edges[kids[j]], sqrt));
    Rank.FirstMax(ks)
  }

  /** `best_edge()` of node n. */
  function BestEdge(w: World, n: nat, sqrt: real -> real): (e: nat)
    requires Wired(w) && n < |w.nodes| && |w.nodes[n].children| > 0
    ensures e in w.nodes[n].children && e < |w.edges| && w.edges[e].parent == n
  {
    w.nodes[n].children[BestIndex(w, n, sqrt)]
  }

  /** The node reached after the first k edges of history h from root. */
  function At(w: World, root: nat, h: seq<nat>, k: nat): (n: nat)
    requires Wired(w) && root < |w.nodes| && k <= |h| && forall i :: 0 <= i < |h| ==> h[i] < |w.edges|
    ensures n < |w.nodes|
  {
    if k == 0 then root else w.edges[h[k - 1]].child
  }

  /** Every edge of h is the best out-edge of the node the history has reached. */
  predicate Follows(w: World, root: nat, h: seq<nat>, sqrt: real -> real)
    requires Wired(w) && root < |w.nodes|
  {
    && (forall i :: 0 <= i < |h| ==> h[i] < |w.edges|)
    && forall k {:trigger At(w, root, h, k)} :: 0 <= k < |h| ==>
         |w.nodes[At(w, root, h, k)].children| > 0 && h[k] == BestEdge(w, At(w, root, h, k), sqrt)
  }

  /** `leaf_node()`: the child of the history's last edge, or the root when the history is empty. */
  function LeafNode(w: World, root: nat, h: seq<nat>): (n: nat)
    requires Wired(w) && root < |w.nodes| && forall i :: 0 <= i < |h| ==> h[i] < |w.edges|
    ensures n < |w.nodes|
  {
    if |h| > 0 then w.edges[h[|h| - 1]].child else root
  }

  /**
   * The loop of `generate_rollout` from node cur, for at most `fuel` edges:
   * while the current node has out-edges, take the best one.
   */
  function Walk(w: World, cur: nat, fuel: nat, sqrt: real -> real): (h: seq<nat>)
    requires Wired(w) && cur < |w.nodes|
    ensures |h| <= fuel && Follows(w, cur, h, sqrt)
    ensures |h| < fuel ==> |w.nodes[LeafNode(w, cur, h)].children| == 0
    decreases fuel
  {
    if fuel == 0 || |w.nodes[cur].children| == 0 then []
    else
      var e := BestEdge(w, cur, sqrt);
      var rest := Walk(w, w.edges[e].child, fuel - 1, sqrt);
      WalkStep(w, cur, e, rest, sqrt);
      [e] + rest
  }

  lemma WalkStep(w: World, cur: nat, e: nat, rest: seq<nat>, sqrt: real -> real)
    requires Wired(w) && cur < |w.nodes| && |w.nodes[cur].children| > 0 && e == BestEdge(w, cur, sqrt)
    requires Follows(w, w.edges[e].child, rest, sqrt)
    ensures Follows(w, cur, [e] + rest, sqrt)
    ensures LeafNode(w, cur, [e] + rest) == LeafNode(w, w.edges[e].child, rest)
  {
    var h := [e] + rest;
    forall k | 0 <= k < |h|
      ensures |w.nodes[At(w, cur, h, k)].children| > 0 && h[k] == BestEdge(w, At(w, cur, h, k), sqrt)
    {
      if k > 0 {
        AtShift(w, cur, e, rest, k);
        assert h[k] == rest[k - 1];
      }
    }
  }

  /** After a first edge e, the nodes a history reaches are those its rest reaches from e's child. */
  lemma AtShift(w: World, cur: nat, e: nat, rest: seq<nat>, k: nat)
    requires Wired(w) && cur < |w.nodes| && e < |w.edges| && 0 < k <= |rest| + 1
    requires forall i :: 0 <= i < |rest| ==> rest[i] < |w.edges|
    ensures At(w, cur, [e] + rest, k) == At(w, w.edges[e].child, rest, k - 1)
  {
    if k > 1 {
      assert ([e] + rest)[k - 1] == rest[k - 2];
    }
  }

  /**
   * `generate_rollout()` from root. The source has no repetition check and
   * loops forever on a descent that comes back to a node it has passed
   * through; here the descent is cut after as many edges as there are nodes,
   * which only such a descent reaches (RolloutCycles), and reported as Cycle.
   */
  function Rollout(w: World, root: nat, sqrt: real -> real): (r: Result<seq<nat>>)
    requires Wired(w) && root < |w.nodes|
    ensures r.Err? ==> r.fault == Cycle
    ensures r.Ok? ==> Follows(w, root, r.value, sqrt) && |w.nodes[LeafNode(w, root, r.value)].children| == 0
  {
    var h := Walk(w, root, |w.nodes|, sqrt);
    if |w.nodes[LeafNode(w, root, h)].children| > 0 then Err(Cycle) else Ok(h)
  }

  /** The nodes a history passes through, root first. */
  function Trail(w: World, root: nat, h: seq<nat>): (s: seq<nat>)
    requires Wired(w) && root < |w.nodes| && forall i :: 0 <= i < |h| ==> h[i] < |w.edges|
    ensures |s| == |h| + 1 && forall k :: 0 <= k <= |h| ==> s[k] == At(w, root, h, k) && s[k] < |w.nodes|
  {
    seq(|h| + 1, k requires 0 <= k <= |h| => At(w, root, h, k))
  }

  /** More than m entries below m: some value repeats. */
  lemma {:induction false} Pigeonhole(s: seq<nat>, m: nat)
    requires |s| > m && forall i :: 0 <= i < |s| ==> s[i] < m
    ensures exists i, j :: 0 <= i < j < |s| && s[i] == s[j]
    decreases |s|
  {
    var x := s[|s| - 1];
    if exists i :: 0 <= i < |s| - 1 && s[i] == x {
      var i :| 0 <= i < |s| - 1 && s[i] == x;
      assert s[i] == s[|s| - 1];
    } else {
      var s' := seq(|s| - 1, i requires 0 <= i < |s| - 1 => if s[i] > x then s[i] - 1 else s[i]);
      assert forall i :: 0 <= i < |s'| ==> s[i] != x;
      Pigeonhole(s', m - 1);
      var i, j :| 0 <= i < j < |s'| && s'[i] == s'[j];
      assert s[i] == s[j];
    }
  }

  /** Distinct entries below m: at most m of them. */
  lemma {:induction false} DistinctBound(s: seq<nat>, m: nat)
    requires forall i :: 0 <= i < |s| ==> s[i] < m
    requires forall i, j :: 0 <= i < j < |s| ==> s[i] != s[j]
    ensures |s| <= m
    decreases |s|
  {
    if |s| > 0 {
      var x := s[|s| - 1];
      var s' := seq(|s| - 1, i requires 0 <= i < |s| - 1 => if s[i] > x then s[i] - 1 else s[i]);
      assert forall i :: 0 <= i < |s'| ==> s[i] != x;
      DistinctBound(s', m - 1);
    }
  }

  /** A rollout cut short has come back to a node it had already passed through. */
  lemma RolloutCycles(w: World, root: nat, sqrt: real -> real)
    requires Wired(w) && root < |w.nodes| && Rollout(w, root, sqrt).Err?
    ensures var s := Trail(w, root, Walk(w, root, |w.nodes|, sqrt));
      exists i, j :: 0 <= i < j < |s| && s[i] == s[j]
  {
    var h := Walk(w, root, |w.nodes|, sqrt);
    assert |w.nodes[LeafNode(w, root, h)].children| > 0;
    assert |h| == |w.nodes|;
    var s := Trail(w, root, h);
    assert |s| > |w.nodes|;
    assert forall i :: 0 <= i < |s| ==> s[i] < |w.nodes|;
    Pigeonhole(s, |w.nodes|);
    var i, j :| 0 <= i < j < |s| && s[i] == s[j];
    assert Trail(w, root, Walk(w, root, |w.nodes|, sqrt))[i] == Trail(w, root, Walk(w, root, |w.nodes|, sqrt))[j];
  }

  /**
   * Once a descent is back at a node it left, it repeats the same edges: the
   * node reached after the history is one the descent left, so it has out-edges.
   */
  lemma {:induction false} RepeatKeepsGoing(w: World, root: nat, h: seq<nat>, sqrt: real -> real, i: nat, j: nat)
    requires Wired(w) && root < |w.nodes| && Follows(w, root, h, sqrt) && i < j <= |h|
    ensures At(w, root, h, i) == At(w, root, h, j) ==> |w.nodes[LeafNode(w, root, h)].children| > 0
    decreases |h| - j
  {
    if At(w, root, h, i) == At(w, root, h, j) && j < |h| {
      assert h[i] == h[j];
      RepeatKeepsGoing(w, root, h, sqrt, i + 1, j + 1);
    }
  }

  /** A rollout that stops passes through every node at most once. */
  lemma RolloutDistinct(w: World, root: nat, sqrt: real -> real)
    requires Wired(w) && root < |w.nodes| && Rollout(w, root, sqrt).Ok?
    ensures var h := Rollout(w, root, sqrt).value;
      forall i, j :: 0 <= i < j <= |h| ==> At(w, root, h, i) != At(w, root, h, j)
  {
    var h := Rollout(w, root, sqrt).value;
    forall i, j | 0 <= i < j <= |h|
      ensures At(w, root, h, i) != At(w, root, h, j)
    {
      RepeatKeepsGoing(w, root, h, sqrt, i, j);
    }
  }

  /** The edges of a stopped rollout are distinct: each leaves a different node. */
  lemma RolloutEdgesDistinct(w: World, root: nat, sqrt: real -> real)
    requires Wired(w) && root < |w.nodes| && Rollout(w, root, sqrt).Ok?
    ensures var h := Rollout(w, root, sqrt).value;
      forall i, j :: 0 <= i < j < |h| ==> h[i] != h[j]
  {
    var h := Rollout(w, root, sqrt).value;
    RolloutDistinct(w, root, sqrt);
    forall i, j | 0 <= i < j < |h|
      ensures h[i] != h[j]
    {
      assert w.edges[h[i]].parent == At(w, root, h, i) && w.edges[h[j]].parent == At(w, root, h, j);
    }
  }

  /** Every edge enters a node of lower rank: the graph has no cycle. */
  predicate Ranked(w: World, rank: nat -> nat) {
    forall i :: 0 <= i < |w.edges| && w.edges[i].parent < |w.nodes| ==> rank(w.edges[i].child) < rank(w.edges[i].parent)
  }

  lemma {:induction false} RankFalls(w: World, root: nat, h: seq<nat>, sqrt: real -> real, rank: nat -> nat, i: nat, j: nat)
    requires Wired(w) && root < |w.nodes| && Follows(w, root, h, sqrt) && Ranked(w, rank) && i < j <= |h|
    ensures rank(At(w, root, h, j)) < rank(At(w, root, h, i))
    decreases j - i
  {
    assert w.edges[h[j - 1]].parent == At(w, root, h, j - 1);
    if i < j - 1 {
      RankFalls(w, root, h, sqrt, rank, i, j - 1);
    }
  }

  /** On a graph without cycles every rollout stops. */
  lemma RolloutRanked(w: World, root: nat, sqrt: real -> real, rank: nat -> nat)
    requires Wired(w) && root < |w.nodes| && Ranked(w, rank)
    ensures Rollout(w, root, sqrt).Ok?
  {
    var h := Walk(w, root, |w.nodes|, sqrt);
    var s := Trail(w, root, h);
    forall i, j | 0 <= i < j < |s|
      ensures s[i] != s[j]
    {
      RankFalls(w, root, h, sqrt, rank, i, j);
    }
    DistinctBound(s, |w.nodes|);
  }

  /**
   * The loop of `backup`: pop the history's last edge, credit it with x and
   * one visit, and go on with -x.
   */
  function Pop(es: seq<Edge>, h: seq<nat>, x: real): (r: seq<Edge>)
    requires forall k :: 0 <= k < |h| ==> h[k] < |es|
    ensures |r| == |es|
    decreases |h|
  {
    if |h| == 0 then es
    else
      var e := h[|h| - 1];
      var es1 := es[e := es[e].(total := es[e].total + x, visits := es[e].visits + 1)];
      Pop(es1, h[..|h| - 1], -x)
  }

  /** Only the totals and visits of the history's edges change. */
  lemma {:induction false} PopFrame(es: seq<Edge>, h: seq<nat>, x: real, i: nat)
    requires (forall k :: 0 <= k < |h| ==> h[k] < |es|) && i < |es|
    ensures Pop(es, h, x)[i] == es[i].(total := Pop(es, h, x)[i].total, visits := Pop(es, h, x)[i].visits)
    ensures i !in h ==> Pop(es, h, x)[i] == es[i]
    decreases |h|
  {
    if |h| > 0 {
      var e := h[|h| - 1];
      var es1 := es[e := es[e].(total := es[e].total + x, visits := es[e].visits + 1)];
      assert i !in h ==> i !in h[..|h| - 1] && i != e;
      PopFrame(es1, h[..|h| - 1], -x, i);
    }
  }

  /** Each edge gains one visit per occurrence in the history. */
  lemma {:induction false} PopVisits(es: seq<Edge>, h: seq<nat>, x: real, i: nat)
    requires (forall k :: 0 <= k < |h| ==> h[k] < |es|) && i < |es|
    ensures Pop(es, h, x)[i].visits == es[i].visits + multiset(h)[i]
    decreases |h|
  {
    if |h| > 0 {
      var e := h[|h| - 1];
      var es1 := es[e := es[e].(total := es[e].total + x, visits := es[e].visits + 1)];
      assert h == h[..|h| - 1] + [e];
      PopVisits(es1, h[..|h| - 1], -x, i);
    }
  }

  predicate Distinct(h: seq<nat>) {
    forall i, j :: 0 <= i < j < |h| ==> h[i] != h[j]
  }

  lemma AltFlip(x: real, k: nat)
    ensures Alt(-x, k) == Alt(x, k + 1)
  {}

  /** Along a history without repeats, the last edge gains x, the one before -x, and so on. */
  lemma {:induction false} PopTotal(es: seq<Edge>, h: seq<nat>, x: real, j: nat)
    requires (forall k :: 0 <= k < |h| ==> h[k] < |es|) && Distinct(h) && j < |h|
    ensures Pop(es, h, x)[h[j]].total == es[h[j]].total + Alt(x, |h| - 1 - j)
    decreases |h|
  {
    var e := h[|h| - 1];
    var h' := h[..|h| - 1];
    var es1 := es[e := es[e].(total := es[e].total + x, visits := es[e].visits + 1)];
    assert Pop(es, h, x) == Pop(es1, h', -x);
    if j < |h| - 1 {
      assert h'[j] == h[j] != e;
      PopTotal(es1, h', -x, j);
      var k: nat := |h'| - 1 - j;
      assert es1[h[j]] == es[h[j]];
      assert Pop(es1, h', -x)[h[j]].total == es[h[j]].total + Alt(-x, k);
      AltFlip(x, k);
      assert Alt(-x, k) == Alt(x, |h| - 1 - j);
    } else {
      assert forall k :: 0 <= k < |h'| ==> h'[k] != e;
      PopFrame(es1, h', -x, e);
    }
  }

  /**
   * `backup(reward)` along history h: the last edge's `reward` becomes -v;
   * then every edge of the history, last first, gains a visit and a reward
   * whose sign flips at every step, the last edge's being -v. Nothing else
   * changes, and an empty history changes nothing.
   */
  function Backup(w: World, h: seq<nat>, v: real): (u: World)
    requires forall k :: 0 <= k < |h| ==> h[k] < |w.edges|
    ensures u.nodes == w.nodes && u.cache == w.cache && |u.edges| == |w.edges|
    ensures forall i :: 0 <= i < |w.edges| ==>
              u.edges[i] == w.edges[i].(total := u.edges[i].total, visits := u.edges[i].visits, reward := u.edges[i].reward)
    ensures forall i :: 0 <= i < |w.edges| ==> u.edges[i].visits == w.edges[i].visits + multiset(h)[i]
    ensures forall i :: 0 <= i < |w.edges| && i !in h ==> u.edges[i] == w.edges[i]
    ensures |h| > 0 ==> u.edges[h[|h| - 1]].reward == -v
    ensures |h| == 0 ==> u == w
  {
    var es := if |h| > 0 then w.edges[h[|h| - 1] := w.edges[h[|h| - 1]].(reward := -v)] else w.edges;
    var u := w.(edges := Pop(es, h, -v));
    forall i | 0 <= i < |w.edges|
      ensures u.edges[i] == w.edges[i].(total := u.edges[i].total, visits := u.edges[i].visits, reward := u.edges[i].reward)
      ensures u.edges[i].visits == w.edges[i].visits + multiset(h)[i]
      ensures i !in h ==> u.edges[i] == w.edges[i]
    {
      PopFrame(es, h, -v, i);
      PopVisits(es, h, -v, i);
    }
    if |h| > 0 then
      PopFrame(es, h, -v, h[|h| - 1]);
      u
    else
      u
  }

  /** Along a history without repeats, the edge j steps before the last gains `Alt(-v, j)`. */
  lemma BackupTotals(w: World, h: seq<nat>, v: real)
    requires (forall k :: 0 <= k < |h| ==> h[k] < |w.edges|) && Distinct(h)
    ensures forall j :: 0 <= j < |h| ==> Backup(w, h, v).edges[h[j]].total == w.edges[h[j]].total + Alt(-v, |h| - 1 - j)
  {
    var es := if |h| > 0 then w.edges[h[|h| - 1] := w.edges[h[|h| - 1]].(reward := -v)] else w.edges;
    forall j | 0 <= j < |h|
      ensures Backup(w, h, v).edges[h[j]].total == w.edges[h[j]].total + Alt(-v, |h| - 1 - j)
    {
      PopTotal(es, h, -v, j);
    }
  }

  /** A backup changes statistics only, so the graph and the cache stay valid. */
  lemma BackupValid(w: World, h: seq<nat>, v: real, hash: Board -> int)
    requires (forall k :: 0 <= k < |h| ==> h[k] < |w.edges|) && Valid(w, hash)
    ensures Valid(Backup(w, h, v), hash)
  {
    var u := Backup(w, h, v);
    assert forall i :: 0 <= i < |w.edges| ==> Target(u, u.edges[i]) == Target(w, w.edges[i]);
  }

  /** The position, among n's out-edges, of `outcome()`'s `pv[0]`: most visits, ties by higher Q. */
  function OutcomeIndex(w: World, n: nat): (i: nat)
    requires Wired(w) && n < |w.nodes| && |w.nodes[n].children| > 0
    ensures i < |w.nodes[n].children|
    ensures forall j :: 0 <= j < |w.nodes[n].children| ==>
              var c := w.edges[w.nodes[n].children[j]];
              var b := w.edges[w.nodes[n].children[i]];
              c.visits <= b.visits && (c.visits == b.visits ==> Q(c) <= Q(b))
    ensures forall j :: 0 <= j < i ==>
              var c := w.edges[w.nodes[n].children[j]];
              var b := w.edges[w.nodes[n].children[i]];
              c.visits < b.visits || (c.visits == b.visits && Q(c) < Q(b))
  {
    var kids := w.nodes[n].children;
    var ks := seq(|kids|, j requires 0 <= j < |kids| => Rank.K2(w.edges[kids[j]].visits as real, Q(w.edges[kids[j]])));
    assert forall j :: 0 <= j < |kids| ==> ks[j] == Rank.K2(w.edges[kids[j]].visits as real, Q(w.edges[kids[j]]));
    Rank.FirstMax(ks)
  }

  /** `outcome()`: the move and child node of the best out-edge of n; NoChildren where `pv[0]` raises. */
  function Outcome(w: World, n: nat): (r: Result<(Move, nat)>)
    requires Wired(w) && n < |w.nodes|
    ensures r.Err? <==> |w.nodes[n].children| == 0
    ensures r.Err? ==> r.fault == NoChildren
    ensures r.Ok? ==> exists e :: (e in w.nodes[n].children && e < |w.edges| &&
              r.value == (w.edges[e].move, w.edges[e].child) && w.edges[e].parent == n)
  {
    if |w.nodes[n].children| == 0 then Err(NoChildren)
    else
      var e := w.nodes[n].children[OutcomeIndex(w, n)];
      Ok((w.edges[e].move, w.edges[e].child))
  }

  /**
   * What a round did to w, given the rollout h from root, the position b
   * handed to the evaluator and its answer ev: b is the rollout leaf's
   * position; the leaf, which had no out-edges, now has one fresh edge per
   * prior; every older edge gained one visit per occurrence in h; no node
   * lost its position.
   */
  predicate Rounded(w: World, u: World, root: nat, h: seq<nat>, b: Board, ev: Evaluation, hash: Board -> int)
    requires Wired(w) && root < |w.nodes| && forall k :: 0 <= k < |h| ==> h[k] < |w.edges|
  {
    var leaf := LeafNode(w, root, h);
    && Valid(u, hash) && |w.nodes| <= |u.nodes|
    && (forall i :: 0 <= i < |w.nodes| ==> u.nodes[i].board == w.nodes[i].board)
    && b == w.nodes[leaf].board
    && |u.edges| == |w.edges| + |ev.priors|
    && (forall i :: 0 <= i < |w.edges| ==> u.edges[i].visits == w.edges[i].visits + multiset(h)[i])
    && (forall k :: 0 <= k < |ev.priors| ==> FreshEdge(u.edges[|w.edges| + k], leaf, ev.priors[k]))
    && u.nodes[leaf].children == seq(|ev.priors|, k => |w.edges| + k)
  }

  /**
   * One round of `mcds_search` as intended: a rollout from root, one
   * evaluator call on the position of its leaf, `UCDRollout.expand` of the
   * leaf with the priors, and `backup` of the value along the rollout.
   * Returns the new world and the position evaluated.
   */
  function Round(w: World, root: nat, net: Board -> Evaluation, sqrt: real -> real, hash: Board -> int): (r: Result<(World, Board)>)
    requires Valid(w, hash) && root < |w.nodes|
    ensures r.Err? <==> Rollout(w, root, sqrt).Err?
    ensures r.Err? ==> r.fault == Cycle
    ensures r.Ok? ==> Rounded(w, r.value.0, root, Rollout(w, root, sqrt).value, r.value.1, net(r.value.1), hash)
  {
    match Rollout(w, root, sqrt)
    case Err(f) => Err(f)
    case Ok(h) =>
      var leaf := LeafNode(w, root, h);
      var b := w.nodes[leaf].board;
      var ev := net(b);
      var w1 := Expand(w, leaf, ev.priors, hash);
      var u := Backup(w1, h, ev.value);
      BackupValid(w1, h, ev.value, hash);
      RoundStep(w, w1, u, root, h, b, ev, hash);
      Ok((u, b))
  }

  lemma RoundStep(w: World, w1: World, u: World, root: nat, h: seq<nat>, b: Board, ev: Evaluation, hash: Board -> int)
    requires Wired(w) && root < |w.nodes| && forall k :: 0 <= k < |h| ==> h[k] < |w.edges|
    requires |w.nodes[LeafNode(w, root, h)].children| == 0 && b == w.nodes[LeafNode(w, root, h)].board
    requires Grew(w, w1) && ExpandedBy(w, w1, LeafNode(w, root, h), ev.priors)
    requires Valid(u, hash) && u.nodes == w1.nodes && |u.edges| == |w1.edges|
    requires forall i :: 0 <= i < |w1.edges| ==> u.edges[i].visits == w1.edges[i].visits + multiset(h)[i]
    requires forall i :: 0 <= i < |w1.edges| && i !in h ==> u.edges[i] == w1.edges[i]
    ensures Rounded(w, u, root, h, b, ev, hash)
  {
    var leaf := LeafNode(w, root, h);
    forall k | 0 <= k < |ev.priors|
      ensures FreshEdge(u.edges[|w.edges| + k], leaf, ev.priors[k])
    {
      assert |w.edges| + k !in h;
    }
    forall i | 0 <= i < |w.edges|
      ensures u.edges[i].visits == w.edges[i].visits + multiset(h)[i]
    {
      assert w1.edges[i] == w.edges[i];
    }
    assert w.nodes[leaf].children == [];
  }

  /** `num_reads` rounds from root: the final world and the positions evaluated, in order. */
  function Run(w: World, root: nat, k: nat, net: Board -> Evaluation, sqrt: real -> real, hash: Board -> int): (r: Result<(World, seq<Board>)>)
    requires Valid(w, hash) && root < |w.nodes|
    ensures r.Err? ==> r.fault == Cycle
    ensures r.Ok? ==> Valid(r.value.0, hash) && |w.nodes| <= |r.value.0.nodes| && |r.value.1| == k
    ensures r.Ok? ==> r.value.0.nodes[root].board == w.nodes[root].board
    decreases k
  {
    if k == 0 then Ok((w, []))
    else
      match Round(w, root, net, sqrt, hash)
      case Err(f) => Err(f)
      case Ok((w1, b)) =>
        match Run(w1, root, k - 1, net, sqrt, hash)
        case Err(f) => Err(f)
        case Ok((u, bs)) => Ok((u, [b] + bs))
  }

  /** The root of `mcds_search`: the node supplied, or `nodeclass(board=board)`, which is not cached. */
  function Start(w: World, board: Board, root: Option<nat>, hash: Board -> int): (r: (World, nat))
    requires Valid(w, hash) && (root.Some? ==> root.value < |w.nodes|)
    ensures Valid(r.0, hash) && r.1 < |r.0.nodes| && r.0.cache == w.cache && r.0.edges == w.edges
    ensures root.Some? ==> r == (w, root.value)
    ensures root.None? ==> r.0.nodes == w.nodes + [DNode(board, [], [])] && r.1 == |w.nodes|
  {
    if root.Some? then (w, root.value)
    else
      var u := w.(nodes := w.nodes + [DNode(board, [], [])]);
      assert forall i :: 0 <= i < |w.nodes| ==> u.nodes[i] == w.nodes[i];
      assert forall i :: 0 <= i < |w.edges| ==> Target(u, w.edges[i]) == Target(w, w.edges[i]);
      (u, |w.nodes|)
  }

  /** What `mcds_search` leaves behind: the world, its root, the positions evaluated and `root.outcome()`. */
  datatype Searched = Searched(world: World, root: nat, evaluated: seq<Board>, best: (Move, nat))

  /**
   * `mcds_search` with the leaf expanded through the rollout: `max(num_reads, 0)`
   * rounds, one evaluator call each, then the root's outcome.
   */
  function Search(w: World, board: Board, numReads: int, net: Board -> Evaluation, root: Option<nat>,
                  sqrt: real -> real, hash: Board -> int): (r: Result<Searched>)
    requires Valid(w, hash) && (root.Some? ==> root.value < |w.nodes|)
    ensures r.Err? ==> r.fault in {Cycle, NoChildren}
    ensures r.Ok? ==> && Valid(r.value.world, hash) && r.value.root == Start(w, board, root, hash).1
                      && r.value.root < |r.value.world.nodes|
                      && |r.value.evaluated| == (if numReads > 0 then numReads else 0)
                      && Outcome(r.value.world, r.value.root) == Ok(r.value.best)
  {
    var (w0, r0) := Start(w, board, root, hash);
    match Run(w0, r0, if numReads > 0 then numReads else 0, net, sqrt, hash)
    case Err(f) => Err(f)
    case Ok((u, bs)) =>
      match Outcome(u, r0)
      case Err(f) => Err(f)
      case Ok(best) => Ok(Searched(u, r0, bs, best))
  }

  /**
   * `mcds_search` as written: the loop calls `expand` on the `UCDNode` that
   * `leaf_node()` returns, and `UCDNode` has no such method, so the first
   * round raises once its rollout has stopped.
   */
  function SearchAsWritten(w: World, board: Board, numReads: int, net: Board -> Evaluation, root: Option<nat>,
                           sqrt: real -> real, hash: Board -> int): (r: Result<Searched>)
    requires Valid(w, hash) && (root.Some? ==> root.value < |w.nodes|)
    ensures numReads <= 0 ==> r == Search(w, board, numReads, net, root, sqrt, hash)
  {
    var (w0, r0) := Start(w, board, root, hash);
    if numReads <= 0 then Search(w, board, numReads, net, root, sqrt, hash)
    else
      match Rollout(w0, r0, sqrt)
      case Err(f) => Err(f)
      case Ok(_) => Err(NoAttribute)
  }

  /** As written, any search with at least one round fails: it never returns an outcome. */
  lemma AsWrittenFails(w: World, board: Board, numReads: int, net: Board -> Evaluation, root: Option<nat>,
                       sqrt: real -> real, hash: Board -> int)
    requires Valid(w, hash) && (root.Some? ==> root.value < |w.nodes|) && numReads > 0
    ensures SearchAsWritten(w, board, numReads, net, root, sqrt, hash).Err?
    ensures var s := Start(w, board, root, hash);
      Rollout(s.0, s.1, sqrt).Ok? <==> SearchAsWritten(w, board, numReads, net, root, sqrt, hash) == Err(NoAttribute)
  {}

  /**
   * One read from a fresh root with one legal move: the intended search
   * returns that move; the search as written raises.
   */
  lemma MissingExpand()
    ensures var w := World([], [], map[]);
      var net := (b: Board) => Evaluation([("e2e4", 1.0)], 0.0);
      var sqrt := (x: real) => x;
      var hash := (b: Board) => |b.pushed|;
      && SearchAsWritten(w, Board("startpos", []), 1, net, None, sqrt, hash) == Err(NoAttribute)
      && Search(w, Board("startpos", []), 1, net, None, sqrt, hash).Ok?
      && Search(w, Board("startpos", []), 1, net, None, sqrt, hash).value.best == ("e2e4", 1)
  {
    var w := World([], [], map[]);
    var net := (b: Board) => Evaluation([("e2e4", 1.0)], 0.0);
    var sqrt := (x: real) => x;
    var hash := (b: Board) => |b.pushed|;
    var (w0, r0) := Start(w, Board("startpos", []), None, hash);
    assert Rollout(w0, r0, sqrt) == Ok([]);
  }

  /** In a history without repeats every edge occurs once or not at all. */
  lemma {:induction false} DistinctCount(h: seq<nat>, i: nat)
    requires Distinct(h)
    ensures multiset(h)[i] == if i in h then 1 else 0
    decreases |h|
  {
    if |h| > 0 {
      var h' := h[..|h| - 1];
      assert h == h' + [h[|h| - 1]];
      assert h[|h| - 1] !in h';
      DistinctCount(h', i);
    }
  }

  /**
   * The backup of a rollout that stopped adds exactly one visit to each of
   * its edges and none to any other edge.
   */
  lemma RolloutBackupOnce(w: World, root: nat, v: real, sqrt: real -> real)
    requires Wired(w) && root < |w.nodes| && Rollout(w, root, sqrt).Ok?
    ensures var h := Rollout(w, root, sqrt).value;
      forall i :: 0 <= i < |w.edges| ==> Backup(w, h, v).edges[i].visits == w.edges[i].visits + (if i in h then 1 else 0)
  {
    var h := Rollout(w, root, sqrt).value;
    RolloutEdgesDistinct(w, root, sqrt);
    forall i | 0 <= i < |w.edges|
      ensures Backup(w, h, v).edges[i].visits == w.edges[i].visits + (if i in h then 1 else 0)
    {
      DistinctCount(h, i);
    }
  }

  /**
   * Each round whose root already has out-edges adds one visit at the root:
   * to the out-edge the rollout took first, and to no other out-edge of the
   * root.
   */
  lemma RoundRootVisit(w: World, root: nat, net: Board -> Evaluation, sqrt: real -> real, hash: Board -> int)
    requires Valid(w, hash) && root < |w.nodes| && |w.nodes[root].children| > 0
    requires Round(w, root, net, sqrt, hash).Ok?
    ensures var h := Rollout(w, root, sqrt).value;
      var u := Round(w, root, net, sqrt, hash).value.0;
      && |h| > 0 && h[0] in w.nodes[root].children
      && forall j :: 0 <= j < |w.nodes[root].children| ==>
           var c := w.nodes[root].children[j];
           u.edges[c].visits == w.edges[c].visits + (if c == h[0] then 1 else 0)
  {
    var h := Rollout(w, root, sqrt).value;
    var u := Round(w, root, net, sqrt, hash).value.0;
    assert At(w, root, h, 0) == root;
    RolloutDistinct(w, root, sqrt);
    RolloutEdgesDistinct(w, root, sqrt);
    forall j | 0 <= j < |w.nodes[root].children|
      ensures u.edges[w.nodes[root].children[j]].visits ==
                w.edges[w.nodes[root].children[j]].visits + (if w.nodes[root].children[j] == h[0] then 1 else 0)
    {
      RootEdgeOnce(w, root, h, sqrt, w.nodes[root].children[j]);
    }
  }

  /** An out-edge of the root occurs in a rollout without repeated nodes only as its first edge. */
  lemma RootEdgeOnce(w: World, root: nat, h: seq<nat>, sqrt: real -> real, c: nat)
    requires Wired(w) && root < |w.nodes| && Follows(w, root, h, sqrt) && |h| > 0 && Distinct(h)
    requires forall i, j :: 0 <= i < j <= |h| ==> At(w, root, h, i) != At(w, root, h, j)
    requires c < |w.edges| && w.edges[c].parent == root
    ensures multiset(h)[c] == if c == h[0] then 1 else 0
  {
    DistinctCount(h, c);
    forall k | 0 < k < |h|
      ensures h[k] != c
    {
      assert w.edges[h[k]].parent == At(w, root, h, k) != At(w, root, h, 0);
    }
  }
}

=== FILE: uct.dfy ===
/**
 * Standard UCT (search/uct.py), the node class the other searches build on.
 *
 * A node keeps a running total of backed-up values and a visit count. Its
 * value Q is the total over one more than the visits, so a node nobody has
 * visited is worth its seed: the negation of its parent's Q when it was
 * created (first-play urgency). Selection takes the child maximising
 * Q + cpuct * U, with U = sqrt(parent visits) * prior / (1 + visits); ties go
 * to the first child in insertion order.
 */
module Uct {
  import opened Wrappers
  import opened Arena
  import Rank

  /** The exploration constant `cpuct=3.4`. */
  const CPUCT: real := 3.4

  datatype Stat = Stat(total: real, visits: nat)

  type UctTree = Tree<Stat>

  /** `Q()`: the total averaged over visits plus one. */
  function Q(s: Stat): (q: real)
    ensures q * (1 + s.visits) as real == s.total
    ensures s.visits == 0 ==> q == s.total
  {
    s.total / (1 + s.visits) as real
  }

  /** `U()` of a node whose parent has `parentVisits` visits; `sqrt` stands for `math.sqrt`. */
  function U(parentVisits: nat, nd: Node<Stat>, sqrt: real -> real): (u: real)
    ensures u * (1 + nd.stat.visits) as real == sqrt(parentVisits as real) * nd.prior
  {
    sqrt(parentVisits as real) * nd.prior / (1 + nd.stat.visits) as real
  }

  /** The selection key of `best_child`. */
  function Score(parentVisits: nat, nd: Node<Stat>, cpuct: real, sqrt: real -> real): real {
    Q(nd.stat) + cpuct * U(parentVisits, nd, sqrt)
  }

  /** The position, among n's children, of `best_child()`. */
  function BestIndex(t: UctTree, n: nat, cpuct: real, sqrt: real -> real): (i: nat)
    requires WellFormed(t) && n < |t| && |t[n].children| > 0
    ensures i < |t[n].children|
    ensures forall j :: 0 <= j < |t[n].children| ==>
              Score(t[n].stat.visits, t[t[n].children[j]], cpuct, sqrt) <= Score(t[n].stat.visits, t[t[n].children[i]], cpuct, sqrt)
    ensures forall j :: 0 <= j < i ==>
              Score(t[n].stat.visits, t[t[n].children[j]], cpuct, sqrt) < Score(t[n].stat.visits, t[t[n].children[i]], cpuct, sqrt)
  {
    var pv := t[n].stat.visits;
    ArgBest(t, t[n].children, nd => Rank.K1(Score(pv, nd, cpuct, sqrt)))
  }

  /** `best_child()`. */
  function BestChild(t: UctTree, n: nat, cpuct: real, sqrt: real -> real): (c: nat)
    requires WellFormed(t) && n < |t| && |t[n].children| > 0
    ensures c in t[n].children && c < |t| && t[c].parent == Some(n)
  {
    t[n].children[BestIndex(t, n, cpuct, sqrt)]
  }

  /** Any child position that is maximal and beats every earlier one is the one `best_child` takes. */
  lemma BestIndexUnique(t: UctTree, n: nat, cpuct: real, sqrt: real -> real, i: nat)
    requires WellFormed(t) && n < |t| && i < |t[n].children|
    requires forall j :: 0 <= j < |t[n].children| ==>
               Score(t[n].stat.visits, t[t[n].children[j]], cpuct, sqrt) <= Score(t[n].stat.visits, t[t[n].children[i]], cpuct, sqrt)
    requires forall j :: 0 <= j < i ==>
               Score(t[n].stat.visits, t[t[n].children[j]], cpuct, sqrt) < Score(t[n].stat.visits, t[t[n].children[i]], cpuct, sqrt)
    ensures BestIndex(t, n, cpuct, sqrt) == i
  {
  }

  /** The `best_child` descent of `select_leaf`, as a pick function over the whole tree. */
  function Pick(t: UctTree, cpuct: real, sqrt: real -> real): (pick: nat -> nat)
    requires WellFormed(t)
    ensures PicksChildren(t, pick)
  {
    (a: nat) => if a < |t| && |t[a].children| > 0 then BestChild(t, a, cpuct, sqrt) else 0
  }

  /** The seed of `UCTNode(parent=self, ...)`: total `-parent.Q()`, no visits. */
  function Seed(parent: Stat, prior: real): Stat {
    Stat(-Q(parent), 0)
  }

  /** A fresh child's value is its parent's value negated. */
  lemma SeedQ(s: Stat, p: real)
    ensures Seed(s, p).visits == 0 && Q(Seed(s, p)) == -Q(s)
  {}

  /**
   * The node `add_child(move, prior)` creates under n: unexpanded, childless,
   * boardless, unvisited, and worth `-parentQ`.
   */
  predicate FreshChild(nd: Node<Stat>, n: nat, e: (Move, real), parentQ: real) {
    && nd.parent == Some(n) && nd.move == e.0 && nd.prior == e.1
    && !nd.expanded && nd.children == [] && nd.board.None?
    && nd.stat.visits == 0 && Q(nd.stat) == -parentQ
  }

  /** Adding unexpanded children under a node that has a board keeps every expanded node's board. */
  lemma FreshKeepsReady(t: UctTree, u: UctTree, n: nat, ps: Priors, q: real)
    requires n < |t| && |u| == |t| + |ps| && BoardsReady(t) && t[n].board.Some?
    requires u[n].board == t[n].board
    requires forall i :: 0 <= i < |t| && i != n ==> u[i] == t[i]
    requires forall k :: 0 <= k < |ps| ==> FreshChild(u[|t| + k], n, ps[k], q)
    ensures BoardsReady(u)
  {
    forall i | 0 <= i < |u|
      ensures u[i].expanded ==> u[i].board.Some?
    {
      if i >= |t| {
        assert FreshChild(u[|t| + (i - |t|)], n, ps[i - |t|], q);
      }
    }
  }

  /**
   * `expand(child_priors)`: mark n expanded and add one child per prior, in
   * the priors' order, each seeded with its parent's negated Q.
   */
  function Expand(t: UctTree, n: nat, ps: Priors): (u: UctTree)
    requires WellFormed(t) && n < |t|
    ensures WellFormed(u) && |u| == |t| + |ps|
    ensures u[n] == t[n].(expanded := true, children := u[n].children)
    ensures forall i :: 0 <= i < |t| && i != n ==> u[i] == t[i]
    ensures forall k :: 0 <= k < |ps| ==> FreshChild(u[|t| + k], n, ps[k], Q(t[n].stat))
    ensures t[n].children == [] && DistinctMoves(ps) ==> u[n].children == seq(|ps|, k => |t| + k)
    ensures BoardsReady(t) && t[n].board.Some? ==> BoardsReady(u)
  {
    var t1 := t[n := t[n].(expanded := true)];
    PathSameShape(t, t1, 0);
    var u := AddChildren(t1, n, ps, false, Seed);
    forall k | 0 <= k < |ps|
      ensures FreshChild(u[|t| + k], n, ps[k], Q(t[n].stat))
    {
      assert u[|t| + k] == ChildFor(t1, n, ps[k], false, Seed);
      SeedQ(t[n].stat, ps[k].1);
    }
    assert BoardsReady(t) && t[n].board.Some? ==> BoardsReady(u) by {
      if BoardsReady(t) && t[n].board.Some? {
        FreshKeepsReady(t, u, n, ps, Q(t[n].stat));
      }
    }
    if t[n].children == [] && DistinctMoves(ps) then
      AddChildrenFresh(t1, n, ps, false, Seed);
      u
    else
      u
  }

  /** Every node on p has one visit more in u than in t. */
  predicate Visited(t: UctTree, u: UctTree, p: seq<nat>) {
    forall k :: 0 <= k < |p| ==> p[k] < |t| && p[k] < |u| && u[p[k]].stat.visits == t[p[k]].stat.visits + 1
  }

  /** Every node on p but the last (the root) gains x, -x, x, ... going up. */
  predicate Credited(t: UctTree, u: UctTree, p: seq<nat>, x: real) {
    forall k :: 0 <= k < |p| - 1 ==> p[k] < |t| && p[k] < |u| && u[p[k]].stat.total == t[p[k]].stat.total + Alt(x, k)
  }

  /**
   * The loop of `backup` from node `cur`, where `x` is what `cur` gains
   * (`value_estimate * turnfactor`): every node on the way up gains a visit
   * and the amount, whose sign flips per level; the root gains a visit only.
   */
  function BackupFrom(t: UctTree, cur: nat, x: real): (u: UctTree)
    requires WellFormed(t) && cur < |t|
    ensures OnlyStats(t, u) && Untouched(t, u, Path(t, cur))
    ensures Visited(t, u, Path(t, cur)) && Credited(t, u, Path(t, cur), x)
    ensures u[0].stat.total == t[0].stat.total
    decreases cur
  {
    if cur == 0 then
      SetStat(t, 0, Stat(t[0].stat.total, t[0].stat.visits + 1))
    else
      var t1 := SetStat(t, cur, Stat(t[cur].stat.total + x, t[cur].stat.visits + 1));
      OnlyStatsWellFormed(t, t1);
      var par := t[cur].parent.value;
      PathSameShape(t, t1, par);
      var u := BackupFrom(t1, par, -x);
      PathStep(t, cur);
      BackupStepShape(t, t1, u, cur, Path(t, par));
      BackupStepVisited(t, t1, u, cur, Path(t, par));
      BackupStepCredited(t, t1, u, cur, Path(t, par), x);
      u
  }

  /** The path from a node is the node followed by the path from its parent, which stays below it. */
  lemma PathBelow(t: UctTree, cur: nat)
    requires WellFormed(t) && 0 < cur < |t|
    ensures forall k :: 0 <= k < |Path(t, t[cur].parent.value)| ==> Path(t, t[cur].parent.value)[k] < cur
  {}

  lemma BackupStepShape(t: UctTree, t1: UctTree, u: UctTree, cur: nat, q: seq<nat>)
    requires cur < |t| == |t1| && t1 == SetStat(t, cur, t1[cur].stat)
    requires OnlyStats(t1, u) && Untouched(t1, u, q)
    ensures OnlyStats(t, u) && Untouched(t, u, [cur] + q)
  {}

  lemma BackupStepVisited(t: UctTree, t1: UctTree, u: UctTree, cur: nat, q: seq<nat>)
    requires cur < |t| && |t1| == |t| == |u| && cur !in q
    requires t1 == SetStat(t, cur, Stat(t1[cur].stat.total, t[cur].stat.visits + 1))
    requires u[cur] == t1[cur] && Visited(t1, u, q)
    ensures Visited(t, u, [cur] + q)
  {
    var p := [cur] + q;
    forall k | 0 < k < |p|
      ensures u[p[k]].stat.visits == t[p[k]].stat.visits + 1
    {
      assert p[k] == q[k - 1];
    }
  }

  lemma BackupStepCredited(t: UctTree, t1: UctTree, u: UctTree, cur: nat, q: seq<nat>, x: real)
    requires cur < |t| && |t1| == |t| == |u| && cur !in q
    requires t1 == SetStat(t, cur, Stat(t[cur].stat.total + x, t1[cur].stat.visits))
    requires u[cur] == t1[cur] && Credited(t1, u, q, -x)
    ensures Credited(t, u, [cur] + q, x)
  {
    var p := [cur] + q;
    forall k | 0 < k < |p| - 1
      ensures u[p[k]].stat.total == t[p[k]].stat.total + Alt(x, k)
    {
      assert p[k] == q[k - 1];
      assert Alt(x, k) == Alt(-x, k - 1);
    }
  }

  /** `backup(value_estimate)` from the leaf: the turn factor starts at -1. */
  function Backup(t: UctTree, leaf: nat, v: real): (u: UctTree)
    requires WellFormed(t) && leaf < |t|
    ensures OnlyStats(t, u) && Untouched(t, u, Path(t, leaf))
    ensures Visited(t, u, Path(t, leaf)) && Credited(t, u, Path(t, leaf), -v)
    ensures u[0].stat.total == t[0].stat.total && u[0].stat.visits == t[0].stat.visits + 1
  {
    var u := BackupFrom(t, leaf, -v);
    var p := Path(t, leaf);
    assert p[|p| - 1] == 0;
    u
  }

  /** The ranking key of `outcome()`: visits, then Q. */
  function OutcomeKey(nd: Node<Stat>): Rank.Key {
    Rank.K2(nd.stat.visits as real, Q(nd.stat))
  }

  /**
   * `outcome()`: the first of n's children with the most visits, ties broken
   * by the higher Q; None where `pv[0]` would raise on a childless node.
   */
  function Outcome(t: UctTree, n: nat): (r: Option<nat>)
    requires WellFormed(t) && n < |t|
    ensures r.None? <==> |t[n].children| == 0
    ensures r.Some? ==> r.value in t[n].children && r.value < |t|
    ensures r.Some? ==> forall c :: c in t[n].children ==>
              && t[c].stat.visits <= t[r.value].stat.visits
              && (t[c].stat.visits == t[r.value].stat.visits ==> Q(t[c].stat) <= Q(t[r.value].stat))
  {
    BestBy(t, n, OutcomeKey)
  }
}

=== FILE: voi.dfy ===
/**
 * Value-of-information search (search/voi.py).
 *
 * Descent picks, at every node with two or more children, the child of
 * largest value of information (VOI), computed from the two children ranked
 * best by (Q, q_visits, prior). The backup credits a visit to every node on
 * the path and, at every ancestor, one `q_visits` to the child UCT would pick
 * there, subtracting that child's Q from the ancestor's total; the root's UCT
 * pick is credited once more and the root gains a second visit.
 */
module Voi {
  import opened Wrappers
  import opened Arena
  import Rank

  datatype Stat = Stat(total: real, reward: real, visits: nat, qVisits: nat)

  type VoiTree = Tree<Stat>

  /** `VOI_search`'s default `c`. */
  const C: real := 3.4

  /** `Q()`: the total over visits plus one. */
  function Q(s: Stat): (q: real)
    ensures q * (1 + s.visits) as real == s.total
  {
    s.total / (1 + s.visits) as real
  }

  /** `U()`: sqrt(parent visits) * prior / (1 + visits). */
  function U(parentVisits: nat, nd: Node<Stat>, sqrt: real -> real): (u: real)
    ensures u * (1 + nd.stat.visits) as real == sqrt(parentVisits as real) * nd.prior
  {
    sqrt(parentVisits as real) * nd.prior / (1 + nd.stat.visits) as real
  }

  /** `desirability(c)`. */
  function Desirability(parentVisits: nat, nd: Node<Stat>, c: real, sqrt: real -> real): real {
    Q(nd.stat) + c * U(parentVisits, nd, sqrt)
  }

  /** `best_child_uct(c)`: the first child of maximal desirability. */
  function UctChild(t: VoiTree, n: nat, c: real, sqrt: real -> real): (r: nat)
    requires WellFormed(t) && n < |t| && |t[n].children| > 0
    ensures r in t[n].children && n < r < |t|
    ensures forall d :: d in t[n].children ==>
              Desirability(t[n].stat.visits, t[d], c, sqrt) <= Desirability(t[n].stat.visits, t[r], c, sqrt)
  {
    var pv := t[n].stat.visits;
    var i := ArgBest(t, t[n].children, nd => Rank.K1(Desirability(pv, nd, c, sqrt)));
    t[n].children[i]
  }

  /** The key of the `nlargest(2, ...)` that picks alpha and beta: Q, then q_visits, then prior. */
  function ValueKey(nd: Node<Stat>): Rank.Key {
    Rank.Key(Q(nd.stat), nd.stat.qVisits as real, nd.prior)
  }

  /** `phi = 2 * (sqrt(2) - 1) ** 2`. */
  function Phi(sqrt: real -> real): real {
    2.0 * (sqrt(2.0) - 1.0) * (sqrt(2.0) - 1.0)
  }

  /**
   * The VOI of child `nd` given the best child `a` and the runner-up `b`:
   * prior / (1 + visits) times, for `a` itself, (1 + Q(b)) * exp(-phi * a's
   * visits * (Q(a) - Q(b))^2), and for any other child (1 - Q(a)) *
   * exp(-phi * its visits * (Q(a) - Q(nd))^2). `exp` stands for `math.exp`.
   */
  function VoiOf(nd: Node<Stat>, isAlpha: bool, a: Node<Stat>, b: Node<Stat>, sqrt: real -> real, exp: real -> real): real {
    var base := nd.prior / (1 + nd.stat.visits) as real;
    if isAlpha then
      var d := Q(a.stat) - Q(b.stat);
      base * ((1.0 + Q(b.stat)) * exp(-Phi(sqrt) * a.stat.visits as real * d * d))
    else
      var d := Q(a.stat) - Q(nd.stat);
      base * ((1.0 - Q(a.stat)) * exp(-Phi(sqrt) * nd.stat.visits as real * d * d))
  }

  /** The VOI of each of n's children, in child order; n has at least two. */
  function Vois(t: VoiTree, n: nat, sqrt: real -> real, exp: real -> real): (vs: seq<real>)
    requires WellFormed(t) && n < |t| && |t[n].children| >= 2
    ensures |vs| == |t[n].children|
  {
    var kids := t[n].children;
    var ks := seq(|kids|, j requires 0 <= j < |kids| => ValueKey(t[kids[j]]));
    var a := kids[Rank.FirstMax(ks)];
    var b := kids[Rank.SecondMax(ks)];
    seq(|kids|, j requires 0 <= j < |kids| => VoiOf(t[kids[j]], kids[j] == a, t[a], t[b], sqrt, exp))
  }

  /**
   * The loop `vmax = -1; for n in children: if voi > vmax: vmax = voi;
   * result = n`, over the VOIs vs: the position it ends with (None when no
   * VOI exceeds -1) and the final vmax.
   */
  function Scan(vs: seq<real>): (r: (Option<nat>, real))
    ensures r.1 >= -1.0 && forall j :: 0 <= j < |vs| ==> vs[j] <= r.1
    ensures r.0.None? <==> forall j :: 0 <= j < |vs| ==> vs[j] <= -1.0
    ensures r.0.None? ==> r.1 == -1.0
    ensures r.0.Some? ==> r.0.value < |vs| && vs[r.0.value] == r.1
    ensures r.0.Some? ==> forall j :: 0 <= j < r.0.value ==> vs[j] < r.1
  {
    if |vs| == 0 then (None, -1.0)
    else
      var pre := vs[..|vs| - 1];
      assert forall j :: 0 <= j < |pre| ==> pre[j] == vs[j];
      var r := Scan(pre);
      if vs[|vs| - 1] > r.1 then (Some(|vs| - 1), vs[|vs| - 1]) else r
  }

  /**
   * `best_child_voi(c)` at n: the sole child when there are fewer than two,
   * with no vmax (None); otherwise the first child of strictly maximal VOI,
   * None when no VOI exceeds -1, and vmax, which the source also assigns to
   * `self.V`.
   */
  function BestVoi(t: VoiTree, n: nat, sqrt: real -> real, exp: real -> real): (r: (Option<nat>, Option<real>))
    requires WellFormed(t) && n < |t| && |t[n].children| > 0
    ensures |t[n].children| < 2 ==> r == (Some(t[n].children[0]), None)
    ensures r.0.Some? ==> r.0.value in t[n].children
    ensures |t[n].children| >= 2 ==>
              var vs := Vois(t, n, sqrt, exp);
              && r.1.Some?
              && (r.0.None? <==> forall j :: 0 <= j < |vs| ==> vs[j] <= -1.0)
              && (r.0.None? ==> r.1.value == -1.0)
              && (r.0.Some? ==> exists i :: 0 <= i < |vs| && t[n].children[i] == r.0.value && vs[i] == r.1.value
                                  && (forall j :: 0 <= j < |vs| ==> vs[j] <= vs[i])
                                  && (forall j :: 0 <= j < i ==> vs[j] < vs[i]))
  {
    var kids := t[n].children;
    if |kids| < 2 then (Some(kids[0]), None)
    else
      var s := Scan(Vois(t, n, sqrt, exp));
      if s.0.None? then (None, Some(s.1)) else (Some(kids[s.0.value]), Some(s.1))
  }

  /** The descent of `select_leaf(c)`; where `best_child_voi` returns None any child stands in (VoiStuck). */
  function Pick(t: VoiTree, sqrt: real -> real, exp: real -> real): (pick: nat -> nat)
    requires WellFormed(t)
    ensures PicksChildren(t, pick)
    ensures forall a: nat :: a < |t| && |t[a].children| > 0 && BestVoi(t, a, sqrt, exp).0.Some? ==>
              pick(a) == BestVoi(t, a, sqrt, exp).0.value
  {
    (a: nat) =>
      if a < |t| && |t[a].children| > 0 then
        match BestVoi(t, a, sqrt, exp).0
        case Some(c) => c
        case None => t[a].children[0]
      else 0
  }

  /** Some node on p above the leaf has no VOI choice: Python's descent would step onto None and fail. */
  predicate Stuck(t: VoiTree, p: seq<nat>, sqrt: real -> real, exp: real -> real)
    requires WellFormed(t)
  {
    exists k :: 1 <= k < |p| && p[k] < |t| && |t[p[k]].children| > 0 && BestVoi(t, p[k], sqrt, exp).0.None?
  }

  /** `VOINode(parent=self, ...)`: total `-parent.Q()`, nothing else. */
  function Seed(parent: Stat, prior: real): Stat {
    Stat(-Q(parent), 0.0, 0, 0)
  }

  /** A child just added for prior entry e of node n whose Q was parentQ. */
  predicate Blank(nd: Node<Stat>, n: nat, e: (Move, real), parentQ: real) {
    && nd.parent == Some(n) && nd.move == e.0 && nd.prior == e.1
    && !nd.expanded && nd.children == [] && nd.board.None?
    && nd.stat == Stat(-parentQ, 0.0, 0, 0)
  }

  /** `expand(child_priors)`: mark n expanded and add one child per prior, each seeded with -Q(n). */
  function Expand(t: VoiTree, n: nat, ps: Priors): (u: VoiTree)
    requires WellFormed(t) && n < |t|
    ensures WellFormed(u) && |u| == |t| + |ps|
    ensures u[n] == t[n].(expanded := true, children := u[n].children)
    ensures forall i :: 0 <= i < |t| && i != n ==> u[i] == t[i]
    ensures forall k :: 0 <= k < |ps| ==> Blank(u[|t| + k], n, ps[k], Q(t[n].stat))
    ensures t[n].children == [] && DistinctMoves(ps) ==> u[n].children == seq(|ps|, k => |t| + k)
    ensures BoardsReady(t) && t[n].board.Some? ==> BoardsReady(u)
  {
    var t1 := MarkExpanded(t, n);
    var u := AddChildren(t1, n, ps, false, Seed);
    forall k | 0 <= k < |ps|
      ensures Blank(u[|t| + k], n, ps[k], Q(t[n].stat))
    {
      assert u[|t| + k] == ChildFor(t1, n, ps[k], false, Seed);
    }
    assert BoardsReady(t) && t[n].board.Some? ==> BoardsReady(u) by {
      if BoardsReady(t) && t[n].board.Some? {
        AddChildrenReady(t1, n, ps, false, Seed);
      }
    }
    if t[n].children == [] && DistinctMoves(ps) then
      AddChildrenFresh(t1, n, ps, false, Seed);
      u
    else
      u
  }

  /** The `q_visits` of the whole tree added up. */
  function SumQ(t: VoiTree): nat {
    if |t| == 0 then 0 else SumQ(t[..|t| - 1]) + t[|t| - 1].stat.qVisits
  }

  /** Replacing one node's statistics moves SumQ by the change in that node's `q_visits`. */
  lemma {:induction false} SumQSet(t: VoiTree, i: nat, s: Stat)
    requires i < |t|
    ensures SumQ(SetStat(t, i, s)) as int == SumQ(t) as int - t[i].stat.qVisits as int + s.qVisits as int
    decreases |t|
  {
    var u := SetStat(t, i, s);
    if i < |t| - 1 {
      SumQSet(t[..|t| - 1], i, s);
      assert u[..|u| - 1] == SetStat(t[..|t| - 1], i, s);
    } else {
      assert u[..|u| - 1] == t[..|t| - 1];
    }
  }

  /** A tree that keeps every existing node's `q_visits` and only adds nodes has at least the same SumQ. */
  lemma {:induction false} SumQGrown(t: VoiTree, u: VoiTree)
    requires |t| <= |u| && forall i :: 0 <= i < |t| ==> u[i].stat.qVisits == t[i].stat.qVisits
    ensures SumQ(u) >= SumQ(t)
    decreases |u|
  {
    if |t| > 0 {
      if |u| > |t| {
        SumQGrown(t, u[..|u| - 1]);
      } else {
        SumQGrown(t[..|t| - 1], u[..|u| - 1]);
      }
    }
  }

  /** Expanding adds children with no `q_visits` and leaves every existing count alone. */
  lemma ExpandSumQ(t: VoiTree, n: nat, ps: Priors)
    requires WellFormed(t) && n < |t|
    ensures SumQ(Expand(t, n, ps)) >= SumQ(t)
  {
    var u := Expand(t, n, ps);
    assert u[n].stat == t[n].stat;
    SumQGrown(t, u);
  }

  /** `policy_move = best_child_uct(c); policy_move.q_visits += 1` at node a. */
  function Credit(t: VoiTree, a: nat, c: real, sqrt: real -> real): (u: VoiTree)
    requires WellFormed(t) && a < |t| && |t[a].children| > 0
    ensures WellFormed(u) && OnlyStats(t, u) && SumQ(u) == SumQ(t) + 1
    ensures var pm := UctChild(t, a, c, sqrt);
      && u[pm].stat == t[pm].stat.(qVisits := t[pm].stat.qVisits + 1)
      && forall i :: 0 <= i < |t| && i != pm ==> u[i] == t[i]
  {
    var pm := UctChild(t, a, c, sqrt);
    var u := SetStat(t, pm, t[pm].stat.(qVisits := t[pm].stat.qVisits + 1));
    SetStatWellFormed(t, pm, u[pm].stat);
    SumQSet(t, pm, u[pm].stat);
    u
  }

  /**
   * One pass of the backup loop at ancestor a: a gains a visit, then the
   * child UCT picks there (with a's new visit count) gains a `q_visits`,
   * and a's total drops by that child's Q.
   */
  function Ascend(t: VoiTree, a: nat, c: real, sqrt: real -> real): (u: VoiTree)
    requires WellFormed(t) && a < |t| && |t[a].children| > 0
    ensures WellFormed(u) && OnlyStats(t, u) && SumQ(u) == SumQ(t) + 1
    ensures var t1 := SetStat(t, a, t[a].stat.(visits := t[a].stat.visits + 1));
      var pm := UctChild(t1, a, c, sqrt);
      && u[a].stat == t[a].stat.(visits := t[a].stat.visits + 1, total := t[a].stat.total - Q(t[pm].stat))
      && u[pm].stat == t[pm].stat.(qVisits := t[pm].stat.qVisits + 1)
      && forall i :: 0 <= i < |t| && i != a && i != pm ==> u[i] == t[i]
  {
    var t1 := SetStat(t, a, t[a].stat.(visits := t[a].stat.visits + 1));
    var pm := UctChild(t1, a, c, sqrt);
    var x := Q(t[pm].stat);
    var u := SetStat(SetStat(t, a, t[a].stat.(visits := t[a].stat.visits + 1, total := t[a].stat.total - x)),
                     pm, t[pm].stat.(qVisits := t[pm].stat.qVisits + 1));
    AscendFacts(t, u, a, pm, x);
    AscendStats(t, u, a, pm, x);
    u
  }

  /** The two writes of a pass touch a and pm only. */
  lemma AscendStats(t: VoiTree, u: VoiTree, a: nat, pm: nat, x: real)
    requires a < pm < |t|
    requires u == SetStat(SetStat(t, a, t[a].stat.(visits := t[a].stat.visits + 1, total := t[a].stat.total - x)),
                          pm, t[pm].stat.(qVisits := t[pm].stat.qVisits + 1))
    ensures u[a].stat == t[a].stat.(visits := t[a].stat.visits + 1, total := t[a].stat.total - x)
    ensures u[pm].stat == t[pm].stat.(qVisits := t[pm].stat.qVisits + 1)
    ensures forall i :: 0 <= i < |t| && i != a && i != pm ==> u[i] == t[i]
  {
  }

  lemma AscendFacts(t: VoiTree, u: VoiTree, a: nat, pm: nat, x: real)
    requires WellFormed(t) && a < pm < |t|
    requires u == SetStat(SetStat(t, a, t[a].stat.(visits := t[a].stat.visits + 1, total := t[a].stat.total - x)),
                          pm, t[pm].stat.(qVisits := t[pm].stat.qVisits + 1))
    ensures WellFormed(u) && OnlyStats(t, u) && SumQ(u) == SumQ(t) + 1
  {
    var t1 := SetStat(t, a, t[a].stat.(visits := t[a].stat.visits + 1, total := t[a].stat.total - x));
    SetStatWellFormed(t, a, t1[a].stat);
    SetStatWellFormed(t1, pm, u[pm].stat);
    SumQSet(t, a, t1[a].stat);
    SumQSet(t1, pm, u[pm].stat);
  }

  /** Some node where the backup asks for UCT's pick (an ancestor of cur, or the root) has no children. */
  predicate Blocked(t: VoiTree, p: seq<nat>) {
    && |t| > 0
    && (|t[0].children| == 0 || exists k :: 1 <= k < |p| && p[k] < |t| && |t[p[k]].children| == 0)
  }

  /** Visit counts after a backup from cur: +1 on the path above cur, the root +1 more. */
  predicate Counted(t: VoiTree, u: VoiTree, p: seq<nat>, cur: nat) {
    && |u| == |t| > 0
    && u[0].stat.visits == t[0].stat.visits + (if cur == 0 then 1 else 2)
    && forall i :: 0 < i < |t| ==> u[i].stat.visits == t[i].stat.visits + (if i in p && i != cur then 1 else 0)
  }

  /** Totals change on the path above cur only. */
  predicate TotalsOffPath(t: VoiTree, u: VoiTree, p: seq<nat>, cur: nat) {
    |u| == |t| && forall i :: 0 <= i < |t| && (i !in p || i == cur) ==> u[i].stat.total == t[i].stat.total
  }

  /**
   * After the loop: `best_child_uct` at the root gains a `q_visits` and the
   * root a visit; no total or reward moves.
   */
  function Finish(t: VoiTree, c: real, sqrt: real -> real): (u: VoiTree)
    requires WellFormed(t) && |t[0].children| > 0
    ensures WellFormed(u) && OnlyStats(t, u) && SumQ(u) == SumQ(t) + 1
    ensures Counted(t, u, [0], 0) && TotalsOffPath(t, u, [0], 0) && RewardsKept(t, u)
  {
    var t1 := Credit(t, 0, c, sqrt);
    var u := SetStat(t1, 0, t1[0].stat.(visits := t1[0].stat.visits + 1));
    SetStatWellFormed(t1, 0, u[0].stat);
    SumQSet(t1, 0, u[0].stat);
    u
  }

  /** No reward changes: only the leaf's own update writes one. */
  predicate RewardsKept(t: VoiTree, u: VoiTree) {
    |u| == |t| && forall i :: 0 <= i < |t| ==> u[i].stat.reward == t[i].stat.reward
  }

  /** The loop of `backup` from node cur (already updated), then the root's extra credit and visit. */
  function BackupFrom(t: VoiTree, cur: nat, c: real, sqrt: real -> real): (r: Result<VoiTree>)
    requires WellFormed(t) && cur < |t|
    ensures r.Err? <==> Blocked(t, Path(t, cur))
    ensures r.Err? ==> r.fault == NoChildren
    ensures r.Ok? ==> WellFormed(r.value) && OnlyStats(t, r.value)
    ensures r.Ok? ==> SumQ(r.value) == SumQ(t) + |Path(t, cur)|
    ensures r.Ok? ==> Counted(t, r.value, Path(t, cur), cur)
    ensures r.Ok? ==> TotalsOffPath(t, r.value, Path(t, cur), cur)
    ensures r.Ok? ==> RewardsKept(t, r.value)
    decreases cur
  {
    if cur == 0 then
      if |t[0].children| == 0 then Err(NoChildren)
      else
        Ok(Finish(t, c, sqrt))
    else
      var par := t[cur].parent.value;
      PathStep(t, cur);
      if |t[par].children| == 0 then
        assert Path(t, cur)[1] == par;
        Err(NoChildren)
      else
        var t1 := Ascend(t, par, c, sqrt);
        OnlyStatsWellFormed(t, t1);
        PathSameShape(t, t1, par);
        var r := BackupFrom(t1, par, c, sqrt);
        BackupStepBlocked(t, t1, cur, par);
        if r.Err? then r
        else
          BackupStepCounted(t, t1, r.value, cur, par, c, sqrt);
          BackupStepTotals(t, t1, r.value, cur, par, c, sqrt);
          BackupStepRewards(t, t1, r.value, par, c, sqrt);
          r
  }

  lemma BackupStepBlocked(t: VoiTree, t1: VoiTree, cur: nat, par: nat)
    requires WellFormed(t) && 0 < cur < |t| && par == t[cur].parent.value && |t[par].children| > 0
    requires OnlyStats(t, t1)
    requires Path(t, cur) == [cur] + Path(t, par)
    ensures Blocked(t1, Path(t, par)) <==> Blocked(t, Path(t, cur))
  {
    BlockedOnlyStats(t, t1, Path(t, par));
    BlockedCons(t, cur, Path(t, par));
  }

  /** Blocked looks at children only, which a change to statistics keeps. */
  lemma BlockedOnlyStats(t: VoiTree, t1: VoiTree, q: seq<nat>)
    requires OnlyStats(t, t1)
    ensures Blocked(t1, q) <==> Blocked(t, q)
  {
    if |t| > 0 {
      assert t1[0].children == t[0].children;
    }
    forall k | 1 <= k < |q| && q[k] < |t|
      ensures |t1[q[k]].children| == |t[q[k]].children|
    {
      assert t1[q[k]].children == t[q[k]].children;
    }
  }

  /** Putting a node in front of a path whose first node has children does not change whether it is blocked. */
  lemma BlockedCons(t: VoiTree, cur: nat, q: seq<nat>)
    requires |q| > 0 && q[0] < |t| && |t[q[0]].children| > 0
    ensures Blocked(t, [cur] + q) <==> Blocked(t, q)
  {
    var p := [cur] + q;
    if Blocked(t, p) && |t[0].children| != 0 {
      var k :| 1 <= k < |p| && p[k] < |t| && |t[p[k]].children| == 0;
      assert k != 1;
      assert q[k - 1] == p[k];
    }
    if Blocked(t, q) && |t[0].children| != 0 {
      var k :| 1 <= k < |q| && q[k] < |t| && |t[q[k]].children| == 0;
      assert p[k + 1] == q[k];
    }
  }

  lemma BackupStepCounted(t: VoiTree, t1: VoiTree, u: VoiTree, cur: nat, par: nat, c: real, sqrt: real -> real)
    requires WellFormed(t) && 0 < cur < |t| && par == t[cur].parent.value && |t[par].children| > 0
    requires t1 == Ascend(t, par, c, sqrt)
    requires Path(t, cur) == [cur] + Path(t, par)
    requires Counted(t1, u, Path(t, par), par)
    ensures Counted(t, u, Path(t, cur), cur)
  {
    var p := Path(t, cur);
    PathStrictlyDecreasing(t, cur);
    forall i | 0 <= i < |t|
      ensures t1[i].stat.visits == t[i].stat.visits + (if i == par then 1 else 0)
    {
      var pm := UctChild(SetStat(t, par, t[par].stat.(visits := t[par].stat.visits + 1)), par, c, sqrt);
      if i == pm {
        assert t1[pm].stat == t[pm].stat.(qVisits := t[pm].stat.qVisits + 1);
      }
    }
    assert cur !in Path(t, par);
  }

  lemma BackupStepTotals(t: VoiTree, t1: VoiTree, u: VoiTree, cur: nat, par: nat, c: real, sqrt: real -> real)
    requires WellFormed(t) && 0 < cur < |t| && par == t[cur].parent.value && |t[par].children| > 0
    requires t1 == Ascend(t, par, c, sqrt)
    requires Path(t, cur) == [cur] + Path(t, par)
    requires TotalsOffPath(t1, u, Path(t, par), par)
    ensures TotalsOffPath(t, u, Path(t, cur), cur)
  {
    forall i | 0 <= i < |t| && i != par
      ensures t1[i].stat.total == t[i].stat.total
    {
      var pm := UctChild(SetStat(t, par, t[par].stat.(visits := t[par].stat.visits + 1)), par, c, sqrt);
      if i == pm {
        assert t1[pm].stat == t[pm].stat.(qVisits := t[pm].stat.qVisits + 1);
      }
    }
  }

  /**
   * `backup(value_estimate, c)` from leaf: the leaf gains a visit, its reward
   * becomes -value and its total gains the reward; then the loop above and
   * the root's extra credit. Fails where `best_child_uct` meets a node
   * without children.
   */
  function Backup(t: VoiTree, leaf: nat, v: real, c: real, sqrt: real -> real): (r: Result<VoiTree>)
    requires WellFormed(t) && leaf < |t|
    ensures r.Err? <==> Blocked(t, Path(t, leaf))
    ensures r.Err? ==> r.fault == NoChildren
    ensures r.Ok? ==> WellFormed(r.value) && OnlyStats(t, r.value)
    ensures r.Ok? ==> r.value[leaf].stat.reward == -v && r.value[leaf].stat.total == t[leaf].stat.total - v
    ensures r.Ok? ==> SumQ(r.value) == SumQ(t) + |Path(t, leaf)|
    ensures r.Ok? ==> r.value[0].stat.visits == t[0].stat.visits + 2
    ensures r.Ok? ==> forall i :: 0 < i < |t| ==>
              r.value[i].stat.visits == t[i].stat.visits + (if i in Path(t, leaf) then 1 else 0)
    ensures r.Ok? ==> forall i :: 0 <= i < |t| && i !in Path(t, leaf) ==> r.value[i].stat.total == t[i].stat.total
  {
    var t1 := Visit(t, leaf, v);
    var r := BackupFrom(t1, leaf, c, sqrt);
    if r.Err? then r
    else
      BackupFacts(t, t1, r.value, leaf, v);
      r
  }

  /** The leaf's own update: a visit, reward -v, and the reward added to its total. */
  function Visit(t: VoiTree, leaf: nat, v: real): (u: VoiTree)
    requires WellFormed(t) && leaf < |t|
    ensures WellFormed(u) && OnlyStats(t, u) && SumQ(u) == SumQ(t)
    ensures Path(u, leaf) == Path(t, leaf)
    ensures Blocked(u, Path(t, leaf)) <==> Blocked(t, Path(t, leaf))
    ensures u[leaf].stat == t[leaf].stat.(visits := t[leaf].stat.visits + 1, reward := -v, total := t[leaf].stat.total - v)
    ensures forall i :: 0 <= i < |t| && i != leaf ==> u[i] == t[i]
  {
    var s := t[leaf].stat;
    var u := SetStat(t, leaf, s.(visits := s.visits + 1, reward := -v, total := s.total - v));
    SetStatWellFormed(t, leaf, u[leaf].stat);
    SumQSet(t, leaf, u[leaf].stat);
    PathSameShape(t, u, leaf);
    u
  }

  lemma BackupFacts(t: VoiTree, t1: VoiTree, u: VoiTree, leaf: nat, v: real)
    requires WellFormed(t) && leaf < |t| && t1 == Visit(t, leaf, v)
    requires OnlyStats(t1, u) && SumQ(u) == SumQ(t1) + |Path(t1, leaf)|
    requires Counted(t1, u, Path(t1, leaf), leaf) && TotalsOffPath(t1, u, Path(t1, leaf), leaf)
    requires RewardsKept(t1, u)
    ensures OnlyStats(t, u)
    ensures u[leaf].stat.reward == -v && u[leaf].stat.total == t[leaf].stat.total - v
    ensures SumQ(u) == SumQ(t) + |Path(t, leaf)|
    ensures u[0].stat.visits == t[0].stat.visits + 2
    ensures forall i :: 0 < i < |t| ==> u[i].stat.visits == t[i].stat.visits + (if i in Path(t, leaf) then 1 else 0)
    ensures forall i :: 0 <= i < |t| && i !in Path(t, leaf) ==> u[i].stat.total == t[i].stat.total
  {
    var p := Path(t, leaf);
    assert leaf in p;
    forall i | 0 < i < |t|
      ensures u[i].stat.visits == t[i].stat.visits + (if i in p then 1 else 0)
    {
      assert u[i].stat.visits == t1[i].stat.visits + (if i in p && i != leaf then 1 else 0);
    }
    forall i | 0 <= i < |t| && i !in p
      ensures u[i].stat.total == t[i].stat.total
    {
      assert t1[i] == t[i];
    }
  }

  /**
   * The backup after a descent cannot fail below the root: every ancestor
   * on a linked path has a child, the root included. It fails only at a
   * root left without children.
   */
  lemma LinkedNotBlocked(t: VoiTree, leaf: nat)
    requires WellFormed(t) && leaf < |t| && Linked(t, Path(t, leaf))
    ensures Blocked(t, Path(t, leaf)) <==> |t[0].children| == 0
  {
    var p := Path(t, leaf);
    if |t[0].children| != 0 {
      forall k | 1 <= k < |p|
        ensures p[k] < |t| && |t[p[k]].children| != 0
      {
        assert p[k - 1] in t[p[k]].children;
      }
    }
  }

  /** Evaluate the leaf's board, expand the leaf with the priors and back up the value. */
  method Grow(t: VoiTree, leaf: nat, ev: Evaluation, c: real, sqrt: real -> real) returns (r: Result<VoiTree>)
    requires WellFormed(t) && BoardsReady(t) && leaf < |t| && t[leaf].board.Some?
    requires Linked(t, Path(t, leaf))
    ensures r.Err? <==> leaf == 0 && |Expand(t, leaf, ev.priors)[0].children| == 0
    ensures r.Err? ==> r.fault == NoChildren
    ensures r.Ok? ==> WellFormed(r.value) && BoardsReady(r.value) && |r.value| >= |t|
    ensures r.Ok? ==> r.value[0].stat.visits == t[0].stat.visits + 2
    ensures r.Ok? ==> SumQ(r.value) > SumQ(t)
  {
    var t2 := Expand(t, leaf, ev.priors);
    LinkedGrown(t, t2, leaf);
    LinkedNotBlocked(t2, leaf);
    if leaf != 0 {
      assert t2[0] == t[0];
      PathStrictlyDecreasing(t, leaf);
      var p := Path(t, leaf);
      assert p[|p| - 1] == 0 && p[|p| - 2] in t[0].children;
    }
    r := Backup(t2, leaf, ev.value, c, sqrt);
    if r.Ok? {
      OnlyStatsReady(t2, r.value);
      ExpandSumQ(t, leaf, ev.priors);
    }
  }

  lemma BackupStepRewards(t: VoiTree, t1: VoiTree, u: VoiTree, par: nat, c: real, sqrt: real -> real)
    requires WellFormed(t) && par < |t| && |t[par].children| > 0
    requires t1 == Ascend(t, par, c, sqrt)
    requires RewardsKept(t1, u)
    ensures RewardsKept(t, u)
  {
    forall i | 0 <= i < |t|
      ensures t1[i].stat.reward == t[i].stat.reward
    {
      var pm := UctChild(SetStat(t, par, t[par].stat.(visits := t[par].stat.visits + 1)), par, c, sqrt);
      if i == pm {
        assert t1[pm].stat == t[pm].stat.(qVisits := t[pm].stat.qVisits + 1);
      }
    }
  }

  /**
   * One round of `VOI_search`: descend by VOI, evaluate the leaf's board,
   * expand and back up. Fails with NoChoice where the descent steps onto a
   * None choice, and with NoChildren where the backup asks for UCT's pick at
   * a root without children.
   */
  method Round(t: VoiTree, net: Board -> Evaluation, c: real, sqrt: real -> real, exp: real -> real)
    returns (r: Result<VoiTree>)
    requires WellFormed(t) && BoardsReady(t)
    ensures var leaf := Descend(t, 0, Pick(t, sqrt, exp));
      && (Stuck(t, Path(t, leaf), sqrt, exp) ==> r == Err(NoChoice))
      && (!Stuck(t, Path(t, leaf), sqrt, exp) && leaf != 0 ==> r.Ok?)
      && (r.Err? && r.fault == NoChildren ==> leaf == 0)
    ensures r.Err? ==> r.fault == NoChoice || r.fault == NoChildren
    ensures r.Ok? ==> WellFormed(r.value) && BoardsReady(r.value) && |r.value| >= |t|
    ensures r.Ok? ==> r.value[0].stat.visits == t[0].stat.visits + 2
    ensures r.Ok? ==> SumQ(r.value) > SumQ(t)
  {
    var (t1, leaf) := SelectLeaf(t, Pick(t, sqrt, exp));
    if Stuck(t, Path(t, leaf), sqrt, exp) {
      return Err(NoChoice);
    }
    SumQGrown(t, t1);
    r := Grow(t1, leaf, net(t1[leaf].board.value), c, sqrt);
  }

  /** The root `VOI_search` works on: the one supplied, or `VOINode(board)`. */
  function Start(board: Board, root: Option<VoiTree>): (t: VoiTree)
    requires root.Some? ==> WellFormed(root.value) && BoardsReady(root.value)
    ensures WellFormed(t) && BoardsReady(t)
    ensures root.Some? ==> t == root.value
    ensures root.None? ==> |t| == 1 && t[0].board == Some(board) && t[0].stat == Stat(0.0, 0.0, 0, 0) && !t[0].expanded
  {
    if root.Some? then root.value else Singleton(board, Stat(0.0, 0.0, 0, 0))
  }

  /** The key of the final ranking: Q, then `q_visits`. */
  function PvKey(nd: Node<Stat>): Rank.Key {
    Rank.K2(Q(nd.stat), nd.stat.qVisits as real)
  }

  /**
   * `sorted([visited children], key=(Q, q_visits), reverse=True)[0]`: the
   * position among kids of the first visited child with a maximal key (the
   * sort is stable, so ties keep child order), None when no child is visited.
   */
  function FirstBestVisited(t: VoiTree, kids: seq<nat>): (r: Option<nat>)
    requires forall j :: 0 <= j < |kids| ==> kids[j] < |t|
    ensures r.None? <==> forall j :: 0 <= j < |kids| ==> t[kids[j]].stat.visits == 0
    ensures r.Some? ==> r.value < |kids| && t[kids[r.value]].stat.visits > 0
    ensures r.Some? ==> forall j :: 0 <= j < |kids| && t[kids[j]].stat.visits > 0 ==>
              !Rank.Below(PvKey(t[kids[r.value]]), PvKey(t[kids[j]]))
    ensures r.Some? ==> forall j :: 0 <= j < r.value && t[kids[j]].stat.visits > 0 ==>
              Rank.Below(PvKey(t[kids[j]]), PvKey(t[kids[r.value]]))
  {
    if |kids| == 0 then None
    else
      var last := |kids| - 1;
      var r := FirstBestVisited(t, kids[..last]);
      assert forall j :: 0 <= j < last ==> kids[..last][j] == kids[j];
      if t[kids[last]].stat.visits == 0 then r
      else if r.None? || Rank.Below(PvKey(t[kids[r.value]]), PvKey(t[kids[last]])) then Some(last)
      else r
  }

  /** The three properties of FirstBestVisited single out one position. */
  lemma FirstBestVisitedUnique(t: VoiTree, kids: seq<nat>, i: nat)
    requires forall j :: 0 <= j < |kids| ==> kids[j] < |t|
    requires i < |kids| && t[kids[i]].stat.visits > 0
    requires forall j :: 0 <= j < |kids| && t[kids[j]].stat.visits > 0 ==> !Rank.Below(PvKey(t[kids[i]]), PvKey(t[kids[j]]))
    requires forall j :: 0 <= j < i && t[kids[j]].stat.visits > 0 ==> Rank.Below(PvKey(t[kids[j]]), PvKey(t[kids[i]]))
    ensures FirstBestVisited(t, kids) == Some(i)
  {
  }

  /** `pv[0]` of `VOI_search`: IndexError (NoChildren) when no root child has a visit. */
  function Outcome(t: VoiTree): (r: Result<nat>)
    requires WellFormed(t)
    ensures r.Err? <==> forall d :: d in t[0].children ==> t[d].stat.visits == 0
    ensures r.Err? ==> r.fault == NoChildren
    ensures r.Ok? ==> r.value in t[0].children && t[r.value].stat.visits > 0
    ensures r.Ok? ==> forall d :: d in t[0].children && t[d].stat.visits > 0 ==>
              !Rank.Below(PvKey(t[r.value]), PvKey(t[d]))
  {
    var kids := t[0].children;
    match FirstBestVisited(t, kids)
    case None => Err(NoChildren)
    case Some(i) => Ok(kids[i])
  }

  /** A fresh root has no visited child, so `pv[0]` raises on it. */
  lemma FreshOutcome(board: Board)
    ensures Outcome(Start(board, None)) == Err(NoChildren)
  {
    var t := Start(board, None);
    assert t[0].children == [];
  }

  /**
   * `VOI_search`: `num_reads` rounds on the supplied root or a fresh one,
   * then the best visited root child. Any failing round, or a root without
   * a visited child, makes the whole search fail: a round with NoChoice or
   * NoChildren, the final `pv[0]` with NoChildren, which is what a fresh
   * root searched with no reads gets.
   */
  method Search(board: Board, numReads: int, net: Board -> Evaluation, c: real, root: Option<VoiTree>,
                sqrt: real -> real, exp: real -> real)
    returns (r: Result<(VoiTree, nat)>)
    requires root.Some? ==> WellFormed(root.value) && BoardsReady(root.value)
    ensures r.Err? ==> r.fault == NoChoice || r.fault == NoChildren
    ensures root.None? && numReads <= 0 ==> r == Err(NoChildren)
    ensures r.Ok? ==> var t := r.value.0;
      && WellFormed(t) && BoardsReady(t) && |t| >= |Start(board, root)|
      && t[0].stat.visits == Start(board, root)[0].stat.visits + 2 * (if numReads > 0 then numReads else 0)
      && SumQ(t) >= SumQ(Start(board, root)) + (if numReads > 0 then numReads else 0)
      && Outcome(t) == Ok(r.value.1)
  {
    var t := Start(board, root);
    if numReads > 0 {
      var i := 0;
      while i < numReads
        invariant WellFormed(t) && BoardsReady(t) && |t| >= |Start(board, root)|
        invariant 0 <= i <= numReads
        invariant t[0].stat.visits == Start(board, root)[0].stat.visits + 2 * i
        invariant SumQ(t) >= SumQ(Start(board, root)) + i
      {
        var next := Round(t, net, c, sqrt, exp);
        if next.Err? {
          return Err(next.fault);
        }
        t := next.value;
        i := i + 1;
      }
    } else if root.None? {
      FreshOutcome(board);
    }
    var best := Outcome(t);
    if best.Err? {
      return Err(best.fault);
    }
    r := Ok((t, best.value));
  }
}

=== FILE: wrappers.dfy ===
/** Option and Result, used where the search code returns None or raises. */
module Wrappers {

  datatype Option<+T> = None | Some(value: T)

  /** Why an operation of the search code would raise instead of returning. */
  datatype Fault =
    | NoChildren      // max() or pv[0] over an empty collection
    | NoChoice        // a selection rule returned None and the descent stepped onto it
    | NoFeasibleChild // `[...][0]` on an empty filtered child list
    | DepthOutOfRange // a bound list indexed past its ten slots
    | ZeroDivision    // a float divided by zero
    | TooFewTokens    // tokens[1] on a command with fewer than two tokens
    | Unset           // an attribute read through a field that is still None
    | NoAttribute     // an attribute or method its object's class does not define
    | Cycle           // a descent that revisits a node and so never stops

  datatype Result<+T> = Ok(value: T) | Err(fault: Fault)
}
